=== FILE: README.md ===
# Ezras Nashim: a Dafny model of the app's logic

Ezras Nashim is a daily-mitzvah app for Jewish women. It has a React client, an Express server and a Python script that moves the audio files to a CDN. This project models the deterministic core of those three parts and proves what each piece of it promises:

- **CDN migration script** (`CdnMigration`). It derives an object key and a public URL for each audio row. It splits the rows into skipped, succeeded and failed. It reads and rewrites the `.env` lines.
- **Text handling**:
  - Hebrew normalisation, transliteration and search-term expansion (`HebrewUtils`);
  - the scored app-wide search (`SearchUtils`);
  - the Hebrew-safe character filter and the `**`/`~~`/`++`/`--` marker scanner (`TextFormatter`).
  These rest on the shared string helpers in `Text`.
- **Prayer calendar rules** (`TefillaProcessor`):
  - Hebrew and Gregorian date ranges that wrap past the end of the year;
  - the AND/OR condition tags;
  - the Israeli seasonal flags TBI and TTI, which never hold together.
- **Completion records**:
  - the per-day records kept on the device and merged with the cloud copy (`UseMitzvahSync`);
  - the offline queue of completions (`MitzvahSync`);
  - the profile statistics and streak (`ProfileStats`);
  - the home garden's flower counts and seeded placement (`HomeSection`);
  - the prayer card chosen from the zmanim (`HomeSection`, `TefillaSection`).
- **Page logic**:
  - recipe labels (`WeeklyRecipes`);
  - feed grouping and votes (`Feed`);
  - the analytics day that starts at 02:00 (`DateUtils`).
- **Client state kept across calls**:
  - the bounded TTL cache (`Cache`);
  - request de-duplication (`RequestCache`);
  - permission cooldowns (`PermissionManager`);
  - the two modal-history hooks over a model of the browser history (`SharedModalHistory`, `BackButtonHistory`, `BrowserHistory`);
  - the resume coordinator (`AppResumeCoordinator`).
- **Server state and rules**:
  - the API response cache (`ServerCache`, and its copy in `Shared` with the admin check);
  - the push retry queue (`PushRetryQueue`);
  - the app-completion counts (`AppCompletions`);
  - the Tehillim chain, Pirkei Avot cycle, names, promotions and statistics (`Storage`, `StorageJs`);
  - the 40-day Nishmas challenge (`MobileRoutes`);
  - the Tehillim routes (`TehillimRoutes`);
  - zmanim formatting, the Shabbos-times title parsing, the iCalendar download and the request checks (`RoutesJs`, `RoutesTs`).

Each source file is one module. Pure code is modelled as functions and lemmas. Code that updates state is modelled as classes whose methods are proved against specification functions. Network, database, clock and random calls become parameters.

The iCalendar output follows RFC 5545:
- content lines are delimited by CRLF (section 3.1);
- DTSTART carries an eight-digit DATE value (section 3.3.4).

The push-error classes follow:
- the status-code classes of section 15 of RFC 9110;
- status 429 of section 4 of RFC 6585.

## Model

| member | source | states |
|---|---|---|
| CdnMigration.Collapse | scripts/python/convert_urls_to_cdn.py:152 | each maximal run of characters outside [a-z0-9] becomes a single '-': the output is over [a-z0-9-], has no "--", is empty only for empty input, and keeps the alphanumerics in order |
| CdnMigration.SqueezeNoDoubleDash | scripts/python/convert_urls_to_cdn.py:153 | the second substitution of `-+` by '-' changes nothing once the runs are collapsed |
| CdnMigration.SafeSlug | scripts/python/convert_urls_to_cdn.py:150-154 | the slug is never empty and neither starts nor ends with '-' |
| CdnMigration.SafeSlugShape | scripts/python/convert_urls_to_cdn.py:150-154 | the slug is made of [a-z0-9-] only and never contains "--" |
| CdnMigration.SafeSlugAlnums | scripts/python/convert_urls_to_cdn.py:150-154 | the slug holds exactly the ASCII alphanumerics of the trimmed, lower-cased title, in order, and is "audio" when there are none |
| CdnMigration.Splitext | scripts/python/convert_urls_to_cdn.py:161 | the path extension is empty or a '.'-led suffix of the path with no '/' and no further '.' |
| CdnMigration.PickExt | scripts/python/convert_urls_to_cdn.py:157-168 | the precedence: the audio Content-Type table first, then the URL path extension, then the mimetypes guess for a non-empty type, else ".mp3"; never empty |
| CdnMigration.BuildKey | scripts/python/convert_urls_to_cdn.py:171-173 | an empty stripped prefix gives the bare file name; otherwise the prefix without surrounding whitespace and '/', one '/', and the file name |
| CdnMigration.BuildCdnUrl | scripts/python/convert_urls_to_cdn.py:176-177 | the URL ends in "/" + key, and what precedes that separator is the base with only its trailing '/' characters removed |
| CdnMigration.FileName | scripts/python/convert_urls_to_cdn.py:218 | the file name is the id, '-', the slug of the title and the extension, with the slug recoverable at its fixed position |
| CdnMigration.UploadContentType | scripts/python/convert_urls_to_cdn.py:225-227 | the upload content type is the GET's media type, else the guess from the file name, else application/octet-stream; never empty |
| CdnMigration.ProcessRow | scripts/python/convert_urls_to_cdn.py:195-240 | a ValueError exactly for rows whose stripped id or source URL is empty; a success carries the row id and the CDN URL of the derived key; an HTTP failure happens exactly when the GET answers with a status in 400..599, which it carries; any other status goes on to the upload |
| CdnMigration.Dispatch | scripts/python/convert_urls_to_cdn.py:309-320 | skipped + submitted = number of rows; skipped counts exactly the rows with an empty id or source URL, and the others are submitted in order |
| CdnMigration.DispatchedNeverMissing | scripts/python/convert_urls_to_cdn.py:203-204 | a submitted row never raises the missing-field error: the pre-filter and process_row test the same condition (see also lines 313-317) |
| CdnMigration.Gather | scripts/python/convert_urls_to_cdn.py:323-331 | the gathering loop: updates are the successes' (url, id) pairs, failed counts the failures, and len(updates) + failed = submitted |
| CdnMigration.PartitionComplete | scripts/python/convert_urls_to_cdn.py:309-333 | for any completion order, skipped + succeeded + failed = number of rows, and the success count does not depend on the order |
| CdnMigration.StaleFailureRecord | scripts/python/convert_urls_to_cdn.py:326-330 | the failure branch as written: a first failure crashes on the unbound names, and a later failure records the (url, id) of an earlier success |
| CdnMigration.FailedIdsAreFailures | scripts/python/convert_urls_to_cdn.py:328-331 | in the corrected loop, every recorded failure id belongs to a row that failed |
| CdnMigration.LoadEnv | scripts/python/convert_urls_to_cdn.py:66-78 | the loop over the lines builds the dictionary of the parsed lines, later lines overriding earlier ones |
| CdnMigration.EnvKeys | scripts/python/convert_urls_to_cdn.py:71-77 | a key is loaded iff some non-blank, non-comment line with '=' defines it |
| CdnMigration.EnvLastWins | scripts/python/convert_urls_to_cdn.py:76-77 | the last line that defines a key decides its value |
| CdnMigration.EnvAgreeing | scripts/python/convert_urls_to_cdn.py:76-77 | when every line that defines a key gives the same value, that value is loaded |
| CdnMigration.SaveKeyAgreesWithLoad | scripts/python/convert_urls_to_cdn.py:72-95 | save_env skips exactly the lines load_env skips, and sees the key load_env reads on the others |
| CdnMigration.WrittenKeysMembers | scripts/python/convert_urls_to_cdn.py:90-98 | keys_written is the set of keys of the data found on some existing line |
| CdnMigration.Rewritten | scripts/python/convert_urls_to_cdn.py:90-100 | the first loop keeps the number of lines and rewrites each line on its own |
| CdnMigration.RewriteOne | scripts/python/convert_urls_to_cdn.py:91-100 | one existing line: blank, comment and '='-less lines are kept; a line whose key is saved becomes "k=v\n"; others are kept |
| CdnMigration.AppendMissing | scripts/python/convert_urls_to_cdn.py:102-104 | the second loop appends the lines of the keys not yet written, in the dictionary's order |
| CdnMigration.SaveEnv | scripts/python/convert_urls_to_cdn.py:81-107 | the written lines are the rewritten existing lines followed by the appended ones |
| CdnMigration.KeepsOtherLines | scripts/python/convert_urls_to_cdn.py:91-100 | an existing line whose key is not saved is kept verbatim, in place |
| CdnMigration.AppendsMissingKeysOnce | scripts/python/convert_urls_to_cdn.py:102-104 | each key missing from the file is appended exactly once, and a key already written is not appended |
| CdnMigration.ParseFormatted | scripts/python/convert_urls_to_cdn.py:72-104 | a "k=v\n" line written by save_env with a clean key and value reads back as (k, v) |
| CdnMigration.SavedContains | scripts/python/convert_urls_to_cdn.py:81-107 | the saved file holds the "k=v" line of every saved pair, in place or appended |
| CdnMigration.LoadAfterSaveLines | scripts/python/convert_urls_to_cdn.py:66-104 | when load_env sees exactly the lines save_env built, with clean keys and values, it returns every saved key with its saved value |
| CdnMigration.Translated | scripts/python/convert_urls_to_cdn.py:70-71 | a text-mode read with universal newlines turns "\r\n" and a lone '\r' into '\n': the result holds no '\r', a text without '\r' reads unchanged, and a text ending in a line break reads as one ending in '\n' |
| CdnMigration.ReadFile | scripts/python/convert_urls_to_cdn.py:84-85 | the lines a text-mode read yields are the '\n'-split of the translated text; for a text with no '\r' that is its plain '\n'-split |
| CdnMigration.WrittenNoReturn | scripts/python/convert_urls_to_cdn.py:106-107 | lines that each end in their only newline and hold no '\r' write a text with no '\r', so reading it back translates nothing |
| CdnMigration.ReadWritten | scripts/python/convert_urls_to_cdn.py:71-107 | reading back lines that each end in their only newline, written one after another, gives those lines back |
| CdnMigration.ReadTerminated | scripts/python/convert_urls_to_cdn.py:85 | every line split from a text that is empty or ends in a newline and holds no '\r' ends in its only newline |
| CdnMigration.SavedTerminated | scripts/python/convert_urls_to_cdn.py:90-104 | save_env on such lines with clean data builds lines that all end in their only newline |
| CdnMigration.LoadAfterSave | scripts/python/convert_urls_to_cdn.py:66-107 | round trip through the file, read in text mode: when the existing file is empty or ends in a line break ('\n' or '\r'), loading the file save_env wrote returns every saved key with its saved value |
| CdnMigration.MissingNewlineLosesKey | scripts/python/convert_urls_to_cdn.py:85-107 | as written: when the existing file ends in an assignment to another key without a newline, the first appended line is joined onto it and the saved key is missing on the next load |
| CdnMigration.Terminated | scripts/python/convert_urls_to_cdn.py:85-107 | the corrected read gives the existing text a final newline when it lacks one |
| CdnMigration.LoadAfterSaveTerminated | scripts/python/convert_urls_to_cdn.py:66-107 | with that correction the round trip holds for every existing file |
| CdnMigration.WebsiteFallbackIgnored | scripts/python/convert_urls_to_cdn.py:201 | as written, a row with an id, a blank audio_url and a speaker_website is skipped, while the fallback the header promises would dispatch it with the website |
| CdnMigration.FallbackAgrees | scripts/python/convert_urls_to_cdn.py:8 | the fallback changes nothing for a row with an audio_url, and skips exactly the rows with a blank id or blank in both columns |
| HebrewUtils.RegularForm | client/src/lib/hebrewUtils.ts:13-21 | the final-forms table: a final letter becomes its regular Hebrew letter and no other character changes |
| HebrewUtils.StripPoints | client/src/lib/hebrewUtils.ts:10 | the first replace deletes every character in U+0591–U+05C7 and never lengthens the text |
| HebrewUtils.StripPointsKeeps | client/src/lib/hebrewUtils.ts:10 | every character outside U+0591–U+05C7 is kept as often as it occurs |
| HebrewUtils.FoldFinals | client/src/lib/hebrewUtils.ts:21 | the map replaces each character by its regular form, position by position |
| HebrewUtils.NormalizeHebrew | client/src/lib/hebrewUtils.ts:6-24 | the result has no code point in U+0591–U+05C7, no final letter and no ASCII capital, and no surrounding whitespace |
| HebrewUtils.NormalizeFoldedFinals | client/src/lib/hebrewUtils.ts:6-24 | text that differs only in final letters normalises identically |
| HebrewUtils.TransliterateHebrew | client/src/lib/hebrewUtils.ts:31-128 | the loop pushes one piece per normalised character; the result is the joined pieces lower-cased and trimmed |
| HebrewUtils.PieceRules | client/src/lib/hebrewUtils.ts:40-124 | ה is read 'a' as the last character and 'h' everywhere else; characters the switch does not name are pushed unchanged |
| HebrewUtils.FinalsTransliterateAlike | client/src/lib/hebrewUtils.ts:35 | final letters transliterate exactly like their regular forms, because the input is normalised first (see also lines 79-108) |
| HebrewUtils.ContainsHebrew | client/src/lib/hebrewUtils.ts:133-135 | true iff some character lies in U+0590–U+05FF |
| HebrewUtils.HebrewFontClass | client/src/lib/hebrewUtils.ts:141-144 | 'koren-siddur-hebrew' exactly for text with a Hebrew-block character; the default for absent, empty or other text |
| HebrewUtils.ExpandSearchTerm | client/src/lib/hebrewUtils.ts:187-218 | the result begins with the lower-cased trimmed term, has no duplicates, and holds the key and every value of each synonym entry that the term matches |
| HebrewUtils.AddTransliterations | client/src/lib/hebrewUtils.ts:207-214 | the forEach pass keeps the results it starts from as a prefix and adds the transliteration of each Hebrew entry present when it starts |
| SearchUtils.DropMarks | client/src/lib/searchUtils.ts:38 | the replace deletes every combining mark in U+0300–U+036F and nothing else |
| SearchUtils.NormalizeEnglish | client/src/lib/searchUtils.ts:32-40 | the result has no ASCII capital and no combining mark, and no surrounding whitespace |
| SearchUtils.NormalizeEnglishIdempotent | client/src/lib/searchUtils.ts:32-40 | normalising English text a second time changes nothing |
| SearchUtils.NormalizeText | client/src/lib/searchUtils.ts:42-53 | the Hebrew normaliser iff the text holds a U+0590–U+05FF character, the English one otherwise |
| SearchUtils.Words | client/src/lib/searchUtils.ts:61 | the query words are non-empty and free of whitespace |
| SearchUtils.WordsConcat | client/src/lib/searchUtils.ts:61 | splitting on whitespace and dropping empty pieces loses only whitespace |
| SearchUtils.TitleScoreMeaning | client/src/lib/searchUtils.ts:71-78 | 100 exactly for a title prefix, 50 exactly for a match elsewhere in the title, never both |
| SearchUtils.WordScoreMeaning | client/src/lib/searchUtils.ts:70-96 | one word earns at most 160 (100 + 30 + 20 + 10), and earns points iff it occurs in the title, secondary text, a keyword or the category |
| SearchUtils.ScoreMeaning | client/src/lib/searchUtils.ts:68-97 | the score is at most 160 per query word, and positive iff some query word occurs in the record's text |
| SearchUtils.KeywordHit | client/src/lib/searchUtils.ts:86-91 | the keyword loop stops at the first keyword holding the word, so at most one keyword adds 20 |
| SearchUtils.ScoreRecord | client/src/lib/searchUtils.ts:63-100 | the per-record loop computes the record's score over the query words |
| SearchUtils.ScoreWords | client/src/lib/searchUtils.ts:68-97 | the score is the sum of the points of every query word, in order, against the normalised record |
| SearchUtils.WordPoints | client/src/lib/searchUtils.ts:70-96 | one word earns 100 for a title prefix or else 50 for a title match, 30 for secondary text, 20 once for any keyword and 10 for the category |
| SearchUtils.SortByScore | client/src/lib/searchUtils.ts:104 | the sort is a permutation into non-increasing score order |
| SearchUtils.RankedRecords | client/src/lib/searchUtils.ts:102-105 | a record is returned exactly as often as the input holds it when its score is positive, and never otherwise |
| SearchUtils.RankedOrder | client/src/lib/searchUtils.ts:102-105 | the returned records come in non-increasing score order, each with a positive score |
| SearchUtils.SearchRecords | client/src/lib/searchUtils.ts:55-106 | an empty or whitespace-only query gives []; otherwise the positively scoring records of the normalised query, best first |
| TextFormatter.FirstPassChar | client/src/lib/text-formatter.ts:6-32 | the chain of first-pass replacements turns each character into at most one character |
| TextFormatter.FirstPassWhitespace | client/src/lib/text-formatter.ts:6-32 | after the first pass the only whitespace left is the space and the line feed |
| TextFormatter.FilterCharMeaning | client/src/lib/text-formatter.ts:40-101 | the filter keeps exactly the allowed characters (all ASCII, the kept Hebrew letters and points, FB1D–FB4F, 0100–017F, 00C0–00FF, 00A1–00BF), turns U+00A0 into a space and drops the rest; the vertical bar is kept by the ASCII branch, so its own branch never applies |
| TextFormatter.FilteredChars | client/src/lib/text-formatter.ts:36-102 | the filter never lengthens the text, and what it lets through is allowed or a space |
| TextFormatter.FilterText | client/src/lib/text-formatter.ts:35-102 | the second-pass loop appends, character by character, what the filter makes of each |
| TextFormatter.CollapseRuns | client/src/lib/text-formatter.ts:106-107 | a replacement of maximal runs keeps empty text empty and a leading non-run character in place |
| TextFormatter.CollapseShortRuns | client/src/lib/text-formatter.ts:106-107 | after collapsing, no run of the collapsed kind reaches the threshold |
| TextFormatter.CollapseNonSpaces | client/src/lib/text-formatter.ts:106-107 | collapsing whitespace runs changes whitespace only |
| TextFormatter.CleanedRuns | client/src/lib/text-formatter.ts:104-108 | the cleaned text has no two blanks or tabs in a row and no three line feeds in a row |
| TextFormatter.CleanedKeepsText | client/src/lib/text-formatter.ts:104-108 | the final cleanup keeps the visible characters of the filtered text in order |
| TextFormatter.CleanHebrewText | client/src/lib/text-formatter.ts:4-109 | cleanHebrewText is the first pass, the filter, the two collapses and the trim |
| TextFormatter.MarkerAt | client/src/lib/text-formatter.ts:148-205 | a '--' marker is never followed by a third '-' |
| TextFormatter.Toggle | client/src/lib/text-formatter.ts:150-205 | a marker flushes the pending text, flips its own flag and no other, moves lastIndex past the marker, and keeps the tags balanced |
| TextFormatter.ScanFrom | client/src/lib/text-formatter.ts:148-206 | the scan keeps lastIndex within the text and keeps the tags balanced |
| TextFormatter.ScanBalanced | client/src/lib/text-formatter.ts:148-206 | for each marker, openings minus closings is 1 when its span is left open and 0 otherwise |
| TextFormatter.TripleDashNotMarker | client/src/lib/text-formatter.ts:192-193 | a '--' followed by a third '-' is not a marker: the scan emits nothing there and moves on by one character |
| TextFormatter.ScanMarkers | client/src/lib/text-formatter.ts:141-209 | the scanning loop produces the emitted text followed by the rest after lastIndex |
| TextFormatter.ScanOne | client/src/lib/text-formatter.ts:149-205 | one loop iteration is one step of the scan |
| TextFormatter.Emit | client/src/lib/text-formatter.ts:151-161 | a marker appends the text since lastIndex and its opening or closing tag, and flips its flag |
| TextFormatter.FormatTextContent | client/src/lib/text-formatter.ts:122-215 | '' for null, undefined or empty input; otherwise the cleaned text with breaks, grey blocks and the marker scan |
| TextFormatter.NoLineFeedsBeforeScan | client/src/lib/text-formatter.ts:126-129 | no line feed remains by the time the scan runs |
| TefillaProcessor.NormalizeHebrewMonth | client/src/utils/tefilla-processor.ts:4-10 | any name containing 'Adar' becomes 'Adar'; "Sh'vat"/"Shvat" become 'Shevat', 'Nisan' 'Nissan', 'Iyyar' 'Iyar'; every other name is unchanged |
| TefillaProcessor.NormalizedFixed | client/src/utils/tefilla-processor.ts:4-10 | normalising a normalised month name changes nothing |
| TefillaProcessor.ParseHebrewDate | client/src/utils/tefilla-processor.ts:12-24 | no date gives null; otherwise the normalised month (empty when missing) and the parsed day, 0 when missing or unparsable |
| TefillaProcessor.MonthIndex | client/src/utils/tefilla-processor.ts:40-50 | indexOf gives the position of the name in the twelve-month list, or -1 exactly for other names |
| TefillaProcessor.InRangeMeaning | client/src/utils/tefilla-processor.ts:59-94 | without wrap the range is the inclusive lexicographic interval from (start, startDay) to (end, endDay); with wrap it is everything from the start on together with everything up to the end |
| TefillaProcessor.IsInHebrewDateRange | client/src/utils/tefilla-processor.ts:27-96 | false without a date or when any of the current, start or end months is not one of the twelve names; otherwise the inclusive, wrapping month/day decision |
| TefillaProcessor.IsInEnglishDateRange | client/src/utils/tefilla-processor.ts:98-134 | the same inclusive and wrapping semantics over months 1–12 |
| TefillaProcessor.OwnChecker | client/src/utils/tefilla-processor.ts:218-247 | the checker table: each known condition name gives its flag (SPECIAL_REMOVE the negation of the special-day flag), a name the table does not define none |
| TefillaProcessor.Checker | client/src/utils/tefilla-processor.ts:350-356 | the bracket lookup: an own entry gives its flag; `toString` and `constructor`, inherited from Object.prototype, count as true and `isPrototypeOf` as false; any other name has no checker |
| TefillaProcessor.ConditionNames | client/src/utils/tefilla-processor.ts:287 | a tag with '\|' is split on '\|', any other on ',', and the parts are trimmed; there is at least one |
| TefillaProcessor.Priority | client/src/utils/tefilla-processor.ts:288 | the priority is the number of the tag's conditions |
| TefillaProcessor.ConditionsMet | client/src/utils/tefilla-processor.ts:348-358 | an OR tag holds iff some listed condition holds; an AND tag iff all do |
| TefillaProcessor.UnknownConditionFalse | client/src/utils/tefilla-processor.ts:350-356 | an AND tag naming an unknown condition never holds, and an OR tag holds only through a known one |
| TefillaProcessor.InheritedNameShown | client/src/utils/tefilla-processor.ts:218-356 | as written, a block tagged `toString` or `constructor` is shown whatever the conditions, although the table defines neither |
| TefillaProcessor.ConditionsMetOwn | client/src/utils/tefilla-processor.ts:348-358 | with the own-entry lookup, an OR tag holds iff some listed condition is an own entry that holds; an AND tag iff all are |
| TefillaProcessor.OwnLookupOnlyTable | client/src/utils/tefilla-processor.ts:348-358 | with the own-entry lookup a tag is met only through names the table defines, and on tags naming no inherited property it agrees with the lookup as written |
| TefillaProcessor.SeasonalContent | client/src/utils/tefilla-processor.ts:255-261 | in Israel the TBI block, else the TTI block, else nothing; outside Israel the TBC block, else the TTC block, else nothing |
| TefillaProcessor.CalendarFlagsOf | client/src/utils/tefilla-processor.ts:513-609 | without a Hebrew-date reply every calendar flag is false |
| TefillaProcessor.CalendarFlagsMeaning | client/src/utils/tefilla-processor.ts:549-607 | Aseret Yemei Teshuva iff the month is 'Tishrei' and the day is 1–10; the special-day flag is the OR of Rosh Chodesh, Pesach, Sukkot, Chanuka and Purim; a fast day has a fast among its events |
| TefillaProcessor.SeasonsOf | client/src/utils/tefilla-processor.ts:616-670 | MH and MT are the Hebrew ranges 22 Tishrei–14 Nissan and 15 Nissan–21 Tishrei; TBI/TTI and TTC/TBC follow their location-guarded computations |
| TefillaProcessor.SeasonsExclusive | client/src/utils/tefilla-processor.ts:630-670 | TBI and TTI are never both true, and both are false outside Israel; TTC and TBC are false in Israel |
| TefillaProcessor.SeasonsCoverIsrael | client/src/utils/tefilla-processor.ts:630-648 | in Israel with a date in the twelve months, exactly one of TBI and TTI holds |
| UseMitzvahSync.SerializeModalCompletions | client/src/hooks/use-mitzvah-sync.ts:11-22 | the serialisation keeps the same dates, the same singles in order and copies the repeatable counts |
| UseMitzvahSync.MaxMerge | client/src/hooks/use-mitzvah-sync.ts:50-60 | the merged keys are the union of both sides' keys, and each count is the larger of the two, absent counting as 0 |
| UseMitzvahSync.MergeCounts | client/src/hooks/use-mitzvah-sync.ts:50-60 | the loop over the union of repeatable keys builds the key-wise maximum |
| UseMitzvahSync.Merged | client/src/hooks/use-mitzvah-sync.ts:28-31 | the merged dates are exactly the union of the local and cloud dates |
| UseMitzvahSync.MergeModalCompletions | client/src/hooks/use-mitzvah-sync.ts:24-70 | the loop over all dates builds the merged record of every date |
| UseMitzvahSync.MergeDate | client/src/hooks/use-mitzvah-sync.ts:32-66 | a date held by one side only gets that side's record; a date held by both gets the union of the singles and the key-wise maximum of the counts |
| UseMitzvahSync.MergedDay | client/src/hooks/use-mitzvah-sync.ts:35-66 | a date on one side only is copied unchanged; on both sides the singles are the union and each repeatable count the larger one |
| UseMitzvahSync.MergeSymmetric | client/src/hooks/use-mitzvah-sync.ts:24-70 | swapping the sides gives the same dates, the same singles as a set and the same counts |
| UseMitzvahSync.MaxMergeSymmetric | client/src/hooks/use-mitzvah-sync.ts:55-59 | the key-wise maximum does not depend on the order of its arguments |
| UseMitzvahSync.MaxMergeSelf | client/src/hooks/use-mitzvah-sync.ts:55-59 | the key-wise maximum of a count map with itself is the map |
| UseMitzvahSync.MergeOwnSerialization | client/src/hooks/use-mitzvah-sync.ts:11-70 | merging a state with its own serialisation returns it unchanged |
| UseMitzvahSync.MergedTzedaka | client/src/hooks/use-mitzvah-sync.ts:210-221 | per date and type the merged tzedaka count is the larger of the local and cloud counts, over the union of the dates |
| UseMitzvahSync.MergeTzedakaDays | client/src/hooks/use-mitzvah-sync.ts:213-222 | the loop over all dates builds the merged tzedaka counts |
| UseMitzvahSync.Incremented | client/src/hooks/use-mitzvah-sync.ts:235-238 | exactly today's counter of the type goes up by one, created at 1 when absent; every other counter and date is unchanged |
| UseMitzvahSync.TzedakaStore.MergeTzedakaCompletions | client/src/hooks/use-mitzvah-sync.ts:205-228 | the store then holds the merged counts of what it held and the cloud data |
| UseMitzvahSync.TzedakaStore.SaveTzedakaCompletion | client/src/hooks/use-mitzvah-sync.ts:230-244 | the store then holds the old counts with today's counter of the type incremented |
| MitzvahSync.KeyTimestamp | client/src/lib/mitzvahSync.ts:49 | the timestamp can be read back from the key's last segment |
| MitzvahSync.KeysOfDifferentTimesDiffer | client/src/lib/mitzvahSync.ts:49 | keys made at different times differ, whatever the other parts |
| MitzvahSync.DeviceStorage.constructor | client/src/lib/mitzvahSync.ts:24-40 | the storage starts with the given stored id and pending entry |
| MitzvahSync.DeviceStorage.GetDeviceId | client/src/lib/mitzvahSync.ts:24-31 | a stored non-empty id is returned and kept; otherwise the fresh id is stored and returned; the pending list is untouched |
| MitzvahSync.DeviceStorage.QueueCompletion | client/src/lib/mitzvahSync.ts:46-61 | exactly one entry is appended to the pending list (a corrupt list reading as empty), carrying the idempotency key of device, date, category, modal and time; the device id is the stored non-empty one, else the fresh random one, which is stored |
| MitzvahSync.DeviceStorage.SyncCompletions | client/src/lib/mitzvahSync.ts:66-105 | offline or with nothing pending: null and nothing touched; a reply clears the pending list and is returned; a failure returns null and leaves the list; once online with entries pending, the stored device id is the old non-empty one or else the fresh one |
| MitzvahSync.DeviceStorage.SendCompletions | client/src/lib/mitzvahSync.ts:67-91 | before the request: offline or with nothing pending it stops and touches nothing; otherwise the batch sent is exactly the pending list, which stays stored, and the device id in place is the stored non-empty one, else the fresh one |
| MitzvahSync.DeviceStorage.SettleSync | client/src/lib/mitzvahSync.ts:93-104 | after the request: a reply empties the stored list whatever it then holds and is returned; a failure returns null and leaves the list; once online with entries pending, the stored device id is the old non-empty one or else the fresh one |
| MitzvahSync.DeviceStorage.QueuedDuringSyncLost | client/src/lib/mitzvahSync.ts:59-98 | a completion queued while the request is in flight was not in the batch sent, yet the pending list is empty after the reply |
| MitzvahSync.Unsent | client/src/lib/mitzvahSync.ts:98 | the entries kept are exactly the current ones whose idempotency key no sent entry carries |
| MitzvahSync.UnsentAfterBatch | client/src/lib/mitzvahSync.ts:98 | settling a batch against that batch followed by later entries with other keys leaves exactly the later entries |
| MitzvahSync.DeviceStorage.SettleSyncKeeping | client/src/lib/mitzvahSync.ts:97-100 | a reply removes only the acknowledged entries and is returned; a failure leaves the list |
| MitzvahSync.DeviceStorage.QueuedDuringSyncKept | client/src/lib/mitzvahSync.ts:59-98 | with the corrected settle step, the completion queued during the request is exactly what remains pending, and it was not in the batch |
| ProfileStats.KindSumsPartition | client/src/pages/profile.tsx:151-182 | the if/else-if chain counts each repeatable key in at most one of torah, tefilla, tzedaka and life: the four sums plus the unmatched sum is the total |
| ProfileStats.ButtonTzedaka | client/src/pages/profile.tsx:195-201 | a day's buttons add gave_elsewhere_count plus one for each of put_a_coin, sponsor_a_day and active_campaign that is set; no buttons add nothing |
| ProfileStats.DayCounts | client/src/pages/profile.tsx:144-204 | a date without modal data counts only its buttons; otherwise tefilla is the tefilla repeatables plus the singles 'mincha', 'morning-brochas' and 'maariv' |
| ProfileStats.TallyRepeatables | client/src/pages/profile.tsx:150-183 | the first forEach adds each repeatable count to the sum of its kind |
| ProfileStats.TallySingles | client/src/pages/profile.tsx:186-192 | the second forEach counts exactly the singles 'mincha', 'morning-brochas' and 'maariv' |
| ProfileStats.AddButtons | client/src/pages/profile.tsx:195-201 | the button additions raise tzedaka by the day's button count |
| ProfileStats.CountForDay | client/src/pages/profile.tsx:144-204 | countForDay returns the counts of its date |
| ProfileStats.SumDatesIsSumSet | client/src/pages/profile.tsx:207-224 | summing any repeat-free listing of the dates gives the sum over the set of dates, so the sort order plays no part |
| ProfileStats.SumOver | client/src/pages/profile.tsx:210-224 | the loop over all dates sums their counts, and today's figures are that date's counts (zero when it is not listed) |
| ProfileStats.CountForDate | client/src/pages/profile.tsx:211-212 | a date's counts are read from both stores, a date missing from either reading as empty there |
| ProfileStats.Streak | client/src/pages/profile.tsx:226-237 | the streak never exceeds the number of dates looked back over (366) |
| ProfileStats.CurrentStreak | client/src/pages/profile.tsx:226-237 | the streak loop counts consecutive active days back from today, a missing today not ending the run |
| ProfileStats.ComputeStats | client/src/pages/profile.tsx:130-245 | today's counts are that date's; totals are the sums over the union of modal and button dates; totalDays counts only modal dates; totalMitzvos is the sum of the four totals |
| HomeSection.SumTefillaRepeatables | client/src/components/sections/home-section.tsx:40-51 | the forEach adds the count of every repeatable key with a listed prefix or one of the two exact keys |
| HomeSection.TefillaFlowerCount | client/src/components/sections/home-section.tsx:29-63 | the tefilla count is the matching repeatables, plus nishmas-campaign, al-hamichiya and birkat-hamazon, plus one per single among mincha, maariv and morning-brochas; 0 with no data for the day |
| HomeSection.OnlyTefillaKeysCount | client/src/components/sections/home-section.tsx:40-61 | repeatables that are not tefilla keys add no tefilla flowers |
| HomeSection.SingleAddsOneFlower | client/src/components/sections/home-section.tsx:57-61 | each tefilla single done today adds exactly one flower |
| HomeSection.TorahFlowerCount | client/src/components/sections/home-section.tsx:65-82 | the torah count is 0 with no data for the day, or when every repeatable count is 0 |
| HomeSection.TorahFlowerIncrement | client/src/components/sections/home-section.tsx:73-80 | incrementing one of the six listed keys adds one torah flower; any other key leaves the count alone |
| HomeSection.TzedakaFlowerCount | client/src/components/sections/home-section.tsx:84-86 | the tzedaka count is 1 if tzedaka is completed, else 0 |
| HomeSection.NextSeed | client/src/components/sections/home-section.tsx:96 | the generator keeps the seed in [0, 233280) |
| HomeSection.Fraction | client/src/components/sections/home-section.tsx:97 | each value handed out is in [0, 1) |
| HomeSection.FirstDraws | client/src/components/sections/home-section.tsx:94-97 | the sequence is fixed by the seed 42: its first seeds are 206659 and 190736 |
| HomeSection.CheckCollision | client/src/components/sections/home-section.tsx:106-119 | the collision loop returns true at the first placed flower closer than 95% of the two radii |
| HomeSection.Attempts | client/src/components/sections/home-section.tsx:127-136 | the attempt loop keeps the seed in range |
| HomeSection.Placement | client/src/components/sections/home-section.tsx:122-142 | addFlower keeps the seed in range |
| HomeSection.PlacementInGarden | client/src/components/sections/home-section.tsx:122-142 | every placed flower lies in the garden with its requested type, and one placed within its twenty attempts collides with no earlier flower |
| HomeSection.Garden.constructor | client/src/components/sections/home-section.tsx:91-94 | the memo starts with seed 42 and no positions |
| HomeSection.Garden.SeededRandom | client/src/components/sections/home-section.tsx:95-98 | seededRandom advances the seed by one step and returns its fraction |
| HomeSection.Garden.DrawSpot | client/src/components/sections/home-section.tsx:129-130 | a spot takes two draws: 40 + r·52 and 5 + r·35 |
| HomeSection.Garden.TryAttempts | client/src/components/sections/home-section.tsx:127-136 | up to twenty spots, stopping at the first that collides with no placed flower; no position is pushed |
| HomeSection.Garden.AddFlower | client/src/components/sections/home-section.tsx:122-142 | addFlower pushes exactly one position, the one Placement describes |
| HomeSection.AddFlowers | client/src/components/sections/home-section.tsx:145-156 | one of the three loops pushes one flower of its kind per count |
| HomeSection.FlowerPositions | client/src/components/sections/home-section.tsx:90-159 | exactly one position per flower: all torah flowers first, then tzedaka, then tefilla, each in the garden |
| HomeSection.ParseTimeToday | client/src/components/sections/home-section.tsx:240-262 | empty text gives null |
| HomeSection.ParseWrittenTime | client/src/components/sections/home-section.tsx:244-256 | "H:MM" or "HH:MM", any whitespace, then AM or PM in any case reads back as that time: 12 AM is midnight, 12 PM noon, other PM hours +12 |
| HomeSection.NoColonNoTime | client/src/components/sections/home-section.tsx:244-245 | text without ':' holds no time, so it gives null |
| HomeSection.UsualDay | client/src/components/sections/home-section.tsx:280-322 | on a day whose times come in their usual order exactly one of the windows Shacharis, Mincha later, Mincha and Maariv applies, and "Maariv later" never arises |
| HomeSection.CurrentPrayer | client/src/components/sections/home-section.tsx:231-323 | Shacharis "Loading times..." while loading; Shacharis "Times unavailable" when any time fails to parse; otherwise the card of the first matching interval case |
| TefillaSection.HasAnyTehillimCompleted | client/src/components/sections/tefilla-section.tsx:74-93 | true iff today's singles or repeatable keys hold a key starting with 'individual-tehillim-' |
| TefillaSection.CurrentPrayer | client/src/components/sections/tefilla-section.tsx:96-187 | Shacharis "Loading times..." while loading; Shacharis "Times unavailable" if any of the six times fails to parse (each read as the home page's parseTimeToday reads it, lines 105-131); every card opens the modal of its title |
| TefillaSection.SameChoiceAsHome | client/src/components/sections/tefilla-section.tsx:149-186 | whenever every time parses, the interval cases select the same prayer, modal and disabled state as the home card, so exactly one of the five branches applies |
| TefillaSection.CreateChain | client/src/components/sections/tefilla-section.tsx:258-274 | a name or reason that is blank after trimming stops the submission with nothing stored; otherwise a stored non-empty device id is reused, else the fresh one is stored, and the untrimmed name and reason are sent |
| WeeklyRecipes.FormatTimeDisplay | client/src/pages/weekly-recipes.tsx:15-27 | '' stays ''; text that does not start with an integer is returned unchanged; a leading integer n is shown as its minutes label ("{n div 60}h", "{n div 60}h {n mod 60}m" or "{n} min") |
| WeeklyRecipes.LabelReadsBack | client/src/pages/weekly-recipes.tsx:17-24 | the label always stands for the number of minutes read from the input: no minutes are lost in splitting off the hours |
| WeeklyRecipes.LabelOfMinutesReadsBack | client/src/pages/weekly-recipes.tsx:19-24 | each of the three label forms reads back as its number of minutes |
| WeeklyRecipes.HoursMinutesLabel | client/src/pages/weekly-recipes.tsx:22 | "{h}h {m}m" reads back as h·60 + m minutes |
| WeeklyRecipes.HoursLabel | client/src/pages/weekly-recipes.tsx:22 | "{h}h" reads back as h·60 minutes |
| WeeklyRecipes.SmallLabel | client/src/pages/weekly-recipes.tsx:24 | "{n} min" reads back as n minutes |
| WeeklyRecipes.CloseFrom | client/src/pages/weekly-recipes.tsx:32 | the lazy match ends at the first "**" after at least one character, and no line terminator ('\n', '\r', U+2028, U+2029) comes before it |
| WeeklyRecipes.BoldAt | client/src/pages/weekly-recipes.tsx:32 | a bold match at i opens and closes with "**", spans at least one character, and holds no line terminator |
| WeeklyRecipes.FormatTextContent | client/src/pages/weekly-recipes.tsx:29-34 | no '\n' survives: every one becomes <br> |
| WeeklyRecipes.BoldWord | client/src/pages/weekly-recipes.tsx:32 | "**x**" becomes <strong>x</strong> when x is non-empty and holds no '*' and no line terminator |
| WeeklyRecipes.TerminatorBlocksBold | client/src/pages/weekly-recipes.tsx:32 | "**x**" stays as it is when x holds a '\r', U+2028 or U+2029, since `.` does not match them |
| WeeklyRecipes.PlainTextUnchanged | client/src/pages/weekly-recipes.tsx:29-34 | text with no asterisk and no line break is shown as it is |
| WeeklyRecipes.StripBullet | client/src/pages/weekly-recipes.tsx:122 | one leading '-' or '•' and the whitespace after it are dropped, and nothing else; other lines are unchanged |
| WeeklyRecipes.StripStepNumber | client/src/pages/weekly-recipes.tsx:152 | a leading number followed by '.' or ')' and the whitespace after it are dropped; lines not starting with a digit are unchanged |
| WeeklyRecipes.NonEmptyLines | client/src/pages/weekly-recipes.tsx:119-149 | the lines shown are non-empty and hold no line break |
| WeeklyRecipes.NonEmpty | client/src/pages/weekly-recipes.tsx:119-149 | filter(Boolean) keeps exactly the non-empty lines |
| WeeklyRecipes.IngredientLines | client/src/pages/weekly-recipes.tsx:106-124 | without a JSON array one line is shown per non-empty line |
| WeeklyRecipes.InstructionLines | client/src/pages/weekly-recipes.tsx:136-154 | without a JSON array one step is shown per non-empty line |
| WeeklyRecipes.ShownLineAt | client/src/pages/weekly-recipes.tsx:119-152 | the k-th line shown is the k-th non-empty line, with its bullet or step number stripped |
| WeeklyRecipes.BulletStripped | client/src/pages/weekly-recipes.tsx:122 | "- x" or "• x" with any spaces shows as x |
| WeeklyRecipes.StepNumberStripped | client/src/pages/weekly-recipes.tsx:152 | "N. x" or "N) x" with any spaces shows as x |
| Feed.Push | client/src/pages/feed.tsx:154-159 | one step of the grouping ends with a group carrying the message's date |
| Feed.PushConcat | client/src/pages/feed.tsx:154-159 | a step appends exactly the message to the concatenation of the groups |
| Feed.PushWellFormed | client/src/pages/feed.tsx:154-159 | a step keeps every group non-empty with one date, and neighbouring dates different |
| Feed.RunsConcat | client/src/pages/feed.tsx:150-161 | concatenating the groups in order reproduces the message list exactly |
| Feed.RunsWellFormed | client/src/pages/feed.tsx:153-159 | every group is non-empty, its messages share its date, and adjacent groups have different dates |
| Feed.GroupMessages | client/src/pages/feed.tsx:150-161 | the loop as written throws exactly when the first message's date is empty; otherwise it builds the runs of equal dates |
| Feed.EmptyFirstDateThrows | client/src/pages/feed.tsx:152-158 | the intended grouping of a single message with an empty date is one group, which the loop as written never builds |
| Feed.VoteBox.constructor | client/src/pages/feed.tsx:119-126 | the votes read at start-up are the stored ones, or none when the store is missing or corrupt |
| Feed.VoteBox.Handle | client/src/pages/feed.tsx:128-146 | a like or dislike for an id with a stored vote is ignored; otherwise the vote is saved before the request is sent, and each message has at most one request |
| DateUtils.NextDay | client/src/lib/date-utils.ts:46 | setDate(getDate() + 1) always gives a valid calendar date |
| DateUtils.PrevDay | client/src/lib/date-utils.ts:14-33 | setDate(getDate() - 1) always gives a valid calendar date, day 0 being the last day of the month before |
| DateUtils.NextPrevInverse | client/src/lib/date-utils.ts:14-46 | the day before and the day after undo each other |
| DateUtils.NextDayIsNext | client/src/lib/date-utils.ts:46 | the next day is later, and no valid day lies strictly between a day and the next |
| DateUtils.SecondEarlier | client/src/lib/date-utils.ts:47 | setSeconds(getSeconds() - 1) gives a valid instant, borrowing from the minute, hour and day |
| DateUtils.AnalyticsDay | client/src/lib/date-utils.ts:8-15 | the analytics day is a valid calendar date |
| DateUtils.AnalyticsDayShift | client/src/lib/date-utils.ts:8-15 | the analytics day is the previous calendar day when the local hour is 0 or 1, and the same day otherwise |
| DateUtils.ParseFormatDate | client/src/lib/date-utils.ts:17-21 | "YYYY-MM-DD" with zero-padded month and day, per ISO 8601 calendar dates, reads back as the date it names (see also lines 73-79) |
| DateUtils.FormatDateInjective | client/src/lib/date-utils.ts:17-21 | two different days never get the same date string (see also lines 73-79) |
| DateUtils.FormatDateShape | client/src/lib/date-utils.ts:17-21 | a four-digit year gives ten characters with '-' at positions 4 and 7, the first seven being the year and the padded month |
| DateUtils.GetAnalyticsDateString | client/src/lib/date-utils.ts:8-22 | the analytics day formatted: the local date from 02:00 on, the previous day's date before |
| DateUtils.GetLocalDateString | client/src/lib/date-utils.ts:73-79 | the local date string reads back as the calendar day itself, never shifted |
| DateUtils.GetAnalyticsMonth | client/src/lib/date-utils.ts:65-68 | the first seven characters of the analytics date: its year and padded month, for four-digit years |
| DateUtils.GetAnalyticsDayStart | client/src/lib/date-utils.ts:27-38 | 02:00:00.000 of the analytics day, which is at or before the given instant |
| DateUtils.GetAnalyticsDayEnd | client/src/lib/date-utils.ts:43-49 | start + 1 day − 1 second: 01:59:59.000 of the calendar day after the analytics day, after its start |
| DateUtils.IsAnalyticsToday | client/src/lib/date-utils.ts:54-60 | true iff the date lies between today's analytics start and end, both included |
| DateUtils.LastSecondExcluded | client/src/lib/date-utils.ts:43-60 | as written, the last 999 ms of an analytics day (01:59:59.500 of the next calendar day) fall after the day's end |
| DateUtils.InAnalyticsDayIffSameDay | client/src/lib/date-utils.ts:27-60 | with the intended half-open day [02:00, next 02:00), an instant lies in today's analytics day iff it counts for the same analytics day as now |
| Cache.PutCoherent | client/src/lib/cache.ts:17-29 | set keeps the insertion order and the map in step, and after it size ≤ maxSize (one entry for maxSize 0) |
| Cache.EvictCoherent | client/src/lib/cache.ts:18-22 | the eviction deletes one key exactly when the map is full |
| Cache.PutEvictsOldest | client/src/lib/cache.ts:18-28 | when full, set evicts the earliest-inserted key (unless it is the key being set) and keeps every other entry unchanged |
| Cache.PutBelowBound | client/src/lib/cache.ts:17-29 | below the bound, set deletes nothing and stores the entry |
| Cache.PutThenLookup | client/src/lib/cache.ts:24-41 | what was just set is read back while now − timestamp ≤ ttl, the last millisecond included, and not after |
| Cache.GetAnswersLive | client/src/lib/cache.ts:31-42 | get returns the stored data iff the key exists and now − timestamp ≤ ttl; an expired entry is deleted and nothing else is |
| Cache.MemoryCache.constructor | client/src/lib/cache.ts:9-15 | a new cache is empty with the given maxSize |
| Cache.MemoryCache.Set | client/src/lib/cache.ts:17-29 | set stores the entry with the current time, after evicting as described |
| Cache.MemoryCache.Get | client/src/lib/cache.ts:31-42 | get answers the live entry's data or null, deleting an expired entry |
| Cache.MemoryCache.Has | client/src/lib/cache.ts:44-46 | has(k) is true exactly when get(k) finds a live entry, with the same deletion |
| Cache.MemoryCache.Clear | client/src/lib/cache.ts:48-50 | clear leaves size 0 |
| Cache.MemoryCache.Size | client/src/lib/cache.ts:52-54 | size is the number of entries, never above the capacity |
| Cache.MemoryCache.Cleanup | client/src/lib/cache.ts:107-113 | reading every key deletes exactly the expired entries and keeps the live ones in their order |
| Cache.SweptAll | client/src/lib/cache.ts:110-111 | after every key has been read, the live entries are left |
| Cache.TehillimKeyInjective | client/src/lib/cache.ts:65 | two different perek/language requests never share a Tehillim cache key |
| RequestCache.GetCacheTtl | client/src/lib/request-cache.ts:16-34 | the time to live is that of the first configured prefix the endpoint starts with, five minutes when none does |
| RequestCache.ConfigPrefixFree | client/src/lib/request-cache.ts:16-24 | no configured prefix starts with another, so at most one applies |
| RequestCache.TtlOfMatchingPrefix | client/src/lib/request-cache.ts:27-34 | an endpoint starting with a configured prefix gets that prefix's time to live, whatever the iteration order |
| RequestCache.BypassChangesNothing | client/src/lib/request-cache.ts:46-49 | a request whose method is set and is not GET neither reads nor changes the cache |
| RequestCache.HitIssuesNothing | client/src/lib/request-cache.ts:53-59 | a cached entry younger than its time to live is returned without a request and without any change |
| RequestCache.SecondCallerJoins | client/src/lib/request-cache.ts:64-95 | once a request for a URL is pending, a second caller gets that same request: at most one request per URL in flight |
| RequestCache.IssueFresh | client/src/lib/request-cache.ts:69-95 | a new request gets a number no other pending URL holds |
| RequestCache.SettleThenFetch | client/src/lib/request-cache.ts:53-90 | arrived data is served from the cache while younger than its time to live; a failure caches nothing and frees the URL for a new request |
| RequestCache.ClearedExactly | client/src/lib/request-cache.ts:99-111 | clearCache(p) deletes exactly the keys containing p; no pattern or an empty one clears everything |
| RequestCache.RequestCache.constructor | client/src/lib/request-cache.ts:7-10 | both maps start empty |
| RequestCache.RequestCache.Fetch | client/src/lib/request-cache.ts:42-96 | cachedFetch answers and updates the state as the fetch specification says: stale entries deleted, new requests recorded as pending |
| RequestCache.RequestCache.Settle | client/src/lib/request-cache.ts:70-90 | a settled request caches its data with the arrival time, and either way is no longer pending |
| RequestCache.RequestCache.ClearCache | client/src/lib/request-cache.ts:99-111 | the responses are exactly those not matching the pattern, the pending requests are untouched |
| RequestCache.RequestCache.DeleteAll | client/src/lib/request-cache.ts:107 | deleting the collected keys removes exactly them |
| RequestCache.TtlOfNoPrefix | client/src/lib/request-cache.ts:27-34 | an endpoint starting with no configured prefix gets the five-minute default |
| ServerCache.HebcalRules | server/routes/utils/cache.ts:21-30 | zmanim and converter URLs keep their own time to live although they also contain the general hebcal text |
| ServerCache.NoRuleDefault | server/routes/utils/cache.ts:23-30 | a URL matching none of the rules gets five minutes |
| ServerCache.FreshIsServed | server/routes/utils/cache.ts:39-42 | an entry whose expiry is after now is served as it is, without a request or change |
| ServerCache.InFlightIsShared | server/routes/utils/cache.ts:44-70 | while a request is in flight every caller gets that request; no second request is made |
| ServerCache.PlaceholderNeverHits | server/routes/utils/cache.ts:40-69 | the placeholder expires at 0, so it never counts as a hit; a caller at a non-negative time joins its request |
| ServerCache.SuccessServedUntilExpiry | server/routes/utils/cache.ts:40-53 | arrived data is served until a time to live after its request was made, and not from then on |
| ServerCache.FailureAllowsRetry | server/routes/utils/cache.ts:54-60 | a failure keeps the entry without its promise, and the next caller that finds it stale makes a new request |
| ServerCache.StepsKeepNumbering | server/routes/utils/cache.ts:35-73 | request numbers stay below the counter through every step |
| ServerCache.ApiCache.constructor | server/routes/utils/cache.ts:9 | the cache starts empty |
| ServerCache.ApiCache.CachedGet | server/routes/utils/cache.ts:35-73 | cachedGet answers and updates the map as the specification function says |
| ServerCache.ApiCache.Succeed | server/routes/utils/cache.ts:48-53 | the entry is replaced by the data, expiring a time to live after the request |
| ServerCache.ApiCache.Fail | server/routes/utils/cache.ts:54-60 | the entry loses its promise and nothing else changes |
| Shared.SameTtlAsUtils | server/routes/shared.ts:24-36 | this copy of the URL-to-time-to-live rules agrees with the one in server/routes/utils/cache.ts for every URL |
| Shared.BearerToken | server/routes/shared.ts:85-88 | a token is found exactly when the header starts with "Bearer " and has text after it, and the header is "Bearer " followed by the token |
| Shared.RequireAdminAuth | server/routes/shared.ts:78-116 | no admin configuration gives 500; no token gives 401; no JWT secret gives 500; the request passes exactly when everything is configured and the token is valid; every 401 happens under a configured admin |
| Shared.UnconfiguredIgnoresHeader | server/routes/shared.ts:79-83 | without admin configuration the answer does not depend on the header or the token |
| Shared.InvalidTokenRefused | server/routes/shared.ts:102-115 | an invalid token gets 401, with the expired message exactly when the token has expired |
| PushRetryQueue.RetryDelay | server/pushRetryQueue.ts:16-52 | the delay is the table entry for the attempt count, and the last entry (one minute) beyond the table |
| PushRetryQueue.RetryDelayGrows | server/pushRetryQueue.ts:16-52 | the delay never shrinks as attempts accumulate |
| PushRetryQueue.CategorizeError | server/pushRetryQueue.ts:155-201 | no status gives unknown/retry; exactly 410, 404 and 400 are terminal and removed; 401, 403 and 413 are configuration errors that keep the subscription; 429 and 500 and above are retried; exactly the other 4xx statuses are investigated |
| PushRetryQueue.AttemptCounts | server/pushRetryQueue.ts:65-92 | an item stays after its send exactly when the send failed with a status that is not terminal and fewer than three attempts have been made; a failure counts one attempt (see also lines 126-150) |
| PushRetryQueue.PassUnderLimit | server/pushRetryQueue.ts:41-108 | after a pass every queued item has been tried fewer than three times, and no new key appears |
| PushRetryQueue.NotReadyUntouched | server/pushRetryQueue.ts:51-58 | items whose retry time has not come are left exactly as they were |
| PushRetryQueue.RetryQueue.constructor | server/pushRetryQueue.ts:14-17 | the queue starts empty and not processing |
| PushRetryQueue.RetryQueue.Add | server/pushRetryQueue.ts:22-36 | the endpoint's entry is set with no attempts; while a pass runs nothing else changes, otherwise a pass runs over the new queue, the flag stays set exactly while items remain, and the subscriptions marked valid or invalid are exactly the due entries delivered or refused with a terminal status |
| PushRetryQueue.RetryQueue.ProcessQueue | server/pushRetryQueue.ts:41-108 | nothing happens while a pass runs or the queue is empty; otherwise the queue becomes the pass of the specification, the delivered endpoints are marked valid and the terminal ones invalid, and the flag stays set while items remain |
| PushRetryQueue.RetryQueue.Attempt | server/pushRetryQueue.ts:61-92 | one item's send: delivered items leave and are marked valid; failed ones count an attempt and leave when they should, marked invalid on a terminal status |
| PushRetryQueue.RetryQueue.TimerFires | server/pushRetryQueue.ts:41-103 | the timer clears the flag; an emptied queue leaves it cleared with nothing sent, otherwise a new pass runs, the flag stays set exactly while items remain, and the marked subscriptions are the due entries delivered or refused with a terminal status |
| PushRetryQueue.RetryQueue.GetStatus | server/pushRetryQueue.ts:206-211 | reports the queue size and the flag |
| PushRetryQueue.RetryQueue.Clear | server/pushRetryQueue.ts:216-218 | the queue is emptied and the flag left as it is |
| PushRetryQueue.DueKeys | server/pushRetryQueue.ts:51-58 | the keys collected are exactly the queued items whose retry time has come, each once |
| PushRetryQueue.PartialAll | server/pushRetryQueue.ts:61-93 | handling the due keys one by one gives the pass of the specification |
| PermissionManager.MergeLocationFields | client/src/lib/permission-manager.ts:90-94 | the location merge takes every field the update names and keeps every other |
| PermissionManager.MergeNotificationFields | client/src/lib/permission-manager.ts:84-88 | the notification merge takes every field the update names and keeps every other |
| PermissionManager.MergeIdempotent | client/src/lib/permission-manager.ts:84-94 | an empty update changes nothing, and applying an update twice is applying it once |
| PermissionManager.PermissionStore.constructor | client/src/lib/permission-manager.ts:39-69 | a missing or corrupt stored value gives the default state; a parsed one is used as it is (see also lines 80-83) |
| PermissionManager.PermissionStore.SetNotificationState | client/src/lib/permission-manager.ts:71-88 | the merged notification state becomes live and is saved; the location state is untouched |
| PermissionManager.PermissionStore.SetLocationState | client/src/lib/permission-manager.ts:71-94 | the merged location state becomes live and is saved; the notification state is untouched |
| PermissionManager.PermissionStore.ResetNotificationState | client/src/lib/permission-manager.ts:96-100 | the notification state goes back to the default, live and saved |
| PermissionManager.PermissionStore.ResetLocationState | client/src/lib/permission-manager.ts:101-105 | the location state goes back to the default, live and saved |
| PermissionManager.NotificationPromptRule | client/src/lib/permission-manager.ts:125-149 | never prompted after granted or denied; a dismissal keeps the prompt away for exactly seven days, after which the intent returns to default; otherwise the prompt is allowed |
| PermissionManager.NotificationPromptStable | client/src/lib/permission-manager.ts:125-149 | asking again at once gives the same answer and changes nothing |
| PermissionManager.ShouldPromptForNotifications | client/src/lib/permission-manager.ts:125-149 | the answer and the new notification state are those of the prompt rule; the location state is untouched |
| PermissionManager.RequestNotificationPermission | client/src/lib/permission-manager.ts:263-316 | a granted browser permission succeeds without change; a denied one records the denial; otherwise the prompt's answer is recorded as granted, denied or dismissed, and a thrown prompt fails |
| PermissionManager.DismissalCooldown | client/src/lib/permission-manager.ts:110 | a dismissed prompt keeps the next prompt away for seven days and allows it afterwards (see also lines 136-146, 263-316) |
| PermissionManager.ReconcileNotificationPermission | client/src/lib/permission-manager.ts:152-201 | a revoked permission records the denial and nothing else; a granted permission without a subscription marks a resubscribe for a granted intent; a subscription checked more than a day ago is revalidated |
| PermissionManager.LocationPromptRule | client/src/lib/permission-manager.ts:487-512 | an expired cooldown resets to prompt and allows it; otherwise the prompt is allowed exactly outside a cooldown when the state is neither granted nor denied |
| PermissionManager.ShouldPromptForLocation | client/src/lib/permission-manager.ts:487-512 | the answer and the new location state are those of the prompt rule |
| PermissionManager.MarkLocationDismissed | client/src/lib/permission-manager.ts:514-521 | the state becomes dismissed with a cooldown of exactly 24 hours from now |
| PermissionManager.LocationCooldownHolds | client/src/lib/permission-manager.ts:113 | after a dismissal or a denial the location prompt is held back for exactly 24 hours and allowed afterwards (see also lines 514-521) |
| PermissionManager.ReconcileLocationPermission | client/src/lib/permission-manager.ts:222-260 | an expired cooldown is cleared; within a cooldown nothing changes; otherwise only a granted answer of the Permissions API is recorded |
| PermissionManager.RequestLocationPermission | client/src/lib/permission-manager.ts:408-485 | within a cooldown it fails and changes nothing; an already granted state succeeds at once; without the API the state becomes denied with a 24-hour cooldown; a position records granted from GPS; a refusal (code 1) records denied with a 24-hour cooldown from the answer; any other error leaves the state at prompt with no cooldown |
| PermissionManager.OnlyRefusalCoolsDown | client/src/lib/permission-manager.ts:460-474 | only an explicit refusal starts a cooldown; a timeout or unavailable position leaves the prompt open |
| BrowserHistory.EnsureBaseShape | client/src/hooks/use-back-button-history.ts:181-193 | afterwards the current entry is a buffer base entry over a base entry (or the history already sat on a base entry and is unchanged); going back twice leaves the entries below; a second call changes nothing |
| SharedModalHistory.Remove | client/src/hooks/use-shared-modal-history.ts:84-104 | removing an id keeps exactly the other entries, keeps ids unique and leaves the id off the stack |
| SharedModalHistory.RemoveAbsent | client/src/hooks/use-shared-modal-history.ts:79-103 | removing an id that is not on the stack changes nothing |
| SharedModalHistory.SpliceIsRemove | client/src/hooks/use-shared-modal-history.ts:78-84 | splicing out the entry found for an id removes exactly that id, ids being unique |
| SharedModalHistory.ModalHistory.constructor | client/src/hooks/use-shared-modal-history.ts:17-23 | the stack starts empty with no flag set and no close called |
| SharedModalHistory.ModalHistory.FindIndex | client/src/hooks/use-shared-modal-history.ts:59-78 | the index is -1 exactly when the id is not on the stack, and otherwise the first position holding it |
| SharedModalHistory.ModalHistory.HandlePopstate | client/src/hooks/use-shared-modal-history.ts:25-39 | unless a popstate is handled or the stack is empty, the last-opened modal is popped and closed and the flag set; otherwise nothing changes |
| SharedModalHistory.ModalHistory.TimerFires | client/src/hooks/use-shared-modal-history.ts:35-37 | the 50 ms timer clears the flag and changes nothing else (see also lines 91-93) |
| SharedModalHistory.ModalHistory.RegisterModal | client/src/hooks/use-shared-modal-history.ts:52-70 | ignored while a popstate is handled; an id already on the stack only gets its new close callback; a new id pushes one history entry and goes on top |
| SharedModalHistory.ModalHistory.UnregisterModal | client/src/hooks/use-shared-modal-history.ts:77-95 | the id leaves the stack; history goes back once exactly when it was the topmost and no popstate is being handled |
| SharedModalHistory.ModalHistory.RemoveFromStackSilently | client/src/hooks/use-shared-modal-history.ts:101-106 | the id leaves the stack and nothing else changes |
| SharedModalHistory.ModalHistory.IsModalRegistered | client/src/hooks/use-shared-modal-history.ts:111-113 | true exactly when the id is on the stack |
| SharedModalHistory.ModalHistory.GetActiveCount | client/src/hooks/use-shared-modal-history.ts:125-127 | the number of modals on the stack |
| SharedModalHistory.ModalHistory.EnsureBaseHistoryEntry | client/src/hooks/use-shared-modal-history.ts:132-139 | the history becomes the base-entry shape and the stack is untouched |
| BackButtonHistory.Registry.constructor | client/src/hooks/use-back-button-history.ts:34-43 | the registry starts empty with depth 0 and no flag set |
| BackButtonHistory.Registry.Put | client/src/hooks/use-back-button-history.ts:97 | a new id goes last in insertion order, a known one keeps its place and gets the new callback (see also line 143) |
| BackButtonHistory.Registry.Delete | client/src/hooks/use-back-button-history.ts:104 | the id leaves both the order and the map; nothing else changes (see also lines 121, 149, 167) |
| BackButtonHistory.Registry.HandleGlobalPopstate | client/src/hooks/use-back-button-history.ts:45-63 | unless navigating or empty, the most recently added overlay is closed and removed, the flag set, and the depth drops by one but never below zero |
| BackButtonHistory.Registry.TimerFires | client/src/hooks/use-back-button-history.ts:58-60 | the 50 ms timer clears the flag and changes nothing else (see also lines 111-113, 156-158) |
| BackButtonHistory.Registry.GoBack | client/src/hooks/use-back-button-history.ts:107-114 | when not navigating and the depth is positive, history goes back once, the depth drops by one and the flag is set; otherwise nothing changes (see also lines 152-159) |
| BackButtonHistory.Registry.OpenStateEffect | client/src/hooks/use-back-button-history.ts:85-117 | an undefined isOpen does nothing; opening when not navigating pushes one entry, counts it and registers the overlay; closing a registered overlay removes it and goes back once; every other change leaves the registry and history alone; the ref takes the new value |
| BackButtonHistory.Registry.Cleanup | client/src/hooks/use-back-button-history.ts:118-123 | the id is dropped from the registry without touching history (see also lines 164-170) |
| BackButtonHistory.Registry.Rerender | client/src/hooks/use-back-button-history.ts:85-124 | with the cleanup of the previous run first, a close through isOpen finds the overlay already gone: history never goes back and the depth never drops |
| BackButtonHistory.Registry.Open | client/src/hooks/use-back-button-history.ts:138-145 | when not navigating, the callback ref is set, one entry is pushed and counted and the overlay registered; otherwise nothing changes |
| BackButtonHistory.Registry.Close | client/src/hooks/use-back-button-history.ts:147-161 | an unregistered id changes nothing; a registered one is removed, its callback called, and history goes back once when allowed |
| BackButtonHistory.Registry.EnsurePopstateListener | client/src/hooks/use-back-button-history.ts:65-70 | the listener is added once and nothing else changes |
| BackButtonHistory.Registry.EnsureBaseHistoryEntry | client/src/hooks/use-back-button-history.ts:181-193 | the history becomes the base-entry shape; the registry is untouched |
| BackButtonHistory.Registry.GetActiveModalCount | client/src/hooks/use-back-button-history.ts:198-200 | the number of registered overlays |
| AppResumeCoordinator.ResumeRule | client/src/lib/app-resume-coordinator.ts:70-90 | nothing happens while a recovery runs or when the app never went to the background; a background longer than the reload threshold schedules a reload and keeps the timestamp; one shorter than the minimum only forgets the timestamp; anything between starts a recovery and forgets the timestamp |
| AppResumeCoordinator.NoSecondRecovery | client/src/lib/app-resume-coordinator.ts:58-90 | once a resume is handled, a second resume signal does nothing until the app goes to the background again or the scheduled reload happens |
| AppResumeCoordinator.ValuesPrefix | client/src/lib/app-resume-coordinator.ts:96 | the callbacks of the first i+1 ids are those of the first i followed by the next one's |
| AppResumeCoordinator.Coordinator.constructor | client/src/lib/app-resume-coordinator.ts:24-32 | a new coordinator has the given configuration, no background time, no callbacks and no recovery running |
| AppResumeCoordinator.Coordinator.Init | client/src/lib/app-resume-coordinator.ts:37-39 | the listeners are marked added, and nothing else changes |
| AppResumeCoordinator.Coordinator.HandleBackground | client/src/lib/app-resume-coordinator.ts:66-68 | the background time becomes now and nothing else changes |
| AppResumeCoordinator.Coordinator.HandleResume | client/src/lib/app-resume-coordinator.ts:70-93 | the outcome, timestamp and recovering flag are those of the resume rule; a reload is counted exactly when the outcome is a reload |
| AppResumeCoordinator.Coordinator.RunRecovery | client/src/lib/app-resume-coordinator.ts:95-105 | every callback registered at that moment runs once, in registration order, and the recovery ends |
| AppResumeCoordinator.Coordinator.VisibilityChange | client/src/lib/app-resume-coordinator.ts:42-48 | hiding records the background time; showing handles a resume |
| AppResumeCoordinator.Coordinator.Focus | client/src/lib/app-resume-coordinator.ts:59-63 | a focus is a resume exactly when the page is visible and a background time is recorded |
| AppResumeCoordinator.Coordinator.PageShow | client/src/lib/app-resume-coordinator.ts:51-56 | a page restored from the back-forward cache is reloaded once; any other page show changes nothing |
| AppResumeCoordinator.Coordinator.RegisterRecoveryCallback | client/src/lib/app-resume-coordinator.ts:114-116 | one callback per id; registering an id again replaces its callback and keeps its place |
| AppResumeCoordinator.Coordinator.Unregister | client/src/lib/app-resume-coordinator.ts:116 | the unsubscribe function removes exactly that id |
| AppResumeCoordinator.Coordinator.GetTimeSinceBackground | client/src/lib/app-resume-coordinator.ts:130-133 | 0 with no background time recorded, else the time elapsed since it |
| AppCompletions.OwnContentTypeKey | server/routes/app-completions.ts:3-31 | an own entry of the map is a non-empty modal key |
| AppCompletions.ContentTypeKey | server/routes/app-completions.ts:89 | the lookup gives the own entry when there is one; otherwise a key exactly when the name is inherited from Object.prototype, never an empty one |
| AppCompletions.ToStringTypeCounted | server/routes/app-completions.ts:89-91 | a row of type "toString" has no own entry yet is counted under the built-in function's source text |
| AppCompletions.ProtoTypeCounted | server/routes/app-completions.ts:89-91 | a row of type "__proto__" has no own entry yet is counted under "[object Object]" |
| AppCompletions.SharedKey | server/routes/app-completions.ts:27-30 | parenting is counted as a life class, gave_elsewhere as tzedaka, and the map is case-sensitive |
| AppCompletions.TallyCounts | server/routes/app-completions.ts:89-92 | each key's count is the number of rows whose content type maps to it, and only keys with a row appear |
| AppCompletions.TallyTotal | server/routes/app-completions.ts:89-92 | summed over distinct keys, the modal counts are the rows mapped into those keys, never more than the rows |
| AppCompletions.AggregateBounds | server/routes/app-completions.ts:74-93 | the total is the number of rows, and each category count and any sum of modal counts is at most the total |
| AppCompletions.CountRow | server/routes/app-completions.ts:77-92 | one row bumps the tzedaka, tehillim and meditation counts exactly when it matches, and the key the lookup gives, own or inherited, if it gives one |
| AppCompletions.GetAppCompletionsForPeriod | server/routes/app-completions.ts:41-100 | no client or a failed query gives all zeros; otherwise the counts of the period's rows |
| AppCompletions.Added | server/routes/app-completions.ts:143-145 | the merged map holds every key of either side, each with the sum of both counts |
| AppCompletions.AddedTotal | server/routes/app-completions.ts:141-146 | after merging, the totals over any keys are the web's plus the app's |
| AppCompletions.AddCounts | server/routes/app-completions.ts:143-145 | the loop over the app's counts gives the key-wise sum |
| AppCompletions.AddTo | server/routes/app-completions.ts:116-139 | a field present on the web side gains the app's count; an absent one stays absent |
| AppCompletions.WebStats.constructor | server/routes/app-completions.ts:103-113 | the statistics object holds the given fields |
| AppCompletions.MergeAppCompletions | server/routes/app-completions.ts:102-147 | each present count gains the app count; the modal counts go key-wise into modalCompletions, or into totalModalCompletions when the former is absent, and nowhere when both are |
| Storage.ChainCycles | server/storage.ts:185-186 | from any perek of the book the chain reads every following perek in turn, stays within 1..150, and returns to the start after exactly 150 completions |
| Storage.NextReference | server/storage.ts:570-598 | the step always lands on a real verse of a real chapter (an unknown chapter restarts at 1:1, the last verse moves to the next chapter, 6:11 wraps to 1:1) |
| Storage.PositionBound | server/storage.ts:570-577 | every reference has a position among the 113 mishnayot |
| Storage.NextReferenceCycles | server/storage.ts:579-598 | from a valid reference each step moves exactly one mishnah forward, wrapping from 6:11 to 1:1, so every mishnah is read once per 113 steps |
| Storage.PositionInjective | server/storage.ts:570-577 | distinct valid references have distinct positions |
| Storage.Unexpired | server/storage.ts:164-167 | the cleanup keeps exactly the names whose expiry is not before now |
| Storage.Active | server/storage.ts:148-152 | the active names are exactly those expiring after now |
| Storage.UnexpiredIdempotent | server/storage.ts:164-167 | a second cleanup at the same time removes nothing more |
| Storage.ActiveAfterCleanup | server/storage.ts:148-152 | cleaning up first does not change which names are active |
| Storage.PickIndex | server/storage.ts:207-208 | the random index is within the list |
| Storage.FirstCurrent | server/storage.ts:641-655 | the query finds a current, active promotion for the location, and finds none exactly when there is no such promotion |
| Storage.PromotionTargets | server/storage.ts:633-678 | only users in Israel see Israel promotions; Israel falls back to worldwide; none is shown exactly when neither applies |
| Storage.Database.constructor | server/storage.ts:169-200 | the tables start empty |
| Storage.Database.GetGlobalTehillimProgress | server/storage.ts:169-180 | the stored row is returned unchanged, or a row at perek 1 is created |
| Storage.Database.UpdateGlobalTehillimProgress | server/storage.ts:182-200 | with a row the chain moves to the perek after the one completed, an empty completedBy stored as null; without one a row at perek 1 is created |
| Storage.Database.GetPirkeiAvotProgress | server/storage.ts:536-547 | the stored position is returned unchanged, or 1:1 is created |
| Storage.Database.GetNextPirkeiAvotReference | server/storage.ts:566-605 | the stored position moves one step and is returned |
| Storage.Database.CreateTehillimName | server/storage.ts:154-162 | a new name is appended with an expiry exactly 18 days after now |
| Storage.Database.CleanupExpiredNames | server/storage.ts:164-167 | the names are exactly the unexpired ones |
| Storage.Database.GetActiveNames | server/storage.ts:148-152 | the expired names are deleted and the names expiring after now returned |
| Storage.Database.GetRandomNameForPerek | server/storage.ts:202-209 | none exactly when no name is active, otherwise an active name; the expired ones are deleted |
| Storage.Database.GetActiveDiscountPromotion | server/storage.ts:633-699 | the first current promotion for the user's target location, for Israel a worldwide one when Israel has none, and none when the query fails |
| StorageJs.OnDay | server/storage.js:1301-1306 | the day's events are exactly the events of that date created strictly after its midnight and strictly before its 23:59:59 |
| StorageJs.EdgeEventsNotCounted | server/storage.js:1304 | an event created at midnight exactly or in the last second of its day leaves the day's selection unchanged |
| StorageJs.OnWholeDay | server/storage.js:1304 | the corrected selection: exactly the events dated that day, at any time of day |
| StorageJs.WholeDayCountsEvery | server/storage.js:1304 | with the corrected selection every new event joins its day's selection at its end, and everything the strict query selects is selected |
| StorageJs.NameRef | server/storage.js:166 | a missing name or an id of 0 is stored as null, any other id as itself (see also line 209) |
| StorageJs.BookCompleteIffWrap | server/storage.js:185-186 | completing a perek records the book-complete event exactly when it sends the chain back to psalm 1 |
| StorageJs.MaxIndex | server/storage.js:1019 | the largest order index occurs in the content and bounds every other |
| StorageJs.NextOrderIndexCycles | server/storage.js:1019-1024 | with the entries numbered 0 to n − 1 in any order, the cycle steps through them in turn and starts over after the last |
| StorageJs.MaxIndexIs | server/storage.js:1019 | an index that occurs and bounds all others is the largest |
| StorageJs.WithIndex | server/storage.js:688-700 | the entry found has the order index asked for, and none is found exactly when no entry has it |
| StorageJs.ModalTallyCounts | server/storage.js:1312-1319 | each modal type counts the modal completions of that type (a missing type as 'unknown'), and only types that occur are keys |
| StorageJs.ActsFromEntries | server/storage.js:1393-1398 | counting the act types among the map's entries, in whatever order they come, sums the counts of the act types |
| StorageJs.CalculateTotalActs | server/storage.js:1387-1402 | the acts of a day are the completions of every act type plus the Tehillim completions |
| StorageJs.SessionsBound | server/storage.js:1307 | distinct sessions are no more than the events carrying a session |
| StorageJs.DayStatsCounts | server/storage.js:1306-1319 | a day's row has no more unique users than events with a session, each counter at most the number of events, and each modal type its completions |
| StorageJs.DisjointCounts | server/storage.js:1309-1311 | events of two different types are counted apart |
| StorageJs.TallyModal | server/storage.js:1313-1319 | the loop gives the modal counts of the day's events |
| StorageJs.SumRowsFields | server/storage.js:1425-1432 | each monthly or all-time total is the sum of that field over the rows |
| StorageJs.SumRowsModal | server/storage.js:1433-1437 | each modal type's total is the sum of its count over the rows |
| StorageJs.SumRowsModalKeys | server/storage.js:1433-1437 | only modal types some row has are keys of the total |
| StorageJs.AccumulateStats | server/storage.js:1425-1438 | the accumulation loop gives the sums of the rows |
| StorageJs.GetMonthlyStats | server/storage.js:1403-1465 | the month's rows summed; a failed query gives all zeros |
| StorageJs.GetTotalStats | server/storage.js:1466-1507 | every stored row summed |
| StorageJs.Store.constructor | server/storage.js:152-176 | the tables start empty |
| StorageJs.Store.GetGlobalTehillimProgress | server/storage.js:152-176 | the stored row is returned unchanged, or a row at psalm 1 with the assigned name is created |
| StorageJs.Store.TrackEvent | server/storage.js:1194-1213 | the event is stored and the day's row is rebuilt from the day's events inside the strict time window |
| StorageJs.Store.UpdateGlobalTehillimProgress | server/storage.js:177-220 | the chain moves to the next psalm with the next assigned name; finishing psalm 150 records the book-complete event first, with 'Anonymous' for a missing name; without a row only the row is created |
| StorageJs.Store.GetPirkeiAvotProgress | server/storage.js:959-980 | the stored position is returned unchanged, or index 0 is created |
| StorageJs.Store.AdvancePirkeiAvotProgress | server/storage.js:1004-1030 | without content the position stays; otherwise it moves to the next index, dated today |
| StorageJs.Store.GetCurrentPirkeiAvot | server/storage.js:714-742 | the position advances when last moved on another day, and the entry at the position is returned; a second call on the same day does not move it again |
| StorageJs.Store.RecordActiveSession | server/storage.js:1215-1259 | today's unique users go up by one, or the day's row is created with one user and every other counter 0 |
| StorageJs.Store.RecalculateDailyStats | server/storage.js:1296-1360 | the day's row is rebuilt from its events inside the strict time window, whether or not it existed |
| MobileRoutes.DaysBetweenFloor | server/routes/mobile.ts:20-24 | the day count is symmetric and is the floor of the distance in days |
| MobileRoutes.DaysBetweenDates | server/routes/mobile.ts:20-24 | between two dates the count is the distance of their day numbers |
| MobileRoutes.PeriodDays | server/routes/mobile.ts:408-409 | a month is 30 days, all time 3650, and anything else (a missing period included) a week |
| MobileRoutes.SinceDayIsDateLessPeriod | server/routes/mobile.ts:410 | the first day counted is the date of now less the period |
| MobileRoutes.Or | server/routes/mobile.ts:594 | the result is truthy exactly when either side is, and is the first side when that one is truthy (see also lines 618, 665) |
| MobileRoutes.Identify | server/routes/mobile.ts:596-624 | a user id takes precedence over a device id; with neither the request is refused with 400 |
| MobileRoutes.Latest | server/routes/mobile.ts:600-603 | the latest matching challenge is the last matching row, and none exactly when no row matches (see also lines 626-630, 673-677) |
| MobileRoutes.CompleteOnce | server/routes/mobile.ts:684-691 | a completion counts exactly one more day, records today, and completes the challenge from its fortieth day |
| MobileRoutes.LapsedRule | server/routes/mobile.ts:634-646 | an active challenge lapses exactly when its last completion, or its start when it has none, is two or more days away |
| MobileRoutes.DailyCompletionNeverLapses | server/routes/mobile.ts:634-640 | completing every day keeps a challenge from lapsing |
| MobileRoutes.Challenges.constructor | server/routes/mobile.ts:590 | no challenges and no badges |
| MobileRoutes.Challenges.Join | server/routes/mobile.ts:592-614 | refused without an identity, 409 while the identity has an active challenge, otherwise a fresh active challenge starting today; at most one active challenge per user is kept |
| MobileRoutes.Challenges.GetStatus | server/routes/mobile.ts:617-661 | the latest challenge of the identity, marked failed first when it has lapsed; none when there is none |
| MobileRoutes.Challenges.CompleteDay | server/routes/mobile.ts:664-709 | refused without an identity, 404 without an active challenge, nothing when already completed today; otherwise one more day, and the badge on completion unless the user or device already holds it |
| MobileRoutes.Challenges.HasBadge | server/routes/mobile.ts:696-699 | true exactly when a badge row matches the user or the device |
| MobileRoutes.Challenges.Restart | server/routes/mobile.ts:712-732 | the identity's active and failed challenges are superseded and a fresh one starts today |
| MobileRoutes.Supersede | server/routes/mobile.ts:721 | exactly the identity's active and failed challenges are marked superseded, the rest unchanged |
| MobileRoutes.SupersedeAll | server/routes/mobile.ts:721 | the update over the rows gives the superseded list |
| MobileRoutes.SupersedeLeavesNoActive | server/routes/mobile.ts:721-726 | after the update the identity has no active challenge |
| MobileRoutes.SupersedeKeepsOneActive | server/routes/mobile.ts:721 | superseding keeps at most one active challenge per user |
| MobileRoutes.AppendKeepsBadgeOnce | server/routes/mobile.ts:696-702 | awarding the badge only when none matches keeps every user and device at one badge |
| TehillimRoutes.KeepLatin | server/routes/tehillim.ts:13 | only ASCII letters, digits, whitespace and '-' survive, and a text of those alone is unchanged |
| TehillimRoutes.DashSpaces | server/routes/tehillim.ts:17 | each run of whitespace becomes one '-', so only slug characters remain |
| TehillimRoutes.CollapseDashes | server/routes/tehillim.ts:18 | no two dashes remain in a row, and a leading dash stays exactly when there was one |
| TehillimRoutes.Prefix | server/routes/tehillim.ts:19 | the cut is a prefix of at most n characters, the whole text when it is short enough |
| TehillimRoutes.Base36RoundTrip | server/routes/tehillim.ts:19-21 | the timestamp reads back from its base-36 text |
| TehillimRoutes.SlugShape | server/routes/tehillim.ts:12-20 | a slug from a name with two or more kept characters is a non-empty body of lower-case letters, digits and single dashes, at most 50 long, then '-' and the timestamp, which reads back |
| TehillimRoutes.SlugBodyShape | server/routes/tehillim.ts:13-19 | the body before the timestamp has that shape |
| TehillimRoutes.FirstFreeIndex | server/routes/tehillim.ts:325-333 | the slug chosen is the first candidate not taken among at most six, the last one even when it is taken |
| TehillimRoutes.ChooseSlug | server/routes/tehillim.ts:325-333 | the retry loop chooses that slug |
| TehillimRoutes.CreateChain | server/routes/tehillim.ts:317-347 | a missing or empty name or reason is refused; otherwise an active chain is created with the chosen slug and the device id or null |
| TehillimRoutes.CompleteCheck | server/routes/tehillim.ts:44-50 | a missing perek or one outside 1..171 is refused first, then a language other than english or hebrew |
| TehillimRoutes.PerekParam | server/routes/tehillim.ts:120-123 | the parameter is accepted exactly when it parses as a number in 1..171 (see also lines 249-250, 285-286) |
| TehillimRoutes.TextCheck | server/routes/tehillim.ts:115-126 | the perek is checked first, then the language, which defaults to english |
| TehillimRoutes.PerekParamOfNumber | server/routes/tehillim.ts:120-123 | a number written in the route is accepted exactly when it lies in 1..171 |
| TehillimRoutes.ByNumberAndPart | server/routes/tehillim.ts:172 | the row found has that psalm and part, and none exactly when no row does (see also lines 176, 188, 198, 211, 223) |
| TehillimRoutes.ById | server/routes/tehillim.ts:170 | the row found has that id, and none exactly when no row does (see also line 291) |
| TehillimRoutes.NextPartFollowsOrder | server/routes/tehillim.ts:176-234 | on a complete table the next part follows the reading order: the parts of psalm 119 in turn, then 120; psalm 1 after psalm 150; part 1 of the next psalm otherwise |
| TehillimRoutes.GetNextPart | server/routes/tehillim.ts:162-242 | an id that does not parse or is below 1 is refused, and any row answered comes from the table |
| TehillimRoutes.DisplayTitleRule | server/routes/tehillim.ts:295-300 | every part of psalm 119 is titled with its part number, any other psalm with its number alone |
| TehillimRoutes.DisplayTitleReadsBack | server/routes/tehillim.ts:295-300 | the psalm number reads back from the title |
| TehillimRoutes.ExcludePsalm | server/routes/tehillim.ts:631-637 | the parameter is used only when present and a number in 1..171 |
| TehillimRoutes.ExcludePsalmOfNumber | server/routes/tehillim.ts:631-637 | a psalm number sent as text is read back, any other number ignored |
| TehillimRoutes.GlobalStatsCache.constructor | server/routes/tehillim.ts:24 | the cache starts empty |
| TehillimRoutes.GlobalStatsCache.GetGlobalStats | server/routes/tehillim.ts:371-385 | stats younger than five minutes are served from the cache; otherwise they are fetched and cached; a failed fetch gives zeros and leaves the cache |
| TehillimRoutes.GlobalStatsCache.ChainReadingCompleted | server/routes/tehillim.ts:581 | a completed chain reading empties the cache |
| RoutesJs.ClockAt | server/routes.js:470-506 | a clock found at an index is one or two hour digits, ':' and two minute digits, ending where the match ends |
| RoutesJs.PeriodAt | server/routes.js:470-480 | the optional candle-lighting period is read as "PM", "AM" or nothing |
| RoutesJs.MatchAt | server/routes.js:281 | a pattern's match at an index lies within the text and carries a clock found there (see also lines 470, 494, 506) |
| RoutesJs.Search | server/routes.js:281 | `match` finds the leftmost index where the pattern matches, and when it finds nothing the pattern matches nowhere (see also lines 470, 494, 506) |
| RoutesJs.SearchFinds | server/routes.js:281 | a match at an index with none before it is the one the search returns (see also lines 470, 494, 506) |
| RoutesJs.DisplayHourReadsBack | server/routes.js:285-286 | the 12-hour display hour is in 1..12 and, with the period, gives back the hour of the day |
| RoutesJs.TwelveHourReadsBack | server/routes.js:283-287 | the 12-hour rendering of any hour and minutes reads back as that hour and those minutes, so no two times of the day render alike |
| RoutesJs.TwelveHourShape | server/routes.js:287 | the rendering is the display hour, ':', the minutes, a space and the period, and ends in " PM" exactly for hours from 12 |
| RoutesJs.FormatTime | server/routes.js:276-297 | no time or an empty one gives null; a text without "THH:MM:" is returned unchanged |
| RoutesJs.FormatTimeOfTimestamp | server/routes.js:276-297 | an ISO timestamp is shown as its own hour and minutes on a 12-hour clock |
| RoutesJs.ClockTwoDigits | server/routes.js:470 | two hour digits are read as a two-digit hour |
| RoutesJs.ClockOneDigit | server/routes.js:470 | one hour digit followed by ':' is read as a one-digit hour |
| RoutesJs.ClockOfDigits | server/routes.js:470-506 | any clock written with one or two hour digits is read as exactly those digits |
| RoutesJs.HourDigits | server/routes.js:474-509 | an hour below 100 is written with one or two digits that parse back to it |
| RoutesJs.ClockOfWritten | server/routes.js:470-506 | a clock written from an hour and minutes is read as that hour and those minutes |
| RoutesJs.CandleMatchAtStart | server/routes.js:470 | a title opening with "Candle lighting: " and a clock matches at its start with that clock |
| RoutesJs.CandleOfTwentyFourHour | server/routes.js:470-489 | a candle-lighting clock without a period is converted from the 24-hour clock like `formatTime` |
| RoutesJs.CandleOfWrittenPeriod | server/routes.js:470-489 | a candle-lighting clock with "pm", "am", "p.m." or "a.m." in any case keeps its hour and shows the period upper-cased without dots |
| RoutesJs.HavdalahPeriodMatch | server/routes.js:494 | a havdalah clock followed, past any whitespace, by "pm" or "am" matches the period pattern at the start |
| RoutesJs.HavdalahOfWrittenPeriod | server/routes.js:494-503 | a havdalah clock followed by a period keeps its hour and shows the period upper-cased |
| RoutesJs.HavdalahOfTwentyFourHour | server/routes.js:504-516 | a havdalah clock without a period is converted from the 24-hour clock |
| RoutesJs.ShabbosTimesOf | server/routes.js:466-520 | the pass over the Hebcal items yields the response of the item-by-item update |
| RoutesJs.LastPresent | server/routes.js:480-519 | the value kept is one of those written, and none is kept only when none was written |
| RoutesJs.CollectTakesLastOfEach | server/routes.js:466-520 | each of candle lighting, havdalah and parsha is what the last item contributing to it gave, or null |
| RoutesJs.DigitsValueOf | server/routes.js:149 | a number below 10^width reads back from its zero-padded digits |
| RoutesJs.NatToStringOfWidth | server/routes.js:149 | a number of exactly w digits is written with those w digits |
| RoutesJs.DateValueReadsBack | server/routes.js:149-154 | the DTSTART DATE value is eight digits that read back as the year, month and day |
| RoutesJs.EventLines | server/routes.js:150-160 | a VEVENT has nine lines, the fourth being DTSTART with the event's date |
| RoutesJs.JoinBlocks | server/routes.js:160 | joining pre-joined events after the opening lines equals joining all their lines (see also lines 209-217) |
| RoutesJs.CalendarLines | server/routes.js:150-160 | the body is every calendar line, the events' included, between the opening properties and END:VCALENDAR, separated by CRLF (see also lines 209-217) |
| RoutesJs.YearsOf | server/routes.js:91 | the year count is never 0 |
| RoutesJs.YearsDefault | server/routes.js:91 | no count means one year; a written count is taken as it is, except 0, which also means one |
| RoutesJs.HebrewBlocksAtMost | server/routes.js:132-166 | years whose conversion fails are skipped, so there are at most as many events as years |
| RoutesJs.HebrewBlocksDates | server/routes.js:132-166 | when every conversion succeeds there is one event per year, in order, dated with that year's conversion |
| RoutesJs.FallbackBlocksDates | server/routes.js:171-191 | without the Hebrew date there is one event per year, on the date `new Date` makes of that year and the input's month and day |
| RoutesJs.MakeDateValid | server/routes.js:177 | `new Date(year, month, day)` gives a real date of that year, and keeps a day that exists in that month |
| RoutesJs.LeapDayRollsOver | server/routes.js:177 | 29 February of a year that is not a leap year becomes 1 March |
| RoutesJs.SimpleEventDate | server/routes.js:194-206 | the event written without both dates falls on January 1 of next year |
| RoutesJs.HebrewEvents | server/routes.js:132-166 | the loop over the years pushes exactly the converted years' events |
| RoutesJs.FallbackEvents | server/routes.js:171-190 | the fallback loop pushes exactly one event per year, dated as `new Date` makes the input's month and day in that year |
| RoutesJs.SafeTitle | server/routes.js:218 | one character per UTF-16 code unit of the title: each ASCII letter or digit stays in its place, every other character becomes '_', twice for a character outside the Basic Multilingual Plane |
| RoutesJs.AstralGivesTwoUnderscores | server/routes.js:218 | a title of one character outside the Basic Multilingual Plane becomes "__" |
| RoutesJs.FilenameKeepsTitle | server/routes.js:218 | the file name begins with the sanitised title, as long as the title in UTF-16 code units |
| RoutesJs.FilenameSafe | server/routes.js:218 | the file name holds only letters, digits, '_', '-' and '.' |
| RoutesJs.DownloadCalendar | server/routes.js:86-218 | the body is the calendar of the events for the query and the file name is built from the title (default "Event") and the year count |
| RoutesJs.CheckCalendarPost | server/routes.js:685-688 | a missing title, Hebrew date or Gregorian date is refused with 400, and otherwise the count defaults to 10 |
| RoutesJs.TrackAnalytics | server/routes.js:2319-2331 | an event is stored exactly when its type is one of the four tracked ones, appended to the events with its day and time, and the day's row is rebuilt; the chain and Pirkei Avot state are untouched; any other type is refused and nothing changes |
| RoutesTs.FormatTime | server/routes.ts:77-95 | no time or an empty one gives null, a timestamp becomes its 12-hour time, other text is unchanged |
| RoutesTs.FormatTimeAgrees | server/routes.ts:77-95 | this server's `formatTime` gives the same result as the other server's for every input |
| RoutesTs.CompleteCheck | server/routes.ts:529-535 | a request is accepted exactly when the perek is in 1..150 and the language is 'english' or 'hebrew'; the perek is checked first |
| RoutesTs.CompleteTehillim | server/routes.ts:526-545 | a refused request leaves the store unchanged; an accepted one stores the progress it returns and changes nothing else; when a chain row exists its perek follows the one completed and stays in 1..150, and without one the new chain starts at perek 1 |
| RoutesTs.PerekOf | server/routes.ts:567-570 | a perek parameter is kept exactly when `parseInt` reads a number in 1..150 |
| RoutesTs.PerekOfWritten | server/routes.ts:567-570 | a decimal perek is accepted exactly when it is between 1 and 150 |
| RoutesTs.TextCheck | server/routes.ts:564-577 | the text request is accepted exactly when the perek is valid and the language, 'english' by default, is one of the two; an invalid perek is reported first |
| RoutesTs.PreviewCheck | server/routes.ts:588-596 | the preview request is accepted exactly when the perek is valid, with language 'hebrew' by default |
| RoutesTs.AmountAccepted | server/routes.ts:716-720 | a payment is accepted exactly when the amount is present and at least 1 |
| RoutesTs.CentsOfAccepted | server/routes.ts:719-724 | an accepted amount is at least 100 cents, and an amount in whole cents is charged exactly |

## Left out

- Network, database and storage I/O are not modelled. The model works on their results, which are parameters or object fields. This covers:
  - requests, boto3 and psycopg2 in the script;
  - axios and fetch;
  - the Drizzle and pg queries;
  - Stripe;
  - web-push sending.
- The `.env` file is a string. Opening it, UTF-8 decoding and the write to disk are not modelled. The text-mode newline translation on reading is modelled (`Translated`). The CLI prompting and argv checks of the script are left out.
- CdnMigration.WrittenText: the write is modelled as on POSIX, where text mode writes '\n' unchanged. On Windows each '\n' is written as "\r\n", which the universal-newline read turns back into '\n'.
- The script's delete-on-failure block is not modelled. Its execute call is commented out and it reuses a closed cursor.
- Concurrency is not modelled:
  - the script's thread pool becomes a sequence of outcomes in completion order, and the counts are proved to depend only on their multiset;
  - a pending promise is a named request, with the synchronous and settling halves as separate methods;
  - the timers (the 50 ms popstate flag, the 200 ms resume debounce) become explicit steps.
- Whitespace and case folding are ASCII-only. Unicode whitespace, Unicode lower-casing and the NFD normalisation of `normalizeEnglish` are not modelled.
- Floating point is not modelled:
  - the home garden's collision test compares squared distances instead of calling `sqrt`;
  - the payment amount is a real, and `Math.round` rounds halves up;
  - the compass, distances and percentages are outside this model.
- The JavaScript `Date` is modelled by its local wall-clock fields or by day numbers. Time zones, daylight-saving jumps, `toISOString`'s shift to UTC and years outside 0..9999 are not modelled.
- Library calls are parameters, not implementations:
  - the Hebcal conversion of the calendar download is the parameter `convert`;
  - the parsing of `gregorianDate` is the given `inputDate`;
  - the mimetypes guess of the script is a parameter.
- `Math.random`, `Date.now` and `crypto.randomUUID` are parameters.
- RoutesJs.DownloadCalendar: the POST calendar download's per-year loop is not modelled. It repeats the GET loop with a different start year. Only its checks and defaults (`CheckCalendarPost`) and the shared file name are modelled.
- RoutesJs.CheckCalendarPost: JSON values of the wrong type (a non-integer `years`) are not modelled. The same holds for `currentPerek` in `RoutesTs.CompleteCheck` and `amount` in `RoutesTs.AmountAccepted`.
- The title written into SUMMARY is not escaped as section 3.3.11 of RFC 5545 asks. This matches the source, and no property of that line is claimed.
- ProfileStats: the `.sort()` of the collected dates is abstracted. The totals are proved independent of the order.
- ProfileStats: the streak's date arithmetic is the `datesBack` parameter, the list of the days before today.
- Shared: `cachedGet` in server/routes/shared.ts is the same code as in server/routes/utils/cache.ts, so it is modelled once, in `ServerCache`. The copy of `getCacheConfig` is modelled and proved equal to it.
- PermissionManager: the push-subscription functions, `initialize` and the event listeners are left out. They only call browser APIs.
- Cache: `preloadCritical` is left out. It only issues fetches.
- MobileRoutes and TehillimRoutes: the routes outside the listed rules are not modelled. These are plain database reads and writes.
- StorageJs: `updatePirkeiAvotProgress` is folded into the order-index cycle. `cleanupOldAnalytics`, `updateDailyStats`, `getSefariaPirkeiAvot` and the plain CRUD methods are left out.
- MitzvahSync.DeviceStorage.QueueCompletion: the trailing `syncCompletions()` call (client/src/lib/mitzvahSync.ts:63) is not part of the method. That sync is `SendCompletions` followed by `SettleSync`.
- TextFormatter.FormatTextContent: the `{{grey}}` block regex and the regex cleanup after the scan are the parameters `greyBlocks` and `cleanup`.
- PushRetryQueue.RetryQueue.ProcessQueue: a pass is one atomic step. The awaits between its sends are not modelled.
- TefillaProcessor.Checker: of the names every object inherits, only `toString`, `constructor` and `isPrototypeOf` are modelled. The others (`valueOf`, `hasOwnProperty`, `propertyIsEnumerable`, `toLocaleString`, `__proto__`, `__defineGetter__` and the like) throw a TypeError that aborts `processTefillaText`; the model treats them as names without a checker.
- AppCompletions.NativeKey: the key a built-in function is counted under is its string form as V8 prints it; another engine may print it differently.
- Cache.MemoryCache.Has: stored data is never null in the model; the source answers false for an entry whose data is null, because it tests `get(key) !== null`.
- AppCompletions.MergeAppCompletions: a web field that is JavaScript `null` is treated like an absent one.
- TehillimRoutes.GetNextPart: states only two things. An id that does not parse or is below 1 is refused. An answered row comes from the table. The next-part rule itself is proved about `NextPart` by `NextPartFollowsOrder`.
- TehillimRoutes: server/routes/tehillim.ts bounds a perek by 171 and server/routes.ts by 150. Each is modelled as written.

## Findings

| source | as written | input that shows it | evidently intended | confidence | as-written member | corrected member |
|---|---|---|---|---|---|---|
| client/src/pages/feed.tsx:150-161 | the grouping compares each date with `currentDate`, which starts as the empty string, and appends to the last group when they are equal | a first message whose date is "" finds no group to append to, and the page throws | a first message always opens the first group | not executed | Feed.GroupMessages, Feed.EmptyFirstDateThrows | Feed.RunsConcat, Feed.RunsWellFormed |
| client/src/lib/date-utils.ts:43-60 | the analytics day ends at 01:59:59.000 of the next day | an instant at 01:59:59.500 belongs to no analytics day | the day ends at 01:59:59.999, so the days cover every instant | not executed | DateUtils.LastSecondExcluded | DateUtils.InAnalyticsDayIffSameDay |
| client/src/hooks/use-back-button-history.ts:85-124 | the effect's cleanup deletes the modal from `activeModals` before the next run of the effect checks for it | a modal closed by setting `isOpen` to false never goes back in history, and `historyDepth` never drops | closing through `isOpen` removes the entry and goes back once | not executed | BackButtonHistory.Registry.Rerender | BackButtonHistory.Registry.OpenStateEffect |
| scripts/python/convert_urls_to_cdn.py:326-330 | the failure branch logs `cdn_url` and `rec_id`, which are bound only by an earlier success | if the first outcome is a failure, the run raises `NameError`; a later failure is recorded with the previous row's URL and id | the failure is reported with its own row | not executed | CdnMigration.StaleFailureRecord | CdnMigration.Gather, CdnMigration.FailedIdsAreFailures |
| scripts/python/convert_urls_to_cdn.py:85-107 | `readlines()` keeps the lines as read and `writelines` adds no separator, so appended lines follow the existing last line directly | an existing file "FOO=1" with no final newline, saved with BAR=2, becomes "FOO=1BAR=2\n", which loads as FOO = "1BAR=2" and no BAR | the existing last line ends in a newline before anything is appended | not executed | CdnMigration.MissingNewlineLosesKey | CdnMigration.Terminated, CdnMigration.LoadAfterSaveTerminated |
| scripts/python/convert_urls_to_cdn.py:201 | the docstring (line 8) promises a `speaker_website` fallback, but both alternatives of the `or` read `audio_url` | a row with a blank `audio_url` and a set `speaker_website` is skipped | a blank `audio_url` falls back to `speaker_website` | not executed | CdnMigration.WebsiteFallbackIgnored | CdnMigration.FallbackAgrees |
| client/src/lib/mitzvahSync.ts:97-98 | after the request settles, the whole stored queue is cleared, including entries queued while it was in flight | a completion queued while a request is in flight is cleared by that request's reply; its own sync call (line 63) has already sent it in a second request, so it is lost when that second request fails, or when the device was offline at queue time and no request carried it | a reply removes only the entries it acknowledged | not executed | MitzvahSync.DeviceStorage.QueuedDuringSyncLost | MitzvahSync.DeviceStorage.SettleSyncKeeping, MitzvahSync.DeviceStorage.QueuedDuringSyncKept, MitzvahSync.UnsentAfterBatch |
| client/src/utils/tefilla-processor.ts:350-356 | `conditionCheckers` is a plain object, so the lookup also finds the names it inherits | a `[[toString]]x[[/toString]]` block is shown although no condition is named `toString` | only the table's own conditions are looked up; any other name hides its block | not executed | TefillaProcessor.InheritedNameShown | TefillaProcessor.ConditionsMetOwn, TefillaProcessor.OwnLookupOnlyTable |
| server/storage.js:1304 | the day's query selects rows strictly after 00:00:00 and strictly before 23:59:59 | an event created at 00:00:00.000 or at 23:59:59.500 is not in that day's statistics | every event of the day is counted | not executed | StorageJs.EdgeEventsNotCounted | StorageJs.OnWholeDay, StorageJs.WholeDayCountsEvery |

=== FILE: app_completions.dfy ===
// The app-side completion counts (server/routes/app-completions.ts): the
// rows of the completions table for a period are counted by category and
// content type, and the counts are added into the web statistics object.
//
// The database query is a parameter: its rows (already limited to the
// period), an error, or no database client.

module AppCompletions {
  import opened Text

  /** The own entries of `CONTENT_TYPE_MAP`: the modal key a content type
      is counted under. */
  function OwnContentTypeKey(contentType: string): (key: Option<string>)
    ensures key.Some? ==> key.value != ""
  {
    if contentType == "daily_chizuk" then Some("chizuk")
    else if contentType == "daily_emuna" then Some("emuna")
    else if contentType == "daily_halacha" then Some("halacha")
    else if contentType == "pirkei_avos" then Some("pirkei-avot")
    else if contentType == "gems_of_gratitude" then Some("gems-of-gratitude")
    else if contentType == "shalom_content" then Some("shalom")
    else if contentType == "shmiras_halashon" then Some("shmiras-halashon")
    else if contentType == "torah_challenges" then Some("torah-challenge")
    else if contentType == "parsha_vort" then Some("parsha-vort")
    else if contentType == "featured" then Some("featured")
    else if contentType == "library" then Some("library")
    else if contentType == "tehillim" then Some("chain-tehillim")
    else if contentType == "nishmas" then Some("nishmas-campaign")
    else if contentType == "brocha" then Some("brocha")
    else if contentType == "morning_brochas" then Some("morning-brochas")
    else if contentType == "shacharis" then Some("shacharis")
    else if contentType == "mincha" then Some("mincha")
    else if contentType == "maariv" then Some("maariv")
    else if contentType == "special_tefillas" then Some("womens-prayer")
    else if contentType == "recipe" then Some("recipe")
    else if contentType == "marriage_insights" then Some("marriage-insights")
    else if contentType == "inspiration" then Some("inspiration")
    else if contentType == "gift_of_chatzos" then Some("gift-of-chatzos")
    else if contentType == "life_class" then Some("life-class")
    else if contentType == "meditation" then Some("meditation")
    else if contentType == "gave_elsewhere" then Some("tzedaka")
    else if contentType == "parenting" then Some("life-class")
    else None
  }

  /** The names a plain object literal inherits from `Object.prototype`. */
  predicate InheritedName(name: string) {
    name in {"constructor", "__defineGetter__", "__defineSetter__", "hasOwnProperty", "__lookupGetter__",
             "__lookupSetter__", "isPrototypeOf", "propertyIsEnumerable", "toString", "valueOf", "__proto__",
             "toLocaleString"}
  }

  /** The string an inherited value becomes when used as a property key:
      `__proto__` is `Object.prototype`, "[object Object]"; the others are
      built-in functions, which print as V8 prints them, under their own
      name (`Object` for `constructor`). */
  function NativeKey(name: string): (key: string)
    ensures key != ""
  {
    if name == "__proto__" then "[object Object]"
    else "function " + (if name == "constructor" then "Object" else name) + "() { [native code] }"
  }

  /** `CONTENT_TYPE_MAP[row.content_type]`, a lookup on a plain object: an
      own entry if there is one, otherwise the inherited value, which is
      truthy for every inherited name, counted under its string form. */
  function ContentTypeKey(contentType: string): (key: Option<string>)
    ensures key.Some? ==> key.value != ""
    ensures OwnContentTypeKey(contentType).Some? ==> key == OwnContentTypeKey(contentType)
    ensures OwnContentTypeKey(contentType).None? ==> (key.Some? <==> InheritedName(contentType))
  {
    match OwnContentTypeKey(contentType)
    case Some(k) => Some(k)
    case None => if InheritedName(contentType) then Some(NativeKey(contentType)) else None
  }

  /** A row whose content type is `toString` is counted under the source
      text of `Object.prototype.toString`. */
  lemma ToStringTypeCounted()
    ensures OwnContentTypeKey("toString").None?
    ensures ContentTypeKey("toString") == Some("function " + "toString" + "() { [native code] }")
  {
    ToStringNotOwn();
    assert InheritedName("toString");
    assert "toString" != "__proto__" && "toString" != "constructor";
  }

  lemma ToStringNotOwn()
    ensures OwnContentTypeKey("toString").None?
  {
  }

  /** A row whose content type is `__proto__` is counted under
      "[object Object]". */
  lemma ProtoTypeCounted()
    ensures OwnContentTypeKey("__proto__").None?
    ensures ContentTypeKey("__proto__") == Some("[object Object]")
  {
  }

  /** Two content types share a key: parenting is counted as a life class. */
  lemma SharedKey()
    ensures ContentTypeKey("parenting") == ContentTypeKey("life_class") == Some("life-class")
    ensures ContentTypeKey("gave_elsewhere") == Some("tzedaka") && ContentTypeKey("Tzedaka") == None
  {
    ParentingKey();
    LifeClassKey();
    GaveElsewhereKey();
    CategoryIsNotType();
  }

  lemma ParentingKey()
    ensures ContentTypeKey("parenting") == Some("life-class")
  {
  }

  lemma LifeClassKey()
    ensures ContentTypeKey("life_class") == Some("life-class")
  {
  }

  lemma GaveElsewhereKey()
    ensures ContentTypeKey("gave_elsewhere") == Some("tzedaka")
  {
  }

  lemma CategoryIsNotType()
    ensures ContentTypeKey("Tzedaka") == None
  {
  }

  datatype Row = Row(category: string, contentType: string)

  datatype Query = NoClient | QueryError | Rows(rows: seq<Row>)

  datatype Stats = Stats(totalActs: nat, tzedakaActs: nat, tehillimCompleted: nat, meditationsCompleted: nat,
                         modalCompletions: map<string, nat>)

  const NoStats := Stats(0, 0, 0, 0, map[])

  predicate IsTzedaka(row: Row) { row.category == "Tzedaka" }
  predicate IsTehillim(row: Row) { row.contentType == "tehillim" }
  predicate IsMeditation(row: Row) { row.contentType == "meditation" }
  predicate IsMapped(row: Row) { ContentTypeKey(row.contentType).Some? }

  function Get(m: map<string, nat>, k: string): nat {
    if k in m then m[k] else 0
  }

  /** One more row counted under `key`, if it has one. */
  function Bump(m: map<string, nat>, key: Option<string>): map<string, nat> {
    if key.Some? then m[key.value := Get(m, key.value) + 1] else m
  }

  /** The modal counts of the rows. */
  function Tally(rows: seq<Row>): map<string, nat> {
    if rows == [] then map[]
    else Bump(Tally(rows[..|rows| - 1]), ContentTypeKey(rows[|rows| - 1].contentType))
  }

  lemma TallySnoc(rows: seq<Row>, i: nat)
    requires i < |rows|
    ensures Tally(rows[..i + 1]) == Bump(Tally(rows[..i]), ContentTypeKey(rows[i].contentType))
  {
    assert rows[..i + 1][..i] == rows[..i];
  }

  /** Two count maps with the same keys and the same counts are equal. */
  lemma SameCounts(a: map<string, nat>, b: map<string, nat>)
    requires a.Keys == b.Keys && forall k :: Get(a, k) == Get(b, k)
    ensures a == b
  {
    assert forall k | k in a :: a[k] == Get(a, k) == Get(b, k) == b[k];
  }

  /** The counts of a period's rows. */
  function Aggregate(rows: seq<Row>): Stats {
    Stats(|rows|, CountWhere(rows, IsTzedaka), CountWhere(rows, IsTehillim), CountWhere(rows, IsMeditation), Tally(rows))
  }

  /** A key's count is the number of rows whose content type maps to it,
      and only keys with a row appear. */
  lemma {:induction false} TallyCounts(rows: seq<Row>, key: string)
    ensures Get(Tally(rows), key) == CountWhere(rows, (row: Row) => ContentTypeKey(row.contentType) == Some(key))
    ensures key in Tally(rows) <==> Get(Tally(rows), key) > 0
    decreases |rows|
  {
    if rows != [] {
      TallyCounts(rows[..|rows| - 1], key);
    }
  }

  // ---- The sum of the counts ----

  /** The sum of the counts under `keys` (such as `Object.keys(m)`). */
  function Total(m: map<string, nat>, keys: seq<string>): nat {
    if keys == [] then 0 else Total(m, keys[..|keys| - 1]) + Get(m, keys[|keys| - 1])
  }

  lemma {:induction false} TotalEmpty(keys: seq<string>)
    ensures Total(map[], keys) == 0
    decreases |keys|
  {
    if keys != [] {
      TotalEmpty(keys[..|keys| - 1]);
    }
  }

  predicate KeyIn(row: Row, keys: seq<string>) {
    var key := ContentTypeKey(row.contentType);
    key.Some? && key.value in keys
  }

  lemma {:induction false} TotalBump(m: map<string, nat>, key: Option<string>, keys: seq<string>)
    requires Distinct(keys)
    ensures Total(Bump(m, key), keys) == Total(m, keys) + (if key.Some? && key.value in keys then 1 else 0)
    decreases |keys|
  {
    if keys != [] {
      var init, last := keys[..|keys| - 1], keys[|keys| - 1];
      assert Distinct(init);
      assert last !in init;
      TotalBump(m, key, init);
      InitLast(keys);
      assert key.Some? && key.value in keys <==> (key.Some? && key.value in init) || key == Some(last);
    }
  }

  /** Summed over any list of distinct keys, the modal counts give the rows
      whose content type maps into the list: never more than the rows. */
  lemma {:induction false} TallyTotal(rows: seq<Row>, keys: seq<string>)
    requires Distinct(keys)
    ensures Total(Tally(rows), keys) == CountWhere(rows, (row: Row) => KeyIn(row, keys)) <= |rows|
    decreases |rows|
  {
    if rows == [] {
      TotalEmpty(keys);
    } else {
      var init, last := rows[..|rows| - 1], rows[|rows| - 1];
      TallyTotal(init, keys);
      TotalBump(Tally(init), ContentTypeKey(last.contentType), keys);
      var p := (row: Row) => KeyIn(row, keys);
      assert CountWhere(rows, p) == CountWhere(init, p) + (if p(last) then 1 else 0);
      assert Tally(rows) == Bump(Tally(init), ContentTypeKey(last.contentType));
    }
  }

  /** Every count of a period is at most its number of rows. */
  lemma AggregateBounds(rows: seq<Row>)
    ensures var s := Aggregate(rows);
      s.totalActs == |rows| && s.tzedakaActs <= s.totalActs && s.tehillimCompleted <= s.totalActs
      && s.meditationsCompleted <= s.totalActs
      && forall keys :: Distinct(keys) ==> Total(s.modalCompletions, keys) <= s.totalActs
  {
    forall keys | Distinct(keys) ensures Total(Tally(rows), keys) <= |rows| {
      TallyTotal(rows, keys);
    }
  }

  /** The body of the counting loop for one row. */
  method CountRow(row: Row, tzedaka: nat, tehillim: nat, meditations: nat, modal: map<string, nat>)
    returns (tzedaka': nat, tehillim': nat, meditations': nat, modal': map<string, nat>)
    ensures tzedaka' == tzedaka + (if IsTzedaka(row) then 1 else 0)
    ensures tehillim' == tehillim + (if IsTehillim(row) then 1 else 0)
    ensures meditations' == meditations + (if IsMeditation(row) then 1 else 0)
    ensures modal' == Bump(modal, ContentTypeKey(row.contentType))
  {
    tzedaka', tehillim', meditations', modal' := tzedaka, tehillim, meditations, modal;
    if row.category == "Tzedaka" {
      tzedaka' := tzedaka' + 1;
    }
    if row.contentType == "tehillim" {
      tehillim' := tehillim' + 1;
    }
    if row.contentType == "meditation" {
      meditations' := meditations' + 1;
    }
    var mappedKey := ContentTypeKey(row.contentType);
    if mappedKey.Some? {
      var previous := Get(modal', mappedKey.value);
      modal' := modal'[mappedKey.value := previous + 1];
    }
  }

  /** `getAppCompletionsForPeriod`: no client or a failed query gives all
      zeros; otherwise the loop counts the rows. */
  method GetAppCompletionsForPeriod(query: Query) returns (result: Stats)
    ensures result == if query.Rows? then Aggregate(query.rows) else NoStats
  {
    result := NoStats;
    if !query.Rows? {
      return;
    }
    var data := query.rows;
    if |data| == 0 {
      return;
    }
    var tzedaka, tehillim, meditations := 0, 0, 0;
    var modal: map<string, nat> := map[];
    for i := 0 to |data|
      invariant tzedaka == CountWhere(data[..i], IsTzedaka)
      invariant tehillim == CountWhere(data[..i], IsTehillim)
      invariant meditations == CountWhere(data[..i], IsMeditation)
      invariant modal == Tally(data[..i])
    {
      CountWhereSnoc(data, i, IsTzedaka);
      CountWhereSnoc(data, i, IsTehillim);
      CountWhereSnoc(data, i, IsMeditation);
      TallySnoc(data, i);
      tzedaka, tehillim, meditations, modal := CountRow(data[i], tzedaka, tehillim, meditations, modal);
    }
    assert data[..|data|] == data;
    result := Stats(|data|, tzedaka, tehillim, meditations, modal);
  }

  // ---- mergeAppCompletions ----

  /** Key-wise sum of two count maps. */
  function Added(target: map<string, nat>, add: map<string, nat>): (r: map<string, nat>)
    ensures r.Keys == target.Keys + add.Keys
    ensures forall k {:trigger Get(r, k)} :: Get(r, k) == Get(target, k) + Get(add, k)
  {
    map k | k in target.Keys + add.Keys :: Get(target, k) + Get(add, k)
  }

  /** Merging adds the app's totals to the web's, over any list of keys. */
  lemma {:induction false} AddedTotal(target: map<string, nat>, add: map<string, nat>, keys: seq<string>)
    ensures Total(Added(target, add), keys) == Total(target, keys) + Total(add, keys)
    decreases |keys|
  {
    if keys != [] {
      AddedTotal(target, add, keys[..|keys| - 1]);
    }
  }

  /** The loop over `Object.entries(appStats.modalCompletions)`. */
  method AddCounts(target: map<string, nat>, add: map<string, nat>) returns (r: map<string, nat>)
    ensures r == Added(target, add)
  {
    var keys := KeyList(add.Keys);
    r := target;
    for i := 0 to |keys|
      invariant forall k :: k in r <==> k in target || k in keys[..i]
      invariant forall k :: Get(r, k) == Get(target, k) + (if k in keys[..i] then Get(add, k) else 0)
    {
      var key := keys[i];
      PrefixSnoc(keys, i);
      assert key !in keys[..i];
      r := r[key := (if key in r then r[key] else 0) + add[key]];
    }
    assert keys[..|keys|] == keys;
    AddedFromCounts(r, target, add, keys);
  }

  /** A map holding, over the keys of either side, the sum of both counts
      is the merged map. */
  lemma AddedFromCounts(r: map<string, nat>, target: map<string, nat>, add: map<string, nat>, keys: seq<string>)
    requires forall k :: k in keys <==> k in add
    requires forall k :: k in r <==> k in target || k in keys
    requires forall k :: Get(r, k) == Get(target, k) + (if k in keys then Get(add, k) else 0)
    ensures r == Added(target, add)
  {
    assert r.Keys == Added(target, add).Keys;
    SameCounts(r, Added(target, add));
  }

  /** The web statistics object; a field that is absent is `None`. */
  class WebStats {
    var totalActs: Option<nat>
    var tzedakaActs: Option<nat>
    var totalTzedakaActs: Option<nat>
    var tehillimCompleted: Option<nat>
    var totalTehillimCompleted: Option<nat>
    var meditationsCompleted: Option<nat>
    var totalMeditationsCompleted: Option<nat>
    var modalCompletions: Option<map<string, nat>>
    var totalModalCompletions: Option<map<string, nat>>

    constructor (totalActs: Option<nat>, tzedakaActs: Option<nat>, totalTzedakaActs: Option<nat>,
                 tehillimCompleted: Option<nat>, totalTehillimCompleted: Option<nat>,
                 meditationsCompleted: Option<nat>, totalMeditationsCompleted: Option<nat>,
                 modalCompletions: Option<map<string, nat>>, totalModalCompletions: Option<map<string, nat>>)
      ensures this.totalActs == totalActs && this.tzedakaActs == tzedakaActs && this.totalTzedakaActs == totalTzedakaActs
      ensures this.tehillimCompleted == tehillimCompleted && this.totalTehillimCompleted == totalTehillimCompleted
      ensures this.meditationsCompleted == meditationsCompleted && this.totalMeditationsCompleted == totalMeditationsCompleted
      ensures this.modalCompletions == modalCompletions && this.totalModalCompletions == totalModalCompletions
    {
      this.totalActs, this.tzedakaActs, this.totalTzedakaActs := totalActs, tzedakaActs, totalTzedakaActs;
      this.tehillimCompleted, this.totalTehillimCompleted := tehillimCompleted, totalTehillimCompleted;
      this.meditationsCompleted, this.totalMeditationsCompleted := meditationsCompleted, totalMeditationsCompleted;
      this.modalCompletions, this.totalModalCompletions := modalCompletions, totalModalCompletions;
    }
  }

  /** A present field gains the app's count; an absent one stays absent. */
  function AddTo(field: Option<nat>, n: nat): (r: Option<nat>)
    ensures r.Some? <==> field.Some?
    ensures r.Some? ==> r.value == field.value + n
  {
    if field.Some? then Some(field.value + n) else None
  }

  /** `mergeAppCompletions`: each count present on the web side gains the
      matching app count; the modal counts go key-wise into
      `modalCompletions`, or into `totalModalCompletions` when the former
      is absent. */
  method MergeAppCompletions(web: WebStats, app: Stats)
    modifies web
    ensures web.totalActs == AddTo(old(web.totalActs), app.totalActs)
    ensures web.tzedakaActs == AddTo(old(web.tzedakaActs), app.tzedakaActs)
    ensures web.totalTzedakaActs == AddTo(old(web.totalTzedakaActs), app.tzedakaActs)
    ensures web.tehillimCompleted == AddTo(old(web.tehillimCompleted), app.tehillimCompleted)
    ensures web.totalTehillimCompleted == AddTo(old(web.totalTehillimCompleted), app.tehillimCompleted)
    ensures web.meditationsCompleted == AddTo(old(web.meditationsCompleted), app.meditationsCompleted)
    ensures web.totalMeditationsCompleted == AddTo(old(web.totalMeditationsCompleted), app.meditationsCompleted)
    ensures old(web.modalCompletions).Some? ==>
      web.modalCompletions == Some(Added(old(web.modalCompletions).value, app.modalCompletions))
      && web.totalModalCompletions == old(web.totalModalCompletions)
    ensures old(web.modalCompletions).None? && old(web.totalModalCompletions).Some? ==>
      web.totalModalCompletions == Some(Added(old(web.totalModalCompletions).value, app.modalCompletions))
      && web.modalCompletions == None
    ensures old(web.modalCompletions).None? && old(web.totalModalCompletions).None? ==>
      web.modalCompletions == None && web.totalModalCompletions == None
  {
    web.totalActs := AddTo(web.totalActs, app.totalActs);
    web.tzedakaActs := AddTo(web.tzedakaActs, app.tzedakaActs);
    web.totalTzedakaActs := AddTo(web.totalTzedakaActs, app.tzedakaActs);
    web.tehillimCompleted := AddTo(web.tehillimCompleted, app.tehillimCompleted);
    web.totalTehillimCompleted := AddTo(web.totalTehillimCompleted, app.tehillimCompleted);
    web.meditationsCompleted := AddTo(web.meditationsCompleted, app.meditationsCompleted);
    web.totalMeditationsCompleted := AddTo(web.totalMeditationsCompleted, app.meditationsCompleted);
    if web.modalCompletions.Some? {
      var merged := AddCounts(web.modalCompletions.value, app.modalCompletions);
      web.modalCompletions := Some(merged);
    } else if web.totalModalCompletions.Some? {
      var merged := AddCounts(web.totalModalCompletions.value, app.modalCompletions);
      web.totalModalCompletions := Some(merged);
    }
  }
}

=== FILE: app_resume_coordinator.dfy ===
// The resume coordinator (client/src/lib/app-resume-coordinator.ts): one
// listener decides, when the app comes back from the background, whether
// to reload the page, to do nothing, or to run the registered recovery
// callbacks one after another.
//
// `Date.now()` is a parameter. A recovery callback is named by a number,
// and running it appends that number to `ran`; a scheduled page reload is
// counted in `reloads`. The 200 ms debounce splits a recovery into
// `HandleResume`, which starts it, and `RunRecovery`, which finishes it.

module AppResumeCoordinator {
  import opened Text

  datatype ResumeConfig = ResumeConfig(minBackgroundTimeForRecovery: int, debounceTime: int, reloadThreshold: int)

  /** The defaults of the app's single coordinator. */
  const DefaultConfig := ResumeConfig(2000, 200, 30000)

  /** What a resume leads to. */
  datatype Outcome = Ignored | Reload | TooShort | Recover

  /** The decision of `handleResume` and the new background time and
      recovering flag. */
  function Resume(config: ResumeConfig, lastBackground: int, recovering: bool, now: int): (Outcome, int, bool) {
    if recovering || lastBackground == 0 then (Ignored, lastBackground, recovering)
    else if now - lastBackground > config.reloadThreshold then (Reload, lastBackground, recovering)
    else if now - lastBackground < config.minBackgroundTimeForRecovery then (TooShort, 0, recovering)
    else (Recover, 0, true)
  }

  /** Nothing happens while a recovery runs or when the app never went to
      the background; a background longer than the reload threshold
      reloads; one shorter than the minimum only forgets the timestamp;
      anything between starts a recovery. */
  lemma ResumeRule(config: ResumeConfig, lastBackground: int, recovering: bool, now: int)
    ensures var (outcome, last, rec) := Resume(config, lastBackground, recovering, now);
      (outcome == Ignored <==> recovering || lastBackground == 0)
      && (outcome == Reload <==> !recovering && lastBackground != 0 && now - lastBackground > config.reloadThreshold)
      && (outcome == Recover <==>
            (!recovering && lastBackground != 0
             && config.minBackgroundTimeForRecovery <= now - lastBackground <= config.reloadThreshold))
      && (outcome == TooShort || outcome == Recover ==> last == 0)
      && (outcome != Recover ==> rec == recovering)
  {
  }

  /** Once a resume has been handled, a second resume signal (the focus
      event after the visibility event) does nothing until the app goes
      to the background again or a pending reload happens. */
  lemma NoSecondRecovery(config: ResumeConfig, lastBackground: int, recovering: bool, now: int, later: int)
    ensures var (outcome, last, rec) := Resume(config, lastBackground, recovering, now);
      outcome != Reload ==> Resume(config, last, rec, later).0 == Ignored
  {
  }

  /** The callbacks of `keys`, in order. */
  function Values(keys: seq<string>, callbacks: map<string, nat>): (r: seq<nat>)
    requires forall k :: k in keys ==> k in callbacks
    ensures |r| == |keys|
  {
    if keys == [] then [] else Values(keys[..|keys| - 1], callbacks) + [callbacks[keys[|keys| - 1]]]
  }

  lemma ValuesPrefix(keys: seq<string>, callbacks: map<string, nat>, i: nat)
    requires i < |keys| && forall k :: k in keys ==> k in callbacks
    ensures Values(keys[..i + 1], callbacks) == Values(keys[..i], callbacks) + [callbacks[keys[i]]]
  {
    assert keys[..i + 1][..i] == keys[..i];
  }

  class Coordinator {
    const config: ResumeConfig
    var lastBackgroundTime: int
    var recovering: bool
    var initialized: bool
    /** The keys of `recoveryCallbacks` in insertion order, and the callbacks. */
    var order: seq<string>
    var callbacks: map<string, nat>
    var ran: seq<nat>
    var reloads: nat

    ghost predicate Valid()
      reads this
    {
      Distinct(order) && (forall k :: k in order ==> k in callbacks) && (forall k :: k in callbacks ==> k in order)
    }

    constructor (config: ResumeConfig)
      ensures this.config == config && lastBackgroundTime == 0 && !recovering && !initialized
      ensures order == [] && callbacks == map[] && ran == [] && reloads == 0 && Valid()
    {
      this.config := config;
      lastBackgroundTime := 0;
      recovering := false;
      initialized := false;
      order, callbacks := [], map[];
      ran := [];
      reloads := 0;
    }

    /** `init`: the listeners are added once. */
    method Init()
      modifies this
      ensures initialized
      ensures lastBackgroundTime == old(lastBackgroundTime) && recovering == old(recovering)
      ensures order == old(order) && callbacks == old(callbacks) && ran == old(ran) && reloads == old(reloads)
    {
      initialized := true;
    }

    /** `handleBackground`. */
    method HandleBackground(now: int)
      modifies this
      ensures lastBackgroundTime == now && recovering == old(recovering) && initialized == old(initialized)
      ensures order == old(order) && callbacks == old(callbacks) && ran == old(ran) && reloads == old(reloads)
    {
      lastBackgroundTime := now;
    }

    /** `handleResume` up to the debounce: a reload is scheduled, or the
        timestamp forgotten, or a recovery started. */
    method HandleResume(now: int) returns (outcome: Outcome)
      modifies this
      ensures (outcome, lastBackgroundTime, recovering) == Resume(config, old(lastBackgroundTime), old(recovering), now)
      ensures reloads == old(reloads) + (if outcome == Reload then 1 else 0)
      ensures order == old(order) && callbacks == old(callbacks) && ran == old(ran) && initialized == old(initialized)
    {
      if recovering {
        return Ignored;
      }
      if lastBackgroundTime == 0 {
        return Ignored;
      }
      var timeInBackground := now - lastBackgroundTime;
      if timeInBackground > config.reloadThreshold {
        reloads := reloads + 1;
        return Reload;
      }
      if timeInBackground < config.minBackgroundTimeForRecovery {
        lastBackgroundTime := 0;
        return TooShort;
      }
      recovering := true;
      lastBackgroundTime := 0;
      return Recover;
    }

    /** The rest of `handleResume` after the debounce: every callback
        registered at that moment runs once, in registration order (a
        failing one does not stop the others), and the recovery ends. */
    method RunRecovery()
      requires Valid()
      modifies this
      ensures ran == old(ran) + Values(old(order), old(callbacks)) && !recovering
      ensures lastBackgroundTime == old(lastBackgroundTime) && order == old(order) && callbacks == old(callbacks)
      ensures reloads == old(reloads) && initialized == old(initialized) && Valid()
    {
      var snapshot := order;
      for i := 0 to |snapshot|
        invariant order == old(order) && callbacks == old(callbacks) && lastBackgroundTime == old(lastBackgroundTime)
        invariant reloads == old(reloads) && initialized == old(initialized) && snapshot == order && Valid()
        invariant ran == old(ran) + Values(snapshot[..i], callbacks)
      {
        ValuesPrefix(snapshot, callbacks, i);
        ran := ran + [callbacks[snapshot[i]]];
      }
      assert snapshot[..|snapshot|] == snapshot;
      recovering := false;
    }

    /** The `visibilitychange` listener. */
    method VisibilityChange(hidden: bool, now: int) returns (outcome: Outcome)
      modifies this
      ensures hidden ==> outcome == Ignored && lastBackgroundTime == now && recovering == old(recovering) && reloads == old(reloads)
      ensures !hidden ==> (outcome, lastBackgroundTime, recovering) == Resume(config, old(lastBackgroundTime), old(recovering), now)
      ensures order == old(order) && callbacks == old(callbacks) && ran == old(ran) && initialized == old(initialized)
    {
      if hidden {
        HandleBackground(now);
        outcome := Ignored;
      } else {
        outcome := HandleResume(now);
      }
    }

    /** The `focus` listener: a resume, but only when visible and after a
        background. */
    method Focus(visible: bool, now: int) returns (outcome: Outcome)
      modifies this
      ensures visible && old(lastBackgroundTime) > 0 ==>
        (outcome, lastBackgroundTime, recovering) == Resume(config, old(lastBackgroundTime), old(recovering), now)
      ensures !(visible && old(lastBackgroundTime) > 0) ==>
        outcome == Ignored && lastBackgroundTime == old(lastBackgroundTime) && recovering == old(recovering) && reloads == old(reloads)
      ensures order == old(order) && callbacks == old(callbacks) && ran == old(ran) && initialized == old(initialized)
    {
      outcome := Ignored;
      if visible && lastBackgroundTime > 0 {
        outcome := HandleResume(now);
      }
    }

    /** The `pageshow` listener: a page restored from the back-forward
        cache (`persisted`) is reloaded at once; any other page show does
        nothing. */
    method PageShow(persisted: bool)
      modifies this
      ensures reloads == old(reloads) + (if persisted then 1 else 0)
      ensures lastBackgroundTime == old(lastBackgroundTime) && recovering == old(recovering)
      ensures order == old(order) && callbacks == old(callbacks) && ran == old(ran) && initialized == old(initialized)
    {
      if persisted {
        reloads := reloads + 1;
      }
    }

    /** `registerRecoveryCallback`: one callback per id; registering an id
        again replaces its callback and keeps its place. */
    method RegisterRecoveryCallback(id: string, callback: nat)
      requires Valid()
      modifies this
      ensures callbacks == old(callbacks)[id := callback]
      ensures order == (if id in old(callbacks) then old(order) else old(order) + [id])
      ensures lastBackgroundTime == old(lastBackgroundTime) && recovering == old(recovering)
      ensures ran == old(ran) && reloads == old(reloads) && initialized == old(initialized) && Valid()
    {
      if id !in callbacks {
        order := order + [id];
      }
      callbacks := callbacks[id := callback];
    }

    /** The unsubscribe function `registerRecoveryCallback` returns. */
    method Unregister(id: string)
      requires Valid()
      modifies this
      ensures callbacks == old(callbacks) - {id} && order == Without(old(order), id)
      ensures lastBackgroundTime == old(lastBackgroundTime) && recovering == old(recovering)
      ensures ran == old(ran) && reloads == old(reloads) && initialized == old(initialized) && Valid()
    {
      order := Without(order, id);
      callbacks := callbacks - {id};
    }

    /** `getTimeSinceBackground`. */
    method GetTimeSinceBackground(now: int) returns (elapsed: int)
      ensures lastBackgroundTime == 0 ==> elapsed == 0
      ensures lastBackgroundTime != 0 ==> elapsed == now - lastBackgroundTime
    {
      if lastBackgroundTime == 0 {
        return 0;
      }
      return now - lastBackgroundTime;
    }
  }
}

=== FILE: back_button_history.dfy ===
// The back-button hooks (client/src/hooks/use-back-button-history.ts):
// the registry of open overlays in insertion order, the count of history
// entries the hooks have pushed, and the flag that ignores the popstate
// caused by the hooks' own navigation.
//
// The module's variables become the fields of one object; a close callback
// is named by a number and calling it appends that number to `closed`.
// A hook instance's refs (`wasOpenRef`, `closeCallbackRef`) are passed in
// and handed back.

module BackButtonHistory {
  import opened Text
  import opened BrowserHistory

  class Registry {
    /** The keys of `activeModals` in insertion order, and their callbacks. */
    var order: seq<string>
    var closes: map<string, nat>
    var depth: int
    var navigating: bool
    var listenerAdded: bool
    var history: seq<HistoryState>
    var closed: seq<nat>

    ghost predicate Valid()
      reads this
    {
      depth >= 0 && Distinct(order)
      && (forall k :: k in order ==> k in closes) && (forall k :: k in closes ==> k in order)
    }

    constructor (initial: seq<HistoryState>)
      ensures order == [] && closes == map[] && depth == 0 && !navigating && !listenerAdded
      ensures history == initial && closed == [] && Valid()
    {
      order, closes := [], map[];
      depth := 0;
      navigating, listenerAdded := false, false;
      history := initial;
      closed := [];
    }

    /** `activeModals.set(id, …)`: a new id goes last, a known one keeps its
        place and gets the new callback. */
    method Put(id: string, close: nat)
      requires Valid()
      modifies this
      ensures order == (if id in old(closes) then old(order) else old(order) + [id])
      ensures closes == old(closes)[id := close]
      ensures depth == old(depth) && navigating == old(navigating) && listenerAdded == old(listenerAdded)
      ensures history == old(history) && closed == old(closed) && Valid()
    {
      if id !in closes {
        order := order + [id];
      }
      closes := closes[id := close];
    }

    /** `activeModals.delete(id)`. */
    method Delete(id: string)
      requires Valid()
      modifies this
      ensures order == Without(old(order), id) && closes == old(closes) - {id}
      ensures depth == old(depth) && navigating == old(navigating) && listenerAdded == old(listenerAdded)
      ensures history == old(history) && closed == old(closed) && Valid()
    {
      order := Without(order, id);
      closes := closes - {id};
    }

    /** `handleGlobalPopstate`: unless the hooks are navigating, the most
        recently added overlay is closed and removed and the depth drops
        by one, never below zero. */
    method HandleGlobalPopstate()
      requires Valid()
      modifies this
      ensures old(navigating) || old(order) == [] ==>
        order == old(order) && closes == old(closes) && depth == old(depth) && closed == old(closed) && navigating == old(navigating)
      ensures !old(navigating) && old(order) != [] ==>
        var last := old(order)[|old(order)| - 1];
        order == old(order)[..|old(order)| - 1] && closes == old(closes) - {last}
        && closed == old(closed) + [old(closes)[last]]
        && depth == (if old(depth) > 0 then old(depth) - 1 else 0) && navigating
      ensures history == old(history) && listenerAdded == old(listenerAdded) && Valid()
    {
      if navigating {
        return;
      }
      if order != [] {
        var last := order[|order| - 1];
        var close := closes[last];
        navigating := true;
        closed := closed + [close];
        LastWithout(order);
        Delete(last);
        depth := if depth - 1 > 0 then depth - 1 else 0;
      }
    }

    /** The 50 ms timer after the hooks navigate. */
    method TimerFires()
      modifies this
      ensures !navigating
      ensures order == old(order) && closes == old(closes) && depth == old(depth)
      ensures history == old(history) && closed == old(closed) && listenerAdded == old(listenerAdded)
    {
      navigating := false;
    }

    /** Leaving the entry pushed for a closed overlay, when there is one
        and the hooks are not navigating already. */
    method GoBack()
      requires Valid()
      modifies this
      ensures !old(navigating) && old(depth) > 0 ==>
        depth == old(depth) - 1 && history == Back(old(history)) && navigating
      ensures old(navigating) || old(depth) <= 0 ==>
        depth == old(depth) && history == old(history) && navigating == old(navigating)
      ensures order == old(order) && closes == old(closes) && closed == old(closed)
      ensures listenerAdded == old(listenerAdded) && Valid()
    {
      if !navigating && depth > 0 {
        navigating := true;
        depth := depth - 1;
        history := Back(history);
      }
    }

    /** The body of `useBackButtonHistory`'s effect for one change of
        `isOpen` (`None` when the prop is undefined). Opening pushes one
        entry, counts it and registers the overlay; closing a registered
        overlay removes it and goes back once. Returns the new
        `wasOpenRef`. */
    method OpenStateEffect(id: string, close: nat, isOpen: Option<bool>, wasOpen: bool) returns (wasOpenAfter: bool)
      requires Valid()
      modifies this
      ensures isOpen.None? ==>
        wasOpenAfter == wasOpen && order == old(order) && closes == old(closes) && depth == old(depth)
        && history == old(history) && navigating == old(navigating)
      ensures isOpen == Some(true) && !wasOpen && !old(navigating) ==>
        history == old(history) + [ModalState(id, old(depth) + 1)] && depth == old(depth) + 1
        && closes == old(closes)[id := close] && order == (if id in old(closes) then old(order) else old(order) + [id])
        && !navigating
      ensures isOpen == Some(false) && wasOpen && id in old(closes) ==>
        order == Without(old(order), id) && closes == old(closes) - {id}
        && (!old(navigating) && old(depth) > 0 ==> depth == old(depth) - 1 && history == Back(old(history)) && navigating)
        && (old(navigating) || old(depth) == 0 ==> depth == old(depth) && history == old(history) && navigating == old(navigating))
      ensures isOpen.Some? && (isOpen.value == wasOpen || (isOpen.value && old(navigating)) || (!isOpen.value && id !in old(closes))) ==>
        order == old(order) && closes == old(closes) && depth == old(depth) && history == old(history)
        && navigating == old(navigating)
      ensures isOpen.Some? ==> wasOpenAfter == isOpen.value
      ensures closed == old(closed) && listenerAdded == old(listenerAdded) && Valid()
    {
      if isOpen.None? {
        return wasOpen;
      }
      wasOpenAfter := isOpen.value;
      if isOpen.value && !wasOpen {
        if !navigating {
          history := history + [ModalState(id, depth + 1)];
          depth := depth + 1;
          Put(id, close);
        }
      }
      if !isOpen.value && wasOpen {
        if id in closes {
          Delete(id);
          GoBack();
        }
      }
    }

    /** The effect's cleanup, and the unmount cleanup: the id is dropped
        from the registry without touching history. */
    method Cleanup(id: string)
      requires Valid()
      modifies this
      ensures order == Without(old(order), id) && closes == old(closes) - {id}
      ensures depth == old(depth) && navigating == old(navigating) && listenerAdded == old(listenerAdded)
      ensures history == old(history) && closed == old(closed) && Valid()
    {
      if id in closes {
        Delete(id);
      } else {
        WithoutAbsent(order, id);
      }
    }

    /** What React does when `isOpen` changes: the previous run's cleanup,
        then the effect. The cleanup has already dropped the overlay when
        the closing branch looks for it, so closing an overlay this way
        never goes back in history and never lowers the depth. */
    method Rerender(id: string, close: nat, isOpen: Option<bool>, wasOpen: bool) returns (wasOpenAfter: bool)
      requires Valid()
      modifies this
      ensures isOpen == Some(false) ==>
        depth == old(depth) && history == old(history) && navigating == old(navigating)
        && id !in closes && order == Without(old(order), id)
      ensures closed == old(closed) && Valid()
    {
      Cleanup(id);
      wasOpenAfter := OpenStateEffect(id, close, isOpen, wasOpen);
    }

    /** `useBackButtonModal`'s `open`; returns the new callback ref. */
    method Open(id: string, onClose: nat, ref: Option<nat>) returns (refAfter: Option<nat>)
      requires Valid()
      modifies this
      ensures old(navigating) ==>
        refAfter == ref && order == old(order) && closes == old(closes) && depth == old(depth) && history == old(history)
      ensures !old(navigating) ==>
        refAfter == Some(onClose) && history == old(history) + [ModalState(id, old(depth) + 1)]
        && depth == old(depth) + 1 && closes == old(closes)[id := onClose]
        && order == (if id in old(closes) then old(order) else old(order) + [id])
      ensures navigating == old(navigating) && closed == old(closed) && listenerAdded == old(listenerAdded) && Valid()
    {
      refAfter := ref;
      if !navigating {
        refAfter := Some(onClose);
        history := history + [ModalState(id, depth + 1)];
        depth := depth + 1;
        Put(id, onClose);
      }
    }

    /** `useBackButtonModal`'s `close`: a registered overlay is removed, its
        callback called, and history goes back once. */
    method Close(id: string, ref: Option<nat>)
      requires Valid()
      modifies this
      ensures id !in old(closes) ==>
        order == old(order) && closes == old(closes) && depth == old(depth) && history == old(history)
        && closed == old(closed) && navigating == old(navigating)
      ensures id in old(closes) ==>
        order == Without(old(order), id) && closes == old(closes) - {id}
        && closed == old(closed) + (if ref.Some? then [ref.value] else [])
        && (!old(navigating) && old(depth) > 0 ==> depth == old(depth) - 1 && history == Back(old(history)) && navigating)
        && (old(navigating) || old(depth) == 0 ==> depth == old(depth) && history == old(history) && navigating == old(navigating))
      ensures listenerAdded == old(listenerAdded) && Valid()
    {
      if id in closes {
        Delete(id);
        if ref.Some? {
          closed := closed + [ref.value];
        }
        GoBack();
      }
    }

    method EnsurePopstateListener()
      modifies this
      ensures listenerAdded
      ensures order == old(order) && closes == old(closes) && depth == old(depth) && navigating == old(navigating)
      ensures history == old(history) && closed == old(closed)
    {
      listenerAdded := true;
    }

    method EnsureBaseHistoryEntry()
      modifies this
      ensures history == EnsureBase(old(history))
      ensures order == old(order) && closes == old(closes) && depth == old(depth) && navigating == old(navigating)
      ensures closed == old(closed) && listenerAdded == old(listenerAdded)
    {
      history := EnsureBase(history);
    }

    method GetActiveModalCount() returns (n: nat)
      requires Valid()
      ensures n == |closes| && n == |order|
    {
      DistinctCardinality(order, closes.Keys);
      n := |closes|;
    }
  }

  /** Dropping the last of distinct keys leaves the ones before it. */
  lemma LastWithout(s: seq<string>)
    requires Distinct(s) && s != []
    ensures Without(s, s[|s| - 1]) == s[..|s| - 1]
  {
    var init := s[..|s| - 1];
    assert s[|s| - 1] !in init;
    WithoutAbsent(init, s[|s| - 1]);
    WithoutAppend(init, s[|s| - 1]);
    InitLast(s);
  }

  lemma {:induction false} WithoutAppend(s: seq<string>, k: string)
    ensures Without(s + [k], k) == Without(s, k)
    decreases |s|
  {
    if s == [] {
      assert ([] + [k])[1..] == [];
    } else {
      assert (s + [k])[1..] == s[1..] + [k];
      WithoutAppend(s[1..], k);
    }
  }

  lemma {:induction false} WithoutAbsent(s: seq<string>, k: string)
    requires k !in s
    ensures Without(s, k) == s
    decreases |s|
  {
    if s != [] {
      WithoutAbsent(s[1..], k);
      assert s == [s[0]] + s[1..];
    }
  }

  /** A list of distinct keys is as long as the set it lists. */
  lemma {:induction false} DistinctCardinality(s: seq<string>, keys: set<string>)
    requires Distinct(s) && forall k :: k in s <==> k in keys
    ensures |keys| == |s|
    decreases |s|
  {
    if s != [] {
      var last := s[|s| - 1];
      var init := s[..|s| - 1];
      assert last !in init;
      assert forall k :: k in init <==> k in keys - {last} by {
        InitLast(s);
      }
      DistinctCardinality(init, keys - {last});
    }
  }
}

=== FILE: browser_history.dfy ===
// The part of the browser's session history that the modal hooks use:
// the entries up to the current one, with the state object of each.
// `pushState` adds an entry, `replaceState` overwrites the current one and
// `back` leaves the current one.

module BrowserHistory {
  /** The state objects the app writes; `Null` is an entry without state. */
  datatype HistoryState =
    | Null
    | ModalState(modal: string, depth: int)
    | SharedModalState(modal: string)
    | BaseState(buffer: bool)

  /** `window.history.state`. */
  function Current(h: seq<HistoryState>): HistoryState {
    if h == [] then Null else h[|h| - 1]
  }

  function Replace(h: seq<HistoryState>, s: HistoryState): (r: seq<HistoryState>)
    ensures Current(r) == s && |r| == if h == [] then 1 else |h|
  {
    if h == [] then [s] else h[..|h| - 1] + [s]
  }

  function Back(h: seq<HistoryState>): (r: seq<HistoryState>)
    ensures |r| == if h == [] then 0 else |h| - 1
  {
    if h == [] then [] else h[..|h| - 1]
  }

  /** Going back after a push returns to the entries before it. */
  lemma BackUndoesPush(h: seq<HistoryState>, s: HistoryState)
    ensures Back(h + [s]) == h && Current(h + [s]) == s
  {
    assert (h + [s])[..|h|] == h;
  }

  /** `ensureBaseHistoryEntry`: unless the current entry carries the base
      marker, it is marked as the base and a buffer entry is pushed. */
  function EnsureBase(h: seq<HistoryState>): seq<HistoryState> {
    if Current(h).BaseState? then h else Replace(h, BaseState(false)) + [BaseState(true)]
  }

  /** Afterwards the current entry is a base entry with a base entry below
      it (or the history was already on a base entry and is unchanged); a
      second call changes nothing. */
  lemma EnsureBaseShape(h: seq<HistoryState>)
    ensures var r := EnsureBase(h);
      Current(r).BaseState?
      && (Current(h).BaseState? ==> r == h)
      && (!Current(h).BaseState? ==> |r| >= 2 && r[|r| - 2] == BaseState(false) && r[|r| - 1] == BaseState(true)
                                     && Back(Back(r)) == Back(h))
      && EnsureBase(r) == r
  {
    if !Current(h).BaseState? {
      var r := EnsureBase(h);
      var m := Replace(h, BaseState(false));
      BackUndoesPush(m, BaseState(true));
      if h != [] {
        BackUndoesPush(h[..|h| - 1], BaseState(false));
      }
    }
  }
}

=== FILE: cache.dfy ===
// The client's in-memory cache (client/src/lib/cache.ts): a bounded map
// from keys to entries with a time to live, evicting the earliest-inserted
// key when full, and the cache-key generators.
//
// A JavaScript Map iterates in insertion order, and updating an existing
// key keeps its place; the model keeps that order as `order`. `Date.now()`
// is a parameter.

module Cache {
  import opened Text

  /** Default time to live: five minutes. */
  const DefaultTtl := 300000
  const DefaultMaxSize := 100
  const TehillimCacheSize := 50
  const PirkeiAvotCacheSize := 20
  const TorahContentCacheSize := 30
  const ZmanimCacheSize := 10

  datatype Entry<T> = Entry(data: T, timestamp: int, ttl: int)

  /** The Map's contents: its keys in insertion order, and the entries. */
  datatype Store<T> = Store(order: seq<string>, entries: map<string, Entry<T>>)

  /** The order lists each key of the map exactly once. */
  predicate Coherent<T>(st: Store<T>) {
    Distinct(st.order) && (forall k :: k in st.order ==> k in st.entries) && (forall k :: k in st.entries ==> k in st.order)
  }

  /** How many entries a cache of `maxSize` can hold: a cache of size 0
      still keeps the one entry just set. */
  function Capacity(maxSize: nat): nat {
    if maxSize == 0 then 1 else maxSize
  }

  /** The keys of `s` that are also in `keep`, in order. */
  function Keep(s: seq<string>, keep: set<string>): (r: seq<string>)
    ensures forall x :: x in r <==> x in s && x in keep
    ensures Distinct(s) ==> Distinct(r)
  {
    if s == [] then []
    else
      var rest := Keep(s[1..], keep);
      assert Distinct(s) ==> Distinct(s[1..]) && s[0] !in s[1..];
      if s[0] in keep then [s[0]] + rest else rest
  }

  // ---- The operations on the contents ----

  /** The eviction step of `set`: at or over `maxSize`, the first key in
      insertion order is deleted (nothing, when the map is empty). */
  function Evict<T>(st: Store<T>, maxSize: nat): Store<T> {
    if |st.entries| >= maxSize && st.order != [] then Store(st.order[1..], st.entries - {st.order[0]})
    else st
  }

  /** `set`: evict, then store the entry; a key already present keeps its
      place in the order. */
  function Put<T>(st: Store<T>, maxSize: nat, key: string, e: Entry<T>): Store<T> {
    var b := Evict(st, maxSize);
    Store(if key in b.entries then b.order else b.order + [key], b.entries[key := e])
  }

  predicate Expired<T>(e: Entry<T>, now: int) {
    now - e.timestamp > e.ttl
  }

  /** The result of `get`. */
  function Lookup<T>(st: Store<T>, key: string, now: int): Option<T> {
    if key !in st.entries || Expired(st.entries[key], now) then None else Some(st.entries[key].data)
  }

  /** The contents after `get`: an expired entry is deleted. */
  function AfterGet<T>(st: Store<T>, key: string, now: int): Store<T> {
    if key in st.entries && Expired(st.entries[key], now) then Store(Without(st.order, key), st.entries - {key})
    else st
  }

  /** The entries still alive at `now`. */
  function Live<T>(entries: map<string, Entry<T>>, now: int): map<string, Entry<T>> {
    map k | k in entries && !Expired(entries[k], now) :: entries[k]
  }

  // ---- Properties of the operations ----

  /** `set` keeps the order and the map in step, and never takes the size
      over the capacity. */
  lemma PutCoherent<T>(st: Store<T>, maxSize: nat, key: string, e: Entry<T>)
    requires Coherent(st) && |st.order| <= Capacity(maxSize)
    ensures Coherent(Put(st, maxSize, key, e)) && |Put(st, maxSize, key, e).order| <= Capacity(maxSize)
  {
    var b := Evict(st, maxSize);
    DistinctCard(st);
    EvictCoherent(st, maxSize);
    assert key !in b.entries ==> |b.order| < Capacity(maxSize);
    InsertCoherent(b, key, e);
  }

  /** Eviction keeps the order in step and, when it deletes, makes room. */
  lemma EvictCoherent<T>(st: Store<T>, maxSize: nat)
    requires Coherent(st) && |st.order| == |st.entries|
    ensures Coherent(Evict(st, maxSize))
    ensures |st.entries| >= maxSize && st.order != [] ==> |Evict(st, maxSize).order| == |st.order| - 1
  {
    if |st.entries| >= maxSize && st.order != [] {
      var b := Evict(st, maxSize);
      forall k | k in st.order && k != st.order[0]
        ensures k in b.order
      {
        var i :| 0 <= i < |st.order| && st.order[i] == k;
        assert b.order[i - 1] == k;
      }
      assert forall k :: k in b.order ==> k in st.order[1..];
    }
  }

  lemma InsertCoherent<T>(st: Store<T>, key: string, e: Entry<T>)
    requires Coherent(st)
    ensures var r := Store(if key in st.entries then st.order else st.order + [key], st.entries[key := e]);
      Coherent(r) && |r.order| == |st.order| + (if key in st.entries then 0 else 1)
  {
  }

  /** A distinct order is as long as the map is big. */
  lemma DistinctCard<T>(st: Store<T>)
    requires Coherent(st)
    ensures |st.order| == |st.entries|
  {
    assert st.entries.Keys == SetOf(st.order);
    DistinctSetSize(st.order);
  }

  function SetOf(s: seq<string>): set<string> {
    set x | x in s
  }

  lemma {:induction false} DistinctSetSize(s: seq<string>)
    requires Distinct(s)
    ensures |SetOf(s)| == |s|
    decreases |s|
  {
    if s != [] {
      DistinctSetSize(s[1..]);
      assert SetOf(s) == SetOf(s[1..]) + {s[0]};
      assert s[0] !in SetOf(s[1..]);
    }
  }

  /** When full, `set` of a new key evicts exactly the earliest-inserted
      key; every other entry stays. */
  lemma PutEvictsOldest<T>(st: Store<T>, maxSize: nat, key: string, e: Entry<T>)
    requires Coherent(st) && |st.entries| >= maxSize && st.order != []
    ensures var r := Put(st, maxSize, key, e);
      (st.order[0] != key ==> st.order[0] !in r.entries)
      && forall k :: k in st.entries && k != st.order[0] && k != key ==> k in r.entries && r.entries[k] == st.entries[k]
  {
  }

  /** Below the bound, `set` deletes nothing. */
  lemma PutBelowBound<T>(st: Store<T>, maxSize: nat, key: string, e: Entry<T>)
    requires |st.entries| < maxSize
    ensures Put(st, maxSize, key, e).entries == st.entries[key := e]
  {
  }

  /** What was just set is read back until its time to live has passed,
      the last millisecond included, and not after. */
  lemma PutThenLookup<T>(st: Store<T>, maxSize: nat, key: string, data: T, ttl: int, now: int, later: int)
    ensures Lookup(Put(st, maxSize, key, Entry(data, now, ttl)), key, later)
      == if later - now <= ttl then Some(data) else None
  {
  }

  /** `get` answers exactly for the live entries, and deletes nothing
      else; the order stays in step. */
  lemma GetAnswersLive<T>(st: Store<T>, key: string, now: int)
    requires Coherent(st)
    ensures Lookup(st, key, now).Some? <==> key in Live(st.entries, now)
    ensures Lookup(st, key, now).Some? ==> Lookup(st, key, now).value == st.entries[key].data
    ensures Coherent(AfterGet(st, key, now))
    ensures AfterGet(st, key, now).entries == if key in Live(st.entries, now) || key !in st.entries then st.entries else st.entries - {key}
  {
  }

  // ---- The class ----

  class MemoryCache<T> {
    var order: seq<string>
    var entries: map<string, Entry<T>>
    const maxSize: nat

    function Contents(): Store<T>
      reads this
    {
      Store(order, entries)
    }

    ghost predicate Valid()
      reads this
    {
      Coherent(Contents()) && |order| <= Capacity(maxSize)
    }

    /** `new MemoryCache(maxSize)`. */
    constructor (maxSize: nat)
      ensures this.maxSize == maxSize && order == [] && entries == map[] && Valid()
    {
      this.maxSize := maxSize;
      order := [];
      entries := map[];
    }

    /** `set(key, data, ttl)` at time `now`. */
    method Set(key: string, data: T, ttl: int, now: int)
      requires Valid()
      modifies this
      ensures Contents() == Put(old(Contents()), maxSize, key, Entry(data, now, ttl))
      ensures Valid() && key in entries
    {
      PutCoherent(Contents(), maxSize, key, Entry(data, now, ttl));
      if |entries| >= maxSize && order != [] {
        var oldestKey := order[0];
        entries := entries - {oldestKey};
        order := order[1..];
      }
      if key !in entries {
        order := order + [key];
      }
      entries := entries[key := Entry(data, now, ttl)];
    }

    /** `get(key)` at time `now`: the data of a live entry, else nothing,
        deleting an expired entry. */
    method Get(key: string, now: int) returns (r: Option<T>)
      requires Valid()
      modifies this
      ensures r == Lookup(old(Contents()), key, now)
      ensures Contents() == AfterGet(old(Contents()), key, now) && Valid()
    {
      if key !in entries {
        return None;
      }
      var entry := entries[key];
      if now - entry.timestamp > entry.ttl {
        entries := entries - {key};
        order := Without(order, key);
        return None;
      }
      return Some(entry.data);
    }

    /** `has(key)`: whether `get` finds something, with the same deletion. */
    method Has(key: string, now: int) returns (b: bool)
      requires Valid()
      modifies this
      ensures b <==> key in Live(old(entries), now)
      ensures Contents() == AfterGet(old(Contents()), key, now) && Valid()
    {
      var r := Get(key, now);
      b := r != None;
    }

    /** `clear()`. */
    method Clear()
      requires Valid()
      modifies this
      ensures order == [] && entries == map[] && Valid()
    {
      order := [];
      entries := map[];
    }

    /** `size()`: the number of entries, never above the capacity. */
    method Size() returns (n: nat)
      requires Valid()
      ensures n == |entries| && n <= Capacity(maxSize)
    {
      DistinctCard(Contents());
      n := |entries|;
    }

    /** One visit of `cleanupCache`: every key present at the start is
        read, which deletes the expired entries and keeps the live ones in
        their order. */
    method Cleanup(now: int)
      requires Valid()
      modifies this
      ensures entries == Live(old(entries), now)
      ensures order == Keep(old(order), Live(old(entries), now).Keys)
      ensures Valid()
    {
      var keys := order;
      var start := entries;
      KeepAll(keys);
      assert SetOf(keys) == entries.Keys;
      assert Swept(start, keys[..0], now) == start;
      for i := 0 to |keys|
        invariant Valid()
        invariant entries == Swept(start, keys[..i], now)
        invariant order == Keep(keys, entries.Keys)
      {
        SweptStep(start, keys[..i], keys[i], now);
        PrefixSnoc(keys, i);
        var before := entries;
        var _ := Get(keys[i], now);
        KeepWithout(keys, before.Keys, keys[i]);
      }
      assert keys[..|keys|] == keys;
      SweptAll(start, keys, now);
    }
  }

  /** The entries left once the keys of `visited` have been read. */
  function Swept<T>(start: map<string, Entry<T>>, visited: seq<string>, now: int): map<string, Entry<T>> {
    map k | k in start && !(k in visited && Expired(start[k], now)) :: start[k]
  }

  lemma SweptStep<T>(start: map<string, Entry<T>>, visited: seq<string>, x: string, now: int)
    ensures var cur := Swept(start, visited, now);
      Swept(start, visited + [x], now)
        == if x in cur && Expired(cur[x], now) then cur - {x} else cur
  {
    var cur := Swept(start, visited, now);
    assert forall k :: k in visited + [x] <==> k in visited || k == x;
  }

  lemma SweptAll<T>(start: map<string, Entry<T>>, keys: seq<string>, now: int)
    requires forall k :: k in start ==> k in keys
    ensures Swept(start, keys, now) == Live(start, now)
  {
  }

  lemma {:induction false} KeepAll(s: seq<string>)
    ensures Keep(s, SetOf(s)) == s
  {
    KeepSuper(s, SetOf(s));
  }

  lemma {:induction false} KeepSuper(s: seq<string>, keep: set<string>)
    requires forall x :: x in s ==> x in keep
    ensures Keep(s, keep) == s
    decreases |s|
  {
    if s != [] {
      KeepSuper(s[1..], keep);
    }
  }

  lemma {:induction false} KeepWithout(s: seq<string>, keep: set<string>, k: string)
    ensures Without(Keep(s, keep), k) == Keep(s, keep - {k})
    decreases |s|
  {
    if s != [] {
      KeepWithout(s[1..], keep, k);
    }
  }

  // ---- Cache keys ----

  /** `getCacheKey.tehillim(perek, language)`. */
  function TehillimKey(perek: int, language: string): string {
    "tehillim_" + IntToString(perek) + "_" + language
  }

  function PirkeiAvotKey(date: string): string { "pirkei_avot_" + date }

  function TorahKey(kind: string, date: string): string { "torah_" + kind + "_" + date }

  /** `getCacheKey.zmanim`, with the coordinates as already rendered text. */
  function ZmanimKey(lat: string, lng: string, date: string): string { "zmanim_" + lat + "_" + lng + "_" + date }

  function SponsorsKey(date: string): string { "sponsors_" + date }

  const CampaignsKey := "campaigns_active"

  /** The Tehillim key names its perek and language: two different
      requests never share an entry. */
  lemma TehillimKeyInjective(p1: int, l1: string, p2: int, l2: string)
    requires TehillimKey(p1, l1) == TehillimKey(p2, l2)
    ensures p1 == p2 && l1 == l2
  {
    var a, b := IntToString(p1), IntToString(p2);
    var k := TehillimKey(p1, l1);
    assert k[9..] == a + "_" + l1 && k[9..] == b + "_" + l2;
    NoUnderscore(p1);
    NoUnderscore(p2);
    assert IndexOfChar(a + "_" + l1, '_') == Some(|a|) by { FirstAfter(a, l1); }
    assert IndexOfChar(b + "_" + l2, '_') == Some(|b|) by { FirstAfter(b, l2); }
    assert a == k[9..][..|a|] && b == k[9..][..|b|];
    assert l1 == k[9..][|a| + 1..] && l2 == k[9..][|b| + 1..];
    IntToStringInjective(p1, p2);
  }

  lemma NoUnderscore(n: int)
    ensures !HasChar(IntToString(n), '_')
  {
    var s := IntToString(n);
    if n < 0 {
      assert forall i :: 1 <= i < |s| ==> s[i] == NatToString(-n)[i - 1];
    }
  }

  lemma FirstAfter(a: string, rest: string)
    requires !HasChar(a, '_')
    ensures IndexOfChar(a + "_" + rest, '_') == Some(|a|)
  {
    var s := a + "_" + rest;
    assert forall i :: 0 <= i < |a| ==> s[i] == a[i];
    assert s[|a|] == '_';
  }

  lemma IntToStringInjective(m: int, n: int)
    requires IntToString(m) == IntToString(n)
    ensures m == n
  {
    NatToStringValue(if m < 0 then -m else m);
    NatToStringValue(if n < 0 then -n else n);
    var s := IntToString(m);
    assert (s[0] == '-') == (m < 0) && (s[0] == '-') == (n < 0);
    if m < 0 {
      assert s[1..] == NatToString(-m);
    }
    if n < 0 {
      assert s[1..] == NatToString(-n);
    }
  }
}

=== FILE: cdn_migration.dfy ===
/** The audio-to-CDN migration script: deriving the object key and public URL
    of each row, processing one row against an abstract network, partitioning
    the rows into skipped / succeeded / failed, and the `.env` line handling.
    Network, S3 and database calls are parameters (`Net`); the thread pool is
    replaced by sequences of results in completion order. */
module CdnMigration {
  import opened Text

  const MaxWorkers := 25
  const DefaultExt := ".mp3"
  const SlugFallback := "audio"
  const CacheControl := "public, max-age=31536000, immutable"
  const OctetStream := "application/octet-stream"

  /** Fixed audio content type -> extension table. */
  const AudioCtToExt: map<string, string> := map[
    "audio/mpeg" := ".mp3", "audio/mp3" := ".mp3", "audio/x-mp3" := ".mp3",
    "audio/aac" := ".aac", "audio/x-aac" := ".aac",
    "audio/mp4" := ".m4a", "audio/x-m4a" := ".m4a",
    "audio/wav" := ".wav", "audio/x-wav" := ".wav",
    "audio/flac" := ".flac", "audio/ogg" := ".ogg",
    "audio/opus" := ".opus", "audio/webm" := ".webm"]

  // ---------------------------------------------------------------------
  // safe_slug
  // ---------------------------------------------------------------------

  predicate IsSlugAlnum(c: char) { IsAsciiDigit(c) || IsAsciiLower(c) }
  predicate IsSlugChar(c: char) { IsSlugAlnum(c) || c == '-' }

  predicate NoDoubleDash(s: string) {
    forall i :: 0 <= i < |s| - 1 ==> !(s[i] == '-' && s[i + 1] == '-')
  }

  /** The [a-z0-9] characters of `s`, in order. */
  function Alnums(s: string): (r: string)
    ensures forall i :: 0 <= i < |r| ==> IsSlugAlnum(r[i])
  {
    if s == [] then [] else (if IsSlugAlnum(s[0]) then [s[0]] else []) + Alnums(s[1..])
  }

  lemma {:induction false} AlnumsAppend(a: string, b: string)
    ensures Alnums(a + b) == Alnums(a) + Alnums(b)
  {
    if a != [] {
      assert (a + b)[1..] == a[1..] + b;
      AlnumsAppend(a[1..], b);
    } else {
      assert a + b == b;
    }
  }

  lemma {:induction false} AlnumsOfDashes(s: string)
    requires forall i :: 0 <= i < |s| ==> s[i] == '-'
    ensures Alnums(s) == []
  {
    if s != [] { AlnumsOfDashes(s[1..]); }
  }

  /** `re.sub(r"[^a-z0-9]+", "-", s)`: every maximal run of characters
      outside [a-z0-9] becomes one '-'. */
  function Collapse(s: string): (r: string)
    ensures forall i :: 0 <= i < |r| ==> IsSlugChar(r[i])
    ensures NoDoubleDash(r)
    ensures s == [] <==> r == []
    ensures s != [] ==> (r[0] == '-' <==> !IsSlugAlnum(s[0]))
    ensures Alnums(r) == Alnums(s)
  {
    if s == [] then []
    else if IsSlugAlnum(s[0]) then
      var r := [s[0]] + Collapse(s[1..]);
      assert r[1..] == Collapse(s[1..]);
      r
    else
      var rest := Collapse(s[1..]);
      if rest != [] && rest[0] == '-' then rest
      else
        var r := "-" + rest;
        assert r[1..] == rest;
        r
  }

  /** `re.sub(r"-+", "-", s)`. */
  function SqueezeDashes(s: string): string {
    if |s| < 2 then s
    else if s[0] == '-' && s[1] == '-' then SqueezeDashes(s[1..])
    else [s[0]] + SqueezeDashes(s[1..])
  }

  /** The second substitution changes nothing after the first. */
  lemma {:induction false} SqueezeNoDoubleDash(s: string)
    requires NoDoubleDash(s)
    ensures SqueezeDashes(s) == s
  {
    if |s| >= 2 {
      SqueezeNoDoubleDash(s[1..]);
    }
  }

  lemma StripDashesKeepsAlnums(t: string)
    ensures Alnums(StripChar(t, '-')) == Alnums(t)
  {
    var r := StripChar(t, '-');
    var k := LeadCount(t, '-');
    assert t == t[..k] + (r + t[k + |r|..]);
    AlnumsAppend(t[..k], r + t[k + |r|..]);
    AlnumsAppend(r, t[k + |r|..]);
    AlnumsOfDashes(t[..k]);
    AlnumsOfDashes(t[k + |r|..]);
  }

  /** The slug before the "audio" fallback. */
  function SlugBody(s: string): string {
    StripChar(SqueezeDashes(Collapse(Lower(Trim(s)))), '-')
  }

  /** safe_slug: never empty, never starting or ending with '-'. */
  function SafeSlug(s: string): (r: string)
    ensures r != [] && r[0] != '-' && r[|r| - 1] != '-'
  {
    var body := SlugBody(s);
    if body == [] then SlugFallback else body
  }

  lemma StripDashesKeepsShape(t: string)
    requires forall i :: 0 <= i < |t| ==> IsSlugChar(t[i])
    requires NoDoubleDash(t)
    ensures forall i :: 0 <= i < |StripChar(t, '-')| ==> IsSlugChar(StripChar(t, '-')[i])
    ensures NoDoubleDash(StripChar(t, '-'))
  {
    var body := StripChar(t, '-');
    var k := LeadCount(t, '-');
    assert body == t[k..k + |body|];
    forall i | 0 <= i < |body|
      ensures IsSlugChar(body[i])
    {
      assert body[i] == t[k + i];
    }
    forall i | 0 <= i < |body| - 1
      ensures !(body[i] == '-' && body[i + 1] == '-')
    {
      assert body[i] == t[k + i] && body[i + 1] == t[k + i + 1];
    }
  }

  /** The slug is made of [a-z0-9-] and never holds "--". */
  lemma SafeSlugShape(s: string)
    ensures forall i :: 0 <= i < |SafeSlug(s)| ==> IsSlugChar(SafeSlug(s)[i])
    ensures NoDoubleDash(SafeSlug(s))
  {
    var collapsed := Collapse(Lower(Trim(s)));
    SqueezeNoDoubleDash(collapsed);
    StripDashesKeepsShape(collapsed);
  }

  /** The slug holds exactly the lowercase alphanumerics of the trimmed,
      lower-cased title, or is "audio" when there are none. */
  lemma SafeSlugAlnums(s: string)
    ensures Alnums(Lower(Trim(s))) == [] ==> SafeSlug(s) == SlugFallback
    ensures Alnums(Lower(Trim(s))) != [] ==> Alnums(SafeSlug(s)) == Alnums(Lower(Trim(s)))
  {
    var collapsed := Collapse(Lower(Trim(s)));
    SqueezeNoDoubleDash(collapsed);
    StripDashesKeepsAlnums(collapsed);
  }

  // ---------------------------------------------------------------------
  // pick_ext
  // ---------------------------------------------------------------------

  /** `os.path.splitext(path)[1]`: from the last '.' after the last '/', unless
      the last component up to that dot consists of dots only. */
  function Splitext(p: string): (ext: string)
    ensures ext == [] || (ext[0] == '.' && EndsWith(p, ext) && !HasChar(ext, '/') && !HasChar(ext[1..], '.'))
  {
    var sep := match LastIndexOfChar(p, '/') case None => -1 case Some(i) => i;
    match LastIndexOfChar(p, '.')
    case None => ""
    case Some(dot) =>
      if dot > sep && exists i :: sep + 1 <= i < dot && p[i] != '.' then p[dot..] else ""
  }

  /** The Content-Type header without parameters, trimmed and lower-cased. */
  function MediaType(header: Option<string>): string {
    Lower(Trim(BeforeFirst(if header.Some? then header.value else "", ';')))
  }

  /** pick_ext: the audio table, else the URL path's extension, else the
      generic guess, else ".mp3". `urlPath` is urlparse(url).path and
      `guessExtension` is mimetypes.guess_extension. */
  function PickExt(urlPath: string, header: Option<string>, guessExtension: string -> Option<string>): (r: string)
    ensures r != []
    ensures MediaType(header) in AudioCtToExt ==> r == AudioCtToExt[MediaType(header)]
    ensures MediaType(header) !in AudioCtToExt && Splitext(urlPath) != [] ==> r == Splitext(urlPath)
    ensures MediaType(header) !in AudioCtToExt && Splitext(urlPath) == [] && MediaType(header) != []
      && guessExtension(MediaType(header)).Some? && guessExtension(MediaType(header)).value != []
      ==> r == guessExtension(MediaType(header)).value
    ensures r == DefaultExt <== MediaType(header) !in AudioCtToExt && Splitext(urlPath) == []
      && (MediaType(header) == [] || guessExtension(MediaType(header)).None? || guessExtension(MediaType(header)).value == [])
  {
    var ct := MediaType(header);
    if ct in AudioCtToExt then AudioCtToExt[ct]
    else
      var guess := Splitext(urlPath);
      if guess != [] then guess
      else if ct != [] && guessExtension(ct).Some? && guessExtension(ct).value != [] then guessExtension(ct).value
      else DefaultExt
  }

  // ---------------------------------------------------------------------
  // build_key, build_cdn_url, the file name
  // ---------------------------------------------------------------------

  /** build_key: the prefix without surrounding whitespace and '/', joined to
      the file name with one '/', or the bare file name for an empty prefix. */
  function BuildKey(prefix: string, filename: string): (r: string)
    ensures EndsWith(r, filename)
    ensures StripChar(Trim(prefix), '/') == [] ==> r == filename
    ensures StripChar(Trim(prefix), '/') != [] ==>
      var p := StripChar(Trim(prefix), '/');
      r == p + "/" + filename && p[0] != '/' && p[|p| - 1] != '/'
  {
    var p := StripChar(Trim(prefix), '/');
    if p != [] then p + "/" + filename else filename
  }

  /** build_cdn_url: the base without trailing '/', then one '/', then the key. */
  function BuildCdnUrl(base: string, key: string): (r: string)
    ensures EndsWith(r, "/" + key)
    ensures var b := r[..|r| - |key| - 1]; StartsWith(base, b) && (b == [] || b[|b| - 1] != '/')
    ensures forall i :: |r| - |key| - 1 <= i < |base| ==> base[i] == '/'
  {
    var b := RStripChar(base, '/');
    var r := b + "/" + key;
    assert r[..|r| - |key| - 1] == b;
    assert r[|r| - |key| - 1..] == "/" + key;
    r
  }

  /** The object's file name: "{id}-{slug(title)}{ext}". */
  function FileName(id: string, title: string, ext: string): (r: string)
    ensures |r| == |id| + 1 + |SafeSlug(title)| + |ext|
    ensures StartsWith(r, id + "-") && EndsWith(r, ext)
    ensures r[|id| + 1..|r| - |ext|] == SafeSlug(title)
  {
    var r := id + "-" + SafeSlug(title) + ext;
    assert r[..|id| + 1] == id + "-";
    assert r[|r| - |ext|..] == ext;
    r
  }

  // ---------------------------------------------------------------------
  // process_row
  // ---------------------------------------------------------------------

  /** A CSV row; a missing column is None. */
  datatype Row = Row(id: Option<string>, title: Option<string>, audioUrl: Option<string>,
                     speakerWebsite: Option<string>)

  /** `row.get(k) or ""`. */
  function Field(f: Option<string>): string {
    if f.Some? then f.value else ""
  }

  function RecordId(row: Row): string { Trim(Field(row.id)) }
  function Title(row: Row): string { Trim(Field(row.title)) }
  /** The download URL: both alternatives of the `or` read audio_url, so
      speaker_website is never consulted. */
  function SourceUrl(row: Row): string { Trim(Field(row.audioUrl)) }

  /** The pre-dispatch filter of main: an id or source URL that is absent or
      only whitespace (its stripped form is empty). */
  predicate IsSkipped(row: Row) {
    IsBlank(Field(row.id)) || IsBlank(Field(row.audioUrl))
  }

  /** The download URL the script's header describes: audio_url, falling
      back to speaker_website when audio_url is blank. */
  function SourceUrlWithFallback(row: Row): string {
    var audio := Trim(Field(row.audioUrl));
    if audio != [] then audio else Trim(Field(row.speakerWebsite))
  }

  /** The filter with the fallback: a blank id, or no URL in either column. */
  predicate IsSkippedWithFallback(row: Row) {
    IsBlank(Field(row.id)) || SourceUrlWithFallback(row) == []
  }

  /** As written, a row with an id, a blank audio_url and a speaker_website
      is skipped; with the fallback it is dispatched with the website as its
      URL. */
  lemma WebsiteFallbackIgnored(row: Row)
    requires !IsBlank(Field(row.id)) && IsBlank(Field(row.audioUrl)) && !IsBlank(Field(row.speakerWebsite))
    ensures IsSkipped(row)
    ensures !IsSkippedWithFallback(row) && SourceUrlWithFallback(row) == Trim(Field(row.speakerWebsite))
  {
    BlankIffTrimEmpty(Field(row.audioUrl));
    BlankIffTrimEmpty(Field(row.speakerWebsite));
  }

  /** The fallback changes nothing for a row with an audio_url, and skips
      exactly the rows with a blank id or blank in both columns. */
  lemma FallbackAgrees(row: Row)
    ensures !IsBlank(Field(row.audioUrl)) ==> SourceUrlWithFallback(row) == SourceUrl(row)
    ensures IsSkippedWithFallback(row) <==>
      IsBlank(Field(row.id)) || (IsBlank(Field(row.audioUrl)) && IsBlank(Field(row.speakerWebsite)))
  {
    BlankIffTrimEmpty(Field(row.audioUrl));
    BlankIffTrimEmpty(Field(row.speakerWebsite));
  }

  datatype Response = Response(status: int, contentType: Option<string>) | NetworkError

  /** Everything process_row asks of the outside world. `head` gives the
      Content-Type of a successful HEAD (None when HEAD failed or had none). */
  datatype Net = Net(
    head: string -> Option<string>,
    get: string -> Response,
    upload: (string, string) -> bool,
    urlPath: string -> string,
    guessExtension: string -> Option<string>,
    guessType: string -> Option<string>)

  datatype Config = Config(bucket: string, prefix: string, cdnBase: string)

  datatype Failure = MissingIdOrSrc | HttpStatus(code: int) | Network | UploadFailed

  datatype Result = Uploaded(cdnUrl: string, id: string) | Failed(cause: Failure)

  /** The ContentType given to the upload: the GET's media type (case kept),
      else the guess from the file name, else application/octet-stream. */
  function UploadContentType(header: Option<string>, filename: string, guessType: string -> Option<string>): (r: string)
    ensures r != []
  {
    var ct := Trim(BeforeFirst(if header.Some? then header.value else "", ';'));
    if ct != [] then ct
    else if guessType(filename).Some? && guessType(filename).value != [] then guessType(filename).value
    else OctetStream
  }

  /** The derived destination of a row: identical inputs give the identical
      key and URL (the derivation is a function of the row and the HEAD). */
  function DestinationKey(row: Row, cfg: Config, net: Net): string {
    var src := SourceUrl(row);
    BuildKey(cfg.prefix, FileName(RecordId(row), Title(row), PickExt(net.urlPath(src), net.head(src), net.guessExtension)))
  }

  /** process_row: ValueError exactly for the rows the pre-filter skips; a
      success carries the row's id and the CDN URL of its derived key.
      `raise_for_status` raises only for a status in 400..599, so any other
      status, 600..999 included, goes on to the upload. */
  function ProcessRow(row: Row, cfg: Config, net: Net): (r: Result)
    ensures r == Failed(MissingIdOrSrc) <==> IsSkipped(row)
    ensures r.Uploaded? ==>
      (r.id == RecordId(row) && r.id != [] && r.cdnUrl == BuildCdnUrl(cfg.cdnBase, DestinationKey(row, cfg, net)))
    ensures r == Failed(Network) <==> !IsSkipped(row) && net.get(SourceUrl(row)).NetworkError?
    ensures r.Failed? && r.cause.HttpStatus? <==>
      !IsSkipped(row) && net.get(SourceUrl(row)).Response? && 400 <= net.get(SourceUrl(row)).status < 600
    ensures r.Failed? && r.cause.HttpStatus? ==> r.cause == HttpStatus(net.get(SourceUrl(row)).status)
  {
    var id := RecordId(row);
    var src := SourceUrl(row);
    BlankIffTrimEmpty(Field(row.id));
    BlankIffTrimEmpty(Field(row.audioUrl));
    if id == [] || src == [] then Failed(MissingIdOrSrc)
    else
      var ext := PickExt(net.urlPath(src), net.head(src), net.guessExtension);
      var filename := FileName(id, Title(row), ext);
      var key := BuildKey(cfg.prefix, filename);
      var url := BuildCdnUrl(cfg.cdnBase, key);
      match net.get(src)
      case NetworkError => Failed(Network)
      case Response(status, ct) =>
        if 400 <= status < 600 then Failed(HttpStatus(status))
        else if net.upload(key, UploadContentType(ct, filename, net.guessType)) then Uploaded(url, id)
        else Failed(UploadFailed)
  }

  // ---------------------------------------------------------------------
  // main: dispatch and gather
  // ---------------------------------------------------------------------

  function Dispatched(rows: seq<Row>): (r: seq<Row>)
    ensures |r| == |rows| - CountWhere(rows, IsSkipped)
  {
    if rows == [] then []
    else Dispatched(rows[..|rows| - 1]) + (if IsSkipped(rows[|rows| - 1]) then [] else [rows[|rows| - 1]])
  }

  lemma DispatchStep(rows: seq<Row>, i: nat)
    requires i < |rows|
    ensures CountWhere(rows[..i + 1], IsSkipped) == CountWhere(rows[..i], IsSkipped) + (if IsSkipped(rows[i]) then 1 else 0)
    ensures Dispatched(rows[..i + 1]) == Dispatched(rows[..i]) + (if IsSkipped(rows[i]) then [] else [rows[i]])
  {
    assert rows[..i + 1][..i] == rows[..i];
  }

  /** The submission loop of main: skipped rows are counted and never
      dispatched; the others are submitted in order. */
  method Dispatch(rows: seq<Row>) returns (submittedRows: seq<Row>, skipped: nat, submitted: nat)
    ensures skipped + submitted == |rows|
    ensures skipped == CountWhere(rows, IsSkipped)
    ensures submittedRows == Dispatched(rows) && submitted == |submittedRows|
  {
    submittedRows, skipped, submitted := [], 0, 0;
    var i := 0;
    while i < |rows|
      invariant 0 <= i <= |rows|
      invariant skipped == CountWhere(rows[..i], IsSkipped)
      invariant submittedRows == Dispatched(rows[..i]) && submitted == |submittedRows|
      invariant skipped + submitted == i
    {
      DispatchStep(rows, i);
      if IsSkipped(rows[i]) {
        skipped := skipped + 1;
      } else {
        submittedRows := submittedRows + [rows[i]];
        submitted := submitted + 1;
      }
      i := i + 1;
    }
    assert rows[..i] == rows;
  }

  /** One completed future: the row id it was submitted for and its result. */
  type Completion = (string, Result)

  predicate IsSuccess(c: Completion) { c.1.Uploaded? }
  predicate IsFailure(c: Completion) { c.1.Failed? }

  function UpdatesOf(cs: seq<Completion>): (r: seq<(string, string)>)
    ensures |r| == CountWhere(cs, IsSuccess)
  {
    if cs == [] then []
    else
      var c := cs[|cs| - 1];
      UpdatesOf(cs[..|cs| - 1]) + (if c.1.Uploaded? then [(c.1.cdnUrl, c.1.id)] else [])
  }

  function FailedIdsOf(cs: seq<Completion>): (r: seq<string>)
    ensures |r| == CountWhere(cs, IsFailure)
  {
    if cs == [] then []
    else FailedIdsOf(cs[..|cs| - 1]) + (if cs[|cs| - 1].1.Failed? then [cs[|cs| - 1].0] else [])
  }

  /** The gathering loop of main, with the failure branch recording the
      failed row's own id (see README, "Findings"). */
  method Gather(completed: seq<Completion>) returns (updates: seq<(string, string)>, failedIds: seq<string>, failed: nat)
    ensures updates == UpdatesOf(completed)
    ensures failedIds == FailedIdsOf(completed) && failed == |failedIds|
    ensures |updates| + failed == |completed|
  {
    updates, failedIds, failed := [], [], 0;
    var i := 0;
    while i < |completed|
      invariant 0 <= i <= |completed|
      invariant updates == UpdatesOf(completed[..i])
      invariant failedIds == FailedIdsOf(completed[..i]) && failed == |failedIds|
      invariant |updates| + failed == i
    {
      assert completed[..i + 1][..i] == completed[..i];
      var (rid, result) := completed[i];
      match result {
        case Uploaded(url, id) =>
          updates := updates + [(url, id)];
        case Failed(_) =>
          failed := failed + 1;
          failedIds := failedIds + [rid];
      }
      i := i + 1;
    }
    assert completed[..i] == completed;
  }

  predicate IsSuccessCompletion(c: Completion) { c.1.Uploaded? }

  /** One future's outcome: the row's id and its process_row result. */
  function Complete(row: Row, cfg: Config, net: Net): Completion {
    (RecordId(row), ProcessRow(row, cfg, net))
  }

  /** What the pool produces in submission order: the i-th completion is
      row i's id and its process_row result. */
  function Completions(rows: seq<Row>, cfg: Config, net: Net): (r: seq<Completion>)
    ensures |r| == |rows|
  {
    seq(|rows|, k requires 0 <= k < |rows| => Complete(rows[k], cfg, net))
  }

  lemma {:induction false} SuccessOrFailure(cs: seq<Completion>)
    ensures CountWhere(cs, IsSuccess) + CountWhere(cs, IsFailure) == |cs|
  {
    if cs != [] { SuccessOrFailure(cs[..|cs| - 1]); }
  }

  /** Partition completeness for any completion order: the rows split into
      skipped, succeeded and failed, each row counted once, whatever order the
      futures complete in. */
  lemma PartitionComplete(rows: seq<Row>, cfg: Config, net: Net, completed: seq<Completion>)
    requires multiset(completed) == multiset(Completions(Dispatched(rows), cfg, net))
    ensures CountWhere(rows, IsSkipped) + CountWhere(completed, IsSuccess) + CountWhere(completed, IsFailure) == |rows|
    ensures CountWhere(completed, IsSuccess) == CountWhere(Completions(Dispatched(rows), cfg, net), IsSuccess)
  {
    var inOrder := Completions(Dispatched(rows), cfg, net);
    assert |completed| == |inOrder| by {
      assert |multiset(completed)| == |multiset(inOrder)|;
    }
    SuccessOrFailure(completed);
    CountWherePermutation(completed, inOrder, IsSuccess);
  }

  lemma {:induction false} DispatchedNotSkipped(rows: seq<Row>, i: nat)
    requires i < |Dispatched(rows)|
    ensures !IsSkipped(Dispatched(rows)[i])
  {
    var prev := rows[..|rows| - 1];
    if i < |Dispatched(prev)| {
      DispatchedNotSkipped(prev, i);
    }
  }

  /** A dispatched row never yields the missing-field error: the two checks agree. */
  lemma DispatchedNeverMissing(rows: seq<Row>, cfg: Config, net: Net, i: nat)
    requires i < |Dispatched(rows)|
    ensures Completions(Dispatched(rows), cfg, net)[i].1 != Failed(MissingIdOrSrc)
  {
    DispatchedNotSkipped(rows, i);
  }

  // As written, the failure branch appends the (cdn_url, rec_id) last bound
  // by a success, or raises UnboundLocalError when no success came first.

  datatype AsWritten = Crashed | Gathered(updates: seq<(string, string)>, failedUpdates: seq<(string, string)>, failed: nat)

  function GatherAsWrittenFrom(cs: seq<Result>, last: Option<(string, string)>, acc: AsWritten): (r: AsWritten)
    requires acc.Gathered?
    decreases |cs|
  {
    if cs == [] then acc
    else match cs[0]
      case Uploaded(url, id) =>
        GatherAsWrittenFrom(cs[1..], Some((url, id)), acc.(updates := acc.updates + [(url, id)]))
      case Failed(_) =>
        if last.None? then Crashed
        else GatherAsWrittenFrom(cs[1..], last, acc.(failed := acc.failed + 1, failedUpdates := acc.failedUpdates + [last.value]))
  }

  function GatherAsWritten(cs: seq<Result>): AsWritten {
    GatherAsWrittenFrom(cs, None, Gathered([], [], 0))
  }

  /** The discrepancy: a first failure crashes the run, and a later failure
      is recorded under the id of a row that succeeded. */
  lemma StaleFailureRecord()
    ensures GatherAsWritten([Failed(HttpStatus(404))]) == Crashed
    ensures GatherAsWritten([Uploaded("https://cdn/a/1-x.mp3", "1"), Failed(HttpStatus(404))])
      == Gathered([("https://cdn/a/1-x.mp3", "1")], [("https://cdn/a/1-x.mp3", "1")], 1)
  {
    var cs := [Uploaded("https://cdn/a/1-x.mp3", "1"), Failed(HttpStatus(404))];
    assert cs[1..][1..] == [];
  }

  /** The corrected loop records the failed row and never a succeeded one. */
  lemma {:induction false} FailedIdsAreFailures(cs: seq<Completion>, i: nat)
    requires i < |FailedIdsOf(cs)|
    ensures exists j :: 0 <= j < |cs| && cs[j].1.Failed? && cs[j].0 == FailedIdsOf(cs)[i]
  {
    var prefix := cs[..|cs| - 1];
    if i < |FailedIdsOf(prefix)| {
      FailedIdsAreFailures(prefix, i);
      var j :| 0 <= j < |prefix| && prefix[j].1.Failed? && prefix[j].0 == FailedIdsOf(prefix)[i];
      assert cs[j] == prefix[j];
    } else {
      assert cs[|cs| - 1].1.Failed?;
    }
  }

  // ---------------------------------------------------------------------
  // load_env / save_env
  // ---------------------------------------------------------------------

  /** A parsed `.env` line: a key and value, or nothing. */
  type Entry = Option<(string, string)>

  /** One line as load_env reads it: blank and '#' lines and lines without
      '=' give nothing; otherwise split at the first '=' and trim both parts. */
  function ParseEnvLine(line: string): Entry {
    var l := RStripChar(line, '\n');
    if l == [] || StartsWith(Trim(l), "#") || !HasChar(l, '=') then None
    else Some((Trim(BeforeFirst(l, '=')), Trim(AfterFirst(l, '='))))
  }

  predicate Defines(e: Entry, k: string) {
    e.Some? && e.value.0 == k
  }

  /** The dictionary built from parsed lines: later lines override earlier ones. */
  function EnvOfEntries(es: seq<Entry>): map<string, string> {
    if es == [] then map[]
    else
      var m := EnvOfEntries(es[..|es| - 1]);
      match es[|es| - 1]
      case None => m
      case Some((k, v)) => m[k := v]
  }

  function EnvOf(lines: seq<string>): map<string, string> {
    EnvOfEntries(Map(ParseEnvLine, lines))
  }

  lemma LoadStep(lines: seq<string>, i: nat)
    requires i < |lines|
    ensures EnvOfEntries(Map(ParseEnvLine, lines[..i + 1])) ==
      match ParseEnvLine(lines[i])
      case None => EnvOfEntries(Map(ParseEnvLine, lines[..i]))
      case Some((k, v)) => EnvOfEntries(Map(ParseEnvLine, lines[..i]))[k := v]
  {
    MapPrefix(ParseEnvLine, lines, i);
    var es := Map(ParseEnvLine, lines[..i + 1]);
    assert es[..|es| - 1] == Map(ParseEnvLine, lines[..i]);
  }

  /** load_env's loop over the file's lines. */
  method LoadEnv(lines: seq<string>) returns (data: map<string, string>)
    ensures data == EnvOf(lines)
  {
    data := map[];
    var i := 0;
    while i < |lines|
      invariant 0 <= i <= |lines|
      invariant data == EnvOfEntries(Map(ParseEnvLine, lines[..i]))
    {
      LoadStep(lines, i);
      var parsed := ParseEnvLine(lines[i]);
      if parsed.Some? {
        data := data[parsed.value.0 := parsed.value.1];
      }
      i := i + 1;
    }
    assert lines[..i] == lines;
  }

  /** A key is loaded iff some line defines it. */
  lemma {:induction false} EnvKeys(es: seq<Entry>, k: string)
    ensures k in EnvOfEntries(es) <==> exists i :: 0 <= i < |es| && Defines(es[i], k)
  {
    if es != [] {
      var prefix := es[..|es| - 1];
      EnvKeys(prefix, k);
      if exists i :: 0 <= i < |prefix| && Defines(prefix[i], k) {
        var i :| 0 <= i < |prefix| && Defines(prefix[i], k);
        assert es[i] == prefix[i];
      }
      if exists i :: 0 <= i < |es| && Defines(es[i], k) {
        var i :| 0 <= i < |es| && Defines(es[i], k);
        if i < |prefix| { assert prefix[i] == es[i]; }
      }
    }
  }

  /** The last line defining a key decides its value. */
  lemma {:induction false} EnvLastWins(es: seq<Entry>, i: nat)
    requires i < |es| && es[i].Some?
    requires forall j :: i < j < |es| ==> !Defines(es[j], es[i].value.0)
    ensures es[i].value.0 in EnvOfEntries(es)
    ensures EnvOfEntries(es)[es[i].value.0] == es[i].value.1
  {
    var prefix := es[..|es| - 1];
    if i < |prefix| {
      forall j | i < j < |prefix|
        ensures !Defines(prefix[j], prefix[i].value.0)
      {
        assert prefix[j] == es[j];
      }
      EnvLastWins(prefix, i);
    }
  }

  /** When every line defining `k` gives it the value `v`, load_env yields `v`. */
  lemma {:induction false} EnvAgreeing(es: seq<Entry>, k: string, v: string)
    requires forall i :: 0 <= i < |es| && Defines(es[i], k) ==> es[i].value.1 == v
    ensures k in EnvOfEntries(es) ==> EnvOfEntries(es)[k] == v
  {
    if es != [] {
      var prefix := es[..|es| - 1];
      forall i | 0 <= i < |prefix| && Defines(prefix[i], k)
        ensures prefix[i].value.1 == v
      {
        assert prefix[i] == es[i];
      }
      EnvAgreeing(prefix, k, v);
    }
  }

  /** The key save_env sees on an existing line, or None for a line it keeps
      verbatim (blank, comment, or without '='). */
  function SaveKey(line: string): Option<string> {
    if Trim(line) == [] || StartsWith(Trim(line), "#") || !HasChar(line, '=') then None
    else Some(Trim(BeforeFirst(line, '=')))
  }

  function FormatEnvLine(k: string, v: string): string { k + "=" + v + "\n" }

  /** An existing line after save_env: rewritten when its key is in `data`. */
  function RewriteLine(line: string, key: Option<string>, data: map<string, string>): string {
    if key.Some? && key.value in data then FormatEnvLine(key.value, data[key.value]) else line
  }

  /** keys_written after the loop over the existing lines. */
  function WrittenKeys(keys: seq<Option<string>>, data: map<string, string>): set<string> {
    if keys == [] then {}
    else
      var last := keys[|keys| - 1];
      WrittenKeys(keys[..|keys| - 1], data) + (if last.Some? && last.value in data then {last.value} else {})
  }

  /** The written keys are the keys of `data` found on some existing line. */
  lemma {:induction false} WrittenKeysMembers(keys: seq<Option<string>>, data: map<string, string>, k: string)
    ensures k in WrittenKeys(keys, data) <==> k in data && exists i :: 0 <= i < |keys| && keys[i] == Some(k)
  {
    if keys != [] {
      var prev := keys[..|keys| - 1];
      WrittenKeysMembers(prev, data, k);
      if exists i :: 0 <= i < |prev| && prev[i] == Some(k) {
        var i :| 0 <= i < |prev| && prev[i] == Some(k);
        assert keys[i] == prev[i];
      }
      if exists i :: 0 <= i < |keys| && keys[i] == Some(k) {
        var i :| 0 <= i < |keys| && keys[i] == Some(k);
        if i < |prev| { assert prev[i] == keys[i]; }
      }
    }
  }

  predicate DistinctKeys(data: seq<(string, string)>) {
    forall i, j :: 0 <= i < j < |data| ==> data[i].0 != data[j].0
  }

  /** The dictionary save_env is given, from its ordered items. */
  function ToMap(data: seq<(string, string)>): (m: map<string, string>)
    requires DistinctKeys(data)
    ensures forall i :: 0 <= i < |data| ==> data[i].0 in m && m[data[i].0] == data[i].1
  {
    if data == [] then map[]
    else
      var prev := data[..|data| - 1];
      assert DistinctKeys(prev);
      ToMap(prev)[data[|data| - 1].0 := data[|data| - 1].1]
  }

  lemma {:induction false} ToMapKeys(data: seq<(string, string)>, k: string)
    requires DistinctKeys(data) && k in ToMap(data)
    ensures exists i :: 0 <= i < |data| && data[i].0 == k
  {
    var prev := data[..|data| - 1];
    assert DistinctKeys(prev);
    if k != data[|data| - 1].0 {
      ToMapKeys(prev, k);
      var i :| 0 <= i < |prev| && prev[i].0 == k;
      assert data[i] == prev[i];
    }
  }

  /** The lines appended for the keys not written yet, in the dictionary's order. */
  function Appended(data: seq<(string, string)>, written: set<string>): seq<string> {
    if data == [] then []
    else
      var (k, v) := data[|data| - 1];
      Appended(data[..|data| - 1], written) + (if k in written then [] else [FormatEnvLine(k, v)])
  }

  /** The existing lines after save_env's first loop, given each line's key. */
  function Rewritten(existing: seq<string>, keys: seq<Option<string>>, m: map<string, string>): (r: seq<string>)
    requires |keys| == |existing|
    ensures |r| == |existing|
    ensures forall j :: 0 <= j < |existing| ==> r[j] == RewriteLine(existing[j], keys[j], m)
  {
    if existing == [] then []
    else
      var n := |existing| - 1;
      Rewritten(existing[..n], keys[..n], m) + [RewriteLine(existing[n], keys[n], m)]
  }

  /** The file save_env writes, given each existing line's key. */
  function SavedFrom(existing: seq<string>, keys: seq<Option<string>>, data: seq<(string, string)>): seq<string>
    requires |keys| == |existing| && DistinctKeys(data)
  {
    var m := ToMap(data);
    Rewritten(existing, keys, m) + Appended(data, WrittenKeys(keys, m))
  }

  function SavedLines(existing: seq<string>, data: seq<(string, string)>): seq<string>
    requires DistinctKeys(data)
  {
    SavedFrom(existing, Map(SaveKey, existing), data)
  }

  /** One turn of save_env's first loop, on the lines so far and on the
      keys written so far. */
  lemma RewriteStep(existing: seq<string>, keys: seq<Option<string>>, i: nat, m: map<string, string>,
                    out: seq<string>, written: set<string>, line: string, key: Option<string>)
    requires |keys| == |existing| && i < |existing|
    requires out == Rewritten(existing[..i], keys[..i], m) && written == WrittenKeys(keys[..i], m)
    requires key == keys[i] && line == RewriteLine(existing[i], key, m)
    ensures out + [line] == Rewritten(existing[..i + 1], keys[..i + 1], m)
    ensures (if key.Some? && key.value in m then written + {key.value} else written) == WrittenKeys(keys[..i + 1], m)
  {
    assert keys[..i + 1][..i] == keys[..i];
    assert existing[..i + 1][..i] == existing[..i];
  }

  lemma AppendStep(data: seq<(string, string)>, j: nat, w: set<string>)
    requires j < |data|
    ensures Appended(data[..j + 1], w)
      == Appended(data[..j], w) + (if data[j].0 in w then [] else [FormatEnvLine(data[j].0, data[j].1)])
  {
    assert data[..j + 1][..j] == data[..j];
  }

  /** save_env: existing lines rewritten in place or kept, then each key not
      yet written appended in order. */
  method SaveEnv(existing: seq<string>, data: seq<(string, string)>) returns (out: seq<string>)
    requires DistinctKeys(data)
    ensures out == SavedLines(existing, data)
  {
    var m := ToMap(data);
    ghost var keys := Map(SaveKey, existing);
    var keysWritten: set<string> := {};
    out := [];
    var i := 0;
    while i < |existing|
      invariant 0 <= i <= |existing|
      invariant out == Rewritten(existing[..i], keys[..i], m)
      invariant keysWritten == WrittenKeys(keys[..i], m)
    {
      MapAt(SaveKey, existing, i);
      var line, key := RewriteOne(existing[i], m);
      RewriteStep(existing, keys, i, m, out, keysWritten, line, key);
      out := out + [line];
      if key.Some? && key.value in m {
        keysWritten := keysWritten + {key.value};
      }
      i := i + 1;
    }
    assert keys[..i] == keys && existing[..i] == existing;
    var tail := AppendMissing(data, keysWritten);
    out := out + tail;
  }

  /** The body of save_env's first loop for one existing line: its key, and
      the line rewritten with the new value or kept. */
  method RewriteOne(line: string, m: map<string, string>) returns (newLine: string, key: Option<string>)
    ensures key == SaveKey(line) && newLine == RewriteLine(line, key, m)
  {
    key := SaveKey(line);
    if key.Some? && key.value in m {
      newLine := FormatEnvLine(key.value, m[key.value]);
    } else {
      newLine := line;
    }
  }

  /** save_env's second loop: the lines for the keys not written yet. */
  method AppendMissing(data: seq<(string, string)>, keysWritten: set<string>) returns (tail: seq<string>)
    ensures tail == Appended(data, keysWritten)
  {
    tail := [];
    var j := 0;
    while j < |data|
      invariant 0 <= j <= |data|
      invariant tail == Appended(data[..j], keysWritten)
    {
      AppendStep(data, j, keysWritten);
      var (k, v) := data[j];
      if k !in keysWritten {
        tail := tail + [FormatEnvLine(k, v)];
      }
      j := j + 1;
    }
    assert data[..j] == data;
  }

  /** An existing line whose key is not being saved is kept verbatim. */
  lemma KeepsOtherLines(existing: seq<string>, data: seq<(string, string)>, j: nat)
    requires DistinctKeys(data) && j < |existing|
    requires SaveKey(existing[j]).None? || SaveKey(existing[j]).value !in ToMap(data)
    ensures SavedLines(existing, data)[j] == existing[j]
  {
    MapAt(SaveKey, existing, j);
  }

  function CountKey(data: seq<(string, string)>, k: string): nat {
    if data == [] then 0 else CountKey(data[..|data| - 1], k) + (if data[|data| - 1].0 == k then 1 else 0)
  }

  /** How many appended lines carry `k`. */
  function AppendedFor(data: seq<(string, string)>, written: set<string>, k: string): nat {
    if data == [] then 0
    else AppendedFor(data[..|data| - 1], written, k) + (if data[|data| - 1].0 == k && k !in written then 1 else 0)
  }

  lemma {:induction false} CountKeyAbsent(data: seq<(string, string)>, k: string)
    requires forall j :: 0 <= j < |data| ==> data[j].0 != k
    ensures CountKey(data, k) == 0
  {
    if data != [] { CountKeyAbsent(data[..|data| - 1], k); }
  }

  lemma {:induction false} CountKeyDistinct(data: seq<(string, string)>, i: nat)
    requires DistinctKeys(data) && i < |data|
    ensures CountKey(data, data[i].0) == 1
  {
    var prev := data[..|data| - 1];
    if i < |prev| {
      CountKeyDistinct(prev, i);
      assert data[|data| - 1].0 != data[i].0;
    } else {
      CountKeyAbsent(prev, data[i].0);
    }
  }

  lemma {:induction false} AppendedForCount(data: seq<(string, string)>, written: set<string>, k: string)
    ensures AppendedFor(data, written, k) == if k in written then 0 else CountKey(data, k)
  {
    if data != [] { AppendedForCount(data[..|data| - 1], written, k); }
  }

  /** Each key of `data` missing from the file is appended exactly once, and
      a key already in the file is not appended. */
  lemma AppendsMissingKeysOnce(existing: seq<string>, data: seq<(string, string)>, i: nat)
    requires DistinctKeys(data) && i < |data|
    ensures var w := WrittenKeys(Map(SaveKey, existing), ToMap(data));
      AppendedFor(data, w, data[i].0) == if data[i].0 in w then 0 else 1
  {
    AppendedForCount(data, WrittenKeys(Map(SaveKey, existing), ToMap(data)), data[i].0);
    CountKeyDistinct(data, i);
  }

  // The round trip: what save_env writes, load_env reads back.

  lemma {:induction false} LeadSpacesAppend(s: string, t: string)
    ensures LeadSpaces(s) < |s| ==> LeadSpaces(s + t) == LeadSpaces(s)
    ensures LeadSpaces(s) == |s| ==> LeadSpaces(s + t) == |s| + LeadSpaces(t)
  {
    if s == [] {
      assert s + t == t;
    } else if IsSpace(s[0]) {
      assert (s + t)[1..] == s[1..] + t;
      LeadSpacesAppend(s[1..], t);
    }
  }

  /** A trailing whitespace character does not change the trimmed text. */
  lemma TrimDropLastSpace(s: string)
    requires s != [] && IsSpace(s[|s| - 1])
    ensures Trim(s) == Trim(s[..|s| - 1])
  {
    var p := s[..|s| - 1];
    assert s == p + [s[|s| - 1]];
    LeadSpacesAppend(p, [s[|s| - 1]]);
    if LeadSpaces(p) < |p| {
      TrimDropLastSpaceInner(s, LeadSpaces(p));
    } else {
      TrimDropLastSpaceBlank(s);
    }
  }

  lemma TrimDropLastSpaceInner(s: string, L: nat)
    requires s != [] && IsSpace(s[|s| - 1]) && L < |s| - 1
    requires LeadSpaces(s) == L && LeadSpaces(s[..|s| - 1]) == L
    ensures Trim(s) == Trim(s[..|s| - 1])
  {
    var p := s[..|s| - 1];
    TrimIsTrimEnd(s);
    TrimIsTrimEnd(p);
    DropLastThenFrom(s, L);
    TrimEndDropSpace(s[L..]);
  }

  lemma TrimIsTrimEnd(s: string)
    ensures Trim(s) == TrimEnd(s[LeadSpaces(s)..])
  {
  }

  /** A trailing whitespace character does not change the right-trimmed text. */
  lemma TrimEndDropSpace(t: string)
    requires t != [] && IsSpace(t[|t| - 1])
    ensures TrimEnd(t) == TrimEnd(t[..|t| - 1])
  {
    var u := t[..|t| - 1];
    var n := |u| - TrailSpaces(u);
    assert TrailSpaces(t) == 1 + TrailSpaces(u);
    assert t[..n] == u[..n];
  }

  lemma DropLastThenFrom(s: string, L: nat)
    requires L < |s|
    ensures var t := s[L..]; t != [] && s[..|s| - 1][L..] == t[..|t| - 1] && t[|t| - 1] == s[|s| - 1]
  {
  }

  lemma TrimDropLastSpaceBlank(s: string)
    requires s != [] && IsSpace(s[|s| - 1]) && LeadSpaces(s[..|s| - 1]) == |s| - 1
    ensures Trim(s) == Trim(s[..|s| - 1])
  {
    var p := s[..|s| - 1];
    LeadSpacesAll(p);
    BlankIffTrimEmpty(p);
    BlankIffTrimEmpty(s);
  }

  lemma {:induction false} TrimRStripNewlines(s: string)
    ensures Trim(RStripChar(s, '\n')) == Trim(s)
    decreases |s|
  {
    if s != [] && s[|s| - 1] == '\n' {
      TrimDropLastSpace(s);
      TrimRStripNewlines(s[..|s| - 1]);
    }
  }

  /** Removing trailing newlines keeps every '=' and what precedes the first. */
  lemma RStripKeepsEquals(line: string)
    ensures HasChar(RStripChar(line, '\n'), '=') <==> HasChar(line, '=')
    ensures HasChar(line, '=') ==> BeforeFirst(RStripChar(line, '\n'), '=') == BeforeFirst(line, '=')
  {
    var l := RStripChar(line, '\n');
    assert line == l + line[|l|..];
    if HasChar(line, '=') {
      var i :| 0 <= i < |line| && line[i] == '=';
      assert i < |l|;
      assert l[i] == '=';
      BeforeFirstPrefix(l, line[|l|..], '=');
    }
  }

  lemma TrimEmptyHasNoEquals(s: string)
    requires Trim(s) == []
    ensures !HasChar(s, '=')
  {
    BlankIffTrimEmpty(s);
  }

  /** load_env and save_env agree on which lines define which key. */
  lemma SaveKeyAgreesWithLoad(line: string)
    ensures SaveKey(line).None? ==> ParseEnvLine(line).None?
    ensures SaveKey(line).Some? ==> Defines(ParseEnvLine(line), SaveKey(line).value)
  {
    var l := RStripChar(line, '\n');
    TrimRStripNewlines(line);
    RStripKeepsEquals(line);
    if Trim(line) == [] && HasChar(l, '=') {
      TrimEmptyHasNoEquals(l);
    }
  }

  predicate CleanKey(k: string) {
    Trim(k) == k && !HasChar(k, '=') && !HasChar(k, '\n') && !HasChar(k, '\r') && (k != [] ==> k[0] != '#')
  }

  predicate CleanValue(v: string) {
    Trim(v) == v && !HasChar(v, '\n') && !HasChar(v, '\r')
  }

  lemma BeforeFirstAt(k: string, rest: string, c: char)
    requires !HasChar(k, c)
    ensures HasChar(k + [c] + rest, c)
    ensures BeforeFirst(k + [c] + rest, c) == k
    ensures AfterFirst(k + [c] + rest, c) == rest
  {
    var s := k + [c] + rest;
    assert s[|k|] == c;
    assert s[|k| + 1..] == rest;
  }

  /** A line written by save_env reads back as its key and value. */
  lemma ParseFormatted(k: string, v: string)
    requires CleanKey(k) && CleanValue(v)
    ensures ParseEnvLine(FormatEnvLine(k, v)) == Some((k, v))
  {
    var l := k + "=" + v;
    FormattedStrip(k, v);
    FormattedTrim(k, v);
    assert l == k + ['='] + v;
    BeforeFirstAt(k, v, '=');
    ParseAssignment(FormatEnvLine(k, v), l);
  }

  /** Removing the trailing newline of a formatted line leaves `k=v`. */
  lemma FormattedStrip(k: string, v: string)
    requires !HasChar(v, '\n')
    ensures RStripChar(FormatEnvLine(k, v), '\n') == k + "=" + v
  {
    var l := k + "=" + v;
    var line := FormatEnvLine(k, v);
    assert l[|l| - 1] == if v != [] then v[|v| - 1] else '=';
    assert line == l + "\n" && line[..|line| - 1] == l;
  }

  /** `k=v` with a clean key and value is its own trim and no comment. */
  lemma FormattedTrim(k: string, v: string)
    requires k != [] ==> k[0] != '#' && !IsSpace(k[0])
    requires v != [] ==> !IsSpace(v[|v| - 1])
    ensures var l := k + "=" + v; Trim(l) == l && !StartsWith(l, "#")
  {
    var l := k + "=" + v;
    assert l[0] == if k != [] then k[0] else '=';
    assert l[..1] == [l[0]];
    assert l[|l| - 1] == if v != [] then v[|v| - 1] else '=';
    TrimNoSpaceEnds(l);
  }

  /** A line whose newline-stripped form `l` is a non-comment assignment
      parses as the trimmed parts of `l` around its first '='. */
  lemma ParseAssignment(line: string, l: string)
    requires RStripChar(line, '\n') == l && HasChar(l, '=') && !StartsWith(Trim(l), "#")
    ensures ParseEnvLine(line) == Some((Trim(BeforeFirst(l, '=')), Trim(AfterFirst(l, '='))))
  {
  }

  /** Every appended line is the formatted form of some pair. */
  lemma {:induction false} AppendedSource(data: seq<(string, string)>, w: set<string>, j: nat) returns (y: nat)
    requires j < |Appended(data, w)|
    ensures y < |data| && data[y].0 !in w && Appended(data, w)[j] == FormatEnvLine(data[y].0, data[y].1)
  {
    var prev := data[..|data| - 1];
    if j < |Appended(prev, w)| {
      y := AppendedSource(prev, w, j);
      assert prev[y] == data[y];
    } else {
      y := |data| - 1;
    }
  }

  /** A key not written in place sits somewhere among the appended lines. */
  lemma {:induction false} AppendedIndex(data: seq<(string, string)>, w: set<string>, i: nat) returns (j: nat)
    requires i < |data| && data[i].0 !in w
    ensures j < |Appended(data, w)| && Appended(data, w)[j] == FormatEnvLine(data[i].0, data[i].1)
  {
    var prev := data[..|data| - 1];
    if i < |prev| {
      assert prev[i] == data[i];
      j := AppendedIndex(prev, w, i);
    } else {
      j := |Appended(prev, w)|;
    }
  }

  predicate CleanData(data: seq<(string, string)>) {
    DistinctKeys(data) && forall j :: 0 <= j < |data| ==> CleanKey(data[j].0) && CleanValue(data[j].1)
  }

  /** Line `j` of the saved file: a rewritten existing line, or an appended one. */
  lemma SavedFromAt(existing: seq<string>, keys: seq<Option<string>>, data: seq<(string, string)>, j: nat)
    requires |keys| == |existing| && DistinctKeys(data) && j < |SavedFrom(existing, keys, data)|
    ensures j < |existing| ==> SavedFrom(existing, keys, data)[j] == RewriteLine(existing[j], keys[j], ToMap(data))
    ensures j >= |existing| ==>
      SavedFrom(existing, keys, data)[j] == Appended(data, WrittenKeys(keys, ToMap(data)))[j - |existing|]
  {
  }

  lemma SameKeySameIndex(data: seq<(string, string)>, x: nat, y: nat)
    requires DistinctKeys(data) && x < |data| && y < |data| && data[x].0 == data[y].0
    ensures x == y
  {
  }

  /** A rewritten line that defines `data[i]`'s key gives it `data[i]`'s value. */
  lemma RewrittenLineValue(line: string, data: seq<(string, string)>, i: nat)
    requires CleanData(data) && i < |data|
    requires Defines(ParseEnvLine(RewriteLine(line, SaveKey(line), ToMap(data))), data[i].0)
    ensures ParseEnvLine(RewriteLine(line, SaveKey(line), ToMap(data))).value.1 == data[i].1
  {
    var m := ToMap(data);
    var key := SaveKey(line);
    SaveKeyAgreesWithLoad(line);
    if key.Some? && key.value in m {
      ToMapKeys(data, key.value);
      var y :| 0 <= y < |data| && data[y].0 == key.value;
      ParseFormatted(data[y].0, data[y].1);
      SameKeySameIndex(data, y, i);
    }
  }

  /** An appended line that defines `data[i]`'s key gives it `data[i]`'s value. */
  lemma AppendedLineValue(data: seq<(string, string)>, w: set<string>, i: nat, x: nat)
    requires CleanData(data) && i < |data| && x < |Appended(data, w)|
    requires Defines(ParseEnvLine(Appended(data, w)[x]), data[i].0)
    ensures ParseEnvLine(Appended(data, w)[x]).value.1 == data[i].1
  {
    var y := AppendedSource(data, w, x);
    ParseFormatted(data[y].0, data[y].1);
    SameKeySameIndex(data, y, i);
  }

  /** The saved file holds the formatted line of every pair of `data`: in
      place of an existing line with that key, or appended. */
  lemma SavedContains(existing: seq<string>, keys: seq<Option<string>>, data: seq<(string, string)>, i: nat) returns (j: nat)
    requires |keys| == |existing| && DistinctKeys(data) && i < |data|
    ensures j < |SavedFrom(existing, keys, data)|
    ensures SavedFrom(existing, keys, data)[j] == FormatEnvLine(data[i].0, data[i].1)
  {
    var m := ToMap(data);
    var w := WrittenKeys(keys, m);
    var k := data[i].0;
    WrittenKeysMembers(keys, m, k);
    if k in w {
      var x :| 0 <= x < |keys| && keys[x] == Some(k);
      j := x;
    } else {
      var x := AppendedIndex(data, w, i);
      j := |existing| + x;
    }
    SavedFromAt(existing, keys, data, j);
  }

  /** Round trip on the list of lines: when load_env sees exactly the lines
      save_env wrote, it returns each saved key with its saved value. */
  lemma LoadAfterSaveLines(existing: seq<string>, data: seq<(string, string)>, i: nat)
    requires CleanData(data) && i < |data|
    ensures data[i].0 in EnvOf(SavedLines(existing, data))
    ensures EnvOf(SavedLines(existing, data))[data[i].0] == data[i].1
  {
    var keys := Map(SaveKey, existing);
    var out := SavedLines(existing, data);
    assert out == SavedFrom(existing, keys, data);
    var es := Map(ParseEnvLine, out);
    var (k, v) := data[i];
    forall j | 0 <= j < |es| && Defines(es[j], k)
      ensures es[j].value.1 == v
    {
      MapAt(ParseEnvLine, out, j);
      SavedFromAt(existing, keys, data, j);
      if j < |existing| {
        MapAt(SaveKey, existing, j);
        RewrittenLineValue(existing[j], data, i);
      } else {
        AppendedLineValue(data, WrittenKeys(keys, ToMap(data)), i, j - |existing|);
      }
    }
    var j := SavedContains(existing, keys, data, i);
    ParseFormatted(k, v);
    MapAt(ParseEnvLine, out, j);
    EnvKeys(es, k);
    EnvAgreeing(es, k, v);
  }

  // ---- The file as text ----

  /** `f.writelines(lines)`: the lines one after another, no separator added. */
  function WrittenText(lines: seq<string>): string {
    if lines == [] then [] else lines[0] + WrittenText(lines[1..])
  }

  /** Splitting the decoded text into lines (`readlines()`, `for line in f`):
      each line runs up to and including its '\n'; the last may lack one. */
  function ReadLines(text: string): seq<string>
    decreases |text|
  {
    if text == [] then []
    else match IndexOfChar(text, '\n')
      case None => [text]
      case Some(k) => [text[..k + 1]] + ReadLines(text[k + 1..])
  }

  /** A file that is empty or ends in a line break ('\n' or '\r'). */
  predicate EndsInLineBreak(text: string) {
    text == [] || text[|text| - 1] == '\n' || text[|text| - 1] == '\r'
  }

  /** Opening a file in text mode with the default universal newlines:
      "\r\n" and a lone '\r' both reach the program as '\n'. */
  function Translated(text: string): (r: string)
    ensures !HasChar(r, '\r')
    ensures !HasChar(text, '\r') ==> r == text
    ensures EndsInLineBreak(text) ==> EndsInNewline(r)
    decreases |text|
  {
    if text == [] then []
    else if text[0] == '\r' then
      "\n" + Translated(if |text| > 1 && text[1] == '\n' then text[2..] else text[1..])
    else [text[0]] + Translated(text[1..])
  }

  /** The lines a Python program reads from a file holding `text`. */
  function ReadFile(text: string): (r: seq<string>)
    ensures !HasChar(text, '\r') ==> r == ReadLines(text)
  {
    ReadLines(Translated(text))
  }

  /** A line ending in its only '\n', with no '\r'. */
  predicate TerminatedLine(l: string) {
    l != [] && l[|l| - 1] == '\n' && !HasChar(l[..|l| - 1], '\n') && !HasChar(l, '\r')
  }

  predicate AllTerminated(lines: seq<string>) {
    forall j :: 0 <= j < |lines| ==> TerminatedLine(lines[j])
  }

  /** A file that is empty or ends in '\n'. */
  predicate EndsInNewline(text: string) {
    text == [] || text[|text| - 1] == '\n'
  }

  lemma FirstNewlineAt(l: string, rest: string)
    requires TerminatedLine(l)
    ensures IndexOfChar(l + rest, '\n') == Some(|l| - 1)
    ensures (l + rest)[..|l|] == l && (l + rest)[|l|..] == rest
  {
    var t := l + rest;
    assert t[|l| - 1] == '\n';
    forall x | 0 <= x < |l| - 1 ensures t[x] != '\n' {
      assert t[x] == l[..|l| - 1][x];
    }
  }

  /** Reading back lines that each end in their only newline gives them back. */
  lemma {:induction false} ReadWritten(lines: seq<string>)
    requires AllTerminated(lines)
    ensures ReadLines(WrittenText(lines)) == lines
    decreases |lines|
  {
    if lines != [] {
      var rest := WrittenText(lines[1..]);
      FirstNewlineAt(lines[0], rest);
      assert AllTerminated(lines[1..]) by {
        forall j | 0 <= j < |lines| - 1 ensures TerminatedLine(lines[1..][j]) {
          assert lines[1..][j] == lines[j + 1];
        }
      }
      ReadWritten(lines[1..]);
    }
  }

  /** The lines of a text that ends in a newline and holds no '\r' all end
      in their only newline. */
  lemma {:induction false} ReadTerminated(text: string)
    requires EndsInNewline(text) && !HasChar(text, '\r')
    ensures AllTerminated(ReadLines(text))
    decreases |text|
  {
    if text != [] {
      var k := IndexOfChar(text, '\n').value;
      FirstLineTerminated(text, k);
      var rest := text[k + 1..];
      RestOfText(text, k);
      ReadTerminated(rest);
      var lines := [text[..k + 1]] + ReadLines(rest);
      assert ReadLines(text) == lines;
      forall j | 0 <= j < |lines| ensures TerminatedLine(lines[j]) {
        if j > 0 { assert lines[j] == ReadLines(rest)[j - 1]; }
      }
    }
  }

  /** The text up to its first '\n' is a terminated line. */
  lemma FirstLineTerminated(text: string, k: nat)
    requires !HasChar(text, '\r') && IndexOfChar(text, '\n') == Some(k)
    ensures TerminatedLine(text[..k + 1])
  {
    var line := text[..k + 1];
    assert !HasChar(line[..|line| - 1], '\n') by {
      assert forall x :: 0 <= x < k ==> line[..|line| - 1][x] == text[x];
    }
    assert !HasChar(line, '\r') by {
      assert forall x :: 0 <= x <= k ==> line[x] == text[x];
    }
  }

  /** What follows a line of such a text still ends in '\n' and has no '\r'. */
  lemma RestOfText(text: string, k: nat)
    requires EndsInNewline(text) && !HasChar(text, '\r') && k < |text|
    ensures EndsInNewline(text[k + 1..]) && !HasChar(text[k + 1..], '\r')
  {
    var rest := text[k + 1..];
    if rest != [] { assert rest[|rest| - 1] == text[|text| - 1]; }
    assert forall x :: 0 <= x < |rest| ==> rest[x] == text[k + 1 + x];
  }

  lemma FormattedTerminated(k: string, v: string)
    requires CleanKey(k) && CleanValue(v)
    ensures TerminatedLine(FormatEnvLine(k, v))
  {
    var l := FormatEnvLine(k, v);
    assert l[..|l| - 1] == k + "=" + v;
    forall x | 0 <= x < |l| - 1 ensures l[x] != '\n' && l[x] != '\r' {
      if x < |k| { assert l[x] == k[x]; }
      else if x > |k| { assert l[x] == v[x - |k| - 1]; }
    }
    assert l[|l| - 1] == '\n';
  }

  /** Lines that are all terminated write a text with no '\r'. */
  lemma {:induction false} WrittenNoReturn(lines: seq<string>)
    requires AllTerminated(lines)
    ensures !HasChar(WrittenText(lines), '\r')
    decreases |lines|
  {
    if lines != [] {
      assert AllTerminated(lines[1..]) by {
        forall j | 0 <= j < |lines| - 1 ensures TerminatedLine(lines[1..][j]) {
          assert lines[1..][j] == lines[j + 1];
        }
      }
      WrittenNoReturn(lines[1..]);
      NoCharConcat(lines[0], WrittenText(lines[1..]), '\r');
    }
  }

  lemma NoCharConcat(a: string, b: string, c: char)
    requires !HasChar(a, c) && !HasChar(b, c)
    ensures !HasChar(a + b, c)
  {
    forall x | 0 <= x < |a + b| ensures (a + b)[x] != c {
      if x >= |a| { assert (a + b)[x] == b[x - |a|]; }
    }
  }

  /** save_env on terminated lines with clean data writes terminated lines. */
  lemma SavedTerminated(existing: seq<string>, data: seq<(string, string)>)
    requires AllTerminated(existing) && CleanData(data)
    ensures AllTerminated(SavedLines(existing, data))
  {
    var keys := Map(SaveKey, existing);
    var out := SavedLines(existing, data);
    assert out == SavedFrom(existing, keys, data);
    forall j | 0 <= j < |out| ensures TerminatedLine(out[j]) {
      SavedFromAt(existing, keys, data, j);
      if j < |existing| {
        var m := ToMap(data);
        if keys[j].Some? && keys[j].value in m {
          ToMapKeys(data, keys[j].value);
          var y :| 0 <= y < |data| && data[y].0 == keys[j].value;
          FormattedTerminated(data[y].0, data[y].1);
        }
      } else {
        var y := AppendedSource(data, WrittenKeys(keys, ToMap(data)), j - |existing|);
        FormattedTerminated(data[y].0, data[y].1);
      }
    }
  }

  /** Round trip through the file: when the existing file is empty or ends
      in a line break, loading the file save_env wrote returns each saved key
      with its saved value. */
  lemma LoadAfterSave(text: string, data: seq<(string, string)>, i: nat)
    requires CleanData(data) && i < |data| && EndsInLineBreak(text)
    ensures var file := WrittenText(SavedLines(ReadFile(text), data));
      data[i].0 in EnvOf(ReadFile(file)) && EnvOf(ReadFile(file))[data[i].0] == data[i].1
  {
    var saved := SavedLines(ReadFile(text), data);
    ReadTerminated(Translated(text));
    SavedTerminated(ReadFile(text), data);
    WrittenNoReturn(saved);
    ReadWritten(saved);
    LoadAfterSaveLines(ReadFile(text), data, i);
  }

  /** As written, a last line without '\n' runs into the first appended
      line: "FOO=1" saved with BAR=2 becomes "FOO=1BAR=2\n", which loads as
      FOO = "1BAR=2" with no BAR at all. In general, when the existing file
      ends in an assignment to another key and no newline, the saved key is
      lost on the next load. */
  lemma MissingNewlineLosesKey(last: string, k: string, v: string)
    requires last != [] && !HasChar(last, '\n') && !HasChar(last, '\r')
    requires SaveKey(last).Some? && SaveKey(last).value != k
    requires CleanKey(k) && CleanValue(v)
    ensures WrittenText(SavedLines(ReadFile(last), [(k, v)])) == last + FormatEnvLine(k, v)
    ensures k !in EnvOf(ReadFile(last + FormatEnvLine(k, v)))
  {
    UnterminatedSaved(last, k, v);
    RunTogetherLoads(last, k, v);
    FormattedTerminated(k, v);
    NoCharConcat(last, FormatEnvLine(k, v), '\r');
  }

  lemma UnterminatedSaved(last: string, k: string, v: string)
    requires last != [] && !HasChar(last, '\n') && SaveKey(last).Some? && SaveKey(last).value != k
    ensures SavedLines(ReadLines(last), [(k, v)]) == [last, FormatEnvLine(k, v)]
    ensures WrittenText([last, FormatEnvLine(k, v)]) == last + FormatEnvLine(k, v)
  {
    ReadUnterminated(last);
    var data := [(k, v)];
    var keys := Map(SaveKey, [last]);
    MapAt(SaveKey, [last], 0);
    var m := ToMap(data);
    assert data[..0] == [];
    assert m == ToMap(data[..0])[k := v];
    assert SaveKey(last).value !in m;
    assert WrittenKeys(keys, m) == {} by { assert keys[..0] == []; }
    assert Appended(data, {}) == [FormatEnvLine(k, v)] by { assert data[..0] == []; }
    assert WrittenText([FormatEnvLine(k, v)]) == FormatEnvLine(k, v);
  }

  /** A text with no '\n' is read as one line. */
  lemma ReadUnterminated(last: string)
    requires last != [] && !HasChar(last, '\n')
    ensures ReadLines(last) == [last]
  {
    assert IndexOfChar(last, '\n') == None;
  }

  lemma RunTogetherLoads(last: string, k: string, v: string)
    requires last != [] && !HasChar(last, '\n') && !HasChar(last, '\r') && SaveKey(last).Some? && SaveKey(last).value != k
    requires CleanKey(k) && CleanValue(v)
    ensures k !in EnvOf(ReadLines(last + FormatEnvLine(k, v)))
  {
    var file := last + FormatEnvLine(k, v);
    RunTogetherOneLine(last, k, v);
    RunTogetherKey(last, k, v);
    MapAt(ParseEnvLine, [file], 0);
    assert Map(ParseEnvLine, [file]) == [ParseEnvLine(file)];
    var es := [ParseEnvLine(file)];
    assert es[..0] == [];
    assert EnvOf([file]) == EnvOfEntries(es);
    assert EnvOfEntries(es) == match es[0] case None => map[] case Some((k', v')) => map[k' := v'];
  }

  /** The run-together text is read as one line. */
  lemma RunTogetherOneLine(last: string, k: string, v: string)
    requires !HasChar(last, '\n') && !HasChar(last, '\r') && CleanKey(k) && CleanValue(v)
    ensures ReadLines(last + FormatEnvLine(k, v)) == [last + FormatEnvLine(k, v)]
  {
    var f := FormatEnvLine(k, v);
    var file := last + f;
    FormattedTerminated(k, v);
    assert TerminatedLine(file) by {
      assert file[..|file| - 1] == last + f[..|f| - 1];
      forall x | 0 <= x < |file| - 1 ensures file[x] != '\n' {
        if x >= |last| { assert file[x] == f[..|f| - 1][x - |last|]; }
      }
      NoCharConcat(last, f, '\r');
    }
    FirstNewlineAt(file, []);
    assert file + [] == file;
  }

  /** The run-together line, if it parses, parses with the old line's key. */
  lemma RunTogetherKey(last: string, k: string, v: string)
    requires SaveKey(last).Some? && CleanKey(k)
    ensures ParseEnvLine(last + FormatEnvLine(k, v)) == None ||
      ParseEnvLine(last + FormatEnvLine(k, v)).value.0 == SaveKey(last).value
  {
    var file := last + FormatEnvLine(k, v);
    var l := RStripChar(file, '\n');
    assert file[|last|] == if k != [] then k[0] else '=';
    assert |l| > |last|;
    var t := l[|last|..];
    assert l[..|last|] == file[..|last|] == last;
    assert l == l[..|last|] + t;
    BeforeFirstPrefix(last, t, '=');
  }

  /** The evident intent: the existing file's last line given its newline
      before anything is appended. */
  function Terminated(text: string): (r: string)
    ensures EndsInLineBreak(r)
    ensures EndsInLineBreak(text) ==> r == text
  {
    if EndsInLineBreak(text) then text else text + "\n"
  }

  /** With the last line terminated first, the round trip holds for every
      existing file. */
  lemma LoadAfterSaveTerminated(text: string, data: seq<(string, string)>, i: nat)
    requires CleanData(data) && i < |data|
    ensures var file := WrittenText(SavedLines(ReadFile(Terminated(text)), data));
      data[i].0 in EnvOf(ReadFile(file)) && EnvOf(ReadFile(file))[data[i].0] == data[i].1
  {
    LoadAfterSave(Terminated(text), data, i);
  }
}

=== FILE: date_utils.dfy ===
// The analytics day of the client (client/src/lib/date-utils.ts): a day
// that runs from 02:00 local time to 02:00 of the next calendar day, its
// "YYYY-MM-DD" name, its month, and its start and end instants.
//
// A JavaScript Date is modelled by its local wall-clock fields (proleptic
// Gregorian calendar); `setDate` rolling over a month or year boundary is
// written out as NextDay / PrevDay.

module DateUtils {
  import opened Text

  // ---- The calendar ----

  datatype Civil = Civil(year: int, month: int, day: int)

  predicate IsLeap(y: int) {
    y % 4 == 0 && (y % 100 != 0 || y % 400 == 0)
  }

  function DaysInMonth(y: int, m: int): int {
    if m == 2 then (if IsLeap(y) then 29 else 28)
    else if m == 4 || m == 6 || m == 9 || m == 11 then 30
    else 31
  }

  predicate ValidCivil(c: Civil) {
    1 <= c.month <= 12 && 1 <= c.day <= DaysInMonth(c.year, c.month)
  }

  /** `setDate(getDate() + 1)`. */
  function NextDay(c: Civil): (r: Civil)
    requires ValidCivil(c)
    ensures ValidCivil(r)
  {
    if c.day < DaysInMonth(c.year, c.month) then Civil(c.year, c.month, c.day + 1)
    else if c.month < 12 then Civil(c.year, c.month + 1, 1)
    else Civil(c.year + 1, 1, 1)
  }

  /** `setDate(getDate() - 1)`: day 0 is the last day of the month before. */
  function PrevDay(c: Civil): (r: Civil)
    requires ValidCivil(c)
    ensures ValidCivil(r)
  {
    if c.day > 1 then Civil(c.year, c.month, c.day - 1)
    else if c.month > 1 then Civil(c.year, c.month - 1, DaysInMonth(c.year, c.month - 1))
    else Civil(c.year - 1, 12, 31)
  }

  /** Calendar order. */
  predicate DateLess(a: Civil, b: Civil) {
    a.year < b.year || (a.year == b.year && (a.month < b.month || (a.month == b.month && a.day < b.day)))
  }

  /** The day before and the day after are neighbours: each undoes the
      other. */
  lemma NextPrevInverse(c: Civil)
    requires ValidCivil(c)
    ensures PrevDay(NextDay(c)) == c && NextDay(PrevDay(c)) == c
  {
  }

  /** The next day is later, and no valid day lies strictly between a day
      and the next one. */
  lemma NextDayIsNext(c: Civil, e: Civil)
    requires ValidCivil(c) && ValidCivil(e)
    ensures DateLess(c, NextDay(c))
    ensures DateLess(c, e) ==> e == NextDay(c) || DateLess(NextDay(c), e)
  {
  }

  // ---- Instants ----

  /** A Date by its local fields. */
  datatype DateTime = DateTime(date: Civil, hour: int, minute: int, second: int, ms: int)

  predicate Valid(t: DateTime) {
    ValidCivil(t.date) && 0 <= t.hour < 24 && 0 <= t.minute < 60 && 0 <= t.second < 60 && 0 <= t.ms < 1000
  }

  /** Milliseconds since local midnight. */
  function Clock(t: DateTime): int {
    t.hour * 3600000 + t.minute * 60000 + t.second * 1000 + t.ms
  }

  /** Order of instants (the `<` and `>=` of Date values). */
  predicate Before(a: DateTime, b: DateTime) {
    DateLess(a.date, b.date) || (a.date == b.date && Clock(a) < Clock(b))
  }

  predicate AtOrBefore(a: DateTime, b: DateTime) {
    Before(a, b) || a == b
  }

  /** `setSeconds(getSeconds() - 1)`: one second back, borrowing from the
      minute, the hour and the day; the milliseconds stay. */
  function SecondEarlier(t: DateTime): (r: DateTime)
    requires Valid(t)
    ensures Valid(r)
  {
    if t.second > 0 then t.(second := t.second - 1)
    else if t.minute > 0 then t.(minute := t.minute - 1, second := 59)
    else if t.hour > 0 then t.(hour := t.hour - 1, minute := 59, second := 59)
    else t.(date := PrevDay(t.date), hour := 23, minute := 59, second := 59)
  }

  /** The calendar day an instant counts for: before 02:00 it is the
      previous day. */
  function AnalyticsDay(t: DateTime): (c: Civil)
    requires Valid(t)
    ensures ValidCivil(c)
  {
    if t.hour < 2 then PrevDay(t.date) else t.date
  }

  /** The analytics day is the calendar day from 02:00 on, and the day
      before it from midnight to 02:00. */
  lemma AnalyticsDayShift(t: DateTime)
    requires Valid(t)
    ensures AnalyticsDay(t) == t.date <==> t.hour >= 2
    ensures t.hour < 2 ==> NextDay(AnalyticsDay(t)) == t.date
  {
    NextPrevInverse(t.date);
    NextDayIsNext(PrevDay(t.date), t.date);
  }

  // ---- Date strings ----

  /** `${year}-${month}-${day}` with month and day padded to two digits. */
  function FormatDate(c: Civil): string {
    IntToString(c.year) + "-" + Pad2(if c.month < 0 then 0 else c.month) + "-" + Pad2(if c.day < 0 then 0 else c.day)
  }

  predicate AllDigits(s: string) {
    forall i :: 0 <= i < |s| ==> IsAsciiDigit(s[i])
  }

  /** Reads a "Y-MM-DD" string back. */
  function ParseDate(s: string): Option<Civil> {
    if |s| < 7 || s[|s| - 6] != '-' || s[|s| - 3] != '-' then None
    else
      var y, m, d := s[..|s| - 6], s[|s| - 5..|s| - 3], s[|s| - 2..];
      if !AllDigits(m) || !AllDigits(d) then None
      else if y != [] && y[0] == '-' && y[1..] != [] && AllDigits(y[1..]) then
        Some(Civil(-(DigitsValue(y[1..]) as int), DigitsValue(m), DigitsValue(d)))
      else if AllDigits(y) then Some(Civil(DigitsValue(y), DigitsValue(m), DigitsValue(d)))
      else None
  }

  lemma IntToStringValue(y: int)
    ensures y < 0 ==> IntToString(y)[0] == '-' && IntToString(y)[1..] == NatToString(-y)
    ensures y >= 0 ==> AllDigits(IntToString(y)) && DigitsValue(IntToString(y)) == y
    ensures y < 0 ==> DigitsValue(IntToString(y)[1..]) == -y
  {
    if y < 0 {
      NatToStringValue(-y);
    } else {
      NatToStringValue(y);
    }
  }

  /** Where the three fields sit in a formatted date. */
  lemma FormatDateParts(c: Civil)
    requires ValidCivil(c)
    ensures var s := FormatDate(c);
      |s| >= 7 && s[|s| - 6] == '-' && s[|s| - 3] == '-'
      && s[..|s| - 6] == IntToString(c.year) && s[|s| - 5..|s| - 3] == Pad2(c.month) && s[|s| - 2..] == Pad2(c.day)
  {
    var y, m, d := IntToString(c.year), Pad2(c.month), Pad2(c.day);
    var s := FormatDate(c);
    assert s == y + "-" + m + "-" + d;
    assert |m| == 2 && |d| == 2;
  }

  /** Every valid date is named by a string that reads back as that date,
      so two different days never share a name. */
  lemma ParseFormatDate(c: Civil)
    requires ValidCivil(c)
    ensures ParseDate(FormatDate(c)) == Some(c)
  {
    FormatDateParts(c);
    Pad2Value(c.month);
    Pad2Value(c.day);
    IntToStringValue(c.year);
  }

  lemma FormatDateInjective(a: Civil, b: Civil)
    requires ValidCivil(a) && ValidCivil(b) && FormatDate(a) == FormatDate(b)
    ensures a == b
  {
    ParseFormatDate(a);
    ParseFormatDate(b);
  }

  /** A four-digit year gives the ten characters "YYYY-MM-DD". */
  lemma FormatDateShape(c: Civil)
    requires ValidCivil(c) && 1000 <= c.year <= 9999
    ensures |FormatDate(c)| == 10 && FormatDate(c)[4] == '-' && FormatDate(c)[7] == '-'
    ensures FormatDate(c)[..7] == NatToString(c.year) + "-" + Pad2(c.month)
  {
    FormatDateParts(c);
    FourDigits(c.year);
    var s := FormatDate(c);
    assert s == NatToString(c.year) + "-" + Pad2(c.month) + "-" + Pad2(c.day);
  }

  lemma FourDigits(y: nat)
    requires 1000 <= y <= 9999
    ensures |NatToString(y)| == 4
  {
    assert |NatToString(y / 10)| == 3 by {
      assert |NatToString(y / 100)| == 2;
    }
  }

  // ---- The exported functions ----

  /** `getAnalyticsDateString`: a copy of the date, moved back a day
      before 02:00, then formatted. */
  method GetAnalyticsDateString(date: DateTime) returns (s: string)
    requires Valid(date)
    ensures s == FormatDate(AnalyticsDay(date))
    ensures date.hour >= 2 ==> s == GetLocalDateString(date)
    ensures date.hour < 2 ==> s == FormatDate(PrevDay(date.date))
  {
    var localDate := date;
    if localDate.hour < 2 {
      localDate := localDate.(date := PrevDay(localDate.date));
    }
    s := FormatDate(localDate.date);
  }

  /** `getLocalDateString`: the calendar day itself, never shifted. */
  function GetLocalDateString(date: DateTime): (s: string)
    requires Valid(date)
    ensures ParseDate(s) == Some(date.date)
  {
    ParseFormatDate(date.date);
    FormatDate(date.date)
  }

  /** `getAnalyticsMonth`: the first seven characters of the analytics
      date, the year and the month for four-digit years. */
  function GetAnalyticsMonth(date: DateTime): (s: string)
    requires Valid(date)
    ensures 1000 <= AnalyticsDay(date).year <= 9999 ==>
      s == NatToString(AnalyticsDay(date).year) + "-" + Pad2(AnalyticsDay(date).month)
  {
    var full := FormatDate(AnalyticsDay(date));
    if 1000 <= AnalyticsDay(date).year <= 9999 then
      FormatDateShape(AnalyticsDay(date));
      full[..7]
    else if |full| >= 7 then full[..7] else full
  }

  /** `getAnalyticsDayStart`: 02:00:00.000 of the analytics day, at or
      before the given instant. */
  method GetAnalyticsDayStart(date: DateTime) returns (result: DateTime)
    requires Valid(date)
    ensures result == DateTime(AnalyticsDay(date), 2, 0, 0, 0) && Valid(result)
    ensures AtOrBefore(result, date)
  {
    result := date;
    if result.hour < 2 {
      result := result.(date := PrevDay(result.date));
    }
    result := result.(hour := 2, minute := 0, second := 0, ms := 0);
    if date.hour < 2 {
      NextPrevInverse(PrevDay(date.date));
      NextDayIsNext(PrevDay(date.date), date.date);
    }
  }

  /** `getAnalyticsDayEnd`: the start, one calendar day later, one second
      earlier, which is 01:59:59.000 of the calendar day after the
      analytics day. */
  method GetAnalyticsDayEnd(date: DateTime) returns (end: DateTime)
    requires Valid(date)
    ensures end == DateTime(NextDay(AnalyticsDay(date)), 1, 59, 59, 0) && Valid(end)
    ensures Before(DateTime(AnalyticsDay(date), 2, 0, 0, 0), end)
  {
    var start := GetAnalyticsDayStart(date);
    end := start;
    end := end.(date := NextDay(end.date));
    end := SecondEarlier(end);
    NextDayIsNext(AnalyticsDay(date), AnalyticsDay(date));
  }

  /** `isAnalyticsToday`, with the current instant as a parameter: start
      of today's analytics day <= date <= its end. */
  method IsAnalyticsToday(date: DateTime, now: DateTime) returns (r: bool)
    requires Valid(date) && Valid(now)
    ensures r <==> InEndInclusiveDay(date, now)
  {
    var todayStart := GetAnalyticsDayStart(now);
    var todayEnd := GetAnalyticsDayEnd(now);
    r := AtOrBefore(todayStart, date) && AtOrBefore(date, todayEnd);
  }

  /** The test as written: between 02:00:00.000 of the analytics day and
      01:59:59.000 of the next calendar day, both included. */
  predicate InEndInclusiveDay(date: DateTime, now: DateTime)
    requires Valid(now)
  {
    AtOrBefore(DateTime(AnalyticsDay(now), 2, 0, 0, 0), date)
    && AtOrBefore(date, DateTime(NextDay(AnalyticsDay(now)), 1, 59, 59, 0))
  }

  /** The last 999 milliseconds of an analytics day fall after its end:
      01:59:59.500 on 2024-03-11 belongs to the analytics day 2024-03-10,
      yet is not "today" for an instant of that day. */
  lemma LastSecondExcluded()
    ensures var now := DateTime(Civil(2024, 3, 10), 12, 0, 0, 0);
      var late := DateTime(Civil(2024, 3, 11), 1, 59, 59, 500);
      AnalyticsDay(late) == AnalyticsDay(now) && !InEndInclusiveDay(late, now)
  {
  }

  /** The analytics day as a half-open interval: from 02:00 of the day to
      02:00 of the next calendar day, excluded. */
  predicate InAnalyticsDay(date: DateTime, now: DateTime)
    requires Valid(now)
  {
    AtOrBefore(DateTime(AnalyticsDay(now), 2, 0, 0, 0), date)
    && Before(date, DateTime(NextDay(AnalyticsDay(now)), 2, 0, 0, 0))
  }

  /** An instant lies in today's analytics interval exactly when it counts
      for the same analytics day as now. */
  lemma InAnalyticsDayIffSameDay(date: DateTime, now: DateTime)
    requires Valid(date) && Valid(now)
    ensures InAnalyticsDay(date, now) <==> AnalyticsDay(date) == AnalyticsDay(now)
  {
    var d := AnalyticsDay(now);
    NextDayIsNext(d, date.date);
    NextPrevInverse(d);
    NextPrevInverse(date.date);
    AnalyticsDayShift(date);
    NextDayIsNext(d, d);
    if date.hour < 2 {
      NextDayIsNext(PrevDay(date.date), date.date);
    }
  }
}

=== FILE: feed.dfy ===
// The feed page (client/src/pages/feed.tsx): the messages grouped under
// date dividers, and the one-vote-per-message guard of the like and
// dislike buttons.

module Feed {
  import opened Text

  /** The fields of a feed message the page's logic reads. */
  datatype Message = Message(id: int, date: string)

  /** One date divider and the messages shown under it. */
  datatype Group = Group(date: string, messages: seq<Message>)

  // ---- Grouping by runs of equal dates ----

  /** The messages of the groups, in order. */
  function Concat(groups: seq<Group>): seq<Message> {
    if groups == [] then [] else Concat(groups[..|groups| - 1]) + groups[|groups| - 1].messages
  }

  /** Every group is non-empty and all its messages carry its date. */
  predicate WellFormed(groups: seq<Group>) {
    forall k :: 0 <= k < |groups| ==>
      groups[k].messages != [] && forall m :: m in groups[k].messages ==> m.date == groups[k].date
  }

  /** Neighbouring groups have different dates. */
  predicate AdjacentDiffer(groups: seq<Group>) {
    forall k :: 0 <= k < |groups| - 1 ==> groups[k].date != groups[k + 1].date
  }

  /** One step of the grouping: a message with the last group's date joins
      it, any other starts a new group. */
  function Push(groups: seq<Group>, msg: Message): (r: seq<Group>)
    ensures |r| > 0 && r[|r| - 1].date == msg.date
  {
    if groups != [] && groups[|groups| - 1].date == msg.date then
      var last := groups[|groups| - 1];
      groups[..|groups| - 1] + [Group(last.date, last.messages + [msg])]
    else groups + [Group(msg.date, [msg])]
  }

  /** The grouping of consecutive messages with equal dates. */
  function Runs(messages: seq<Message>): seq<Group> {
    if messages == [] then [] else Push(Runs(messages[..|messages| - 1]), messages[|messages| - 1])
  }

  lemma PushConcat(groups: seq<Group>, msg: Message)
    ensures Concat(Push(groups, msg)) == Concat(groups) + [msg]
  {
    if groups != [] && groups[|groups| - 1].date == msg.date {
      var r := Push(groups, msg);
      assert r[..|r| - 1] == groups[..|groups| - 1];
    } else {
      var r := Push(groups, msg);
      assert r[..|r| - 1] == groups;
    }
  }

  lemma PushWellFormed(groups: seq<Group>, msg: Message)
    requires WellFormed(groups) && AdjacentDiffer(groups)
    ensures WellFormed(Push(groups, msg)) && AdjacentDiffer(Push(groups, msg))
  {
    var r := Push(groups, msg);
    if groups != [] && groups[|groups| - 1].date == msg.date {
      assert forall k :: 0 <= k < |groups| - 1 ==> r[k] == groups[k];
      assert r[|r| - 1].messages == groups[|groups| - 1].messages + [msg];
    } else {
      assert forall k :: 0 <= k < |groups| ==> r[k] == groups[k];
    }
  }

  /** Concatenating the groups in order gives back the message list. */
  lemma {:induction false} RunsConcat(messages: seq<Message>)
    ensures Concat(Runs(messages)) == messages
    decreases |messages|
  {
    if messages != [] {
      var init, last := messages[..|messages| - 1], messages[|messages| - 1];
      assert Runs(messages) == Push(Runs(init), last);
      RunsConcat(init);
      PushConcat(Runs(init), last);
      InitLast(messages);
    }
  }

  /** Every group is non-empty, its messages share its date, and
      neighbouring groups differ in date: the grouping is by runs. */
  lemma {:induction false} RunsWellFormed(messages: seq<Message>)
    ensures WellFormed(Runs(messages)) && AdjacentDiffer(Runs(messages))
    decreases |messages|
  {
    if messages != [] {
      RunsWellFormed(messages[..|messages| - 1]);
      PushWellFormed(Runs(messages[..|messages| - 1]), messages[|messages| - 1]);
    }
  }

  /** The grouping loop of the page. `currentDate` starts as the empty
      string, so a first message whose date is empty is taken for a
      continuation of a group that does not exist, and the page throws
      (`None`); otherwise the groups are the runs of equal dates. */
  method GroupMessages(messages: seq<Message>) returns (groups: Option<seq<Group>>)
    ensures groups.None? <==> messages != [] && messages[0].date == ""
    ensures groups.Some? ==> groups.value == Runs(messages)
  {
    var currentDate := "";
    var acc: seq<Group> := [];
    for i := 0 to |messages|
      invariant acc == Runs(messages[..i])
      invariant currentDate == if acc == [] then "" else acc[|acc| - 1].date
      invariant i > 0 ==> acc != [] && messages[0].date != ""
    {
      var msg := messages[i];
      assert messages[..i + 1][..i] == messages[..i];
      if msg.date != currentDate {
        currentDate := msg.date;
        acc := acc + [Group(currentDate, [msg])];
      } else {
        if acc == [] {
          assert i == 0;
          return None;
        }
        var last := acc[|acc| - 1];
        acc := acc[..|acc| - 1] + [Group(last.date, last.messages + [msg])];
      }
    }
    assert messages[..|messages|] == messages;
    return Some(acc);
  }

  /** What the page throws on: a first message with an empty date. */
  lemma EmptyFirstDateThrows()
    ensures Runs([Message(1, "")]) == [Group("", [Message(1, "")])]
  {
    assert [Message(1, "")][..0] == [];
  }

  // ---- Votes ----

  datatype Vote = Like | Dislike

  /** The votes stored under 'feedVotes', and the like/dislike requests the
      page has sent (network mutations as a record of what was issued). */
  class VoteBox {
    var votes: map<int, Vote>
    var sent: seq<(int, Vote)>

    /** Every request sent is for a message whose stored vote is that
        request's, and no message has two requests. */
    ghost predicate Valid()
      reads this
    {
      (forall k :: 0 <= k < |sent| ==> sent[k].0 in votes && votes[sent[k].0] == sent[k].1)
      && (forall k, l :: 0 <= k < l < |sent| ==> sent[k].0 != sent[l].0)
    }

    /** The store as read at start-up (a corrupt one reads as empty). */
    constructor (stored: Option<map<int, Vote>>)
      ensures votes == (if stored.Some? then stored.value else map[]) && sent == [] && Valid()
    {
      votes := if stored.Some? then stored.value else map[];
      sent := [];
    }

    /** `handleLike` / `handleDislike`: ignored when a vote for the id is
        stored; otherwise the vote is stored before the request goes out. */
    method Handle(id: int, vote: Vote)
      requires Valid()
      modifies this
      ensures id in old(votes) ==> votes == old(votes) && sent == old(sent)
      ensures id !in old(votes) ==> votes == old(votes)[id := vote] && sent == old(sent) + [(id, vote)]
      ensures Valid()
    {
      if id in votes {
        return;
      }
      votes := votes[id := vote];
      sent := sent + [(id, vote)];
    }
  }
}

=== FILE: hebrew_utils.dfy ===
// Hebrew normalisation, transliteration, script detection and search-term
// expansion (client/src/lib/hebrewUtils.ts).

module HebrewUtils {
  import opened Text

  /** U+0591..U+05C7: cantillation marks, vowel points and the other
      combining signs that normalizeHebrew deletes. */
  predicate IsPointOrMark(c: char) { '\U{0591}' <= c <= '\U{05C7}' }

  /** The Hebrew block U+0590..U+05FF that containsHebrew looks for. */
  predicate IsHebrewBlock(c: char) { '\U{0590}' <= c <= '\U{05FF}' }

  /** The five final letters: kaf, mem, nun, pe and tsadi sofit. */
  predicate IsFinalForm(c: char) {
    c == 'ך' || c == 'ם' || c == 'ן' || c == 'ף' || c == 'ץ'
  }

  /** The finalForms table: a final letter becomes its regular form. */
  function RegularForm(c: char): (r: char)
    ensures !IsFinalForm(r)
    ensures IsFinalForm(c) ==> IsHebrewBlock(r) && !IsPointOrMark(r)
    ensures !IsFinalForm(c) ==> r == c
    ensures IsSpace(r) <==> IsSpace(c)
    ensures IsAsciiUpper(r) <==> IsAsciiUpper(c)
  {
    match c
    case 'ך' => 'כ'
    case 'ם' => 'מ'
    case 'ן' => 'נ'
    case 'ף' => 'פ'
    case 'ץ' => 'צ'
    case _ => c
  }

  /** The first replace of normalizeHebrew: every character in
      U+0591..U+05C7 deleted. */
  function StripPoints(s: string): (r: string)
    ensures |r| <= |s|
    ensures forall i :: 0 <= i < |r| ==> !IsPointOrMark(r[i])
  {
    if s == [] then []
    else StripPoints(s[..|s| - 1]) + (if IsPointOrMark(s[|s| - 1]) then [] else [s[|s| - 1]])
  }

  /** Every other character is kept, as often as it occurs. */
  lemma {:induction false} StripPointsKeeps(s: string, c: char)
    requires !IsPointOrMark(c)
    ensures multiset(StripPoints(s))[c] == multiset(s)[c]
  {
    if s != [] {
      var prefix := s[..|s| - 1];
      assert s == prefix + [s[|s| - 1]];
      StripPointsKeeps(prefix, c);
    }
  }

  /** Deleting points distributes over concatenation: the kept characters stay
      in their order. */
  lemma {:induction false} StripPointsAppend(a: string, b: string)
    ensures StripPoints(a + b) == StripPoints(a) + StripPoints(b)
    decreases |b|
  {
    if b == [] {
      assert a + b == a;
    } else {
      var b' := b[..|b| - 1];
      var ab := a + b;
      assert ab[..|ab| - 1] == a + b' && ab[|ab| - 1] == b[|b| - 1];
      StripPointsAppend(a, b');
    }
  }

  /** The final-forms map applied to every character. */
  function FoldFinals(s: string): (r: string)
    ensures |r| == |s|
    ensures forall i :: 0 <= i < |s| ==> r[i] == RegularForm(s[i])
  {
    seq(|s|, i requires 0 <= i < |s| => RegularForm(s[i]))
  }

  /** What normalised text is made of: no point or mark, no final letter and
      no ASCII capital. */
  predicate IsNormalChar(c: char) {
    !IsPointOrMark(c) && !IsFinalForm(c) && !IsAsciiUpper(c)
  }

  /** normalizeHebrew: points deleted, finals folded, trimmed, lower-cased. */
  function NormalizeHebrew(text: string): (r: string)
    ensures forall i :: 0 <= i < |r| ==> IsNormalChar(r[i])
    ensures r != [] ==> !IsSpace(r[0]) && !IsSpace(r[|r| - 1])
  {
    if text == [] then []
    else
      var folded := FoldFinals(StripPoints(text));
      NormalizedChars(folded);
      Lower(Trim(folded))
  }

  lemma NormalizedChars(folded: string)
    requires forall i :: 0 <= i < |folded| ==> !IsPointOrMark(folded[i]) && !IsFinalForm(folded[i])
    ensures forall i :: 0 <= i < |Lower(Trim(folded))| ==> IsNormalChar(Lower(Trim(folded))[i])
    ensures var r := Lower(Trim(folded)); r != [] ==> !IsSpace(r[0]) && !IsSpace(r[|r| - 1])
  {
    TrimSlice(folded);
    var t := Trim(folded);
    assert forall i :: 0 <= i < |t| ==> t[i] == folded[LeadSpaces(folded) + i];
  }

  /** Folding finals is idempotent and commutes with deleting points. */
  lemma {:induction false} FoldStripCommute(s: string)
    ensures StripPoints(FoldFinals(s)) == FoldFinals(StripPoints(s))
  {
    if s != [] {
      var prefix := s[..|s| - 1];
      var last := s[|s| - 1];
      FoldStripCommute(prefix);
      var f := FoldFinals(s);
      assert f[..|f| - 1] == FoldFinals(prefix);
      assert IsPointOrMark(RegularForm(last)) <==> IsPointOrMark(last);
      var kept := if IsPointOrMark(last) then [] else [last];
      assert FoldFinals(StripPoints(prefix) + kept) == FoldFinals(StripPoints(prefix)) + FoldFinals(kept);
    }
  }

  /** Input that differs only in final letters normalises identically. */
  lemma NormalizeFoldedFinals(t: string)
    ensures NormalizeHebrew(FoldFinals(t)) == NormalizeHebrew(t)
  {
    FoldStripCommute(t);
    var x := FoldFinals(StripPoints(t));
    assert FoldFinals(x) == x;
  }

  /** The transliteration of one normalised character; `last` says whether it
      is the final character. */
  function Piece(c: char, last: bool): string {
    match c
    case 'א' => "a"
    case 'ב' => "b"
    case 'ג' => "g"
    case 'ד' => "d"
    case 'ה' => if last then "a" else "h"
    case 'ו' => "o"
    case 'ז' => "z"
    case 'ח' => "ch"
    case 'ט' => "t"
    case 'י' => "i"
    case 'כ' => "k"
    case 'ך' => "k"
    case 'ל' => "l"
    case 'מ' => "m"
    case 'ם' => "m"
    case 'נ' => "n"
    case 'ן' => "n"
    case 'ס' => "s"
    case 'ע' => "a"
    case 'פ' => "p"
    case 'ף' => "p"
    case 'צ' => "tz"
    case 'ץ' => "tz"
    case 'ק' => "k"
    case 'ר' => "r"
    case 'ש' => "sh"
    case 'ת' => "t"
    case _ => [c]
  }

  /** The letters the switch of transliterateHebrew names. */
  predicate IsSwitchLetter(c: char) {
    'א' <= c <= 'ת'
  }

  /** The pieces pushed for the first `n` characters of `chars`. */
  function Pieces(chars: string, n: nat): (r: seq<string>)
    requires n <= |chars|
    ensures |r| == n
  {
    if n == 0 then [] else Pieces(chars, n - 1) + [Piece(chars[n - 1], n - 1 == |chars| - 1)]
  }

  /** Piece `i` is the transliteration of character `i`, told whether it is last. */
  lemma {:induction false} PiecesAt(chars: string, n: nat, i: nat)
    requires i < n <= |chars|
    ensures Pieces(chars, n)[i] == Piece(chars[i], i == |chars| - 1)
  {
    if i < n - 1 {
      PiecesAt(chars, n - 1, i);
    }
  }

  /** What transliterateHebrew returns. */
  function Transliteration(text: string): string {
    if text == [] then []
    else
      var chars := NormalizeHebrew(text);
      Trim(Lower(Join(Pieces(chars, |chars|), "")))
  }

  /** transliterateHebrew: one piece pushed per normalised character, then
      joined, lower-cased and trimmed. */
  method TransliterateHebrew(text: string) returns (r: string)
    ensures r == Transliteration(text)
  {
    if text == [] {
      return [];
    }
    var chars := NormalizeHebrew(text);
    var result: seq<string> := [];
    var i := 0;
    while i < |chars|
      invariant 0 <= i <= |chars|
      invariant result == Pieces(chars, i)
    {
      var piece := Piece(chars[i], i == |chars| - 1);
      result := result + [piece];
      i := i + 1;
    }
    r := Trim(Lower(Join(result, "")));
  }

  /** He is read 'a' as the last character and 'h' everywhere else; the
      characters the switch does not name are pushed unchanged. */
  lemma PieceRules(chars: string, i: nat)
    requires i < |chars|
    ensures chars[i] == 'ה' ==> Pieces(chars, |chars|)[i] == if i == |chars| - 1 then "a" else "h"
    ensures !IsSwitchLetter(chars[i]) ==> Pieces(chars, |chars|)[i] == [chars[i]]
  {
    PiecesAt(chars, |chars|, i);
  }

  /** Final letters transliterate exactly like their regular forms. */
  lemma FinalsTransliterateAlike(t: string)
    ensures Transliteration(FoldFinals(t)) == Transliteration(t)
  {
    NormalizeFoldedFinals(t);
  }

  /** containsHebrew: the regular expression's left-to-right search. */
  function ContainsHebrew(s: string): (b: bool)
    ensures b <==> exists i :: 0 <= i < |s| && IsHebrewBlock(s[i])
  {
    if s == [] then false
    else if IsHebrewBlock(s[0]) then true
    else
      var b := ContainsHebrew(s[1..]);
      assert forall i :: 1 <= i < |s| ==> s[i] == s[1..][i - 1];
      b
  }

  const HebrewFont := "koren-siddur-hebrew"
  const EnglishFont := "koren-siddur-english"

  /** getHebrewFontClass: the Hebrew font exactly for text with a Hebrew-block
      character; otherwise, and for absent or empty text, the default. */
  function HebrewFontClass(text: Option<string>, defaultClass: string := EnglishFont): (r: string)
    ensures text.Some? && ContainsHebrew(text.value) ==> r == HebrewFont
    ensures text.None? || !ContainsHebrew(text.value) ==> r == defaultClass
  {
    if text.None? || text.value == [] then defaultClass
    else if ContainsHebrew(text.value) then HebrewFont
    else defaultClass
  }

  /** searchSynonyms, in its insertion order. */
  const Synonyms: seq<(string, seq<string>)> := [
    ("tehillim", ["תהילים", "psalms", "psalm"]),
    ("mincha", ["מנחה", "afternoon"]),
    ("maariv", ["מעריב", "evening", "night"]),
    ("shacharit", ["שחרית", "morning"]),
    ("nishmas", ["נשמת", "nishmat"]),
    ("brochas", ["ברכות", "blessings", "brocha", "bracha"]),
    ("halacha", ["הלכה", "law", "jewish law", "halachah", "halakha"]),
    ("chizuk", ["חיזוק", "inspiration", "strength"]),
    ("emuna", ["אמונה", "faith", "emunah"]),
    ("torah", ["תורה", "study", "learning"]),
    ("avot", ["אבות", "fathers", "pirkei avot", "ethics"]),
    ("shabbat", ["שבת", "sabbath", "shabbos", "shabbas"]),
    ("kotel", ["כותל", "wall", "western wall"]),
    ("tzedaka", ["צדקה", "charity", "tzedakah"]),
    ("refuah", ["רפואה", "healing", "health"]),
    ("parnasa", ["פרנסה", "livelihood", "parnassa"]),
    ("recipe", ["מתכון", "cooking", "food"]),
    ("marriage", ["נישואין", "נישואים", "relationship", "spouse"]),
    ("family", ["משפחה", "children", "kids"]),
    ("compass", ["מצפן", "direction", "mizrach", "מזרח", "jerusalem"]),
    ("calendar", ["לוח", "date", "hebrew date"])
  ]

  /** A synonym entry applies when the term is its key or one of its values. */
  predicate Matches(entry: (string, seq<string>), term: string) {
    entry.0 == term || term in entry.1
  }

  /** expandSearchTerm. The forEach pass visits only the entries present when
      it starts, as Array.prototype.forEach does. */
  method ExpandSearchTerm(term: string, synonyms: seq<(string, seq<string>)> := Synonyms) returns (r: seq<string>)
    ensures r != [] && r[0] == Trim(Lower(term))
    ensures forall i, j :: 0 <= i < j < |r| ==> r[i] != r[j]
    ensures forall k :: 0 <= k < |synonyms| && Matches(synonyms[k], Trim(Lower(term))) ==>
      synonyms[k].0 in r && forall v :: v in synonyms[k].1 ==> v in r
  {
    var normalizedTerm := Trim(Lower(term));
    var results := [normalizedTerm];
    if ContainsHebrew(normalizedTerm) {
      var transliterated := TransliterateHebrew(normalizedTerm);
      if transliterated != [] && transliterated != normalizedTerm {
        results := results + [transliterated];
      }
    }
    var k := 0;
    while k < |synonyms|
      invariant 0 <= k <= |synonyms|
      invariant results != [] && results[0] == normalizedTerm
      invariant forall k' :: 0 <= k' < k && Matches(synonyms[k'], normalizedTerm) ==>
        synonyms[k'].0 in results && forall v :: v in synonyms[k'].1 ==> v in results
    {
      var (key, values) := synonyms[k];
      if key == normalizedTerm || normalizedTerm in values {
        results := results + [key] + values;
      }
      k := k + 1;
    }
    var all := AddTransliterations(results);
    assert all[0] == results[0];
    assert forall x :: x in results ==> x in all;
    r := Dedup(all);
  }

  /** The forEach pass of expandSearchTerm: it visits the entries present when
      it starts and appends each Hebrew entry's transliteration once. */
  method AddTransliterations(results: seq<string>) returns (out: seq<string>)
    ensures |out| >= |results| && out[..|results|] == results
    ensures forall j :: 0 <= j < |results| ==> Handled(results[j], out)
  {
    out := results;
    var n := |results|;
    var j := 0;
    while j < n
      invariant 0 <= j <= n <= |out|
      invariant out[..n] == results
      invariant forall j' :: 0 <= j' < j ==> Handled(results[j'], out)
    {
      var x := out[j];
      assert x == results[j];
      if ContainsHebrew(x) {
        var trans := TransliterateHebrew(x);
        if trans != [] && trans !in out {
          HandledGrows(results, j, out, trans);
          out := out + [trans];
          assert out[..n] == results by { assert out[..n] == (out[..|out|-1])[..n]; }
        }
      }
      assert Handled(results[j], out);
      forall j' | 0 <= j' < j + 1 ensures Handled(results[j'], out) {
        if j' < j {
          // from the invariant
        } else {
          assert j' == j;
        }
      }
      j := j + 1;
    }
  }

  /** An entry is handled once its transliteration, when it has a non-empty
      one, is among the results. */
  predicate Handled(x: string, out: seq<string>)
  {
    ContainsHebrew(x) && Transliteration(x) != [] ==> Transliteration(x) in out
  }

  lemma HandledGrows(results: seq<string>, k: nat, out: seq<string>, t: string)
    requires k <= |results|
    requires forall j :: 0 <= j < k ==> Handled(results[j], out)
    ensures forall j :: 0 <= j < k ==> Handled(results[j], out + [t])
  {
    forall j | 0 <= j < k ensures Handled(results[j], out + [t]) {
      var x := results[j];
      if ContainsHebrew(x) && Transliteration(x) != [] {
        assert Transliteration(x) in out;
      }
    }
  }

}

=== FILE: home_section.dfy ===
// The home page's garden and prayer card
// (client/src/components/sections/home-section.tsx): today's flower
// counts, the seeded placement of the flowers, the clock-time parser and
// the choice of the prayer shown for the current time.

module HomeSection {
  import opened Text

  /** Today's entry of the modal-completion store: counts of the
      repeatable modals and the set of single-use modals done. */
  datatype TodaysData = TodaysData(repeatables: map<string, int>, singles: set<string>)

  /** `repeatables[key] || 0`. */
  function OrZero(m: map<string, int>, key: string): int {
    if key in m then m[key] else 0
  }

  /** The repeatable keys counted by the forEach of the tefilla count. */
  predicate IsTefillaRepeatable(key: string) {
    StartsWith(key, "individual-tehillim-") || StartsWith(key, "chain-tehillim-") || StartsWith(key, "brocha-")
    || StartsWith(key, "womens-prayer-") || key == "global-tehillim-chain" || key == "tehillim-text"
    || StartsWith(key, "meditation-")
  }

  /** A key's contribution to the forEach sum. */
  function TefillaPart(m: map<string, int>): string -> int {
    key => if IsTefillaRepeatable(key) then OrZero(m, key) else 0
  }

  function Flag(b: bool): nat {
    if b then 1 else 0
  }

  /** What the tefilla count adds up: the matching repeatables, the three
      named ones and the three tefilla singles. */
  ghost function TefillaFlowers(today: Option<TodaysData>): int {
    match today
    case None => 0
    case Some(d) =>
      SetSum(d.repeatables.Keys, TefillaPart(d.repeatables))
      + OrZero(d.repeatables, "nishmas-campaign") + OrZero(d.repeatables, "al-hamichiya")
      + OrZero(d.repeatables, "birkat-hamazon")
      + Flag("mincha" in d.singles) + Flag("maariv" in d.singles) + Flag("morning-brochas" in d.singles)
  }

  /** The forEach over the repeatables, in `Object.entries` order. */
  method SumTefillaRepeatables(m: map<string, int>) returns (count: int)
    ensures count == SetSum(m.Keys, TefillaPart(m))
  {
    var keys := KeyList(m.Keys);
    count := 0;
    for i := 0 to |keys|
      invariant count == ListSum(keys[..i], TefillaPart(m))
    {
      assert keys[..i + 1][..i] == keys[..i];
      if IsTefillaRepeatable(keys[i]) {
        count := count + m[keys[i]];
      }
    }
    assert keys[..|keys|] == keys;
    ListSumIsSetSum(keys, TefillaPart(m));
    assert (set k | k in keys) == m.Keys;
  }

  /** tefillaFlowerCount. */
  method TefillaFlowerCount(today: Option<TodaysData>) returns (count: int)
    ensures count == TefillaFlowers(today)
  {
    if today.None? {
      return 0;
    }
    var d := today.value;
    count := SumTefillaRepeatables(d.repeatables);
    count := count + OrZero(d.repeatables, "nishmas-campaign");
    count := count + OrZero(d.repeatables, "al-hamichiya");
    count := count + OrZero(d.repeatables, "birkat-hamazon");
    if "mincha" in d.singles { count := count + 1; }
    if "maariv" in d.singles { count := count + 1; }
    if "morning-brochas" in d.singles { count := count + 1; }
  }

  /** Repeatables that are not tefilla keys add no tefilla flowers: a day
      of Torah learning alone and no tefilla singles has none. */
  lemma OnlyTefillaKeysCount(d: TodaysData)
    requires forall k :: k in d.repeatables ==> !IsTefillaRepeatable(k)
    requires "nishmas-campaign" !in d.repeatables && "al-hamichiya" !in d.repeatables
    requires "birkat-hamazon" !in d.repeatables
    requires "mincha" !in d.singles && "maariv" !in d.singles && "morning-brochas" !in d.singles
    ensures TefillaFlowers(Some(d)) == 0
  {
    SetSumZero(d.repeatables.Keys, TefillaPart(d.repeatables));
  }

  /** Each tefilla single done today adds exactly one flower. */
  lemma SingleAddsOneFlower(d: TodaysData, id: string)
    requires id == "mincha" || id == "maariv" || id == "morning-brochas"
    requires id !in d.singles
    ensures TefillaFlowers(Some(TodaysData(d.repeatables, d.singles + {id}))) == TefillaFlowers(Some(d)) + 1
  {
  }

  /** torahFlowerCount: the six Torah repeatables. */
  function TorahFlowerCount(today: Option<TodaysData>): (count: int)
    ensures today.None? ==> count == 0
    ensures today.Some? && (forall k :: k in today.value.repeatables ==> today.value.repeatables[k] == 0) ==> count == 0
  {
    match today
    case None => 0
    case Some(d) =>
      var m := d.repeatables;
      OrZero(m, "halacha") + OrZero(m, "chizuk") + OrZero(m, "emuna") + OrZero(m, "featured")
      + OrZero(m, "pirkei-avot") + OrZero(m, "parsha-vort")
  }

  /** Incrementing one of the six keys adds one Torah flower; any other key
      leaves the count alone. */
  lemma TorahFlowerIncrement(d: TodaysData, key: string)
    ensures var m' := d.repeatables[key := OrZero(d.repeatables, key) + 1];
      TorahFlowerCount(Some(TodaysData(m', d.singles)))
      == TorahFlowerCount(Some(d))
         + Flag(key in ["halacha", "chizuk", "emuna", "featured", "pirkei-avot", "parsha-vort"])
  {
  }

  /** tzedakaFlowerCount. */
  function TzedakaFlowerCount(tzedakaCompleted: bool): (count: nat)
    ensures count <= 1 && (count == 1 <==> tzedakaCompleted)
  {
    if tzedakaCompleted then 1 else 0
  }

  // ---- The seeded generator and the placement of the flowers ----

  const Modulus: nat := 233280
  const InitialSeed: nat := 42

  /** One step of the linear congruential generator. */
  function NextSeed(seed: nat): (r: nat)
    ensures r < Modulus
  {
    (seed * 9301 + 49297) % Modulus
  }

  /** The value handed out for a seed. */
  function Fraction(seed: nat): (x: real)
    requires seed < Modulus
    ensures 0.0 <= x < 1.0
  {
    seed as real / Modulus as real
  }

  /** The first values the generator hands out, fixed by the seed 42. */
  lemma FirstDraws()
    ensures NextSeed(InitialSeed) == 206659 && NextSeed(206659) == 190736
  {
  }

  datatype FlowerType = TorahFlower | TzedakaFlower | TefillaFlower

  datatype Position = Position(kind: FlowerType, left: real, bottom: real, flipped: bool, scale: real)

  const FlowerRadius: real := 7.0
  const MinDistanceFactor: real := 0.95

  /** `checkCollision`: closer to an existing flower than 95% of the sum of
      the two radii. The distance test `sqrt(dx*dx + dy*dy) < d` is stated
      as `dx*dx + dy*dy < d*d`, which is the same for the non-negative `d`. */
  predicate CollidesWith(left: real, bottom: real, scale: real, p: Position) {
    var minDistance := (FlowerRadius * scale + FlowerRadius * p.scale) * MinDistanceFactor;
    var dx := left - p.left;
    var dy := bottom - p.bottom;
    dx * dx + dy * dy < minDistance * minDistance
  }

  predicate Collides(left: real, bottom: real, scale: real, placed: seq<Position>) {
    exists i :: 0 <= i < |placed| && CollidesWith(left, bottom, scale, placed[i])
  }

  /** The loop of `checkCollision`, returning at the first collision. */
  method CheckCollision(left: real, bottom: real, scale: real, placed: seq<Position>) returns (r: bool)
    ensures r == Collides(left, bottom, scale, placed)
  {
    for i := 0 to |placed|
      invariant forall j :: 0 <= j < i ==> !CollidesWith(left, bottom, scale, placed[j])
    {
      if CollidesWith(left, bottom, scale, placed[i]) {
        return true;
      }
    }
    return false;
  }

  /** Where a flower lands: the left and bottom drawn from two seeds. */
  function LeftOf(seed: nat): real
    requires seed < Modulus
  {
    40.0 + Fraction(seed) * 52.0
  }

  function BottomOf(seed: nat): real
    requires seed < Modulus
  {
    5.0 + Fraction(seed) * 35.0
  }

  /** The attempt loop of `addFlower` with `n` attempts left: the seed
      after it and the spot found, if any. */
  function Attempts(seed: nat, placed: seq<Position>, scale: real, n: nat): (r: (nat, Option<(real, real)>))
    requires seed < Modulus
    ensures r.0 < Modulus
    decreases n
  {
    if n == 0 then (seed, None)
    else
      var s1 := NextSeed(seed);
      var s2 := NextSeed(s1);
      if !Collides(LeftOf(s1), BottomOf(s2), scale, placed) then (s2, Some((LeftOf(s1), BottomOf(s2))))
      else Attempts(s2, placed, scale, n - 1)
  }

  /** `addFlower`: the seed afterwards and the position pushed. */
  function Placement(seed: nat, placed: seq<Position>, kind: FlowerType): (r: (nat, Position))
    requires seed < Modulus
    ensures r.0 < Modulus
  {
    var s1 := NextSeed(seed);
    var s2 := NextSeed(s1);
    var scale := 0.40 + Fraction(s1) * 0.35;
    var flipped := Fraction(s2) > 0.5;
    var (s3, spot) := Attempts(s2, placed, scale, 20);
    match spot
    case Some((left, bottom)) => (s3, Position(kind, left, bottom, flipped, scale))
    case None =>
      var s4 := NextSeed(s3);
      var s5 := NextSeed(s4);
      (s5, Position(kind, LeftOf(s4), BottomOf(s5), flipped, scale * 0.7))
  }

  /** The garden area: right side, lower part, and a scale between the
      fallback's 0.28 and the maximum 0.75. */
  predicate InGarden(p: Position) {
    40.0 <= p.left < 92.0 && 5.0 <= p.bottom < 40.0 && 0.28 <= p.scale < 0.75
  }

  lemma AttemptsInGarden(seed: nat, placed: seq<Position>, scale: real, n: nat)
    requires seed < Modulus
    ensures var spot := Attempts(seed, placed, scale, n).1;
      spot.Some? ==> (40.0 <= spot.value.0 < 92.0 && 5.0 <= spot.value.1 < 40.0
                      && !Collides(spot.value.0, spot.value.1, scale, placed))
    decreases n
  {
    if n > 0 {
      AttemptsInGarden(NextSeed(NextSeed(seed)), placed, scale, n - 1);
    }
  }

  /** Every placed flower lies in the garden, and one placed within its
      twenty attempts overlaps no earlier flower by more than 5%. */
  lemma PlacementInGarden(seed: nat, placed: seq<Position>, kind: FlowerType)
    requires seed < Modulus
    ensures InGarden(Placement(seed, placed, kind).1)
    ensures Placement(seed, placed, kind).1.kind == kind
  {
    var s1 := NextSeed(seed);
    var scale := 0.40 + Fraction(s1) * 0.35;
    AttemptsInGarden(NextSeed(s1), placed, scale, 20);
  }

  /** The flowers' kinds in order. */
  function Kinds(ps: seq<Position>): (r: seq<FlowerType>)
    ensures |r| == |ps|
  {
    if ps == [] then [] else Kinds(ps[..|ps| - 1]) + [ps[|ps| - 1].kind]
  }

  function Repeat(k: FlowerType, n: nat): (r: seq<FlowerType>)
    ensures |r| == n && forall i :: 0 <= i < n ==> r[i] == k
  {
    if n == 0 then [] else Repeat(k, n - 1) + [k]
  }

  /** The mutable state of the `flowerPositions` memo: the generator's seed
      and the positions pushed so far. */
  class Garden {
    var seed: nat
    var positions: seq<Position>

    ghost predicate Valid()
      reads this
    {
      seed < Modulus && forall i :: 0 <= i < |positions| ==> InGarden(positions[i])
    }

    constructor()
      ensures seed == InitialSeed && positions == [] && Valid()
    {
      seed := InitialSeed;
      positions := [];
    }

    /** `seededRandom`. */
    method SeededRandom() returns (x: real)
      requires Valid()
      modifies this
      ensures seed == NextSeed(old(seed)) && x == Fraction(seed)
      ensures positions == old(positions) && Valid()
    {
      seed := NextSeed(seed);
      x := seed as real / Modulus as real;
    }

    /** The two draws of a spot: `40 + r * 52` and `5 + r * 35`. */
    method DrawSpot() returns (left: real, bottom: real)
      requires Valid()
      modifies this
      ensures seed == NextSeed(NextSeed(old(seed))) && positions == old(positions) && Valid()
      ensures left == LeftOf(NextSeed(old(seed))) && bottom == BottomOf(seed)
    {
      left := SeededRandom();
      left := 40.0 + left * 52.0;
      bottom := SeededRandom();
      bottom := 5.0 + bottom * 35.0;
    }

    /** The attempt loop of `addFlower`: up to twenty spots, stopping at the
        first that collides with no placed flower. */
    method TryAttempts(scale: real) returns (spot: Option<(real, real)>)
      requires Valid()
      modifies this
      ensures (seed, spot) == Attempts(old(seed), old(positions), scale, 20)
      ensures positions == old(positions) && Valid()
    {
      ghost var start := seed;
      for attempt := 0 to 20
        invariant Valid() && positions == old(positions)
        invariant Attempts(start, positions, scale, 20) == Attempts(seed, positions, scale, 20 - attempt)
      {
        var left, bottom := DrawSpot();
        var collision := CheckCollision(left, bottom, scale, positions);
        if !collision {
          return Some((left, bottom));
        }
      }
      spot := None;
    }

    /** `addFlower`: pushes exactly one position, found as `Placement`
        says. */
    method AddFlower(kind: FlowerType)
      requires Valid()
      modifies this
      ensures Valid()
      ensures (seed, positions) == (Placement(old(seed), old(positions), kind).0,
                                    old(positions) + [Placement(old(seed), old(positions), kind).1])
    {
      PlacementInGarden(seed, positions, kind);
      var r := SeededRandom();
      var scale := 0.40 + r * 0.35;
      r := SeededRandom();
      var flipped := r > 0.5;
      var spot := TryAttempts(scale);
      if spot.Some? {
        positions := positions + [Position(kind, spot.value.0, spot.value.1, flipped, scale)];
      } else {
        var left, bottom := DrawSpot();
        positions := positions + [Position(kind, left, bottom, flipped, scale * 0.7)];
      }
    }
  }

  /** `flowerPositions`: one position per flower, all Torah flowers first,
      then Tzedaka, then Tefilla, every one in the garden. */
  method FlowerPositions(torah: nat, tzedaka: nat, tefilla: nat) returns (positions: seq<Position>)
    ensures Kinds(positions) == Repeat(TorahFlower, torah) + Repeat(TzedakaFlower, tzedaka) + Repeat(TefillaFlower, tefilla)
    ensures forall i :: 0 <= i < |positions| ==> InGarden(positions[i])
  {
    var g := new Garden();
    AddFlowers(g, TorahFlower, torah);
    AddFlowers(g, TzedakaFlower, tzedaka);
    AddFlowers(g, TefillaFlower, tefilla);
    positions := g.positions;
  }

  /** One of the three `for` loops of `flowerPositions`. */
  method AddFlowers(g: Garden, kind: FlowerType, n: nat)
    requires g.Valid()
    modifies g
    ensures g.Valid() && Kinds(g.positions) == Kinds(old(g.positions)) + Repeat(kind, n)
  {
    ghost var start := g.positions;
    for i := 0 to n
      invariant g.Valid() && Kinds(g.positions) == Kinds(start) + Repeat(kind, i)
    {
      g.AddFlower(kind);
    }
  }

  // ---- The prayer card ----

  /** The zmanim strings the card reads. */
  datatype Zmanim = Zmanim(alosHashachar: string, chatzos: string, chatzotNight: string,
                           minchaGedolah: string, shkia: string, plagHamincha: string)

  /** A clock time as written: hours, minutes and whether it is PM. */
  datatype Clock = Clock(hours: nat, minutes: nat, pm: bool)

  predicate IsMeridiemLetter(c: char) {
    c == 'A' || c == 'a' || c == 'P' || c == 'p'
  }

  /** `:(\d{2})\s*(AM|PM)` (case-insensitive) starting at `j`: the minutes
      and whether it is PM. The whitespace run is taken whole, as no
      letter of AM/PM is whitespace. */
  function TailAt(s: string, j: nat): Option<(nat, bool)> {
    if j + 3 <= |s| && s[j] == ':' && IsAsciiDigit(s[j + 1]) && IsAsciiDigit(s[j + 2]) then
      var p := j + 3 + LeadSpaces(s[j + 3..]);
      if p + 2 <= |s| && IsMeridiemLetter(s[p]) && (s[p + 1] == 'M' || s[p + 1] == 'm') then
        Some((DigitsValue(s[j + 1..j + 3]), s[p] == 'P' || s[p] == 'p'))
      else None
    else None
  }

  /** `(\d{1,2}):(\d{2})\s*(AM|PM)` tried at `k`: two hour digits first,
      then one, as the greedy quantifier does. */
  function MatchAt(s: string, k: nat): Option<Clock> {
    if k + 2 <= |s| && IsAsciiDigit(s[k]) && IsAsciiDigit(s[k + 1]) && TailAt(s, k + 2).Some? then
      Some(Clock(DigitsValue(s[k..k + 2]), TailAt(s, k + 2).value.0, TailAt(s, k + 2).value.1))
    else if k + 1 <= |s| && IsAsciiDigit(s[k]) && TailAt(s, k + 1).Some? then
      Some(Clock(DigitsValue(s[k..k + 1]), TailAt(s, k + 1).value.0, TailAt(s, k + 1).value.1))
    else None
  }

  /** The leftmost match at or after `k`. */
  function FirstMatch(s: string, k: nat): Option<Clock>
    decreases |s| - k
  {
    if k >= |s| then None
    else if MatchAt(s, k).Some? then MatchAt(s, k)
    else FirstMatch(s, k + 1)
  }

  /** The 24-hour hour: 12 AM is 0, 12 PM stays 12, other PM hours gain
      12. */
  function Hour24(c: Clock): nat {
    if c.pm && c.hours != 12 then c.hours + 12
    else if !c.pm && c.hours == 12 then 0
    else c.hours
  }

  /** Minutes after midnight as milliseconds. */
  function Ms(minutes: nat): nat {
    minutes * 60000
  }

  /** `parseTimeToday`, as milliseconds after today's local midnight
      (`setHours(hours, minutes, 0, 0)`, which carries an hour or minute
      out of range into the next day). */
  function ParseTimeToday(s: string): (r: Option<nat>)
    ensures s == [] ==> r.None?
  {
    if s == [] then None
    else
      match FirstMatch(s, 0)
      case None => None
      case Some(c) => Some(Ms(Hour24(c) * 60 + c.minutes))
  }

  /** A clock time as the zmanim strings write it. */
  function Written(h: nat, m: nat, spaces: string, suffix: string): string {
    NatToString(h) + ":" + Pad2(m) + spaces + suffix
  }

  /** A time written "H:MM" or "HH:MM", any run of whitespace, then AM or PM
      in any case, reads back as that time of day: 12 AM is midnight, 12 PM
      noon, and other PM hours are twelve hours later. */
  lemma ParseWrittenTime(h: nat, m: nat, spaces: string, suffix: string)
    requires 1 <= h <= 12 && m < 60
    requires IsBlank(spaces)
    requires Lower(suffix) == "am" || Lower(suffix) == "pm"
    ensures var pm := Lower(suffix) == "pm";
      ParseTimeToday(Written(h, m, spaces, suffix))
      == Some(Ms((if pm && h != 12 then h + 12 else if !pm && h == 12 then 0 else h) * 60 + m))
  {
    var s := Written(h, m, spaces, suffix);
    WrittenMatchesAtStart(h, m, spaces, suffix);
    assert FirstMatch(s, 0) == MatchAt(s, 0);
  }

  lemma WrittenMatchesAtStart(h: nat, m: nat, spaces: string, suffix: string)
    requires 1 <= h <= 12 && m < 60
    requires IsBlank(spaces)
    requires Lower(suffix) == "am" || Lower(suffix) == "pm"
    ensures |Written(h, m, spaces, suffix)| > 0
    ensures MatchAt(Written(h, m, spaces, suffix), 0) == Some(Clock(h, m, Lower(suffix) == "pm"))
  {
    var s := Written(h, m, spaces, suffix);
    var hs := NatToString(h);
    TailAtWritten(hs, m, spaces, suffix);
    NatToStringValue(h);
    assert s[0..|hs|] == hs;
    if h < 10 {
      assert s[1] == ':';
    }
  }

  /** The part after the hour digits reads back as the minutes and the
      meridiem. */
  lemma TailAtWritten(pre: string, m: nat, spaces: string, suffix: string)
    requires m < 100
    requires IsBlank(spaces)
    requires Lower(suffix) == "am" || Lower(suffix) == "pm"
    ensures TailAt(pre + ":" + Pad2(m) + spaces + suffix, |pre|) == Some((m, Lower(suffix) == "pm"))
  {
    var d := Pad2(m);
    MeridiemSuffix(suffix);
    Pad2Value(m);
    LeadSpacesOfBlank(spaces, suffix);
    WrittenTailShape(pre, d, spaces, suffix);
    TailAtParts(pre + ":" + d + spaces + suffix, |pre|, d, |pre| + 3 + |spaces|, Lower(suffix) == "pm");
  }

  /** Where the colon, the minute digits and the suffix sit in a written time. */
  lemma WrittenTailShape(pre: string, d: string, spaces: string, suffix: string)
    requires |d| == 2 && |suffix| == 2
    ensures var s := pre + ":" + d + spaces + suffix;
      var j := |pre|;
      |s| == j + 5 + |spaces| && s[j] == ':' && s[j + 1..j + 3] == d && s[j + 3..] == spaces + suffix
      && s[j + 3 + |spaces|] == suffix[0] && s[j + 4 + |spaces|] == suffix[1]
  {
    var s := pre + ":" + d + spaces + suffix;
    assert s == (pre + ":" + d) + (spaces + suffix);
  }

  /** `TailAt` from the pieces it inspects. */
  lemma TailAtParts(s: string, j: nat, d: string, p: nat, pm: bool)
    requires j + 3 <= |s| && s[j] == ':' && s[j + 1..j + 3] == d
    requires forall i :: 0 <= i < |d| ==> IsAsciiDigit(d[i])
    requires p == j + 3 + LeadSpaces(s[j + 3..]) && p + 2 <= |s|
    requires IsMeridiemLetter(s[p]) && (s[p + 1] == 'M' || s[p + 1] == 'm')
    requires pm == (s[p] == 'P' || s[p] == 'p')
    ensures TailAt(s, j) == Some((DigitsValue(d), pm))
  {
    assert s[j + 1] == d[0] && s[j + 2] == d[1];
  }

  /** An AM/PM suffix in any case: two letters, and PM exactly when its
      first letter is a P. */
  lemma MeridiemSuffix(suffix: string)
    requires Lower(suffix) == "am" || Lower(suffix) == "pm"
    ensures |suffix| == 2 && IsMeridiemLetter(suffix[0]) && (suffix[1] == 'M' || suffix[1] == 'm')
    ensures (suffix[0] == 'P' || suffix[0] == 'p') == (Lower(suffix) == "pm")
  {
    assert LowerChar(suffix[0]) == Lower(suffix)[0] && LowerChar(suffix[1]) == Lower(suffix)[1];
  }

  lemma {:induction false} LeadSpacesOfBlank(spaces: string, rest: string)
    requires IsBlank(spaces)
    requires rest != [] && !IsSpace(rest[0])
    ensures LeadSpaces(spaces + rest) == |spaces|
    decreases |spaces|
  {
    if spaces == [] {
      assert spaces + rest == rest;
    } else {
      assert (spaces + rest)[1..] == spaces[1..] + rest;
      LeadSpacesOfBlank(spaces[1..], rest);
    }
  }

  /** Text with no ':' holds no time. */
  lemma {:induction false} NoColonNoTime(s: string, k: nat)
    requires !HasChar(s, ':')
    ensures FirstMatch(s, k).None?
    decreases |s| - k
  {
    if k < |s| {
      if k + 1 < |s| { assert s[k + 1] != ':'; }
      if k + 2 < |s| { assert s[k + 2] != ':'; }
      NoColonNoTime(s, k + 1);
    }
  }

  /** Which prayer the card offers: the five cases of the if-chain. */
  datatype Window = ShacharisNow | MinchaNow | MaarivSoon | MaarivNow | MinchaSoon

  /** The prayer window: the first range that contains the time, in the
      order Shacharis, Mincha, Maariv soon, Maariv, Mincha soon. */
  function WindowAt(now: nat, alos: nat, chatzos: nat, minchaGedola: nat, shkia: nat, plag: nat): Window {
    if alos <= now < chatzos then ShacharisNow
    else if minchaGedola <= now < shkia then MinchaNow
    else if shkia <= now < plag then MaarivSoon
    else if now >= plag || now < alos then MaarivNow
    else MinchaSoon
  }

  /** On a day whose times come in their usual order (alos, chatzos, mincha
      gedola, plag hamincha, shkia) the card shows Shacharis from alos to
      chatzos, "Mincha later" until mincha gedola, Mincha until shkia and
      Maariv from shkia until the next alos; the "Maariv later" case
      never arises. */
  lemma UsualDay(now: nat, alos: nat, chatzos: nat, minchaGedola: nat, shkia: nat, plag: nat)
    requires alos < chatzos <= minchaGedola < plag < shkia
    ensures WindowAt(now, alos, chatzos, minchaGedola, shkia, plag) != MaarivSoon
    ensures WindowAt(now, alos, chatzos, minchaGedola, shkia, plag) == ShacharisNow <==> alos <= now < chatzos
    ensures WindowAt(now, alos, chatzos, minchaGedola, shkia, plag) == MinchaSoon <==> chatzos <= now < minchaGedola
    ensures WindowAt(now, alos, chatzos, minchaGedola, shkia, plag) == MinchaNow <==> minchaGedola <= now < shkia
    ensures WindowAt(now, alos, chatzos, minchaGedola, shkia, plag) == MaarivNow <==> now >= shkia || now < alos
  {
  }

  /** The card: title, subtitle, the modal it opens and whether it is
      shown disabled. */
  datatype Prayer = Prayer(title: string, subtitle: string, modal: string, disabled: bool)

  /** The modal each title opens. */
  function ModalFor(title: string): string {
    if title == "Shacharis" then "morning-brochas" else if title == "Mincha" then "mincha" else "maariv"
  }

  const Loading := Prayer("Shacharis", "Loading times...", "morning-brochas", false)
  const Unavailable := Prayer("Shacharis", "Times unavailable", "morning-brochas", false)

  /** The home card for each window. */
  function HomeCard(w: Window, t: Zmanim): Prayer {
    match w
    case ShacharisNow => Prayer("Shacharis", t.alosHashachar + " - " + t.chatzos, "morning-brochas", false)
    case MinchaNow => Prayer("Mincha", t.minchaGedolah + " - " + t.shkia, "mincha", false)
    case MaarivSoon => Prayer("Maariv", "from " + t.plagHamincha + " until " + t.alosHashachar, "maariv", true)
    case MaarivNow => Prayer("Maariv", t.plagHamincha + " - " + t.alosHashachar, "maariv", false)
    case MinchaSoon => Prayer("Mincha", "from " + t.minchaGedolah + " until " + t.shkia, "mincha", true)
  }

  /** Every time the home card reads parses. */
  predicate AllParse(t: Zmanim) {
    ParseTimeToday(t.alosHashachar).Some? && ParseTimeToday(t.chatzos).Some?
    && ParseTimeToday(t.minchaGedolah).Some? && ParseTimeToday(t.shkia).Some?
    && ParseTimeToday(t.plagHamincha).Some?
  }

  /** `getCurrentPrayer` of the home page, with the query's data, its
      loading flag and the current time of day (milliseconds after local
      midnight) as parameters. */
  function CurrentPrayer(times: Option<Zmanim>, isLoading: bool, now: nat): (r: Prayer)
    ensures times.None? || isLoading ==> r == Loading
    ensures times.Some? && !isLoading && !AllParse(times.value) ==> r == Unavailable
    ensures times.Some? && !isLoading && AllParse(times.value) ==>
      (r.title == "Shacharis"
       <==> ParseTimeToday(times.value.alosHashachar).value <= now < ParseTimeToday(times.value.chatzos).value)
    ensures r.modal == ModalFor(r.title)
  {
    if times.None? || isLoading then Loading
    else
      var t := times.value;
      var alos, chatzos := ParseTimeToday(t.alosHashachar), ParseTimeToday(t.chatzos);
      var mincha, shkia := ParseTimeToday(t.minchaGedolah), ParseTimeToday(t.shkia);
      var plag := ParseTimeToday(t.plagHamincha);
      if alos.None? || chatzos.None? || mincha.None? || shkia.None? || plag.None? then Unavailable
      else HomeCard(WindowAt(now, alos.value, chatzos.value, mincha.value, shkia.value, plag.value), t)
  }
}

=== FILE: mitzvah_sync.dfy ===
// The offline queue of completions waiting to be sent to the server
// (client/src/lib/mitzvahSync.ts).

module MitzvahSync {
  import opened Text

  datatype Category = Torah | Tefilla | Tzedaka

  function CategoryName(c: Category): string {
    match c
    case Torah => "torah"
    case Tefilla => "tefilla"
    case Tzedaka => "tzedaka"
  }

  /** A completion waiting to be synced. */
  datatype PendingCompletion = PendingCompletion(
    category: Category, modalId: Option<string>, date: string, idempotencyKey: string, timestamp: nat)

  /** The totals the sync endpoint answers with. */
  datatype SyncResult = SyncResult(synced: nat, torah: nat, tefilla: nat, tzedaka: nat, total: nat)

  /** What the sync request came back with: a parsed reply, or a failure
      (network error, non-2xx status or unreadable body). */
  datatype SyncOutcome = Replied(result: SyncResult) | Failed

  /** `modalId || 'main'`. */
  function ModalPart(modalId: Option<string>): (r: string)
    ensures r != []
  {
    if modalId.Some? && modalId.value != [] then modalId.value else "main"
  }

  /** "{deviceId}-{date}-{category}-{modalId or 'main'}-{timestamp}". */
  function IdempotencyKey(deviceId: string, date: string, category: Category, modalId: Option<string>, time: nat): (r: string)
  {
    deviceId + "-" + date + "-" + CategoryName(category) + "-" + ModalPart(modalId) + "-" + NatToString(time)
  }

  /** The timestamp read back from a key: the digits after its last '-'. */
  function TimestampOf(key: string): (r: Option<nat>)
  {
    match LastIndexOfChar(key, '-')
    case None => None
    case Some(last) =>
      if forall i :: last < i < |key| ==> IsAsciiDigit(key[i]) then Some(DigitsValue(key[last + 1..]))
      else None
  }

  /** The key gives back its timestamp, so keys made at different times
      differ. */
  lemma KeyTimestamp(deviceId: string, date: string, category: Category, modalId: Option<string>, time: nat)
    ensures TimestampOf(IdempotencyKey(deviceId, date, category, modalId, time)) == Some(time)
  {
    var key := IdempotencyKey(deviceId, date, category, modalId, time);
    var digits := NatToString(time);
    var head := deviceId + "-" + date + "-" + CategoryName(category) + "-" + ModalPart(modalId);
    assert key == head + "-" + digits;
    var p := |head|;
    assert key[p] == '-';
    var last := LastIndexOfChar(key, '-');
    assert forall i :: p < i < |key| ==> key[i] == digits[i - p - 1];
    assert last.value == p;
    assert key[p + 1..] == digits;
    NatToStringValue(time);
  }

  lemma KeysOfDifferentTimesDiffer(deviceId: string, date: string, category: Category, modalId: Option<string>,
                                   deviceId': string, date': string, category': Category, modalId': Option<string>,
                                   time: nat, time': nat)
    requires time != time'
    ensures IdempotencyKey(deviceId, date, category, modalId, time) != IdempotencyKey(deviceId', date', category', modalId', time')
  {
    KeyTimestamp(deviceId, date, category, modalId, time);
    KeyTimestamp(deviceId', date', category', modalId', time');
  }

  /** Some entry of `sent` carries `key`. */
  predicate SentKey(sent: seq<PendingCompletion>, key: string) {
    exists c :: c in sent && c.idempotencyKey == key
  }

  /** The entries of `current`, in order, that no entry of `sent`
      acknowledges by idempotency key. */
  function Unsent(current: seq<PendingCompletion>, sent: seq<PendingCompletion>): (r: seq<PendingCompletion>)
    ensures forall c :: c in r <==> c in current && !SentKey(sent, c.idempotencyKey)
  {
    if current == [] then []
    else
      var rest := Unsent(current[1..], sent);
      assert forall c :: c in current <==> c == current[0] || c in current[1..];
      if SentKey(sent, current[0].idempotencyKey) then rest else [current[0]] + rest
  }

  /** Settling a batch against the list it was sent from plus what was
      queued since leaves exactly what was queued since, when those keys
      were not sent. */
  lemma {:induction false} UnsentAfterBatch(batch: seq<PendingCompletion>, since: seq<PendingCompletion>)
    requires forall c :: c in since ==> !SentKey(batch, c.idempotencyKey)
    ensures Unsent(batch + since, batch) == since
  {
    UnsentPrefix(batch, batch, since);
    UnsentKeepsAll(since, batch);
  }

  lemma {:induction false} UnsentPrefix(pre: seq<PendingCompletion>, batch: seq<PendingCompletion>, since: seq<PendingCompletion>)
    requires forall c :: c in pre ==> c in batch
    ensures Unsent(pre + since, batch) == Unsent(since, batch)
  {
    if pre != [] {
      assert (pre + since)[1..] == pre[1..] + since;
      assert pre[0] in batch;
      UnsentPrefix(pre[1..], batch, since);
    } else {
      assert pre + since == since;
    }
  }

  lemma {:induction false} UnsentKeepsAll(since: seq<PendingCompletion>, batch: seq<PendingCompletion>)
    requires forall c :: c in since ==> !SentKey(batch, c.idempotencyKey)
    ensures Unsent(since, batch) == since
  {
    if since != [] {
      UnsentKeepsAll(since[1..], batch);
      assert since == [since[0]] + since[1..];
    }
  }

  /** The two localStorage entries. `pendingStored` is `None` when nothing
      is stored or the stored text does not parse; it then reads as empty. */
  class DeviceStorage {
    var deviceId: Option<string>
    var pendingStored: Option<seq<PendingCompletion>>

    constructor(deviceId: Option<string>, pendingStored: Option<seq<PendingCompletion>>)
      ensures this.deviceId == deviceId && this.pendingStored == pendingStored
    {
      this.deviceId := deviceId;
      this.pendingStored := pendingStored;
    }

    /** getPendingCompletions. */
    function Pending(): seq<PendingCompletion>
      reads this
    {
      if pendingStored.Some? then pendingStored.value else []
    }

    /** The id getDeviceId leaves stored: a stored non-empty id, else the
        fresh one. */
    static function IdAfter(stored: Option<string>, freshId: string): string {
      if stored.Some? && stored.value != [] then stored.value else freshId
    }

    /** getDeviceId, with the fresh random id as a parameter: a stored
        non-empty id is kept, otherwise `freshId` is stored and returned. */
    method GetDeviceId(freshId: string) returns (id: string)
      modifies this
      ensures old(deviceId).Some? && old(deviceId).value != [] ==> id == old(deviceId).value
      ensures !(old(deviceId).Some? && old(deviceId).value != []) ==> id == freshId
      ensures deviceId == Some(id) && pendingStored == old(pendingStored)
    {
      if deviceId.None? || deviceId.value == [] {
        deviceId := Some(freshId);
      }
      id := deviceId.value;
    }

    /** queueCompletion without its trailing sync call: appends exactly one
        entry, keyed by device, date, category, modal and time. */
    method QueueCompletion(category: Category, modalId: Option<string>, date: string, now: nat, freshId: string)
      modifies this
      ensures deviceId == Some(IdAfter(old(deviceId), freshId))
      ensures pendingStored == Some(old(Pending()) +
        [PendingCompletion(category, modalId, date, IdempotencyKey(deviceId.value, date, category, modalId, now), now)])
    {
      var id := GetDeviceId(freshId);
      var key := IdempotencyKey(id, date, category, modalId, now);
      var completion := PendingCompletion(category, modalId, date, key, now);
      var pending := Pending();
      pending := pending + [completion];
      pendingStored := Some(pending);
    }

    /** syncCompletions, with the connectivity flag, the fresh id for
        getDeviceId and the request's outcome as parameters. Offline or with
        nothing pending it returns `None` and touches nothing; a reply
        clears the queue and is returned; a failure leaves the queue. With
        nothing run between its two halves, it is SendCompletions followed
        by SettleSync. */
    method SyncCompletions(online: bool, freshId: string, outcome: SyncOutcome) returns (r: Option<SyncResult>)
      modifies this
      ensures !online || old(Pending()) == [] ==>
        r.None? && pendingStored == old(pendingStored) && deviceId == old(deviceId)
      ensures online && old(Pending()) != [] && outcome.Replied? ==>
        r == Some(outcome.result) && pendingStored == Some([])
      ensures online && old(Pending()) != [] && outcome.Failed? ==>
        r.None? && pendingStored == old(pendingStored)
      ensures online && old(Pending()) != [] ==> deviceId == Some(IdAfter(old(deviceId), freshId))
    {
      var batch := SendCompletions(online, freshId);
      if batch.None? {
        return None;
      }
      r := SettleSync(outcome);
    }

    /** The part of syncCompletions before its `await fetch`: offline or
        with nothing pending it stops with `None`; otherwise it reads the
        device id and sends the whole pending list, which it returns. */
    method SendCompletions(online: bool, freshId: string) returns (batch: Option<seq<PendingCompletion>>)
      modifies this
      ensures !online || old(Pending()) == [] ==>
        batch.None? && pendingStored == old(pendingStored) && deviceId == old(deviceId)
      ensures online && old(Pending()) != [] ==>
        batch == Some(old(Pending())) && pendingStored == old(pendingStored)
        && deviceId == Some(IdAfter(old(deviceId), freshId))
    {
      if !online {
        return None;
      }
      var pending := Pending();
      if |pending| == 0 {
        return None;
      }
      var id := GetDeviceId(freshId);
      batch := Some(pending);
    }

    /** The part of syncCompletions after its `await fetch`: a reply empties
        the stored list, whatever it holds by then, and is returned; a
        failure returns `None` and leaves the list. */
    method SettleSync(outcome: SyncOutcome) returns (r: Option<SyncResult>)
      modifies this
      ensures outcome.Replied? ==> r == Some(outcome.result) && pendingStored == Some([])
      ensures outcome.Failed? ==> r.None? && pendingStored == old(pendingStored)
      ensures deviceId == old(deviceId)
    {
      match outcome
      case Failed =>
        r := None;
      case Replied(result) =>
        pendingStored := Some([]);
        r := Some(result);
    }

    /** A completion queued while the request is in flight (queueCompletion
        runs during the `await`) is wiped by the reply, although it was
        never sent. */
    method QueuedDuringSyncLost(freshId: string, category: Category, modalId: Option<string>, date: string,
                                now: nat, result: SyncResult) returns (batch: seq<PendingCompletion>, queued: PendingCompletion)
      requires Pending() != [] && forall c :: c in Pending() ==> TimestampOf(c.idempotencyKey) != Some(now)
      modifies this
      ensures batch == old(Pending()) && queued !in batch
      ensures Pending() == []
    {
      var sent := SendCompletions(true, freshId);
      batch := sent.value;
      QueueCompletion(category, modalId, date, now, freshId);
      queued := Pending()[|batch|];
      KeyTimestamp(deviceId.value, date, category, modalId, now);
      var r := SettleSync(Replied(result));
    }

    /** SettleSync as evidently intended: a reply removes only the entries
        it acknowledged, by idempotency key, and keeps those queued since. */
    method SettleSyncKeeping(batch: seq<PendingCompletion>, outcome: SyncOutcome) returns (r: Option<SyncResult>)
      modifies this
      ensures outcome.Replied? ==> r == Some(outcome.result) && pendingStored == Some(Unsent(old(Pending()), batch))
      ensures outcome.Failed? ==> r.None? && pendingStored == old(pendingStored)
      ensures deviceId == old(deviceId)
    {
      match outcome
      case Failed =>
        r := None;
      case Replied(result) =>
        pendingStored := Some(Unsent(Pending(), batch));
        r := Some(result);
    }

    /** With the corrected settle step, the completion queued during the
        request is still pending afterwards, and nothing sent is. */
    method QueuedDuringSyncKept(freshId: string, category: Category, modalId: Option<string>, date: string,
                                now: nat, result: SyncResult) returns (batch: seq<PendingCompletion>, queued: PendingCompletion)
      requires Pending() != [] && forall c :: c in Pending() ==> TimestampOf(c.idempotencyKey) != Some(now)
      modifies this
      ensures batch == old(Pending()) && queued !in batch
      ensures Pending() == [queued]
    {
      var sent := SendCompletions(true, freshId);
      batch := sent.value;
      QueueCompletion(category, modalId, date, now, freshId);
      queued := Pending()[|batch|];
      assert Pending() == batch + [queued];
      KeyTimestamp(deviceId.value, date, category, modalId, now);
      UnsentAfterBatch(batch, [queued]);
      var r := SettleSyncKeeping(batch, Replied(result));
    }
  }
}

=== FILE: mobile_routes.dfy ===
// The mobile API routes (server/routes/mobile.ts): day differences, the
// analytics period, the choice between user id and device id, and the
// 40-day Nishmas challenge with its badge.
//
// Dates are day numbers (days since 1970-01-01, the `YYYY-MM-DD` strings
// the routes compare), timestamps are milliseconds, and `today` is a
// parameter. The challenge and badge tables are fields of one object.

module MobileRoutes {
  import opened Text

  const DayMs := 86400000

  /** `daysBetween`: whole days between two timestamps, either way round. */
  function DaysBetween(a: int, b: int): (d: nat) {
    (if a >= b then a - b else b - a) / DayMs
  }

  /** The day count is symmetric and is the floor of the distance in
      days: d whole days fit in the distance and d + 1 do not. */
  lemma DaysBetweenFloor(a: int, b: int)
    ensures DaysBetween(a, b) == DaysBetween(b, a)
    ensures DaysBetween(a, b) * DayMs <= (if a >= b then a - b else b - a) < (DaysBetween(a, b) + 1) * DayMs
  {
  }

  /** Midnight of a day number, as `new Date("YYYY-MM-DD")` gives it. */
  function DateMs(day: int): int {
    day * DayMs
  }

  /** Between two dates the count is the distance of their day numbers. */
  lemma DaysBetweenDates(x: int, y: int)
    ensures DaysBetween(DateMs(x), DateMs(y)) == if x >= y then x - y else y - x
  {
    if x >= y {
      assert DateMs(x) - DateMs(y) == (x - y) * DayMs;
    } else {
      assert DateMs(y) - DateMs(x) == (y - x) * DayMs;
    }
  }

  // ---- Analytics period ----

  /** The days an analytics period covers; a missing period is a week. */
  function PeriodDays(period: Option<string>): (days: nat)
    ensures days == 30 <==> period == Some("month")
    ensures days == 3650 <==> period == Some("alltime")
    ensures days == 7 <==> period != Some("month") && period != Some("alltime")
  {
    var p := if period.Some? && period.value != "" then period.value else "week";
    if p == "month" then 30 else if p == "alltime" then 3650 else 7
  }

  /** The first day counted: the date of `now` less the period. */
  function SinceDay(now: int, period: Option<string>): (day: int) {
    (now - PeriodDays(period) * DayMs) / DayMs
  }

  lemma SinceDayIsDateLessPeriod(now: int, period: Option<string>)
    ensures SinceDay(now, period) == now / DayMs - PeriodDays(period)
  {
    var q, r := now / DayMs, now % DayMs;
    assert now - PeriodDays(period) * DayMs == (q - PeriodDays(period)) * DayMs + r;
  }

  // ---- Who is asking ----

  datatype Column = UserColumn | DeviceColumn

  /** The column the queries filter on, and its value. */
  datatype Identity = Identity(column: Column, value: string)

  predicate Truthy(s: Option<string>) {
    s.Some? && s.value != ""
  }

  /** `a || b` over optional strings. */
  function Or(a: Option<string>, b: Option<string>): (r: Option<string>)
    ensures Truthy(r) <==> Truthy(a) || Truthy(b)
    ensures Truthy(a) ==> r == a
  {
    if Truthy(a) then a else b
  }

  /** The user id: the signed-in user's, else the one in the request. */
  function UserOf(authUser: Option<string>, requestUser: Option<string>): Option<string> {
    if Truthy(Or(authUser, requestUser)) then Or(authUser, requestUser) else None
  }

  /** A user id takes precedence over a device id; with neither the request
      is refused (400). */
  function Identify(userId: Option<string>, deviceId: Option<string>): (r: Option<Identity>)
    ensures r.None? <==> !Truthy(userId) && !Truthy(deviceId)
    ensures Truthy(userId) ==> r == Some(Identity(UserColumn, userId.value))
    ensures !Truthy(userId) && Truthy(deviceId) ==> r == Some(Identity(DeviceColumn, deviceId.value))
  {
    if !Truthy(userId) && !Truthy(deviceId) then None
    else
      var column := if Truthy(userId) then UserColumn else DeviceColumn;
      var value := Or(userId, deviceId);
      Some(Identity(column, value.value))
  }

  // ---- The Nishmas challenge ----

  const ChallengeDays := 40
  const NishmasBadge := "40_day_nishmas"

  datatype Status = Active | Failed | Completed | Superseded

  datatype Challenge = Challenge(userId: Option<string>, deviceId: Option<string>, startDate: int,
                                 daysCompleted: nat, status: Status, lastCompleted: Option<int>)

  datatype Badge = Badge(userId: Option<string>, deviceId: Option<string>, badge: string)

  /** The challenge matches the identity's column and value. */
  predicate Owns(c: Challenge, who: Identity) {
    if who.column == UserColumn then c.userId == Some(who.value) else c.deviceId == Some(who.value)
  }

  /** The latest challenge of the identity (optionally only active ones):
      rows are in creation order, so the last matching one. */
  function Latest(cs: seq<Challenge>, who: Identity, activeOnly: bool): (r: Option<nat>)
    ensures r.Some? ==> r.value < |cs| && Owns(cs[r.value], who) && (activeOnly ==> cs[r.value].status == Active)
    ensures r.Some? ==> forall k :: r.value < k < |cs| ==> !(Owns(cs[k], who) && (activeOnly ==> cs[k].status == Active))
    ensures r.None? <==> forall k :: 0 <= k < |cs| ==> !(Owns(cs[k], who) && (activeOnly ==> cs[k].status == Active))
  {
    if cs == [] then None
    else
      var last := |cs| - 1;
      if Owns(cs[last], who) && (activeOnly ==> cs[last].status == Active) then Some(last)
      else Latest(cs[..last], who, activeOnly)
  }

  /** No two active challenges belong to the same signed-in user. */
  predicate OneActivePerUser(cs: seq<Challenge>) {
    forall i, j :: 0 <= i < j < |cs| && cs[i].status == Active && cs[j].status == Active && cs[i].userId.Some? ==>
      cs[i].userId != cs[j].userId
  }

  /** The badge belongs to the user or the device (a null on either side
      matches nothing, as in SQL). */
  predicate BadgeMatches(b: Badge, userId: Option<string>, deviceId: Option<string>) {
    b.badge == NishmasBadge && ((userId.Some? && b.userId == userId) || (deviceId.Some? && b.deviceId == deviceId))
  }

  /** No user and no device holds the Nishmas badge twice. */
  predicate BadgeOnce(bs: seq<Badge>) {
    forall i, j :: 0 <= i < j < |bs| ==> !BadgeMatches(bs[j], bs[i].userId, bs[i].deviceId) || bs[i].badge != NishmasBadge
  }

  datatype JoinResult = JoinRefused | AlreadyActive | Joined(challenge: Challenge)

  datatype StatusResult = StatusRefused | NoChallenge
    | StatusOf(status: Status, daysCompleted: nat, startDate: int, lastCompleted: Option<int>,
               completedToday: bool, isComplete: bool)

  datatype CompleteResult = CompleteRefused | NoActiveChallenge | AlreadyCompletedToday
    | DayCompleted(daysCompleted: nat, status: Status)

  /** Whether a status check fails an active challenge: more than a day
      since the last completion, or, with none yet, since the start. */
  predicate Lapsed(c: Challenge, today: int) {
    c.status == Active
    && (if c.lastCompleted.Some? then DaysBetween(DateMs(c.lastCompleted.value), DateMs(today)) > 1
        else DaysBetween(DateMs(c.startDate), DateMs(today)) > 1)
  }

  /** A completion moves the count up by exactly one and completes the
      challenge on its fortieth day. */
  function CompleteOnce(c: Challenge, today: int): (r: Challenge)
    ensures r.daysCompleted == c.daysCompleted + 1
    ensures r.status == Completed <==> r.daysCompleted >= ChallengeDays
    ensures r.status != Completed ==> r.status == Active
    ensures r.lastCompleted == Some(today)
  {
    var newDays := c.daysCompleted + 1;
    c.(daysCompleted := newDays, status := if newDays >= ChallengeDays then Completed else Active,
       lastCompleted := Some(today))
  }

  /** On day numbers, lapsing is a gap of two days or more. */
  lemma LapsedRule(c: Challenge, today: int)
    requires c.status == Active
    ensures var from := if c.lastCompleted.Some? then c.lastCompleted.value else c.startDate;
      Lapsed(c, today) <==> today - from >= 2 || from - today >= 2
  {
    var from := if c.lastCompleted.Some? then c.lastCompleted.value else c.startDate;
    DaysBetweenDates(from, today);
  }

  /** Completing every day from the start keeps a challenge from lapsing. */
  lemma DailyCompletionNeverLapses(c: Challenge, today: int)
    requires c.status == Active && c.lastCompleted.Some? && today - 1 <= c.lastCompleted.value <= today
    ensures !Lapsed(c, today)
  {
    LapsedRule(c, today);
  }

  class Challenges {
    var challenges: seq<Challenge>
    var badges: seq<Badge>

    ghost predicate Valid()
      reads this
    {
      OneActivePerUser(challenges) && BadgeOnce(badges)
    }

    constructor ()
      ensures challenges == [] && badges == [] && Valid()
    {
      challenges := [];
      badges := [];
    }

    /** `POST /api/challenges/nishmas/join`: refused without an identity,
        409 while the identity has an active challenge, otherwise a fresh
        active challenge starting today. */
    method Join(authUser: Option<string>, requestUser: Option<string>, deviceId: Option<string>, today: int)
      returns (result: JoinResult)
      requires Valid()
      modifies this
      ensures Valid() && badges == old(badges)
      ensures var userId := UserOf(authUser, requestUser);
        match Identify(userId, deviceId)
        case None => result == JoinRefused && challenges == old(challenges)
        case Some(who) =>
          if Latest(old(challenges), who, true).Some? then result == AlreadyActive && challenges == old(challenges)
          else result == Joined(Challenge(userId, if Truthy(deviceId) then deviceId else None, today, 0, Active, None))
               && challenges == old(challenges) + [result.challenge]
    {
      var userId := UserOf(authUser, requestUser);
      var who := Identify(userId, deviceId);
      if who.None? {
        return JoinRefused;
      }
      if Latest(challenges, who.value, true).Some? {
        return AlreadyActive;
      }
      var challenge := Challenge(userId, if Truthy(deviceId) then deviceId else None, today, 0, Active, None);
      challenges := challenges + [challenge];
      AppendKeepsOneActive(old(challenges), challenge, who.value);
      result := Joined(challenge);
    }

    /** `GET /api/challenges/nishmas/status`: the latest challenge, failed
        first when it has lapsed. */
    method GetStatus(authUser: Option<string>, requestUser: Option<string>, deviceId: Option<string>, today: int)
      returns (result: StatusResult)
      requires Valid()
      modifies this
      ensures Valid() && badges == old(badges)
      ensures match Identify(Or(authUser, requestUser), deviceId)
        case None => result == StatusRefused && challenges == old(challenges)
        case Some(who) =>
          match Latest(old(challenges), who, false)
          case None => result == NoChallenge && challenges == old(challenges)
          case Some(i) =>
            var c := old(challenges)[i];
            var now := if Lapsed(c, today) then c.(status := Failed) else c;
            challenges == old(challenges)[i := now]
            && result == StatusOf(now.status, now.daysCompleted, now.startDate, now.lastCompleted,
                                  now.lastCompleted == Some(today), now.daysCompleted >= ChallengeDays)
    {
      var who := Identify(Or(authUser, requestUser), deviceId);
      if who.None? {
        return StatusRefused;
      }
      var found := Latest(challenges, who.value, false);
      if found.None? {
        return NoChallenge;
      }
      var i := found.value;
      var challenge := challenges[i];
      if challenge.status == Active && challenge.lastCompleted.Some? {
        var gap := DaysBetween(DateMs(challenge.lastCompleted.value), DateMs(today));
        if gap > 1 {
          challenge := challenge.(status := Failed);
        }
      } else if challenge.status == Active && challenge.lastCompleted.None? {
        var daysSinceStart := DaysBetween(DateMs(challenge.startDate), DateMs(today));
        if daysSinceStart > 1 {
          challenge := challenge.(status := Failed);
        }
      }
      challenges := challenges[i := challenge];
      DeactivateKeepsOneActive(old(challenges), i, challenge);
      result := StatusOf(challenge.status, challenge.daysCompleted, challenge.startDate, challenge.lastCompleted,
                         challenge.lastCompleted == Some(today), challenge.daysCompleted >= ChallengeDays);
    }

    /** `POST /api/challenges/nishmas/complete-day`: nothing changes when
        the latest active challenge was completed today; otherwise one more
        day is counted, and the badge is awarded on completion unless the
        user or device already holds it. */
    method CompleteDay(authUser: Option<string>, requestUser: Option<string>, deviceId: Option<string>, today: int)
      returns (result: CompleteResult)
      requires Valid()
      modifies this
      ensures Valid()
      ensures var userId := Or(authUser, requestUser);
        match Identify(userId, deviceId)
        case None => result == CompleteRefused && challenges == old(challenges) && badges == old(badges)
        case Some(who) =>
          match Latest(old(challenges), who, true)
          case None => result == NoActiveChallenge && challenges == old(challenges) && badges == old(badges)
          case Some(i) =>
            if old(challenges)[i].lastCompleted == Some(today) then
              result == AlreadyCompletedToday && challenges == old(challenges) && badges == old(badges)
            else
              var next := CompleteOnce(old(challenges)[i], today);
              var badgeUser := if Truthy(userId) then userId else None;
              var badgeDevice := if Truthy(deviceId) then deviceId else None;
              challenges == old(challenges)[i := next]
              && result == DayCompleted(next.daysCompleted, next.status)
              && badges == if next.status == Completed && forall b :: b in old(badges) ==> !BadgeMatches(b, badgeUser, badgeDevice)
                           then old(badges) + [Badge(badgeUser, badgeDevice, NishmasBadge)]
                           else old(badges)
    {
      var userId := Or(authUser, requestUser);
      var who := Identify(userId, deviceId);
      if who.None? {
        return CompleteRefused;
      }
      var found := Latest(challenges, who.value, true);
      if found.None? {
        return NoActiveChallenge;
      }
      var i := found.value;
      if challenges[i].lastCompleted == Some(today) {
        return AlreadyCompletedToday;
      }
      var updated := CompleteOnce(challenges[i], today);
      challenges := challenges[i := updated];
      ReplaceActiveKeepsOneActive(old(challenges), i, updated);
      if updated.status == Completed {
        var badgeUser := if Truthy(userId) then userId else None;
        var badgeDevice := if Truthy(deviceId) then deviceId else None;
        var exists_ := HasBadge(badgeUser, badgeDevice);
        if !exists_ {
          var badge := Badge(badgeUser, badgeDevice, NishmasBadge);
          AppendKeepsBadgeOnce(badges, badge);
          badges := badges + [badge];
        }
      }
      result := DayCompleted(updated.daysCompleted, updated.status);
    }

    /** The badge query: does the user or the device hold the badge? */
    method HasBadge(userId: Option<string>, deviceId: Option<string>) returns (found: bool)
      ensures found <==> exists b :: b in badges && BadgeMatches(b, userId, deviceId)
    {
      found := false;
      for k := 0 to |badges|
        invariant found <==> exists b :: b in badges[..k] && BadgeMatches(b, userId, deviceId)
      {
        PrefixSnoc(badges, k);
        if BadgeMatches(badges[k], userId, deviceId) {
          found := true;
        }
      }
      assert badges[..|badges|] == badges;
    }

    /** `POST /api/challenges/nishmas/restart`: the identity's active and
        failed challenges are superseded and a fresh one starts today. */
    method Restart(authUser: Option<string>, requestUser: Option<string>, deviceId: Option<string>, today: int)
      returns (started: Option<Challenge>)
      requires Valid()
      modifies this
      ensures Valid() && badges == old(badges)
      ensures var userId := Or(authUser, requestUser);
        match Identify(userId, deviceId)
        case None => started.None? && challenges == old(challenges)
        case Some(who) =>
          started == Some(Challenge(if Truthy(userId) then userId else None, if Truthy(deviceId) then deviceId else None,
                                    today, 0, Active, None))
          && challenges == Supersede(old(challenges), who) + [started.value]
    {
      var userId := Or(authUser, requestUser);
      var who := Identify(userId, deviceId);
      if who.None? {
        return None;
      }
      var superseded := SupersedeAll(challenges, who.value);
      var challenge := Challenge(if Truthy(userId) then userId else None, if Truthy(deviceId) then deviceId else None,
                                 today, 0, Active, None);
      SupersedeKeepsOneActive(challenges, who.value);
      AppendKeepsOneActive(superseded, challenge, who.value);
      challenges := superseded + [challenge];
      started := Some(challenge);
    }
  }

  /** The identity's active and failed challenges marked superseded. */
  function Supersede(cs: seq<Challenge>, who: Identity): (r: seq<Challenge>)
    ensures |r| == |cs|
    ensures forall k :: 0 <= k < |cs| ==>
      r[k] == if Owns(cs[k], who) && (cs[k].status == Active || cs[k].status == Failed)
              then cs[k].(status := Superseded) else cs[k]
  {
    if cs == [] then []
    else
      var c := cs[|cs| - 1];
      Supersede(cs[..|cs| - 1], who)
      + [if Owns(c, who) && (c.status == Active || c.status == Failed) then c.(status := Superseded) else c]
  }

  /** The `UPDATE ... SET status = 'superseded'` over the rows. */
  method SupersedeAll(cs: seq<Challenge>, who: Identity) returns (r: seq<Challenge>)
    ensures r == Supersede(cs, who)
  {
    r := [];
    for k := 0 to |cs|
      invariant r == Supersede(cs[..k], who)
    {
      assert cs[..k + 1][..k] == cs[..k];
      var c := cs[k];
      if Owns(c, who) && (c.status == Active || c.status == Failed) {
        c := c.(status := Superseded);
      }
      r := r + [c];
    }
    assert cs[..|cs|] == cs;
  }

  /** After a restart the identity has no active challenge but the new
      one. */
  lemma SupersedeLeavesNoActive(cs: seq<Challenge>, who: Identity)
    ensures Latest(Supersede(cs, who), who, true).None?
  {
  }

  lemma AppendKeepsOneActive(cs: seq<Challenge>, c: Challenge, who: Identity)
    requires OneActivePerUser(cs) && Latest(cs, who, true).None?
    requires c.userId.Some? ==> who == Identity(UserColumn, c.userId.value)
    ensures OneActivePerUser(cs + [c])
  {
  }

  lemma DeactivateKeepsOneActive(cs: seq<Challenge>, i: nat, c: Challenge)
    requires i < |cs| && OneActivePerUser(cs)
    requires c == cs[i] || (c == cs[i].(status := Failed))
    ensures OneActivePerUser(cs[i := c])
  {
  }

  lemma ReplaceActiveKeepsOneActive(cs: seq<Challenge>, i: nat, c: Challenge)
    requires i < |cs| && OneActivePerUser(cs) && c.userId == cs[i].userId && cs[i].status == Active
    ensures OneActivePerUser(cs[i := c])
  {
  }

  lemma SupersedeKeepsOneActive(cs: seq<Challenge>, who: Identity)
    requires OneActivePerUser(cs)
    ensures OneActivePerUser(Supersede(cs, who))
  {
  }

  lemma AppendKeepsBadgeOnce(bs: seq<Badge>, b: Badge)
    requires BadgeOnce(bs) && b.badge == NishmasBadge
    requires !exists x :: x in bs && BadgeMatches(x, b.userId, b.deviceId)
    ensures BadgeOnce(bs + [b])
  {
    forall i | 0 <= i < |bs|
      ensures !BadgeMatches(b, bs[i].userId, bs[i].deviceId) || bs[i].badge != NishmasBadge
    {
      assert bs[i] in bs;
    }
  }
}

=== FILE: permission_manager.dfy ===
// The permission manager (client/src/lib/permission-manager.ts): the
// persisted notification and location permission state, the cooldowns
// that decide when the user may be asked again, and the state changes of
// the permission requests.
//
// `Date.now()` is a parameter of each operation; the browser's answers
// (the permission setting, the geolocation callback, whether a push
// subscription exists) are parameters too.

module PermissionManager {
  import opened Text

  const NotificationCooldown := 7 * 24 * 60 * 60 * 1000
  const LocationCooldown := 24 * 60 * 60 * 1000
  const SubscriptionRevalidation := 24 * 60 * 60 * 1000

  datatype Intent = Granted | Dismissed | Denied | Default
  datatype LocationKind = LocGranted | LocDenied | LocPrompt | LocDismissed
  datatype Source = Gps | Ip

  datatype NotificationState = NotificationState(
    subscribed: bool, token: Option<string>, lastChecked: Option<int>, lastError: Option<string>,
    userIntent: Intent, revokedAt: Option<int>, needsResubscribe: bool, dismissedAt: Option<int>)

  datatype LocationState = LocationState(
    state: LocationKind, lastPrompt: Option<int>, source: Option<Source>, cooldownUntil: Option<int>)

  const DefaultNotificationState := NotificationState(false, None, None, None, Default, None, false, None)
  const DefaultLocationState := LocationState(LocPrompt, None, None, None)

  /** A partial update: `None` leaves the field alone. */
  datatype NotificationPatch = NotificationPatch(
    subscribed: Option<bool>, token: Option<Option<string>>, lastChecked: Option<Option<int>>,
    lastError: Option<Option<string>>, userIntent: Option<Intent>, revokedAt: Option<Option<int>>,
    needsResubscribe: Option<bool>, dismissedAt: Option<Option<int>>)

  datatype LocationPatch = LocationPatch(
    state: Option<LocationKind>, lastPrompt: Option<Option<int>>, source: Option<Option<Source>>,
    cooldownUntil: Option<Option<int>>)

  const NoNotificationChange := NotificationPatch(None, None, None, None, None, None, None, None)
  const NoLocationChange := LocationPatch(None, None, None, None)

  function Pick<T>(patch: Option<T>, current: T): T {
    if patch.Some? then patch.value else current
  }

  /** `{ ...state.notification, ...newState }`. */
  function MergeNotification(s: NotificationState, p: NotificationPatch): NotificationState {
    NotificationState(
      Pick(p.subscribed, s.subscribed), Pick(p.token, s.token), Pick(p.lastChecked, s.lastChecked),
      Pick(p.lastError, s.lastError), Pick(p.userIntent, s.userIntent), Pick(p.revokedAt, s.revokedAt),
      Pick(p.needsResubscribe, s.needsResubscribe), Pick(p.dismissedAt, s.dismissedAt))
  }

  /** `{ ...state.location, ...newState }`. */
  function MergeLocation(s: LocationState, p: LocationPatch): LocationState {
    LocationState(Pick(p.state, s.state), Pick(p.lastPrompt, s.lastPrompt),
                  Pick(p.source, s.source), Pick(p.cooldownUntil, s.cooldownUntil))
  }

  /** The merge takes every field the update names and keeps every other. */
  lemma MergeLocationFields(s: LocationState, p: LocationPatch)
    ensures var r := MergeLocation(s, p);
      (p.state.Some? ==> r.state == p.state.value) && (p.state.None? ==> r.state == s.state)
      && (p.lastPrompt.Some? ==> r.lastPrompt == p.lastPrompt.value) && (p.lastPrompt.None? ==> r.lastPrompt == s.lastPrompt)
      && (p.source.Some? ==> r.source == p.source.value) && (p.source.None? ==> r.source == s.source)
      && (p.cooldownUntil.Some? ==> r.cooldownUntil == p.cooldownUntil.value)
      && (p.cooldownUntil.None? ==> r.cooldownUntil == s.cooldownUntil)
  {
  }

  lemma MergeNotificationFields(s: NotificationState, p: NotificationPatch)
    ensures var r := MergeNotification(s, p);
      (p.subscribed.None? ==> r.subscribed == s.subscribed) && (p.token.None? ==> r.token == s.token)
      && (p.lastChecked.None? ==> r.lastChecked == s.lastChecked) && (p.lastError.None? ==> r.lastError == s.lastError)
      && (p.userIntent.None? ==> r.userIntent == s.userIntent) && (p.revokedAt.None? ==> r.revokedAt == s.revokedAt)
      && (p.needsResubscribe.None? ==> r.needsResubscribe == s.needsResubscribe)
      && (p.dismissedAt.None? ==> r.dismissedAt == s.dismissedAt)
      && (p.userIntent.Some? ==> r.userIntent == p.userIntent.value)
      && (p.dismissedAt.Some? ==> r.dismissedAt == p.dismissedAt.value)
      && (p.subscribed.Some? ==> r.subscribed == p.subscribed.value)
  {
  }

  /** An empty update changes nothing, and merging twice is merging once. */
  lemma MergeIdempotent(s: NotificationState, p: NotificationPatch, l: LocationState, q: LocationPatch)
    ensures MergeNotification(s, NoNotificationChange) == s && MergeLocation(l, NoLocationChange) == l
    ensures MergeNotification(MergeNotification(s, p), p) == MergeNotification(s, p)
    ensures MergeLocation(MergeLocation(l, q), q) == MergeLocation(l, q)
  {
  }

  /** A timestamp field is truthy when set and not 0. */
  predicate Truthy(t: Option<int>) {
    t.Some? && t.value != 0
  }

  /** What a value read from local storage turned out to be. */
  datatype Stored<T> = Absent | Corrupt | Parsed(value: T)

  /** The store: the live state and its copy in local storage. */
  class PermissionStore {
    var notification: NotificationState
    var location: LocationState
    var savedNotification: Option<NotificationState>
    var savedLocation: Option<LocationState>

    /** What local storage holds never disagrees with the live state. */
    ghost predicate Valid()
      reads this
    {
      (savedNotification.Some? ==> savedNotification.value == notification)
      && (savedLocation.Some? ==> savedLocation.value == location)
    }

    /** `safeParseJSON` of both keys: a missing or corrupt value gives the
        default, and a corrupt one is removed. */
    constructor (n: Stored<NotificationState>, l: Stored<LocationState>)
      ensures notification == (if n.Parsed? then n.value else DefaultNotificationState)
      ensures location == (if l.Parsed? then l.value else DefaultLocationState)
      ensures savedNotification == (if n.Parsed? then Some(n.value) else None)
      ensures savedLocation == (if l.Parsed? then Some(l.value) else None)
      ensures Valid()
    {
      notification := if n.Parsed? then n.value else DefaultNotificationState;
      location := if l.Parsed? then l.value else DefaultLocationState;
      savedNotification := if n.Parsed? then Some(n.value) else None;
      savedLocation := if l.Parsed? then Some(l.value) else None;
    }

    method SetNotificationState(p: NotificationPatch)
      requires Valid()
      modifies this
      ensures notification == MergeNotification(old(notification), p) && savedNotification == Some(notification)
      ensures location == old(location) && savedLocation == old(savedLocation) && Valid()
    {
      notification := MergeNotification(notification, p);
      savedNotification := Some(notification);
    }

    method SetLocationState(p: LocationPatch)
      requires Valid()
      modifies this
      ensures location == MergeLocation(old(location), p) && savedLocation == Some(location)
      ensures notification == old(notification) && savedNotification == old(savedNotification) && Valid()
    {
      location := MergeLocation(location, p);
      savedLocation := Some(location);
    }

    method ResetNotificationState()
      requires Valid()
      modifies this
      ensures notification == DefaultNotificationState && savedNotification == Some(DefaultNotificationState)
      ensures location == old(location) && savedLocation == old(savedLocation) && Valid()
    {
      notification := DefaultNotificationState;
      savedNotification := Some(notification);
    }

    method ResetLocationState()
      requires Valid()
      modifies this
      ensures location == DefaultLocationState && savedLocation == Some(DefaultLocationState)
      ensures notification == old(notification) && savedNotification == old(savedNotification) && Valid()
    {
      location := DefaultLocationState;
      savedLocation := Some(location);
    }
  }

  // ---- Notification prompting ----

  /** The decision of `shouldPromptForNotifications` and the state after
      it: an expired dismissal goes back to 'default'. */
  function NotificationPrompt(n: NotificationState, now: int): (bool, NotificationState) {
    if n.userIntent == Denied || n.userIntent == Granted then (false, n)
    else if n.userIntent == Dismissed && Truthy(n.dismissedAt) then
      if now - n.dismissedAt.value < NotificationCooldown then (false, n)
      else (true, n.(userIntent := Default, dismissedAt := None))
    else (true, n)
  }

  /** Never prompted once the user granted or denied; a dismissal keeps the
      prompt away for exactly seven days; otherwise the prompt is allowed. */
  lemma NotificationPromptRule(n: NotificationState, now: int)
    ensures var (ok, next) := NotificationPrompt(n, now);
      (ok <==> n.userIntent != Denied && n.userIntent != Granted
               && !(n.userIntent == Dismissed && Truthy(n.dismissedAt) && now < n.dismissedAt.value + NotificationCooldown))
      && (next != n ==> ok && next.userIntent == Default && next.dismissedAt == None && n.userIntent == Dismissed)
  {
  }

  /** Asking again right away gives the same answer and changes nothing. */
  lemma NotificationPromptStable(n: NotificationState, now: int)
    ensures var (ok, next) := NotificationPrompt(n, now);
      NotificationPrompt(next, now) == (ok, next)
  {
  }

  method ShouldPromptForNotifications(store: PermissionStore, now: int) returns (ok: bool)
    requires store.Valid()
    modifies store
    ensures (ok, store.notification) == NotificationPrompt(old(store.notification), now)
    ensures store.location == old(store.location) && store.Valid()
  {
    var current := store.notification;
    if current.userIntent == Denied {
      return false;
    }
    if current.userIntent == Granted {
      return false;
    }
    if current.userIntent == Dismissed && Truthy(current.dismissedAt) {
      var sinceDismissal := now - current.dismissedAt.value;
      if sinceDismissal < NotificationCooldown {
        return false;
      }
      store.SetNotificationState(NoNotificationChange.(userIntent := Some(Default), dismissedAt := Some(None)));
    }
    return true;
  }

  // ---- Notification permission ----

  datatype Permission = PermGranted | PermDenied | PermDefault

  /** The intent recorded for the browser's answer to a permission prompt. */
  function AnswerPatch(answer: Permission, now: int): NotificationPatch {
    match answer
    case PermGranted => NoNotificationChange.(userIntent := Some(Granted), lastChecked := Some(Some(now)))
    case PermDenied => NoNotificationChange.(userIntent := Some(Denied), revokedAt := Some(Some(now)))
    case PermDefault => NoNotificationChange.(userIntent := Some(Dismissed), dismissedAt := Some(Some(now)))
  }

  /** `requestNotificationPermission`. `answer` is what the prompt
      resolved to, or `None` when it threw `error`. */
  method RequestNotificationPermission(store: PermissionStore, browser: Permission, answer: Option<Permission>,
                                       error: string, now: int)
    returns (success: bool, permission: Permission)
    requires store.Valid()
    modifies store
    ensures browser == PermGranted ==> success && permission == PermGranted && store.notification == old(store.notification)
    ensures browser == PermDenied ==>
      !success && permission == PermDenied
      && store.notification == MergeNotification(old(store.notification), AnswerPatch(PermDenied, now))
    ensures browser == PermDefault && answer.Some? ==>
      permission == answer.value && (success <==> permission == PermGranted)
      && store.notification == MergeNotification(old(store.notification), AnswerPatch(answer.value, now))
    ensures browser == PermDefault && answer.None? ==>
      !success && permission == browser
      && store.notification == old(store.notification).(lastError := Some(error))
    ensures store.location == old(store.location) && store.Valid()
  {
    if browser == PermGranted {
      return true, PermGranted;
    }
    if browser == PermDenied {
      store.SetNotificationState(AnswerPatch(PermDenied, now));
      return false, PermDenied;
    }
    if answer.None? {
      store.SetNotificationState(NoNotificationChange.(lastError := Some(Some(error))));
      return false, browser;
    }
    store.SetNotificationState(AnswerPatch(answer.value, now));
    return answer.value == PermGranted, answer.value;
  }

  /** A dismissed prompt keeps the next prompt away for seven days and
      allows it afterwards. */
  lemma DismissalCooldown(n: NotificationState, t: int, later: int)
    requires t != 0
    ensures var d := MergeNotification(n, AnswerPatch(PermDefault, t));
      NotificationPrompt(d, later).0 <==> later >= t + NotificationCooldown
  {
  }

  /** `reconcileNotificationPermission` on start-up. `browser` is `None`
      when the Notification API is missing; `hasSubscription` answers the
      push-subscription check when it is made. */
  method ReconcileNotificationPermission(store: PermissionStore, browser: Option<Permission>,
                                         hasSubscription: bool, now: int)
    requires store.Valid()
    modifies store
    ensures var c := old(store.notification);
      store.notification ==
        if browser.None? then c
        else if browser.value == PermDenied && c.userIntent != Denied then
          c.(subscribed := false, token := None, userIntent := Denied, revokedAt := Some(now), needsResubscribe := false)
        else if browser.value == PermGranted && !c.subscribed then
          (if !hasSubscription && c.userIntent == Granted then c.(needsResubscribe := true) else c)
        else if c.subscribed && Truthy(c.lastChecked) && now - c.lastChecked.value > SubscriptionRevalidation then
          (if hasSubscription then c.(lastChecked := Some(now))
           else c.(subscribed := false, needsResubscribe := c.userIntent == Granted, lastChecked := Some(now)))
        else c
    ensures store.location == old(store.location) && store.Valid()
  {
    if browser.None? {
      return;
    }
    var current := store.notification;
    if browser.value == PermDenied && current.userIntent != Denied {
      store.SetNotificationState(NotificationPatch(Some(false), Some(None), None, None, Some(Denied), Some(Some(now)), Some(false), None));
      return;
    }
    if browser.value == PermGranted && !current.subscribed {
      if !hasSubscription && current.userIntent == Granted {
        store.SetNotificationState(NoNotificationChange.(needsResubscribe := Some(true)));
      }
    }
    if current.subscribed && Truthy(current.lastChecked) {
      var sinceCheck := now - current.lastChecked.value;
      if sinceCheck > SubscriptionRevalidation {
        if !hasSubscription {
          store.SetNotificationState(NoNotificationChange.(subscribed := Some(false),
            needsResubscribe := Some(current.userIntent == Granted), lastChecked := Some(Some(now))));
        } else {
          store.SetNotificationState(NoNotificationChange.(lastChecked := Some(Some(now))));
        }
      }
    }
  }

  // ---- Location prompting ----

  predicate InCooldown(l: LocationState, now: int) {
    Truthy(l.cooldownUntil) && now < l.cooldownUntil.value
  }

  /** The decision of `shouldPromptForLocation` and the state after it: an
      expired cooldown goes back to 'prompt'. */
  function LocationPrompt(l: LocationState, now: int): (bool, LocationState) {
    if Truthy(l.cooldownUntil) && now >= l.cooldownUntil.value then
      (true, l.(state := LocPrompt, cooldownUntil := None))
    else if InCooldown(l, now) then (false, l)
    else (l.state != LocGranted && l.state != LocDenied, l)
  }

  /** An expired cooldown always allows the prompt; otherwise the prompt is
      allowed exactly outside a cooldown when the state is neither
      'granted' nor 'denied'. */
  lemma LocationPromptRule(l: LocationState, now: int)
    ensures var (ok, next) := LocationPrompt(l, now);
      (ok <==> !InCooldown(l, now) && (Truthy(l.cooldownUntil) || (l.state != LocGranted && l.state != LocDenied)))
      && (next != l ==> ok && next.state == LocPrompt && next.cooldownUntil == None)
      && (ok ==> !InCooldown(next, now))
  {
  }

  method ShouldPromptForLocation(store: PermissionStore, now: int) returns (ok: bool)
    requires store.Valid()
    modifies store
    ensures (ok, store.location) == LocationPrompt(old(store.location), now)
    ensures store.notification == old(store.notification) && store.Valid()
  {
    var current := store.location;
    if Truthy(current.cooldownUntil) && now >= current.cooldownUntil.value {
      store.SetLocationState(NoLocationChange.(state := Some(LocPrompt), cooldownUntil := Some(None)));
      return true;
    }
    if Truthy(current.cooldownUntil) && now < current.cooldownUntil.value {
      return false;
    }
    if current.state == LocGranted {
      return false;
    }
    if current.state == LocDenied {
      return false;
    }
    return true;
  }

  /** The state recorded when the user is refused for a day. */
  function CooldownPatch(kind: LocationKind, now: int): LocationPatch {
    NoLocationChange.(state := Some(kind), cooldownUntil := Some(Some(now + LocationCooldown)))
  }

  method MarkLocationDismissed(store: PermissionStore, now: int)
    requires store.Valid()
    modifies store
    ensures store.location == old(store.location).(state := LocDismissed, cooldownUntil := Some(now + LocationCooldown))
    ensures store.notification == old(store.notification) && store.Valid()
  {
    store.SetLocationState(CooldownPatch(LocDismissed, now));
  }

  /** After a dismissal (or a denial) the location prompt is held back for
      exactly 24 hours. */
  lemma LocationCooldownHolds(l: LocationState, kind: LocationKind, now: int, later: int)
    requires now + LocationCooldown != 0
    ensures var d := MergeLocation(l, CooldownPatch(kind, now));
      LocationPrompt(d, later).0 <==> later >= now + LocationCooldown
  {
  }

  /** `reconcileLocationPermission`: an expired cooldown is cleared; outside
      a cooldown a 'granted' answer of the Permissions API (`query`; `None`
      when the API is missing or fails) is recorded, and any other answer
      ignored. */
  method ReconcileLocationPermission(store: PermissionStore, query: Option<LocationKind>, now: int)
    requires store.Valid()
    modifies store
    ensures var c := old(store.location);
      store.location ==
        if Truthy(c.cooldownUntil) && now >= c.cooldownUntil.value then c.(state := LocPrompt, cooldownUntil := None)
        else if InCooldown(c, now) then c
        else if query == Some(LocGranted) && c.state != LocGranted then c.(state := LocGranted)
        else c
    ensures store.notification == old(store.notification) && store.Valid()
  {
    var current := store.location;
    if Truthy(current.cooldownUntil) && now >= current.cooldownUntil.value {
      store.SetLocationState(NoLocationChange.(state := Some(LocPrompt), cooldownUntil := Some(None)));
      return;
    }
    if Truthy(current.cooldownUntil) && now < current.cooldownUntil.value {
      return;
    }
    if query == Some(LocGranted) && current.state != LocGranted {
      store.SetLocationState(NoLocationChange.(state := Some(LocGranted)));
    }
  }

  // ---- Location request ----

  /** The geolocation callback: a position, or an error code
      (1 is PERMISSION_DENIED). */
  datatype GeoOutcome = Position(lat: real, lng: real) | GeoError(code: int, message: string)

  datatype LocationResult = LocationResult(success: bool, coordinates: Option<(real, real)>, error: Option<string>)

  /** `requestLocationPermission`. `geolocation` says whether the API
      exists, `outcome` is its callback and `answeredAt` the clock then. */
  method RequestLocationPermission(store: PermissionStore, geolocation: bool, outcome: GeoOutcome,
                                   now: int, answeredAt: int)
    returns (r: LocationResult)
    requires store.Valid()
    modifies store
    ensures var c := old(store.location);
      if InCooldown(c, now) then r == LocationResult(false, None, Some("In cooldown period")) && store.location == c
      else if c.state == LocGranted then r == LocationResult(true, None, None) && store.location == c
      else if !geolocation then
        r == LocationResult(false, None, Some("Geolocation not supported"))
        && store.location == c.(state := LocDenied, cooldownUntil := Some(now + LocationCooldown))
      else
        match outcome
        case Position(lat, lng) =>
          r == LocationResult(true, Some((lat, lng)), None)
          && store.location == c.(lastPrompt := Some(now), state := LocGranted, source := Some(Gps), cooldownUntil := None)
        case GeoError(code, message) =>
          r == LocationResult(false, None, Some(message))
          && store.location == (if code == 1 then c.(lastPrompt := Some(now), state := LocDenied, cooldownUntil := Some(answeredAt + LocationCooldown))
                                else c.(lastPrompt := Some(now), state := LocPrompt, cooldownUntil := None))
    ensures store.notification == old(store.notification) && store.Valid()
  {
    var current := store.location;
    if Truthy(current.cooldownUntil) && now < current.cooldownUntil.value {
      return LocationResult(false, None, Some("In cooldown period"));
    }
    if current.state == LocGranted {
      return LocationResult(true, None, None);
    }
    if !geolocation {
      store.SetLocationState(CooldownPatch(LocDenied, now));
      return LocationResult(false, None, Some("Geolocation not supported"));
    }
    store.SetLocationState(NoLocationChange.(lastPrompt := Some(Some(now))));
    match outcome {
      case Position(lat, lng) =>
        store.SetLocationState(NoLocationChange.(state := Some(LocGranted), source := Some(Some(Gps)), cooldownUntil := Some(None)));
        r := LocationResult(true, Some((lat, lng)), None);
      case GeoError(code, message) =>
        if code == 1 {
          store.SetLocationState(CooldownPatch(LocDenied, answeredAt));
        } else {
          store.SetLocationState(NoLocationChange.(state := Some(LocPrompt), cooldownUntil := Some(None)));
        }
        r := LocationResult(false, None, Some(message));
    }
  }

  /** Only an explicit refusal (code 1) starts a cooldown: a timeout or an
      unavailable position leaves the prompt open. */
  lemma OnlyRefusalCoolsDown(l: LocationState, code: int, now: int, later: int)
    requires code != 1
    ensures var after := l.(lastPrompt := Some(now), state := LocPrompt, cooldownUntil := None);
      LocationPrompt(after, later).0 && !InCooldown(after, later)
  {
  }
}

=== FILE: profile_stats.dfy ===
// The statistics panel of the profile page: per-day classification of
// completions, totals over all days and the current streak
// (client/src/pages/profile.tsx).

module ProfileStats {
  import opened Text

  /** One day's modal completions: the repeatable counts as the entries of
      the stored object, and the single-use modal ids. */
  datatype DayData = DayData(repeatables: seq<(string, int)>, singles: seq<string>)

  /** One day's tzedaka buttons: the count given elsewhere (missing reads as
      0) and the three truthy flags. */
  datatype TzedakaButtons = TzedakaButtons(gaveElsewhereCount: int, putACoin: bool, sponsorADay: bool, activeCampaign: bool)

  datatype Kind = TorahKind | TefillaKind | TzedakaKind | LifeKind | Unmatched

  /** The classification chain of countForDay: the first test that matches
      decides, so a key counts towards one kind at most. */
  function Classify(key: string): Kind {
    if key == "halacha" || key == "chizuk" || key == "emuna" || key == "featured" || key == "pirkei-avot"
      || key == "gems-of-gratitude" || key == "torah-challenge" || key == "parsha-vort"
      || Contains(key, "story") || Contains(key, "daily-wisdom") || Contains(key, "torah-class")
    then TorahKind
    else if StartsWith(key, "individual-tehillim-") || StartsWith(key, "chain-tehillim-") || StartsWith(key, "brocha-")
      || StartsWith(key, "womens-prayer-") || key == "global-tehillim-chain" || key == "tehillim-text"
      || key == "special-tehillim" || StartsWith(key, "meditation-") || key == "al-hamichiya"
      || key == "birkat-hamazon" || key == "nishmas-campaign"
    then TefillaKind
    else if StartsWith(key, "tzedaka-") || key == "tzedaka" || key == "donate" then TzedakaKind
    else if key == "marriage-insights" || key == "gift-of-chatzos" || key == "life-class" || key == "recipe" then LifeKind
    else Unmatched
  }

  /** The sum of the counts of the entries of kind `k`. */
  function KindSum(entries: seq<(string, int)>, k: Kind): int {
    if entries == [] then 0
    else KindSum(entries[..|entries| - 1], k) + (if Classify(entries[|entries| - 1].0) == k then entries[|entries| - 1].1 else 0)
  }

  /** The sum of all counts. */
  function EntrySum(entries: seq<(string, int)>): int {
    if entries == [] then 0 else EntrySum(entries[..|entries| - 1]) + entries[|entries| - 1].1
  }

  /** Every count lands in exactly one of the four kinds or in none. */
  lemma {:induction false} KindSumsPartition(entries: seq<(string, int)>)
    ensures KindSum(entries, TorahKind) + KindSum(entries, TefillaKind) + KindSum(entries, TzedakaKind)
      + KindSum(entries, LifeKind) + KindSum(entries, Unmatched) == EntrySum(entries)
  {
    if entries != [] {
      KindSumsPartition(entries[..|entries| - 1]);
    }
  }

  predicate IsTefillaSingle(id: string) {
    id == "mincha" || id == "morning-brochas" || id == "maariv"
  }

  /** The tzedaka count of a day's buttons: the count given elsewhere plus
      one per flag set. */
  function ButtonTzedaka(b: Option<TzedakaButtons>): (r: int)
    ensures b.None? ==> r == 0
    ensures b.Some? ==>
      (r - b.value.gaveElsewhereCount
       == (if b.value.putACoin then 1 else 0) + (if b.value.sponsorADay then 1 else 0) + (if b.value.activeCampaign then 1 else 0))
  {
    match b
    case None => 0
    case Some(t) =>
      t.gaveElsewhereCount + (if t.putACoin then 1 else 0) + (if t.sponsorADay then 1 else 0)
        + (if t.activeCampaign then 1 else 0)
  }

  datatype Counts = Counts(torah: int, tefilla: int, tzedaka: int, life: int)

  const Zero := Counts(0, 0, 0, 0)

  function Add(a: Counts, b: Counts): Counts {
    Counts(a.torah + b.torah, a.tefilla + b.tefilla, a.tzedaka + b.tzedaka, a.life + b.life)
  }

  /** The counts of one date (countForDay). */
  function DayCounts(day: Option<DayData>, buttons: Option<TzedakaButtons>): (r: Counts)
    ensures day.None? ==> r == Counts(0, 0, ButtonTzedaka(buttons), 0)
    ensures day.Some? ==> r.tefilla == KindSum(day.value.repeatables, TefillaKind) + CountWhere(day.value.singles, IsTefillaSingle)
  {
    match day
    case None => Counts(0, 0, ButtonTzedaka(buttons), 0)
    case Some(d) =>
      Counts(KindSum(d.repeatables, TorahKind),
             KindSum(d.repeatables, TefillaKind) + CountWhere(d.singles, IsTefillaSingle),
             KindSum(d.repeatables, TzedakaKind) + ButtonTzedaka(buttons),
             KindSum(d.repeatables, LifeKind))
  }

  /** The first forEach of countForDay: each repeatable count is added to
      the total of its kind. */
  method TallyRepeatables(entries: seq<(string, int)>) returns (torah: int, tefilla: int, tzedaka: int, life: int)
    ensures torah == KindSum(entries, TorahKind) && tefilla == KindSum(entries, TefillaKind)
    ensures tzedaka == KindSum(entries, TzedakaKind) && life == KindSum(entries, LifeKind)
  {
    torah, tefilla, tzedaka, life := 0, 0, 0, 0;
    for i := 0 to |entries|
      invariant torah == KindSum(entries[..i], TorahKind) && tefilla == KindSum(entries[..i], TefillaKind)
      invariant tzedaka == KindSum(entries[..i], TzedakaKind) && life == KindSum(entries[..i], LifeKind)
    {
      var (key, count) := entries[i];
      assert entries[..i + 1][..i] == entries[..i];
      var kind := Classify(key);
      if kind == TorahKind {
        torah := torah + count;
      } else if kind == TefillaKind {
        tefilla := tefilla + count;
      } else if kind == TzedakaKind {
        tzedaka := tzedaka + count;
      } else if kind == LifeKind {
        life := life + count;
      }
    }
    assert entries[..|entries|] == entries;
  }

  /** The second forEach of countForDay: one per tefilla single. */
  method TallySingles(singles: seq<string>) returns (n: int)
    ensures n == CountWhere(singles, IsTefillaSingle)
  {
    n := 0;
    for i := 0 to |singles|
      invariant n == CountWhere(singles[..i], IsTefillaSingle)
    {
      assert singles[..i + 1][..i] == singles[..i];
      if singles[i] == "mincha" || singles[i] == "morning-brochas" || singles[i] == "maariv" {
        n := n + 1;
      }
    }
    assert singles[..|singles|] == singles;
  }

  /** countForDay, with its two forEach loops and the button additions. */
  method CountForDay(day: Option<DayData>, buttons: Option<TzedakaButtons>) returns (c: Counts)
    ensures c == DayCounts(day, buttons)
  {
    var torah, tefilla, tzedaka, life := 0, 0, 0, 0;
    if day.Some? {
      torah, tefilla, tzedaka, life := TallyRepeatables(day.value.repeatables);
      var singles := TallySingles(day.value.singles);
      tefilla := tefilla + singles;
    }
    tzedaka := AddButtons(tzedaka, buttons);
    c := Counts(torah, tefilla, tzedaka, life);
  }

  /** The button additions of countForDay. */
  method AddButtons(tzedaka0: int, buttons: Option<TzedakaButtons>) returns (tzedaka: int)
    ensures tzedaka == tzedaka0 + ButtonTzedaka(buttons)
  {
    tzedaka := tzedaka0;
    if buttons.Some? {
      var t := buttons.value;
      tzedaka := tzedaka + t.gaveElsewhereCount;
      if t.putACoin { tzedaka := tzedaka + 1; }
      if t.sponsorADay { tzedaka := tzedaka + 1; }
      if t.activeCampaign { tzedaka := tzedaka + 1; }
    }
  }

  function Lookup<V>(m: map<string, V>, d: string): Option<V> {
    if d in m then Some(m[d]) else None
  }

  /** The counts of date `d` from both stores. */
  function CountsOn(modals: map<string, DayData>, buttons: map<string, TzedakaButtons>, d: string): Counts {
    DayCounts(Lookup(modals, d), Lookup(buttons, d))
  }

  /** `CountsOn` as a function of the date alone. */
  function CountsFn(modals: map<string, DayData>, buttons: map<string, TzedakaButtons>): string -> Counts {
    d => CountsOn(modals, buttons, d)
  }

  lemma AddSwap(a: Counts, b: Counts, c: Counts)
    ensures Add(a, Add(b, c)) == Add(b, Add(a, c))
  {
  }

  /** The sum of the counts of the listed dates, in list order. */
  function SumDates(dates: seq<string>, f: string -> Counts): Counts {
    if dates == [] then Zero else Add(SumDates(dates[..|dates| - 1], f), f(dates[|dates| - 1]))
  }

  /** The sum of the counts over a set of dates, in no particular order. */
  ghost function SumSet(dates: set<string>, f: string -> Counts): Counts
    decreases |dates|
  {
    if dates == {} then Zero
    else
      var d :| d in dates;
      Add(f(d), SumSet(dates - {d}, f))
  }

  /** Any date can be taken out first. */
  lemma {:induction false} SumSetRemove(dates: set<string>, x: string, f: string -> Counts)
    requires x in dates
    ensures SumSet(dates, f) == Add(f(x), SumSet(dates - {x}, f))
    decreases |dates|
  {
    var d :| d in dates && SumSet(dates, f) == Add(f(d), SumSet(dates - {d}, f));
    if d != x {
      SumSetRemove(dates - {d}, x, f);
      SumSetRemove(dates - {x}, d, f);
      var rest := dates - {d} - {x};
      assert dates - {x} - {d} == rest;
      calc {
        SumSet(dates, f);
        Add(f(d), SumSet(dates - {d}, f));
        Add(f(d), Add(f(x), SumSet(rest, f)));
        { AddSwap(f(d), f(x), SumSet(rest, f)); }
        Add(f(x), Add(f(d), SumSet(rest, f)));
        Add(f(x), SumSet(dates - {x}, f));
      }
    }
  }

  /** Summing a listing of the dates without repeats gives the set sum, so
      the totals do not depend on the order of the dates. */
  lemma {:induction false} SumDatesIsSumSet(dates: seq<string>, f: string -> Counts)
    requires forall i, j :: 0 <= i < j < |dates| ==> dates[i] != dates[j]
    ensures SumDates(dates, f) == SumSet((set d | d in dates), f)
    decreases |dates|
  {
    if dates != [] {
      var init := dates[..|dates| - 1];
      var last := dates[|dates| - 1];
      SumDatesIsSumSet(init, f);
      assert (set d | d in dates) - {last} == set d | d in init;
      SumSetRemove((set d | d in dates), last, f);
      assert Add(SumDates(init, f), f(last)) == Add(f(last), SumDates(init, f));
    }
  }

  /** The counts of one date, looked up in both stores. */
  method CountForDate(modals: map<string, DayData>, buttons: map<string, TzedakaButtons>, date: string)
    returns (c: Counts)
    ensures c == CountsFn(modals, buttons)(date)
  {
    c := CountForDay(Lookup(modals, date), Lookup(buttons, date));
  }

  /** One turn of the loop below adds the date's counts to the total. */
  lemma SumDatesStep(dates: seq<string>, i: nat, f: string -> Counts, total: Counts, counts: Counts)
    requires i < |dates| && total == SumDates(dates[..i], f) && counts == f(dates[i])
    ensures Add(total, counts) == SumDates(dates[..i + 1], f)
  {
    assert dates[..i + 1][..i] == dates[..i];
  }

  /** One turn of the loop below keeps the counts of `today` once seen. */
  lemma TodayStep(dates: seq<string>, i: nat, f: string -> Counts, today: string, before: Counts, counts: Counts)
    requires i < |dates| && before == (if today in dates[..i] then f(today) else Zero) && counts == f(dates[i])
    ensures (if dates[i] == today then counts else before) == if today in dates[..i + 1] then f(today) else Zero
  {
    assert dates[..i + 1] == dates[..i] + [dates[i]];
  }

  /** The loop over all dates of either store: the running total and the
      counts of `today` when it comes by. */
  method SumOver(dates: seq<string>, modals: map<string, DayData>, buttons: map<string, TzedakaButtons>, today: string)
    returns (total: Counts, todayCounts: Counts)
    ensures total == SumDates(dates, CountsFn(modals, buttons))
    ensures todayCounts == if today in dates then CountsFn(modals, buttons)(today) else Zero
  {
    total, todayCounts := Zero, Zero;
    ghost var f := CountsFn(modals, buttons);
    ghost var mine := f(today);
    for i := 0 to |dates|
      invariant total == SumDates(dates[..i], f)
      invariant todayCounts == if today in dates[..i] then mine else Zero
    {
      var date := dates[i];
      var counts := CountForDate(modals, buttons, date);
      SumDatesStep(dates, i, f, total, counts);
      TodayStep(dates, i, f, today, todayCounts, counts);
      total := Add(total, counts);
      if date == today {
        todayCounts := counts;
      }
    }
    assert dates[..|dates|] == dates;
  }

  lemma ListingIsSet(ks: seq<string>, s: set<string>)
    requires forall k :: k in ks <==> k in s
    ensures (set d | d in ks) == s
  {
  }

  /** The figures of the statistics panel. */
  datatype Stats = Stats(today: Counts, total: Counts, totalDays: nat, currentStreak: nat, totalMitzvos: int)

  predicate Active(modals: map<string, DayData>, buttons: map<string, TzedakaButtons>, d: string) {
    d in modals || d in buttons
  }

  /** The number of active dates at the head of `dates`. */
  function Leading(dates: seq<string>, modals: map<string, DayData>, buttons: map<string, TzedakaButtons>): (r: nat)
    ensures r <= |dates|
  {
    if dates == [] || !Active(modals, buttons, dates[0]) then 0 else 1 + Leading(dates[1..], modals, buttons)
  }

  /** The streak over the dates counted back from today (`datesBack[i]` is
      `i` days before today): today counts when active, and a missing today
      does not end the run of earlier active days. */
  function Streak(datesBack: seq<string>, modals: map<string, DayData>, buttons: map<string, TzedakaButtons>): (r: nat)
    ensures r <= |datesBack|
  {
    if datesBack == [] then 0
    else (if Active(modals, buttons, datesBack[0]) then 1 else 0) + Leading(datesBack[1..], modals, buttons)
  }

  lemma {:induction false} LeadingAt(dates: seq<string>, k: nat, modals: map<string, DayData>, buttons: map<string, TzedakaButtons>)
    requires k <= |dates|
    requires forall j :: 0 <= j < k ==> Active(modals, buttons, dates[j])
    requires k == |dates| || !Active(modals, buttons, dates[k])
    ensures Leading(dates, modals, buttons) == k
    decreases k
  {
    if k > 0 {
      LeadingAt(dates[1..], k - 1, modals, buttons);
    }
  }

  /** The streak loop: at most 366 dates back, stopping at the first
      inactive date after today. */
  method CurrentStreak(modals: map<string, DayData>, buttons: map<string, TzedakaButtons>, datesBack: seq<string>)
    returns (streak: nat)
    ensures streak == Streak(datesBack, modals, buttons)
  {
    streak := 0;
    for i := 0 to |datesBack|
      invariant forall j :: 1 <= j < i ==> Active(modals, buttons, datesBack[j])
      invariant streak == (if i >= 1 && Active(modals, buttons, datesBack[0]) then 1 else 0) + (if i >= 1 then i - 1 else 0)
    {
      if Active(modals, buttons, datesBack[i]) {
        streak := streak + 1;
      } else if i > 0 {
        LeadingAt(datesBack[1..], i - 1, modals, buttons);
        return;
      }
    }
    if |datesBack| > 0 {
      LeadingAt(datesBack[1..], |datesBack| - 1, modals, buttons);
    }
  }

  /** The `stats` memo: today's counts, the totals over every date of
      either store, the number of modal dates, the streak and the sum of
      the four totals. */
  method ComputeStats(modals: map<string, DayData>, buttons: map<string, TzedakaButtons>, today: string,
                      datesBack: seq<string>)
    returns (st: Stats)
    ensures st.today == CountsOn(modals, buttons, today)
    ensures st.total == SumSet(modals.Keys + buttons.Keys, CountsFn(modals, buttons))
    ensures st.totalDays == |modals.Keys|
    ensures st.currentStreak == Streak(datesBack, modals, buttons)
    ensures st.totalMitzvos == st.total.torah + st.total.tefilla + st.total.tzedaka + st.total.life
  {
    var allUniqueDates := KeyList(modals.Keys + buttons.Keys);
    var total, todayCounts := SumOver(allUniqueDates, modals, buttons, today);
    SumDatesIsSumSet(allUniqueDates, CountsFn(modals, buttons));
    ListingIsSet(allUniqueDates, modals.Keys + buttons.Keys);
    if today !in allUniqueDates {
      assert CountsFn(modals, buttons)(today) == Zero;
    }
    var streak := CurrentStreak(modals, buttons, datesBack);
    st := Stats(todayCounts, total, |modals.Keys|, streak, total.torah + total.tefilla + total.tzedaka + total.life);
  }
}

=== FILE: push_retry_queue.dfy ===
// The retry queue for failed web-push sends (server/pushRetryQueue.ts):
// one entry per subscription endpoint, a growing delay between attempts,
// removal on success, on a terminal status or after three attempts, and
// the classification of push-service errors.
//
// A pass of `processQueue` is taken as one step: the outcome of each send
// is given by a parameter `send`, and the clock by `now` and `failedAt`.
// The storage calls that mark a subscription valid or invalid are returned
// as the sets of endpoints marked.

module PushRetryQueue {
  import opened Text

  const MaxAttempts := 3
  const RetryDelays: seq<int> := [5000, 15000, 60000]

  /** A queued notification (the subscription keys are not modelled). */
  datatype Item = Item(payload: string, attempts: nat, lastAttempt: int, notificationId: Option<int>)

  /** The outcome of `webpush.sendNotification`: delivered, or an error
      with its status code (`undefined` is `None`). */
  datatype SendResult = Delivered | Failed(status: Option<int>)

  /** A missing status or a status of 0 is falsy. */
  predicate HasStatus(status: Option<int>) {
    status.Some? && status.value != 0
  }

  /** `isTerminalError`: 410, 404 or 400. */
  predicate IsTerminalError(status: Option<int>) {
    HasStatus(status) && (status.value == 410 || status.value == 404 || status.value == 400)
  }

  /** `shouldRemoveFromQueue`. */
  predicate ShouldRemoveFromQueue(status: Option<int>, attempts: int) {
    IsTerminalError(status) || attempts >= MaxAttempts
  }

  /** `retryDelays[attempts] || retryDelays[last]`. */
  function RetryDelay(attempts: nat): (d: int)
    ensures d == 5000 || d == 15000 || d == 60000
    ensures attempts < |RetryDelays| ==> d == RetryDelays[attempts]
    ensures attempts >= |RetryDelays| ==> d == RetryDelays[|RetryDelays| - 1]
  {
    if attempts < |RetryDelays| then RetryDelays[attempts] else RetryDelays[|RetryDelays| - 1]
  }

  /** The delay never shrinks as attempts accumulate. */
  lemma RetryDelayGrows(a: nat, b: nat)
    requires a <= b
    ensures RetryDelay(a) <= RetryDelay(b)
  {
  }

  predicate Ready(item: Item, now: int) {
    now >= item.lastAttempt + RetryDelay(item.attempts)
  }

  // ---- categorizeError ----

  datatype ErrorType = Terminal | Temporary | Config | Unknown
  datatype Action = Remove | Retry | Keep | Investigate
  datatype Category = Category(kind: ErrorType, action: Action, description: string)

  /** `PushRetryQueue.categorizeError`. */
  function CategorizeError(status: Option<int>): (c: Category)
    ensures !HasStatus(status) ==> c == Category(Unknown, Retry, "Unknown error - will retry")
    ensures c.action == Remove <==> IsTerminalError(status)
    ensures c.kind == Terminal <==> IsTerminalError(status)
    ensures HasStatus(status) && status.value in {401, 403, 413} ==> c.kind == Config && c.action == Keep
    ensures HasStatus(status) && (status.value == 429 || status.value >= 500) ==> c.kind == Temporary && c.action == Retry
    ensures c.action == Investigate <==>
      HasStatus(status) && 400 <= status.value < 500 && !(status.value in {400, 401, 403, 404, 410, 413, 429})
  {
    if !HasStatus(status) then Category(Unknown, Retry, "Unknown error - will retry")
    else
      var code := status.value;
      if code == 410 then Category(Terminal, Remove, "Subscription expired")
      else if code == 404 then Category(Terminal, Remove, "Subscription not found")
      else if code == 400 then Category(Terminal, Remove, "Invalid subscription format")
      else if code == 401 || code == 403 then Category(Config, Keep, "Authentication error - check VAPID keys")
      else if code == 413 then Category(Config, Keep, "Payload too large")
      else if code == 429 then Category(Temporary, Retry, "Rate limited")
      else if code >= 500 then Category(Temporary, Retry, "Server error")
      else if code >= 400 && code < 500 then Category(Unknown, Investigate, "Unexpected client error " + IntToString(code))
      else Category(Unknown, Retry, "Unknown error")
  }

  // ---- One pass over the queue ----

  /** What a pass does to one item: `None` when it leaves the queue. */
  function Attempted(item: Item, result: SendResult, failedAt: int): Option<Item> {
    match result
    case Delivered => None
    case Failed(status) =>
      var attempts := item.attempts + 1;
      if ShouldRemoveFromQueue(status, attempts) then None
      else Some(item.(attempts := attempts, lastAttempt := failedAt))
  }

  /** An item's state after the pass: untouched unless it was ready. */
  function AfterPass(item: Item, now: int, result: SendResult, failedAt: int): Option<Item> {
    if Ready(item, now) then Attempted(item, result, failedAt) else Some(item)
  }

  /** The queue after a pass. */
  function Pass(queue: map<string, Item>, now: int, send: string -> SendResult, failedAt: int): map<string, Item> {
    map k | k in queue && AfterPass(queue[k], now, send(k), failedAt).Some? :: AfterPass(queue[k], now, send(k), failedAt).value
  }

  /** Every queued item has been tried fewer than three times. */
  predicate UnderLimit(queue: map<string, Item>) {
    forall k :: k in queue ==> queue[k].attempts < MaxAttempts
  }

  /** A failed send counts exactly one attempt; a delivered one, a
      terminal status or a third failure removes the item. */
  lemma AttemptCounts(item: Item, result: SendResult, failedAt: int)
    ensures Attempted(item, result, failedAt).Some? <==>
      result.Failed? && !ShouldRemoveFromQueue(result.status, item.attempts + 1)
    ensures Attempted(item, result, failedAt).Some? ==>
      Attempted(item, result, failedAt).value == item.(attempts := item.attempts + 1, lastAttempt := failedAt)
  {
  }

  /** A pass keeps every item under the attempt limit, and so no
      notification is sent more than three times. */
  lemma PassUnderLimit(queue: map<string, Item>, now: int, send: string -> SendResult, failedAt: int)
    requires UnderLimit(queue)
    ensures UnderLimit(Pass(queue, now, send, failedAt))
    ensures forall k :: k in Pass(queue, now, send, failedAt) ==> k in queue
  {
  }

  /** Items not yet due are left exactly as they were. */
  lemma NotReadyUntouched(queue: map<string, Item>, now: int, send: string -> SendResult, failedAt: int, k: string)
    requires k in queue && !Ready(queue[k], now)
    ensures k in Pass(queue, now, send, failedAt) && Pass(queue, now, send, failedAt)[k] == queue[k]
  {
  }

  // ---- The class ----

  class RetryQueue {
    var queue: map<string, Item>
    var processing: bool

    ghost predicate Valid()
      reads this
    {
      UnderLimit(queue)
    }

    constructor ()
      ensures queue == map[] && !processing && Valid()
    {
      queue := map[];
      processing := false;
    }

    /** `add`: the endpoint's entry is (re)set with no attempts, and a pass
        starts unless one is running. */
    method Add(endpoint: string, payload: string, notificationId: Option<int>, now: int,
               send: string -> SendResult, failedAt: int)
      returns (validated: set<string>, invalidated: set<string>)
      requires Valid()
      modifies this
      ensures var q := old(queue)[endpoint := Item(payload, 0, now, notificationId)];
        queue == (if old(processing) then q else Pass(q, now, send, failedAt))
      ensures old(processing) ==> processing && validated == {} && invalidated == {}
      ensures !old(processing) ==> processing == (queue != map[])
      ensures forall k :: k in validated <==>
        !old(processing) && k in old(queue)[endpoint := Item(payload, 0, now, notificationId)]
        && Ready(old(queue)[endpoint := Item(payload, 0, now, notificationId)][k], now) && send(k) == Delivered
      ensures forall k :: k in invalidated <==>
        !old(processing) && k in old(queue)[endpoint := Item(payload, 0, now, notificationId)]
        && Ready(old(queue)[endpoint := Item(payload, 0, now, notificationId)][k], now)
        && send(k).Failed? && IsTerminalError(send(k).status)
      ensures Valid()
    {
      queue := queue[endpoint := Item(payload, 0, now, notificationId)];
      validated, invalidated := {}, {};
      if !processing {
        validated, invalidated := ProcessQueue(now, send, failedAt);
      }
    }

    /** `processQueue`: nothing while a pass runs or the queue is empty;
        otherwise each item due is sent once. The flag stays set while
        items remain, until the one-second timer clears it. */
    method ProcessQueue(now: int, send: string -> SendResult, failedAt: int)
      returns (validated: set<string>, invalidated: set<string>)
      requires Valid()
      modifies this
      ensures old(processing) || old(queue) == map[] ==>
        queue == old(queue) && processing == old(processing) && validated == {} && invalidated == {}
      ensures !old(processing) && old(queue) != map[] ==>
        queue == Pass(old(queue), now, send, failedAt) && processing == (queue != map[])
      ensures forall k :: k in validated <==>
        k in old(queue) && !old(processing) && Ready(old(queue)[k], now) && send(k) == Delivered
      ensures forall k :: k in invalidated <==>
        k in old(queue) && !old(processing) && Ready(old(queue)[k], now) && send(k).Failed? && IsTerminalError(send(k).status)
      ensures Valid()
    {
      validated, invalidated := {}, {};
      if processing || queue == map[] {
        return;
      }
      processing := true;
      var start := queue;
      var keys := KeyList(queue.Keys);
      var toProcess := DueKeys(start, keys, now);
      for i := 0 to |toProcess|
        invariant queue == Partial(start, now, send, failedAt, toProcess[..i])
        invariant forall k :: k in validated <==> k in toProcess[..i] && send(k) == Delivered
        invariant forall k :: k in invalidated <==> k in toProcess[..i] && send(k).Failed? && IsTerminalError(send(k).status)
        invariant processing && Valid()
      {
        PrefixSnoc(toProcess, i);
        var v, inv := Attempt(toProcess[i], send(toProcess[i]), failedAt);
        validated, invalidated := validated + v, invalidated + inv;
        PartialStep(start, now, send, failedAt, toProcess[..i], toProcess[i]);
      }
      assert toProcess[..|toProcess|] == toProcess;
      PartialAll(start, now, send, failedAt, toProcess);
      processing := queue != map[];
    }

    /** One item of the pass: delivered items leave and are marked valid;
        failed ones count an attempt, and leave when they should, being
        marked invalid on a terminal status. */
    method Attempt(key: string, result: SendResult, failedAt: int) returns (validated: set<string>, invalidated: set<string>)
      requires Valid()
      modifies this
      ensures key in old(queue) ==> queue == Step(old(queue), key, result, failedAt)
      ensures key !in old(queue) ==> queue == old(queue)
      ensures validated == (if key in old(queue) && result == Delivered then {key} else {})
      ensures invalidated == (if key in old(queue) && result.Failed? && IsTerminalError(result.status) then {key} else {})
      ensures processing == old(processing) && Valid()
    {
      validated, invalidated := {}, {};
      if key !in queue {
        return;
      }
      var item := queue[key];
      match result {
        case Delivered =>
          queue := queue - {key};
          validated := {key};
        case Failed(status) =>
          var attempts := item.attempts + 1;
          var updated := item.(attempts := attempts, lastAttempt := failedAt);
          queue := queue[key := updated];
          if ShouldRemoveFromQueue(status, attempts) {
            queue := queue - {key};
            if IsTerminalError(status) {
              invalidated := {key};
            }
          }
      }
    }

    /** The one-second timer after a pass: the flag is cleared and a new
        pass starts; after `clear()` the queue is empty, so the flag simply
        stays cleared. */
    method TimerFires(now: int, send: string -> SendResult, failedAt: int)
      returns (validated: set<string>, invalidated: set<string>)
      requires Valid() && processing
      modifies this
      ensures old(queue) == map[] ==> queue == map[] && !processing && validated == {} && invalidated == {}
      ensures old(queue) != map[] ==> queue == Pass(old(queue), now, send, failedAt) && processing == (queue != map[])
      ensures forall k :: k in validated <==> k in old(queue) && Ready(old(queue)[k], now) && send(k) == Delivered
      ensures forall k :: k in invalidated <==>
        k in old(queue) && Ready(old(queue)[k], now) && send(k).Failed? && IsTerminalError(send(k).status)
      ensures Valid()
    {
      processing := false;
      validated, invalidated := ProcessQueue(now, send, failedAt);
    }

    /** `getStatus()`. */
    method GetStatus() returns (size: nat, isProcessing: bool)
      ensures size == |queue| && isProcessing == processing
    {
      size := |queue|;
      isProcessing := processing;
    }

    /** `clear()`: the queue is emptied; the flag is left as it is. */
    method Clear()
      modifies this
      ensures queue == map[] && processing == old(processing) && Valid()
    {
      queue := map[];
    }
  }

  /** The keys due at `now`, in the listing's order. */
  method DueKeys(queue: map<string, Item>, keys: seq<string>, now: int) returns (due: seq<string>)
    requires forall i, j :: 0 <= i < j < |keys| ==> keys[i] != keys[j]
    requires forall k :: k in keys <==> k in queue
    ensures forall k :: k in due <==> k in queue && Ready(queue[k], now)
    ensures forall i, j :: 0 <= i < j < |due| ==> due[i] != due[j]
  {
    due := [];
    for i := 0 to |keys|
      invariant forall k :: k in due <==> k in keys[..i] && k in queue && Ready(queue[k], now)
      invariant forall a, b :: 0 <= a < b < |due| ==> due[a] != due[b]
    {
      PrefixSnoc(keys, i);
      if Ready(queue[keys[i]], now) {
        due := due + [keys[i]];
      }
    }
    assert keys[..|keys|] == keys;
  }

  /** One item of the pass applied to the queue. */
  function Step(queue: map<string, Item>, key: string, result: SendResult, failedAt: int): map<string, Item>
    requires key in queue
  {
    match Attempted(queue[key], result, failedAt)
    case None => queue - {key}
    case Some(item) => queue[key := item]
  }

  /** The queue once the keys of `done` have been attempted. */
  function Partial(start: map<string, Item>, now: int, send: string -> SendResult, failedAt: int, done: seq<string>): map<string, Item> {
    map k | k in start && (k in done ==> Attempted(start[k], send(k), failedAt).Some?) ::
      if k in done then Attempted(start[k], send(k), failedAt).value else start[k]
  }

  lemma PartialStep(start: map<string, Item>, now: int, send: string -> SendResult, failedAt: int, done: seq<string>, key: string)
    requires key in start && key !in done
    ensures var cur := Partial(start, now, send, failedAt, done);
      key in cur && cur[key] == start[key] && Partial(start, now, send, failedAt, done + [key]) == Step(cur, key, send(key), failedAt)
  {
    var cur := Partial(start, now, send, failedAt, done);
    assert forall k :: k in done + [key] <==> k in done || k == key;
  }

  lemma PartialAll(start: map<string, Item>, now: int, send: string -> SendResult, failedAt: int, due: seq<string>)
    requires forall k :: k in due <==> k in start && Ready(start[k], now)
    ensures Partial(start, now, send, failedAt, due) == Pass(start, now, send, failedAt)
  {
  }
}

=== FILE: request_cache.dfy ===
// Request caching and de-duplication of the client
// (client/src/lib/request-cache.ts): a response cache with a time to live
// chosen by endpoint prefix, and one pending request per URL.
//
// The asynchronous fetch is split into its two halves: `Fetch` is the
// synchronous part of `cachedFetch` up to the returned promise, and
// `Settle` is the promise's `then`/`catch` when the network answers. A
// pending promise is named by a request number. `Date.now()` is a
// parameter.

module RequestCache {
  import opened Text

  /** Five minutes. */
  const DefaultCacheTtl := 300000

  /** The endpoint prefixes and their time to live, in declaration order. */
  const CacheConfig: seq<(string, int)> := [
    ("/api/sponsors/daily", 3600000),
    ("/api/hebrew-date", 86400000),
    ("/api/tehillim/info", 86400000),
    ("/api/torah/halacha", 3600000),
    ("/api/messages", 3600000),
    ("/api/campaigns", 1800000),
    ("/api/table", 3600000)]

  /** The time to live of the first configured prefix of `endpoint`. */
  function TtlFrom(config: seq<(string, int)>, endpoint: string): int {
    if config == [] then DefaultCacheTtl
    else if StartsWith(endpoint, config[0].0) then config[0].1
    else TtlFrom(config[1..], endpoint)
  }

  function TtlFor(endpoint: string): int {
    TtlFrom(CacheConfig, endpoint)
  }

  /** `getCacheTTL`: the entries are tried in order and the first prefix
      the endpoint starts with decides. */
  method GetCacheTtl(endpoint: string) returns (ttl: int)
    ensures ttl == TtlFor(endpoint)
  {
    for i := 0 to |CacheConfig|
      invariant TtlFrom(CacheConfig[i..], endpoint) == TtlFor(endpoint)
    {
      assert CacheConfig[i..][1..] == CacheConfig[i + 1..];
      if StartsWith(endpoint, CacheConfig[i].0) {
        return CacheConfig[i].1;
      }
    }
    return DefaultCacheTtl;
  }

  /** Two prefixes of one string: the shorter is a prefix of the longer. */
  lemma PrefixOfPrefix(e: string, p: string, q: string)
    requires StartsWith(e, p) && StartsWith(e, q) && |p| <= |q|
    ensures StartsWith(q, p)
  {
    assert q[..|p|] == e[..|q|][..|p|];
  }

  /** No configured prefix starts with another, so at most one applies. */
  lemma ConfigPrefixFree()
    ensures forall i, j :: 0 <= i < |CacheConfig| && 0 <= j < |CacheConfig| && i != j ==>
      !StartsWith(CacheConfig[j].0, CacheConfig[i].0)
  {
    assert CacheConfig[0].0[5..7] == "sp";
    assert CacheConfig[1].0[5..7] == "he";
    assert CacheConfig[2].0[5..7] == "te";
    assert CacheConfig[3].0[5..7] == "to";
    assert CacheConfig[4].0[5..7] == "me";
    assert CacheConfig[5].0[5..7] == "ca";
    assert CacheConfig[6].0[5..7] == "ta";
    forall i, j | 0 <= i < |CacheConfig| && 0 <= j < |CacheConfig| && i != j
      ensures !StartsWith(CacheConfig[j].0, CacheConfig[i].0)
    {
      if StartsWith(CacheConfig[j].0, CacheConfig[i].0) {
        SameTag(CacheConfig[i].0, CacheConfig[j].0);
      }
    }
  }

  lemma SameTag(p: string, q: string)
    requires StartsWith(q, p) && |p| >= 7
    ensures q[5..7] == p[5..7]
  {
    assert q[5..7] == q[..|p|][5..7];
  }

  /** The time to live of an endpoint is that of the prefix it starts
      with, whatever the order of the configuration; with no such prefix
      it is five minutes. */
  lemma TtlOfMatchingPrefix(endpoint: string, i: nat)
    requires i < |CacheConfig| && StartsWith(endpoint, CacheConfig[i].0)
    ensures TtlFor(endpoint) == CacheConfig[i].1
  {
    ConfigPrefixFree();
    forall j | 0 <= j < |CacheConfig| && j != i && StartsWith(endpoint, CacheConfig[j].0)
      ensures false
    {
      if |CacheConfig[j].0| <= |CacheConfig[i].0| {
        PrefixOfPrefix(endpoint, CacheConfig[j].0, CacheConfig[i].0);
      } else {
        PrefixOfPrefix(endpoint, CacheConfig[i].0, CacheConfig[j].0);
      }
    }
    TtlFromFirst(CacheConfig, endpoint, i);
  }

  lemma {:induction false} TtlFromFirst(config: seq<(string, int)>, endpoint: string, i: nat)
    requires i < |config| && StartsWith(endpoint, config[i].0)
    requires forall j :: 0 <= j < i ==> !StartsWith(endpoint, config[j].0)
    ensures TtlFrom(config, endpoint) == config[i].1
    decreases i
  {
    if i > 0 {
      TtlFromFirst(config[1..], endpoint, i - 1);
    }
  }

  lemma {:induction false} TtlOfNoPrefix(config: seq<(string, int)>, endpoint: string)
    requires forall j :: 0 <= j < |config| ==> !StartsWith(endpoint, config[j].0)
    ensures TtlFrom(config, endpoint) == DefaultCacheTtl
    decreases |config|
  {
    if config != [] {
      TtlOfNoPrefix(config[1..], endpoint);
    }
  }

  /** `isCacheValid`: strictly younger than the time to live. */
  predicate IsCacheValid(timestamp: int, ttl: int, now: int) {
    now - timestamp < ttl
  }

  /** `options?.method && options.method !== 'GET'`: an empty or missing
      method counts as GET. */
  predicate Bypasses(verb: Option<string>) {
    verb.Some? && verb.value != [] && verb.value != "GET"
  }

  datatype Cached<T> = Cached(data: T, timestamp: int)

  /** What `cachedFetch` hands back: a direct fetch outside the cache, the
      cached data, the promise already pending, or a new request. */
  datatype Outcome<T> = Bypass | Hit(data: T) | Join(request: nat) | Issue(request: nat)

  datatype State<T> = State(responses: map<string, Cached<T>>, pending: map<string, nat>, nextRequest: nat)

  /** The answer of `cachedFetch`. */
  function Answer<T>(st: State<T>, url: string, verb: Option<string>, now: int): Outcome<T> {
    if Bypasses(verb) then Bypass
    else if url in st.responses && IsCacheValid(st.responses[url].timestamp, TtlFor(url), now) then
      Hit(st.responses[url].data)
    else if url in st.pending then Join(st.pending[url])
    else Issue(st.nextRequest)
  }

  /** The state after `cachedFetch`: a stale entry is deleted, and a new
      request is recorded as pending. */
  function AfterFetch<T>(st: State<T>, url: string, verb: Option<string>, now: int): State<T> {
    if Bypasses(verb) then st
    else if url in st.responses && IsCacheValid(st.responses[url].timestamp, TtlFor(url), now) then st
    else
      var responses := st.responses - {url};
      if url in st.pending then st.(responses := responses)
      else State(responses, st.pending[url := st.nextRequest], st.nextRequest + 1)
  }

  /** The state after the request for `url` answers: data is cached with
      the time of arrival; either way the request is no longer pending. */
  function AfterSettle<T>(st: State<T>, url: string, result: Option<T>, now: int): State<T> {
    var responses := if result.Some? then st.responses[url := Cached(result.value, now)] else st.responses;
    st.(responses := responses, pending := st.pending - {url})
  }

  /** `clearCache(pattern)`: the keys containing the pattern, or all keys
      when there is no pattern (an empty pattern is falsy). */
  function Cleared<T>(responses: map<string, Cached<T>>, pattern: Option<string>): map<string, Cached<T>> {
    if pattern.None? || pattern.value == [] then map[]
    else map k | k in responses && !Contains(k, pattern.value) :: responses[k]
  }

  /** Every request number in use was handed out. */
  predicate Numbered<T>(st: State<T>) {
    forall u :: u in st.pending ==> st.pending[u] < st.nextRequest
  }

  // ---- Properties ----

  /** A request other than GET neither reads nor changes the cache. */
  lemma BypassChangesNothing<T>(st: State<T>, url: string, verb: Option<string>, now: int)
    requires Bypasses(verb)
    ensures Answer(st, url, verb, now) == Bypass && AfterFetch(st, url, verb, now) == st
  {
  }

  /** A valid cached entry is returned without a request and without any
      change. */
  lemma HitIssuesNothing<T>(st: State<T>, url: string, verb: Option<string>, now: int)
    requires !Bypasses(verb) && url in st.responses
    requires IsCacheValid(st.responses[url].timestamp, TtlFor(url), now)
    ensures Answer(st, url, verb, now) == Hit(st.responses[url].data)
    ensures AfterFetch(st, url, verb, now) == st
  {
  }

  /** Once a request is issued for a URL, a second caller gets the same
      request until it settles: at most one request per URL is in flight. */
  lemma SecondCallerJoins<T>(st: State<T>, url: string, m1: Option<string>, m2: Option<string>, now: int, later: int)
    requires !Bypasses(m1) && !Bypasses(m2)
    requires Answer(st, url, m1, now).Issue?
    ensures Answer(AfterFetch(st, url, m1, now), url, m2, later) == Join(Answer(st, url, m1, now).request)
  {
  }

  /** Issuing a request keeps the numbering, and gives a number not used
      by any other pending URL. */
  lemma IssueFresh<T>(st: State<T>, url: string, verb: Option<string>, now: int)
    requires Numbered(st)
    ensures Numbered(AfterFetch(st, url, verb, now))
    ensures Answer(st, url, verb, now).Issue? ==>
      forall u :: u in st.pending ==> st.pending[u] != Answer(st, url, verb, now).request
  {
  }

  /** Arrived data is served from the cache while younger than its time
      to live; a failure caches nothing and frees the URL for a new
      request. */
  lemma SettleThenFetch<T>(st: State<T>, url: string, result: Option<T>, arrived: int, verb: Option<string>, now: int)
    requires !Bypasses(verb)
    ensures result.Some? && now - arrived < TtlFor(url) ==>
      Answer(AfterSettle(st, url, result, arrived), url, verb, now) == Hit(result.value)
    ensures result.None? && (url !in st.responses || !IsCacheValid(st.responses[url].timestamp, TtlFor(url), now)) ==>
      Answer(AfterSettle(st, url, result, arrived), url, verb, now).Issue?
  {
  }

  /** `clearCache` deletes exactly the keys containing the pattern. */
  lemma ClearedExactly<T>(responses: map<string, Cached<T>>, p: string, k: string)
    requires p != []
    ensures k in Cleared(responses, Some(p)) <==> k in responses && !Contains(k, p)
    ensures Cleared(responses, Some("")) == map[]
  {
  }

  // ---- The module state ----

  class RequestCache<T> {
    var responses: map<string, Cached<T>>
    var pending: map<string, nat>
    var nextRequest: nat

    function Contents(): State<T>
      reads this
    {
      State(responses, pending, nextRequest)
    }

    ghost predicate Valid()
      reads this
    {
      Numbered(Contents())
    }

    constructor ()
      ensures responses == map[] && pending == map[] && nextRequest == 0 && Valid()
    {
      responses := map[];
      pending := map[];
      nextRequest := 0;
    }

    /** `cachedFetch(url, options)` up to the promise it returns. */
    method Fetch(url: string, verb: Option<string>, now: int) returns (o: Outcome<T>)
      requires Valid()
      modifies this
      ensures o == Answer(old(Contents()), url, verb, now)
      ensures Contents() == AfterFetch(old(Contents()), url, verb, now) && Valid()
    {
      if verb.Some? && verb.value != [] && verb.value != "GET" {
        return Bypass;
      }
      var cacheKey := url;
      if cacheKey in responses {
        var cached := responses[cacheKey];
        var ttl := GetCacheTtl(url);
        if now - cached.timestamp < ttl {
          return Hit(cached.data);
        }
        responses := responses - {cacheKey};
      }
      if cacheKey in pending {
        return Join(pending[cacheKey]);
      }
      o := Issue(nextRequest);
      pending := pending[cacheKey := nextRequest];
      nextRequest := nextRequest + 1;
    }

    /** The pending request for `url` answers with data, or fails. */
    method Settle(url: string, result: Option<T>, now: int)
      requires Valid()
      modifies this
      ensures Contents() == AfterSettle(old(Contents()), url, result, now) && Valid()
    {
      if result.Some? {
        responses := responses[url := Cached(result.value, now)];
      }
      pending := pending - {url};
    }

    /** `clearCache(pattern)`: the matching keys are collected first and
        deleted afterwards. */
    method ClearCache(pattern: Option<string>)
      requires Valid()
      modifies this
      ensures responses == Cleared(old(responses), pattern)
      ensures pending == old(pending) && nextRequest == old(nextRequest) && Valid()
    {
      if pattern.Some? && pattern.value != [] {
        var keys := KeyList(responses.Keys);
        var keysToDelete := Matching(keys, pattern.value);
        DeleteAll(keysToDelete);
      } else {
        responses := map[];
      }
    }

    /** The `forEach` over the keys pushing those that contain `p`. */
    static method Matching(keys: seq<string>, p: string) returns (found: seq<string>)
      ensures forall k :: k in found <==> k in keys && Contains(k, p)
    {
      found := [];
      for i := 0 to |keys|
        invariant forall k :: k in found <==> k in keys[..i] && Contains(k, p)
      {
        PrefixSnoc(keys, i);
        if Contains(keys[i], p) {
          found := found + [keys[i]];
        }
      }
      assert keys[..|keys|] == keys;
    }

    /** `keysToDelete.forEach(key => responseCache.delete(key))`. */
    method DeleteAll(ks: seq<string>)
      modifies this
      ensures responses == map k | k in old(responses) && k !in ks :: old(responses)[k]
      ensures pending == old(pending) && nextRequest == old(nextRequest)
    {
      for i := 0 to |ks|
        invariant responses == map k | k in old(responses) && k !in ks[..i] :: old(responses)[k]
        invariant pending == old(pending) && nextRequest == old(nextRequest)
      {
        PrefixSnoc(ks, i);
        responses := responses - {ks[i]};
      }
      assert ks[..|ks|] == ks;
    }
  }
}

=== FILE: routes_js.dfy ===
// The compiled Express routes (server/routes.js): the zmanim time
// formatting, the Shabbos-times title parsing, the calendar download
// (the iCalendar body and its file name) and the request defaults and
// checks of the calendar and analytics endpoints.

module RoutesJs {
  import opened Text
  import StorageJs
  import DateUtils

  // ---- Clock times written in text ----

  predicate AllDigits(s: string) {
    forall i :: 0 <= i < |s| ==> IsAsciiDigit(s[i])
  }

  /** A clock time found in a text: the hour digits as written (one or
      two), the two minute digits, and the index just past the minutes. */
  datatype Clock = Clock(hour: string, minutes: string, end: nat)

  /** One or two hour digits, a colon and two minute digits at index `p`.
      The two-digit reading is tried first; the two readings exclude each
      other, so no backtracking between them can change the result. */
  function ClockAt(s: string, p: nat): (r: Option<Clock>)
    ensures r.Some? ==>
      p < r.value.end <= |s| && 1 <= |r.value.hour| <= 2 && |r.value.minutes| == 2
      && AllDigits(r.value.hour) && AllDigits(r.value.minutes)
      && s[p..r.value.end] == r.value.hour + ":" + r.value.minutes
  {
    if p + 5 <= |s| && IsAsciiDigit(s[p]) && IsAsciiDigit(s[p + 1]) && s[p + 2] == ':'
      && IsAsciiDigit(s[p + 3]) && IsAsciiDigit(s[p + 4])
    then
      Some(Clock(s[p..p + 2], s[p + 3..p + 5], p + 5))
    else if p + 4 <= |s| && IsAsciiDigit(s[p]) && s[p + 1] == ':'
      && IsAsciiDigit(s[p + 2]) && IsAsciiDigit(s[p + 3])
    then
      Some(Clock(s[p..p + 1], s[p + 2..p + 4], p + 4))
    else None
  }

  /** Equal without regard to (ASCII) case. */
  predicate FoldedEq(a: string, b: string) {
    |a| == |b| && forall i :: 0 <= i < |a| ==> LowerChar(a[i]) == LowerChar(b[i])
  }

  /** `lit` written at index `k`; without regard to case when `fold` holds
      (a regular expression with the `i` flag). */
  predicate LiteralAt(s: string, lit: string, k: nat, fold: bool) {
    k + |lit| <= |s| && (if fold then FoldedEq(s[k..k + |lit|], lit) else s[k..k + |lit|] == lit)
  }

  /** The four regular expressions of the module:
      - IsoTime: 'T', two hour digits, ':', two minute digits, ':';
      - CandleTime: "Candle lighting: " (any case), a clock, then
        optionally "pm", "am", "p.m." or "a.m." (any case);
      - HavdalahWithPeriod: "Havdalah: " (any case), a clock, any
        whitespace, then "pm" or "am" (any case);
      - HavdalahClock: "Havdalah: " (exact case) and a clock. */
  datatype Pattern = IsoTime | CandleTime | HavdalahWithPeriod | HavdalahClock

  /** A match: the clock and the period it carries, "AM", "PM" or "" for
      none. */
  datatype Found = Found(clock: Clock, period: string)

  /** The optional period after a candle-lighting clock, upper-cased with
      the dots removed. */
  function PeriodAt(s: string, q: nat): (r: string)
    ensures r in ["PM", "AM", ""]
  {
    if LiteralAt(s, "pm", q, true) then "PM"
    else if LiteralAt(s, "am", q, true) then "AM"
    else if LiteralAt(s, "p.m.", q, true) then "PM"
    else if LiteralAt(s, "a.m.", q, true) then "AM"
    else ""
  }

  function IsoTimeAt(s: string, k: nat): Option<Found> {
    if k + 7 <= |s| && s[k] == 'T' && IsAsciiDigit(s[k + 1]) && IsAsciiDigit(s[k + 2]) && s[k + 3] == ':'
      && IsAsciiDigit(s[k + 4]) && IsAsciiDigit(s[k + 5]) && s[k + 6] == ':'
    then Some(Found(Clock(s[k + 1..k + 3], s[k + 4..k + 6], k + 6), ""))
    else None
  }

  function CandleTimeAt(s: string, k: nat): Option<Found> {
    if !LiteralAt(s, "Candle lighting: ", k, true) then None
    else
      match ClockAt(s, k + 17)
      case None => None
      case Some(c) => Some(Found(c, PeriodAt(s, c.end)))
  }

  function HavdalahWithPeriodAt(s: string, k: nat): Option<Found> {
    if !LiteralAt(s, "Havdalah: ", k, true) then None
    else
      match ClockAt(s, k + 10)
      case None => None
      case Some(c) =>
        var q := c.end + LeadSpaces(s[c.end..]);
        if LiteralAt(s, "pm", q, true) then Some(Found(c, "PM"))
        else if LiteralAt(s, "am", q, true) then Some(Found(c, "AM"))
        else None
  }

  function HavdalahClockAt(s: string, k: nat): Option<Found> {
    if !LiteralAt(s, "Havdalah: ", k, false) then None
    else
      match ClockAt(s, k + 10)
      case None => None
      case Some(c) => Some(Found(c, ""))
  }

  /** The match of `pat` starting exactly at index `k`, if any. */
  function MatchAt(pat: Pattern, s: string, k: nat): (r: Option<Found>)
    ensures r.Some? ==> k <= |s|
    ensures r.Some? ==>
      AllDigits(r.value.clock.hour) && AllDigits(r.value.clock.minutes) && r.value.period in ["PM", "AM", ""]
  {
    match pat
    case IsoTime => IsoTimeAt(s, k)
    case CandleTime => CandleTimeAt(s, k)
    case HavdalahWithPeriod => HavdalahWithPeriodAt(s, k)
    case HavdalahClock => HavdalahClockAt(s, k)
  }

  /** `s.match(pat)` searching from index `k`: the leftmost index where
      the pattern matches, with its match. */
  function Search(pat: Pattern, s: string, k: nat): (r: Option<(nat, Found)>)
    ensures r.Some? ==>
      k <= r.value.0 <= |s| && MatchAt(pat, s, r.value.0) == Some(r.value.1)
      && forall j :: k <= j < r.value.0 ==> MatchAt(pat, s, j).None?
    ensures r.None? ==> forall j :: k <= j <= |s| ==> MatchAt(pat, s, j).None?
    decreases |s| - k
  {
    if k > |s| then None
    else
      match MatchAt(pat, s, k)
      case Some(f) => Some((k, f))
      case None => Search(pat, s, k + 1)
  }

  /** A search finds the match at `k` when there is one there and none
      earlier. */
  lemma SearchFinds(pat: Pattern, s: string, k: nat)
    requires MatchAt(pat, s, k).Some?
    requires forall j :: 0 <= j < k ==> MatchAt(pat, s, j).None?
    ensures Search(pat, s, 0) == Some((k, MatchAt(pat, s, k).value))
  {
  }

  // ---- 24-hour to 12-hour times ----

  /** The hour shown on a 12-hour clock: 0 reads as 12, 13 to 23 lose 12. */
  function DisplayHour(h: nat): nat {
    if h == 0 then 12 else if h > 12 then h - 12 else h
  }

  function Period(h: nat): string {
    if h >= 12 then "PM" else "AM"
  }

  /** "h:MM AM" or "h:MM PM" for a 24-hour hour. */
  function TwelveHour(h: nat, minutes: string): string {
    NatToString(DisplayHour(h)) + ":" + minutes + " " + Period(h)
  }

  /** A time that already carries its period keeps its hour, 0 read as 12. */
  function WithPeriod(h: nat, minutes: string, period: string): string {
    NatToString(if h == 0 then 12 else h) + ":" + minutes + " " + period
  }

  /** Reads a 12-hour rendering back as the 24-hour hour and the minutes. */
  function ReadTwelveHour(t: string): Option<(int, string)> {
    if |t| < 6 then None
    else
      match ParseInt(t)
      case None => None
      case Some(d) => Some((d % 12 + (if EndsWith(t, " PM") then 12 else 0), t[|t| - 5..|t| - 3]))
  }

  lemma DisplayHourReadsBack(h: nat)
    requires h < 24
    ensures 1 <= DisplayHour(h) <= 12
    ensures DisplayHour(h) % 12 + (if h >= 12 then 12 else 0) == h
  {
  }

  /** The 12-hour rendering of an hour of the day shows an hour in 1..12
      and reads back as the same hour and minutes: no two times of the day
      render alike. */
  lemma TwelveHourReadsBack(h: nat, minutes: string)
    requires h < 24 && |minutes| == 2
    ensures 1 <= DisplayHour(h) <= 12
    ensures ReadTwelveHour(TwelveHour(h, minutes)) == Some((h, minutes))
  {
    var d := DisplayHour(h);
    TwelveHourShape(h, minutes);
    ParseIntOfNatural(d, ":" + minutes + " " + Period(h));
    DisplayHourReadsBack(h);
  }

  /** Where the minutes and the period sit in a 12-hour rendering. */
  lemma TwelveHourShape(h: nat, minutes: string)
    requires |minutes| == 2
    ensures TwelveHour(h, minutes) == NatToString(DisplayHour(h)) + (":" + minutes + " " + Period(h))
    ensures |TwelveHour(h, minutes)| >= 6
    ensures var t := TwelveHour(h, minutes); t[|t| - 5..|t| - 3] == minutes
    ensures EndsWith(TwelveHour(h, minutes), " PM") <==> h >= 12
  {
    var u := ":" + minutes + " " + Period(h);
    var t := TwelveHour(h, minutes);
    assert t == NatToString(DisplayHour(h)) + u;
    assert |u| == 6 && u[1..3] == minutes && u[3..] == " " + Period(h);
    assert t[|t| - 6..] == u;
    assert t[|t| - 5..|t| - 3] == u[1..3];
    assert t[|t| - 3..] == u[3..];
    if h < 12 {
      assert u[4] == 'A';
    }
  }

  // ---- formatTime ----

  /** The zmanim `formatTime`: no time, or an empty one, is null; a
      timestamp with "THH:MM:" in it becomes its 12-hour time; any other
      text is returned as it is. */
  function FormatTime(timeStr: Option<string>): (r: Option<string>)
    ensures r.None? <==> timeStr.None? || timeStr.value == ""
    ensures r.Some? && Search(IsoTime, timeStr.value, 0).None? ==> r == timeStr
  {
    if timeStr.None? || timeStr.value == "" then None
    else
      match Search(IsoTime, timeStr.value, 0)
      case None => timeStr
      case Some((_, f)) => Some(TwelveHour(DigitsValue(f.clock.hour), f.clock.minutes))
  }

  /** An ISO timestamp (a date without 'T', then "THH:MM:" and the rest)
      is shown as its hour and minutes on a 12-hour clock, which read
      back as the timestamp's. */
  lemma FormatTimeOfTimestamp(date: string, h: nat, m: nat, rest: string)
    requires forall i :: 0 <= i < |date| ==> date[i] != 'T'
    requires h < 24 && m < 60
    ensures FormatTime(Some(date + "T" + Pad2(h) + ":" + Pad2(m) + ":" + rest)) == Some(TwelveHour(h, Pad2(m)))
    ensures ReadTwelveHour(TwelveHour(h, Pad2(m))) == Some((h, Pad2(m)))
  {
    var s := date + "T" + Pad2(h) + ":" + Pad2(m) + ":" + rest;
    var k := |date|;
    Pad2Value(h);
    Pad2Value(m);
    assert s[k..k + 7] == "T" + Pad2(h) + ":" + Pad2(m) + ":";
    assert s[k + 1..k + 3] == Pad2(h);
    assert s[k + 4..k + 6] == Pad2(m);
    forall j | 0 <= j < k
      ensures MatchAt(IsoTime, s, j).None?
    {
      assert s[j] == date[j];
    }
    SearchFinds(IsoTime, s, k);
    TwelveHourReadsBack(h, Pad2(m));
  }

  // ---- Shabbos times from the Hebcal item titles ----

  lemma ClockTwoDigits(s: string, p: nat)
    requires p + 5 <= |s| && IsAsciiDigit(s[p]) && IsAsciiDigit(s[p + 1]) && s[p + 2] == ':'
    requires IsAsciiDigit(s[p + 3]) && IsAsciiDigit(s[p + 4])
    ensures ClockAt(s, p) == Some(Clock(s[p..p + 2], s[p + 3..p + 5], p + 5))
  {
  }

  lemma ClockOneDigit(s: string, p: nat)
    requires p + 4 <= |s| && IsAsciiDigit(s[p]) && s[p + 1] == ':'
    requires IsAsciiDigit(s[p + 2]) && IsAsciiDigit(s[p + 3])
    ensures ClockAt(s, p) == Some(Clock(s[p..p + 1], s[p + 2..p + 4], p + 4))
  {
  }

  /** A clock written as one or two hour digits, ':' and two minute
      digits is read as those digits. */
  lemma ClockOfDigits(s: string, p: nat, hour: string, minutes: string)
    requires 1 <= |hour| <= 2 && |minutes| == 2 && AllDigits(hour) && AllDigits(minutes)
    requires p + |hour| + 3 <= |s| && s[p..p + |hour| + 3] == hour + ":" + minutes
    ensures ClockAt(s, p) == Some(Clock(hour, minutes, p + |hour| + 3))
  {
    var t := s[p..p + |hour| + 3];
    var n := |hour|;
    assert t[..n] == hour && t[n] == ':' && t[n + 1..] == minutes;
    assert s[p + n] == ':';
    assert s[p + n + 1] == minutes[0] && s[p + n + 2] == minutes[1];
    assert IsAsciiDigit(minutes[0]) && IsAsciiDigit(minutes[1]);
    assert s[p + n + 1..p + n + 3] == minutes;
    if n == 2 {
      assert s[p..p + 2] == hour;
      assert s[p] == hour[0] && s[p + 1] == hour[1];
      assert IsAsciiDigit(hour[0]) && IsAsciiDigit(hour[1]);
      ClockTwoDigits(s, p);
    } else {
      assert s[p..p + 1] == hour;
      assert s[p] == hour[0] && IsAsciiDigit(hour[0]);
      ClockOneDigit(s, p);
    }
  }

  /** An hour below 100 is written with one or two digits, which read back
      as the hour. */
  lemma HourDigits(h: nat)
    requires h < 100
    ensures 1 <= |NatToString(h)| <= 2 && AllDigits(NatToString(h))
    ensures DigitsValue(NatToString(h)) == h
  {
    NatToStringValue(h);
    if h >= 10 {
      assert NatToString(h) == [DigitChar(h / 10), DigitChar(h % 10)];
    }
  }

  /** A clock written as the decimal hour, ':' and two minute digits is
      read as that hour and those minutes. */
  lemma ClockOfWritten(s: string, p: nat, h: nat, m: nat)
    requires h < 100 && m < 60
    requires p + |NatToString(h)| + 3 <= |s|
    requires s[p..p + |NatToString(h)| + 3] == NatToString(h) + ":" + Pad2(m)
    ensures ClockAt(s, p) == Some(Clock(NatToString(h), Pad2(m), p + |NatToString(h)| + 3))
    ensures DigitsValue(NatToString(h)) == h
  {
    HourDigits(h);
    Pad2Value(m);
    ClockOfDigits(s, p, NatToString(h), Pad2(m));
  }

  /** The candle-lighting time of a title; `None` when the pattern finds
      no clock. A written period keeps the hour as written, otherwise the
      hour is read on a 24-hour clock. */
  function CandleTimeOf(title: string): Option<string> {
    match Search(CandleTime, title, 0)
    case None => None
    case Some((_, f)) =>
      var h := DigitsValue(f.clock.hour);
      if f.period != "" then Some(WithPeriod(h, f.clock.minutes, f.period))
      else Some(TwelveHour(h, f.clock.minutes))
  }

  /** The havdalah time of a title: a clock followed by a period first,
      otherwise a 24-hour clock. */
  function HavdalahTimeOf(title: string): Option<string> {
    match Search(HavdalahWithPeriod, title, 0)
    case Some((_, f)) => Some(WithPeriod(DigitsValue(f.clock.hour), f.clock.minutes, f.period))
    case None =>
      match Search(HavdalahClock, title, 0)
      case None => None
      case Some((_, f)) => Some(TwelveHour(DigitsValue(f.clock.hour), f.clock.minutes))
  }

  /** A title opening with the candle-lighting words and a clock matches
      at its start. */
  lemma CandleMatchAtStart(s: string, c: Clock)
    requires StartsWith(s, "Candle lighting: ") && ClockAt(s, 17) == Some(c)
    ensures Search(CandleTime, s, 0) == Some((0, Found(c, PeriodAt(s, c.end))))
  {
    assert s[0..17] == "Candle lighting: ";
    SearchFinds(CandleTime, s, 0);
  }

  /** A literal does not start where its first letter is missing. */
  lemma NotFoldedAt(s: string, lit: string, q: nat)
    requires q < |s| && lit != [] && LowerChar(s[q]) != LowerChar(lit[0])
    ensures !LiteralAt(s, lit, q, true)
  {
    if q + |lit| <= |s| {
      assert s[q..q + |lit|][0] == s[q];
    }
  }

  /** No period follows when the next character cannot start one. */
  lemma NoPeriodAt(s: string, q: nat)
    requires q >= |s| || (LowerChar(s[q]) != 'a' && LowerChar(s[q]) != 'p')
    ensures PeriodAt(s, q) == ""
  {
    if q < |s| {
      NotFoldedAt(s, "pm", q);
      NotFoldedAt(s, "am", q);
      NotFoldedAt(s, "p.m.", q);
      NotFoldedAt(s, "a.m.", q);
    }
  }

  /** A written period is read without regard to case or dots. */
  lemma PeriodWritten(s: string, q: nat, period: string)
    requires period in ["pm", "am", "p.m.", "a.m.", "PM", "AM", "P.M.", "A.M."]
    requires q + |period| <= |s| && s[q..q + |period|] == period
    ensures PeriodAt(s, q) == if LowerChar(period[0]) == 'p' then "PM" else "AM"
  {
    assert s[q..q + 2] == period[..2];
    if |period| == 4 {
      assert s[q..q + 4] == period;
    }
  }

  /** How a clock is written in a title: the decimal hour, ':' and two
      minute digits. */
  function WrittenClock(h: nat, m: nat): string {
    NatToString(h) + ":" + Pad2(m)
  }

  /** The pieces of a title are found at their offsets. */
  lemma MiddleSlice(a: string, b: string, c: string)
    ensures (a + b + c)[|a|..|a| + |b|] == b
    ensures (a + b + c)[|a| + |b|..] == c
  {
  }

  /** The clock of a candle-lighting title. */
  lemma CandleClock(h: nat, m: nat, tail: string)
    requires h < 24 && m < 60
    ensures ClockAt("Candle lighting: " + WrittenClock(h, m) + tail, 17)
      == Some(Clock(NatToString(h), Pad2(m), 17 + |WrittenClock(h, m)|))
    ensures DigitsValue(NatToString(h)) == h
    ensures ("Candle lighting: " + WrittenClock(h, m) + tail)[17 + |WrittenClock(h, m)|..] == tail
    ensures StartsWith("Candle lighting: " + WrittenClock(h, m) + tail, "Candle lighting: ")
  {
    var s := "Candle lighting: " + WrittenClock(h, m) + tail;
    MiddleSlice("Candle lighting: ", WrittenClock(h, m), tail);
    AppendAssoc("Candle lighting: ", WrittenClock(h, m), tail);
    StartsWithPrefix("Candle lighting: ", WrittenClock(h, m) + tail);
    ClockOfWritten(s, 17, h, m);
  }

  /** "Candle lighting: 19:23" shows as "7:23 PM": a 24-hour title converts
      like `formatTime`. */
  lemma CandleOfTwentyFourHour(h: nat, m: nat, rest: string)
    requires h < 24 && m < 60
    requires rest == [] || (LowerChar(rest[0]) != 'a' && LowerChar(rest[0]) != 'p')
    ensures CandleTimeOf("Candle lighting: " + WrittenClock(h, m) + rest) == Some(TwelveHour(h, Pad2(m)))
  {
    var s := "Candle lighting: " + WrittenClock(h, m) + rest;
    CandleClock(h, m, rest);
    var c := ClockAt(s, 17).value;
    NoPeriodAt(s, c.end);
    CandleMatchAtStart(s, c);
  }

  /** "Candle lighting: 8:00pm" shows as "8:00 PM": a written period keeps
      the hour and is upper-cased without its dots. */
  lemma CandleOfWrittenPeriod(h: nat, m: nat, period: string, rest: string)
    requires h < 24 && m < 60
    requires period in ["pm", "am", "p.m.", "a.m.", "PM", "AM", "P.M.", "A.M."]
    ensures CandleTimeOf("Candle lighting: " + WrittenClock(h, m) + (period + rest))
      == Some(WithPeriod(h, Pad2(m), if LowerChar(period[0]) == 'p' then "PM" else "AM"))
  {
    var s := "Candle lighting: " + WrittenClock(h, m) + (period + rest);
    CandleClock(h, m, period + rest);
    var c := ClockAt(s, 17).value;
    HeadOfTail(s, c.end, period, rest);
    PeriodWritten(s, c.end, period);
    CandleShowsPeriod(s, c, PeriodAt(s, c.end));
  }

  /** A candle-lighting title whose clock carries a period shows the hour
      as found. */
  lemma CandleShowsPeriod(s: string, c: Clock, p: string)
    requires StartsWith(s, "Candle lighting: ") && ClockAt(s, 17) == Some(c)
    requires PeriodAt(s, c.end) == p && p != ""
    ensures CandleTimeOf(s) == Some(WithPeriod(DigitsValue(c.hour), c.minutes, p))
  {
    CandleMatchAtStart(s, c);
  }

  lemma HeadOfTail(s: string, e: nat, head: string, rest: string)
    requires e <= |s| && s[e..] == head + rest
    ensures e + |head| <= |s| && s[e..e + |head|] == head
  {
    assert s[e..e + |head|] == (head + rest)[..|head|];
  }

  /** The clock of a havdalah title. */
  lemma HavdalahClockOf(h: nat, m: nat, tail: string)
    requires h < 24 && m < 60
    ensures ClockAt("Havdalah: " + WrittenClock(h, m) + tail, 10)
      == Some(Clock(NatToString(h), Pad2(m), 10 + |WrittenClock(h, m)|))
    ensures DigitsValue(NatToString(h)) == h
    ensures ("Havdalah: " + WrittenClock(h, m) + tail)[10 + |WrittenClock(h, m)|..] == tail
  {
    var s := "Havdalah: " + WrittenClock(h, m) + tail;
    MiddleSlice("Havdalah: ", WrittenClock(h, m), tail);
    ClockOfWritten(s, 10, h, m);
  }

  /** Whitespace followed by a non-space: the whitespace is what is skipped. */
  lemma {:induction false} LeadSpacesOf(spaces: string, t: string)
    requires forall i :: 0 <= i < |spaces| ==> IsSpace(spaces[i])
    requires t != [] && !IsSpace(t[0])
    ensures LeadSpaces(spaces + t) == |spaces|
    decreases |spaces|
  {
    if spaces == [] {
      assert spaces + t == t;
    } else {
      assert (spaces + t)[1..] == spaces[1..] + t;
      LeadSpacesOf(spaces[1..], t);
    }
  }

  /** A havdalah title whose clock is followed, past any whitespace, by
      a period matches at its start. */
  lemma HavdalahPeriodMatch(s: string, c: Clock, q: nat, period: string)
    requires |s| >= 10 && s[0..10] == "Havdalah: " && ClockAt(s, 10) == Some(c)
    requires q == c.end + LeadSpaces(s[c.end..])
    requires period in ["pm", "am", "PM", "AM"] && q + 2 <= |s| && s[q..q + 2] == period
    ensures MatchAt(HavdalahWithPeriod, s, 0)
      == Some(Found(c, if LowerChar(period[0]) == 'p' then "PM" else "AM"))
  {
    assert LiteralAt(s, "Havdalah: ", 0, true);
  }

  lemma PeriodAfterSpaces(s: string, e: nat, spaces: string, period: string, rest: string)
    requires e <= |s| && s[e..] == spaces + (period + rest) && |period| == 2
    ensures e + |spaces| + 2 <= |s| && s[e + |spaces|..e + |spaces| + 2] == period
    ensures LeadSpaces(s[e..]) == LeadSpaces(spaces + (period + rest))
  {
    var t := spaces + (period + rest);
    assert s[e + |spaces|..e + |spaces| + 2] == t[|spaces|..|spaces| + 2];
    assert t[|spaces|..|spaces| + 2] == period;
  }

  /** "Havdalah: 8:31pm" (or "8:31 PM") shows as "8:31 PM": a period after
      the clock, past any whitespace, is kept with the hour as written. */
  lemma HavdalahOfWrittenPeriod(h: nat, m: nat, spaces: string, period: string, rest: string)
    requires h < 24 && m < 60
    requires forall i :: 0 <= i < |spaces| ==> IsSpace(spaces[i])
    requires period in ["pm", "am", "PM", "AM"]
    ensures HavdalahTimeOf("Havdalah: " + WrittenClock(h, m) + (spaces + period + rest))
      == Some(WithPeriod(h, Pad2(m), if LowerChar(period[0]) == 'p' then "PM" else "AM"))
  {
    var tail := spaces + period + rest;
    var s := "Havdalah: " + WrittenClock(h, m) + tail;
    HavdalahClockOf(h, m, tail);
    var c := ClockAt(s, 10).value;
    AppendAssoc(spaces, period, rest);
    LeadSpacesOf(spaces, period + rest);
    var q := c.end + |spaces|;
    PeriodAfterSpaces(s, c.end, spaces, period, rest);
    HavdalahPeriodMatch(s, c, q, period);
    SearchFinds(HavdalahWithPeriod, s, 0);
  }

  /** A clock holds no whitespace. */
  lemma WrittenClockNoSpace(h: nat, m: nat)
    requires h < 24 && m < 60
    ensures forall i :: 0 <= i < |WrittenClock(h, m)| ==> !IsSpace(WrittenClock(h, m)[i])
  {
    HourDigits(h);
    Pad2Value(m);
    var w := WrittenClock(h, m);
    var n := |NatToString(h)|;
    forall i | 0 <= i < |w|
      ensures !IsSpace(w[i])
    {
      if i < n {
        assert w[i] == NatToString(h)[i];
      } else if i > n {
        assert w[i] == Pad2(m)[i - n - 1];
      }
    }
  }

  /** With no whitespace past its opening words, a title holds those
      words nowhere else. */
  lemma HavdalahWordOnlyAtStart(s: string)
    requires forall i :: 10 <= i < |s| ==> !IsSpace(s[i])
    ensures forall j: nat :: 1 <= j ==> !LiteralAt(s, "Havdalah: ", j, true)
  {
    forall j: nat | 1 <= j
      ensures !LiteralAt(s, "Havdalah: ", j, true)
    {
      if j + 10 <= |s| {
        assert s[j..j + 10][9] == s[j + 9];
        assert !IsSpace(s[j + 9]);
      }
    }
  }

  /** "Havdalah: 20:31" shows as "8:31 PM": with no period the clock is
      read on a 24-hour clock. */
  lemma HavdalahOfTwentyFourHour(h: nat, m: nat)
    requires h < 24 && m < 60
    ensures HavdalahTimeOf("Havdalah: " + WrittenClock(h, m)) == Some(TwelveHour(h, Pad2(m)))
  {
    var s := "Havdalah: " + WrittenClock(h, m);
    HavdalahClockOf(h, m, []);
    assert s + [] == s;
    WrittenClockNoSpace(h, m);
    assert forall i :: 10 <= i < |s| ==> s[i] == WrittenClock(h, m)[i - 10];
    HavdalahWordOnlyAtStart(s);
    assert s[ClockAt(s, 10).value.end..] == [];
    assert MatchAt(HavdalahWithPeriod, s, 0).None?;
    assert s[0..10] == "Havdalah: ";
    SearchFinds(HavdalahClock, s, 0);
  }

  // ---- The Shabbos-times response ----

  /** The response of the Shabbos-times endpoint; null fields are `None`. */
  datatype ShabbosTimes = ShabbosTimes(
    location: string, candleLighting: Option<string>, havdalah: Option<string>, parsha: Option<string>)

  /** One Hebcal item: a candle-lighting title sets the candle-lighting
      time when its clock parses, else a havdalah title sets the havdalah
      time when its clock parses, else a "Parashat " or "Parashah " title
      is the parsha; anything else changes nothing. */
  function Apply(r: ShabbosTimes, title: string): ShabbosTimes {
    if Contains(title, "Candle lighting:") then
      (match CandleTimeOf(title)
       case Some(t) => r.(candleLighting := Some(t))
       case None => r)
    else if Contains(title, "Havdalah:") then
      (match HavdalahTimeOf(title)
       case Some(t) => r.(havdalah := Some(t))
       case None => r)
    else if StartsWith(title, "Parashat ") || StartsWith(title, "Parashah ") then
      r.(parsha := Some(title))
    else r
  }

  /** The response after the items with these titles, in order. */
  function Collect(location: string, titles: seq<string>): ShabbosTimes {
    if titles == [] then ShabbosTimes(location, None, None, None)
    else Apply(Collect(location, titles[..|titles| - 1]), titles[|titles| - 1])
  }

  /** The handler's pass over the Hebcal items. */
  method ShabbosTimesOf(location: string, titles: seq<string>) returns (r: ShabbosTimes)
    ensures r == Collect(location, titles)
  {
    r := ShabbosTimes(location, None, None, None);
    for i := 0 to |titles|
      invariant r == Collect(location, titles[..i])
    {
      assert titles[..i + 1][..i] == titles[..i];
      r := Apply(r, titles[i]);
    }
    assert titles[..|titles|] == titles;
  }

  /** What an item contributes to each field, if anything. */
  function CandleOf(title: string): Option<string> {
    if Contains(title, "Candle lighting:") then CandleTimeOf(title) else None
  }

  function HavdalahOf(title: string): Option<string> {
    if !Contains(title, "Candle lighting:") && Contains(title, "Havdalah:") then HavdalahTimeOf(title) else None
  }

  function ParshaOf(title: string): Option<string> {
    if !Contains(title, "Candle lighting:") && !Contains(title, "Havdalah:")
      && (StartsWith(title, "Parashat ") || StartsWith(title, "Parashah "))
    then Some(title)
    else None
  }

  /** The last value present, if any. */
  function LastPresent<T>(s: seq<Option<T>>): (r: Option<T>)
    ensures r.Some? ==> r in s
    ensures r.None? <==> forall i :: 0 <= i < |s| ==> s[i].None?
  {
    if s == [] then None
    else if s[|s| - 1].Some? then s[|s| - 1]
    else LastPresent(s[..|s| - 1])
  }

  /** How one item changes each field. */
  lemma ApplyFields(r: ShabbosTimes, title: string)
    ensures Apply(r, title).location == r.location
    ensures Apply(r, title).candleLighting == if CandleOf(title).Some? then CandleOf(title) else r.candleLighting
    ensures Apply(r, title).havdalah == if HavdalahOf(title).Some? then HavdalahOf(title) else r.havdalah
    ensures Apply(r, title).parsha == if ParshaOf(title).Some? then ParshaOf(title) else r.parsha
  {
  }

  lemma LastPresentMap<T>(f: string -> Option<T>, titles: seq<string>)
    requires titles != []
    ensures var last := f(titles[|titles| - 1]);
      LastPresent(Map(f, titles)) == if last.Some? then last else LastPresent(Map(f, titles[..|titles| - 1]))
  {
    var m := Map(f, titles);
    assert m[..|m| - 1] == Map(f, titles[..|titles| - 1]);
  }

  /** Each field of the response is what the last item contributing to it
      gave, or null when none did; the location is the zmanim one. */
  lemma {:induction false} CollectTakesLastOfEach(location: string, titles: seq<string>)
    ensures Collect(location, titles).location == location
    ensures Collect(location, titles).candleLighting == LastPresent(Map(CandleOf, titles))
    ensures Collect(location, titles).havdalah == LastPresent(Map(HavdalahOf, titles))
    ensures Collect(location, titles).parsha == LastPresent(Map(ParshaOf, titles))
    decreases |titles|
  {
    if titles != [] {
      var init := titles[..|titles| - 1];
      CollectTakesLastOfEach(location, init);
      ApplyFields(Collect(location, init), titles[|titles| - 1]);
      LastPresentMap(CandleOf, titles);
      LastPresentMap(HavdalahOf, titles);
      LastPresentMap(ParshaOf, titles);
    }
  }

  // ---- The calendar download ----

  /** Content lines are delimited by CRLF (section 3.1 of RFC 5545). */
  const CRLF := "\r\n"

  /** The properties opening every calendar the endpoints produce. */
  const CalendarHead: seq<string> := [
    "BEGIN:VCALENDAR", "VERSION:2.0", "PRODID:-//Ezras Nashim//Hebrew Date Converter//EN",
    "CALSCALE:GREGORIAN", "METHOD:PUBLISH"]

  const CalendarEnd := "END:VCALENDAR"

  datatype CalendarDate = CalendarDate(year: nat, month: nat, day: nat)

  function Pow10(w: nat): (p: nat)
    ensures p > 0
  {
    if w == 0 then 1 else 10 * Pow10(w - 1)
  }

  /** The last `width` decimal digits of `n`, with leading zeros. */
  function Digits(n: nat, width: nat): (r: string)
    ensures |r| == width && AllDigits(r)
  {
    if width == 0 then [] else Digits(n / 10, width - 1) + [DigitChar(n % 10)]
  }

  /** A number below 10^width reads back from its digits. */
  lemma {:induction false} DigitsValueOf(n: nat, width: nat)
    requires n < Pow10(width)
    ensures DigitsValue(Digits(n, width)) == n
  {
    if width > 0 {
      var r := Digits(n, width);
      DigitsValueOf(n / 10, width - 1);
      assert r[..|r| - 1] == Digits(n / 10, width - 1);
    }
  }

  /** A number of exactly `w` digits is written with `w` digits. */
  lemma {:induction false} NatToStringOfWidth(n: nat, w: nat)
    requires w >= 1 && Pow10(w - 1) <= n < Pow10(w)
    ensures NatToString(n) == Digits(n, w)
  {
    if w == 1 {
      assert Digits(n, 1) == Digits(n / 10, 0) + [DigitChar(n % 10)];
    } else {
      assert Pow10(w - 2) <= n / 10 < Pow10(w - 1);
      NatToStringOfWidth(n / 10, w - 1);
    }
  }

  /** The DATE value of a DTSTART property: the ISO date with its dashes
      removed, four year, two month and two day digits. */
  function DateValue(d: CalendarDate): string {
    Digits(d.year, 4) + Digits(d.month, 2) + Digits(d.day, 2)
  }

  /** A DATE value is eight digits (section 3.3.4 of RFC 5545) that read
      back as the year, month and day. */
  lemma DateValueReadsBack(d: CalendarDate)
    requires d.year < 10000 && d.month < 100 && d.day < 100
    ensures |DateValue(d)| == 8 && AllDigits(DateValue(d))
    ensures DigitsValue(DateValue(d)[..4]) == d.year
    ensures DigitsValue(DateValue(d)[4..6]) == d.month
    ensures DigitsValue(DateValue(d)[6..]) == d.day
  {
    var v := DateValue(d);
    assert v[..4] == Digits(d.year, 4);
    assert v[4..6] == Digits(d.month, 2);
    assert v[6..] == Digits(d.day, 2);
    DigitsValueOf(d.year, 4);
    DigitsValueOf(d.month, 2);
    DigitsValueOf(d.day, 2);
  }

  /** The lines of one VEVENT. */
  function EventLines(uid: string, stamp: string, date: string, title: string, description: string): (r: seq<string>)
    ensures |r| == 9 && r[3] == "DTSTART;VALUE=DATE:" + date
  {
    ["BEGIN:VEVENT", "UID:" + uid, "DTSTAMP:" + stamp, "DTSTART;VALUE=DATE:" + date, "SUMMARY:" + title,
     "DESCRIPTION:" + description, "STATUS:CONFIRMED", "TRANSP:TRANSPARENT", "END:VEVENT"]
  }

  /** A VEVENT as the GET handler pushes it: its lines joined by CRLF. */
  function EventText(lines: seq<string>): string {
    Join(lines, CRLF)
  }

  /** The download body: the opening properties, the events and the
      closing line, joined by CRLF. */
  function CalendarBody(events: seq<string>): string {
    Join(CalendarHead + events + [CalendarEnd], CRLF)
  }

  /** All the lines of the blocks, in order. */
  function Flatten(blocks: seq<seq<string>>): seq<string> {
    if blocks == [] then [] else Flatten(blocks[..|blocks| - 1]) + blocks[|blocks| - 1]
  }

  lemma JoinSnoc(xs: seq<string>, x: string, sep: string)
    requires xs != []
    ensures Join(xs + [x], sep) == Join(xs, sep) + sep + x
  {
    assert (xs + [x])[..|xs|] == xs;
  }

  lemma {:induction false} JoinAppend(a: seq<string>, b: seq<string>, sep: string)
    requires a != [] && b != []
    ensures Join(a + b, sep) == Join(a, sep) + sep + Join(b, sep)
    decreases |b|
  {
    if |b| > 1 {
      var init := b[..|b| - 1];
      JoinAppend(a, init, sep);
      assert (a + b)[..|a + b| - 1] == a + init;
    }
  }

  /** Joining pre-joined event blocks after some opening lines is joining
      all their lines. */
  lemma {:induction false} JoinBlocks(head: seq<string>, blocks: seq<seq<string>>)
    requires head != []
    requires forall k :: 0 <= k < |blocks| ==> blocks[k] != []
    ensures Join(head + Map(EventText, blocks), CRLF) == Join(head + Flatten(blocks), CRLF)
    decreases |blocks|
  {
    if blocks == [] {
      assert head + Map(EventText, blocks) == head;
      assert head + Flatten(blocks) == head;
    } else {
      var init := blocks[..|blocks| - 1];
      var last := blocks[|blocks| - 1];
      JoinBlocks(head, init);
      var xs := head + Map(EventText, init);
      assert head + Map(EventText, blocks) == xs + [EventText(last)];
      assert (xs + [EventText(last)])[..|xs|] == xs;
      var f := Flatten(init);
      JoinAppend(head + f, last, CRLF);
      assert Flatten(blocks) == f + last;
      AppendAssoc(head, f, last);
    }
  }

  /** The body is every content line of the calendar, events included,
      one after another with CRLF between them. */
  lemma CalendarLines(blocks: seq<seq<string>>)
    requires forall k :: 0 <= k < |blocks| ==> blocks[k] != []
    ensures CalendarBody(Map(EventText, blocks)) == Join(CalendarHead + Flatten(blocks) + [CalendarEnd], CRLF)
  {
    JoinBlocks(CalendarHead, blocks);
    JoinSnoc(CalendarHead + Map(EventText, blocks), CalendarEnd, CRLF);
    JoinSnoc(CalendarHead + Flatten(blocks), CalendarEnd, CRLF);
  }

  // ---- The GET calendar download ----

  /** The query of the GET download; absent parameters are `None`. */
  datatype CalendarQuery = CalendarQuery(
    title: Option<string>, hebrewDate: Option<string>, gregorianDate: Option<string>, years: Option<string>)

  predicate Truthy(v: Option<string>) {
    v.Some? && v.value != ""
  }

  /** `v || d` on a query parameter. */
  function OrDefault(v: Option<string>, d: string): string {
    if Truthy(v) then v.value else d
  }

  /** `parseInt(years) || 1`: a count that does not parse, or parses as 0,
      is 1. */
  function YearsOf(years: Option<string>): (n: int)
    ensures n != 0
  {
    match (if years.None? then None else ParseInt(years.value))
    case None => 1
    case Some(v) => if v == 0 then 1 else v
  }

  /** A written count is taken as it is, except 0; no count means one
      year. */
  lemma YearsDefault(n: int)
    ensures YearsOf(None) == 1
    ensures YearsOf(Some(IntToString(n))) == if n == 0 then 1 else n
  {
    ParseIntOfWritten(n, []);
    assert IntToString(n) + [] == IntToString(n);
  }

  /** What the handler learns from the clock and from Hebcal:
      - the current year and time (`nowMs`, and `stamp`, the DTSTAMP text);
      - `inputDate`, the parsed Gregorian date, and whether it is past;
      - `sourceConverted`: whether its Hebrew date was obtained;
      - `thisYearPassed`: whether this year's occurrence is past (`None`
        when that request failed);
      - `convert`: the Gregorian date of the Hebrew date in a Hebrew year,
        `None` when the request fails or lacks a field;
      - `localeDate`: a date as `toLocaleDateString` writes it. */
  datatype Outside = Outside(
    currentYear: nat, nowMs: nat, stamp: string,
    inputDate: CalendarDate, inputPassed: bool, sourceConverted: bool, thisYearPassed: Option<bool>,
    convert: int -> Option<CalendarDate>, localeDate: CalendarDate -> string)

  /** The Hebrew year taken to begin in a Gregorian year. */
  function HebrewYear(year: int): int {
    5785 + (year - 2025)
  }

  /** The first year of the converted events: next year when this year's
      occurrence is already past or cannot be looked up. */
  function StartYear(o: Outside): nat {
    if !o.inputPassed then o.currentYear
    else if o.thisYearPassed == Some(false) then o.currentYear
    else o.currentYear + 1
  }

  /** The event of the `i`-th year when its Hebrew date converted to `d`. */
  function HebrewEvent(i: nat, d: CalendarDate, title: string, hebrewDate: string, o: Outside): seq<string> {
    EventLines("hebrew-" + DateValue(d) + "-" + NatToString(i) + "-" + NatToString(o.nowMs) + "@ezrasnashim.com",
      o.stamp, DateValue(d), title, "Hebrew Date: " + hebrewDate + "\\nGregorian: " + o.localeDate(d))
  }

  /** The events of the first `n` years from `start`; years whose
      conversion fails are skipped. */
  function HebrewBlocks(n: nat, start: nat, title: string, hebrewDate: string, o: Outside): seq<seq<string>> {
    if n == 0 then []
    else
      var prev := HebrewBlocks(n - 1, start, title, hebrewDate, o);
      match o.convert(HebrewYear(start + n - 1))
      case None => prev
      case Some(d) => prev + [HebrewEvent(n - 1, d, title, hebrewDate, o)]
  }

  /** `new Date(year, month - 1, day)` for the month and day of a parsed
      date: a day past the end of the month in that year rolls over into
      the next month, as MakeDay does (section 21.4.1.28 of ECMA-262).
      For a valid input date only February 29 can roll over. */
  function MakeDate(year: nat, month: nat, day: nat): CalendarDate {
    var last := DateUtils.DaysInMonth(year, month);
    if month < 12 && last < day <= 31 then CalendarDate(year, month + 1, day - last)
    else CalendarDate(year, month, day)
  }

  /** The constructor gives a real calendar date for any day of month
      1..31, and keeps a day that exists in the year. */
  lemma MakeDateValid(year: nat, month: nat, day: nat)
    requires 1 <= month <= 12 && 1 <= day <= 31
    ensures var d := MakeDate(year, month, day);
      d.year == year && 1 <= d.month <= 12 && 1 <= d.day <= DateUtils.DaysInMonth(year, d.month)
    ensures day <= DateUtils.DaysInMonth(year, month) ==> MakeDate(year, month, day) == CalendarDate(year, month, day)
  {
  }

  /** February 29 of a common year is March 1. */
  lemma LeapDayRollsOver(year: nat)
    requires !DateUtils.IsLeap(year)
    ensures MakeDate(year, 2, 29) == CalendarDate(year, 3, 1)
  {
  }

  /** The event of a year when the Hebrew date could not be looked up:
      the input's month and day in that year, as the Date constructor
      builds it. */
  function FallbackEvent(year: nat, title: string, hebrewDate: string, o: Outside): seq<string> {
    var d := MakeDate(year, o.inputDate.month, o.inputDate.day);
    EventLines("hebrew-fallback-" + DateValue(d) + "-" + NatToString(o.nowMs) + "@ezrasnashim.com",
      o.stamp, DateValue(d), title, "Hebrew Date: " + hebrewDate)
  }

  function FallbackBlocks(n: nat, start: nat, title: string, hebrewDate: string, o: Outside): seq<seq<string>> {
    if n == 0 then [] else FallbackBlocks(n - 1, start, title, hebrewDate, o) + [FallbackEvent(start + n - 1, title, hebrewDate, o)]
  }

  /** The one event written without both dates: January 1 of next year. */
  function SimpleEvent(title: string, o: Outside): seq<string> {
    EventLines("simple-" + NatToString(o.nowMs) + "@ezrasnashim.com", o.stamp,
      NatToString(o.currentYear + 1) + "0101", title, "Calendar event")
  }

  /** The year count as the loops use it: none below 1. */
  function Count(years: int): nat {
    if years > 0 then years else 0
  }

  /** The events the GET download writes. */
  function CalendarBlocks(q: CalendarQuery, o: Outside): seq<seq<string>> {
    var title := OrDefault(q.title, "Event");
    var hebrewDate := OrDefault(q.hebrewDate, "");
    var n := Count(YearsOf(q.years));
    if OrDefault(q.gregorianDate, "") == "" || hebrewDate == "" then [SimpleEvent(title, o)]
    else if o.sourceConverted then HebrewBlocks(n, StartYear(o), title, hebrewDate, o)
    else
      var start := if o.inputDate.year < o.currentYear then o.currentYear else o.inputDate.year;
      FallbackBlocks(n, start, title, hebrewDate, o)
  }

  /** Years whose conversion fails are skipped, so there are at most as
      many events as years. */
  lemma {:induction false} HebrewBlocksAtMost(n: nat, start: nat, title: string, hebrewDate: string, o: Outside)
    ensures |HebrewBlocks(n, start, title, hebrewDate, o)| <= n
  {
    if n > 0 {
      HebrewBlocksAtMost(n - 1, start, title, hebrewDate, o);
    }
  }

  /** When every conversion succeeds there is an event for each year, in
      order, dated with that year's conversion. */
  lemma {:induction false} HebrewBlocksDates(n: nat, start: nat, title: string, hebrewDate: string, o: Outside)
    requires forall y :: start <= y < start + n ==> o.convert(HebrewYear(y)).Some?
    ensures |HebrewBlocks(n, start, title, hebrewDate, o)| == n
    ensures forall i :: 0 <= i < n ==>
      |HebrewBlocks(n, start, title, hebrewDate, o)[i]| == 9 && o.convert(HebrewYear(start + i)).Some?
      && HebrewBlocks(n, start, title, hebrewDate, o)[i][3]
        == "DTSTART;VALUE=DATE:" + DateValue(o.convert(HebrewYear(start + i)).value)
  {
    if n > 0 {
      HebrewBlocksDates(n - 1, start, title, hebrewDate, o);
      var prev := HebrewBlocks(n - 1, start, title, hebrewDate, o);
      var d := o.convert(HebrewYear(start + n - 1)).value;
      assert HebrewBlocks(n, start, title, hebrewDate, o) == prev + [HebrewEvent(n - 1, d, title, hebrewDate, o)];
    }
  }

  /** Without a conversion there is an event for each year, on the input's
      month and day as the Date constructor builds them in that year (a
      February 29 falls on March 1 of a common year). */
  lemma {:induction false} FallbackBlocksDates(n: nat, start: nat, title: string, hebrewDate: string, o: Outside)
    ensures |FallbackBlocks(n, start, title, hebrewDate, o)| == n
    ensures forall i :: 0 <= i < n ==>
      |FallbackBlocks(n, start, title, hebrewDate, o)[i]| == 9
      && FallbackBlocks(n, start, title, hebrewDate, o)[i][3]
        == "DTSTART;VALUE=DATE:" + DateValue(MakeDate(start + i, o.inputDate.month, o.inputDate.day))
  {
    if n > 0 {
      FallbackBlocksDates(n - 1, start, title, hebrewDate, o);
    }
  }

  /** The simple event's date is a DATE value too, for a four-digit year. */
  lemma SimpleEventDate(title: string, o: Outside)
    requires 999 <= o.currentYear <= 9998
    ensures SimpleEvent(title, o)[3] == "DTSTART;VALUE=DATE:" + DateValue(CalendarDate(o.currentYear + 1, 1, 1))
  {
    assert Pow10(3) == 1000 && Pow10(4) == 10000;
    NatToStringOfWidth(o.currentYear + 1, 4);
    assert Digits(1, 2) == "01";
  }

  lemma HebrewStepSkips(i: nat, start: nat, title: string, hebrewDate: string, o: Outside)
    requires o.convert(HebrewYear(start + i)).None?
    ensures HebrewBlocks(i + 1, start, title, hebrewDate, o) == HebrewBlocks(i, start, title, hebrewDate, o)
  {
  }

  lemma HebrewStepAdds(i: nat, start: nat, title: string, hebrewDate: string, o: Outside, d: CalendarDate)
    requires o.convert(HebrewYear(start + i)) == Some(d)
    ensures Map(EventText, HebrewBlocks(i + 1, start, title, hebrewDate, o))
      == Map(EventText, HebrewBlocks(i, start, title, hebrewDate, o)) + [EventText(HebrewEvent(i, d, title, hebrewDate, o))]
  {
    var prev := HebrewBlocks(i, start, title, hebrewDate, o);
    var block := HebrewEvent(i, d, title, hebrewDate, o);
    assert HebrewBlocks(i + 1, start, title, hebrewDate, o) == prev + [block];
    assert (prev + [block])[..|prev|] == prev;
  }

  lemma FallbackStep(i: nat, start: nat, title: string, hebrewDate: string, o: Outside)
    ensures Map(EventText, FallbackBlocks(i + 1, start, title, hebrewDate, o))
      == Map(EventText, FallbackBlocks(i, start, title, hebrewDate, o))
        + [EventText(FallbackEvent(start + i, title, hebrewDate, o))]
  {
    var prev := FallbackBlocks(i, start, title, hebrewDate, o);
    var block := FallbackEvent(start + i, title, hebrewDate, o);
    assert FallbackBlocks(i + 1, start, title, hebrewDate, o) == prev + [block];
    assert (prev + [block])[..|prev|] == prev;
  }

  /** The converted years' loop. */
  method HebrewEvents(years: int, start: nat, title: string, hebrewDate: string, o: Outside)
    returns (events: seq<string>)
    ensures events == Map(EventText, HebrewBlocks(Count(years), start, title, hebrewDate, o))
  {
    events := [];
    var i: nat := 0;
    while i < years
      invariant i <= years || i == 0
      invariant events == Map(EventText, HebrewBlocks(i, start, title, hebrewDate, o))
    {
      var converted := o.convert(HebrewYear(start + i));
      if converted.Some? {
        HebrewStepAdds(i, start, title, hebrewDate, o, converted.value);
        events := events + [EventText(HebrewEvent(i, converted.value, title, hebrewDate, o))];
      } else {
        HebrewStepSkips(i, start, title, hebrewDate, o);
      }
      i := i + 1;
    }
  }

  /** The loop of the fallback when the Hebrew date could not be read. */
  method FallbackEvents(years: int, start: nat, title: string, hebrewDate: string, o: Outside)
    returns (events: seq<string>)
    ensures events == Map(EventText, FallbackBlocks(Count(years), start, title, hebrewDate, o))
  {
    events := [];
    var i: nat := 0;
    while i < years
      invariant i <= years || i == 0
      invariant events == Map(EventText, FallbackBlocks(i, start, title, hebrewDate, o))
    {
      FallbackStep(i, start, title, hebrewDate, o);
      events := events + [EventText(FallbackEvent(start + i, title, hebrewDate, o))];
      i := i + 1;
    }
  }

  /** A character outside the Basic Multilingual Plane: a JavaScript
      string holds it as two UTF-16 code units (a surrogate pair). */
  predicate Astral(c: char) {
    c > '\U{FFFF}'
  }

  /** The length of `s` as a JavaScript string: UTF-16 code units. */
  function Utf16Length(s: string): (n: nat)
    ensures n >= |s|
  {
    if s == [] then 0 else Utf16Length(s[..|s| - 1]) + (if Astral(s[|s| - 1]) then 2 else 1)
  }

  /** What the replacement makes of one character: a letter or digit is
      kept; any other code unit becomes '_', so a surrogate pair gives two. */
  function SafeUnits(c: char): string {
    if IsAsciiAlnum(c) then [c] else if Astral(c) then "__" else "_"
  }

  /** `title.replace(/[^a-zA-Z0-9]/g, '_')`, which without the `u` flag
      matches each UTF-16 code unit: the result has one character per code
      unit, character `i` of the title sits at code unit
      `Utf16Length(title[..i])`, a letter or digit stays and everything else
      becomes '_' (twice for an astral character). */
  function SafeTitle(title: string): (r: string)
    ensures SafeFor(title, r)
  {
    if title == [] then []
    else
      var t := SafeTitle(title[..|title| - 1]);
      SafeSnoc(title, t);
      t + SafeUnits(title[|title| - 1])
  }

  /** `r` has one character per code unit of `title`; character `i` of the
      title sits at code unit `Utf16Length(title[..i])` and becomes its
      SafeUnits there; nothing but letters, digits and '_' appears. */
  predicate SafeFor(title: string, r: string) {
    |r| == Utf16Length(title) &&
    (forall i :: 0 <= i < |title| ==> UnitsAt(r, Utf16Length(title[..i]), title[i])) &&
    (forall j :: 0 <= j < |r| ==> r[j] == '_' || IsAsciiAlnum(r[j]))
  }

  /** `r` holds SafeUnits(c) from code unit `a` on. */
  predicate UnitsAt(r: string, a: nat, c: char) {
    a + |SafeUnits(c)| <= |r| && r[a..a + |SafeUnits(c)|] == SafeUnits(c)
  }

  lemma UnitsAtExtend(t: string, u: string, a: nat, c: char)
    requires UnitsAt(t, a, c)
    ensures UnitsAt(t + u, a, c)
  {
    assert (t + u)[a..a + |SafeUnits(c)|] == t[a..a + |SafeUnits(c)|];
  }

  lemma SafeSnoc(title: string, t: string)
    requires title != [] && SafeFor(title[..|title| - 1], t)
    ensures SafeFor(title, t + SafeUnits(title[|title| - 1]))
  {
    var u := SafeUnits(title[|title| - 1]);
    var r := t + u;
    forall i | 0 <= i < |title| ensures UnitsAt(r, Utf16Length(title[..i]), title[i]) {
      SafeSnocAt(title, t, i);
    }
    forall j | 0 <= j < |r| ensures r[j] == '_' || IsAsciiAlnum(r[j]) {
      if j >= |t| { assert r[j] == u[j - |t|]; }
    }
  }

  lemma SafeSnocAt(title: string, t: string, i: nat)
    requires title != [] && SafeFor(title[..|title| - 1], t) && i < |title|
    ensures UnitsAt(t + SafeUnits(title[|title| - 1]), Utf16Length(title[..i]), title[i])
  {
    var n := |title| - 1;
    var pre := title[..n];
    var u := SafeUnits(title[n]);
    if i < n {
      assert pre[..i] == title[..i] && pre[i] == title[i];
      assert UnitsAt(t, Utf16Length(pre[..i]), pre[i]);
      UnitsAtExtend(t, u, Utf16Length(pre[..i]), pre[i]);
    } else {
      assert title[..i] == pre;
      assert (t + u)[|t|..|t| + |u|] == u;
    }
  }

  /** An emoji or other astral character gives two underscores. */
  lemma AstralGivesTwoUnderscores(c: char)
    requires Astral(c)
    ensures SafeTitle([c]) == "__"
  {
    assert [c][..0] == [];
  }

  const FileSuffix := "_years.ics"

  /** The download's file name. */
  function Filename(title: string, years: int): string {
    SafeTitle(title) + "_" + IntToString(years) + FileSuffix
  }

  /** The characters a download name may hold. */
  predicate FileChar(c: char) {
    IsAsciiAlnum(c) || c == '_' || c == '-' || c == '.'
  }

  predicate FileChars(s: string) {
    forall i :: 0 <= i < |s| ==> FileChar(s[i])
  }

  lemma FileCharsAppend(a: string, b: string)
    requires FileChars(a) && FileChars(b)
    ensures FileChars(a + b)
  {
    forall i | 0 <= i < |a + b|
      ensures FileChar((a + b)[i])
    {
      if i >= |a| {
        assert (a + b)[i] == b[i - |a|];
      }
    }
  }

  lemma SuffixFileChars()
    ensures FileChars(FileSuffix)
  {
    var s := FileSuffix;
    forall i | 0 <= i < |s|
      ensures FileChar(s[i])
    {
    }
  }

  lemma IntToStringFileChars(n: int)
    ensures FileChars(IntToString(n))
  {
    if n < 0 {
      assert FileChars("-");
      FileCharsAppend("-", NatToString(-n));
    }
  }

  /** The file name begins with the title, its letters and digits kept
      in place and every other character made '_'. */
  lemma FilenameKeepsTitle(title: string, years: int)
    ensures Filename(title, years)[..Utf16Length(title)] == SafeTitle(title)
  {
    var t := SafeTitle(title);
    var y := IntToString(years);
    AppendAssoc(t, "_", y);
    AppendAssoc(t, "_" + y, FileSuffix);
    assert (t + ("_" + y + FileSuffix))[..|t|] == t;
  }

  /** The file name holds nothing but letters, digits, '_', '-' and '.':
      no quote, slash or control character reaches the quoted
      Content-Disposition parameter. */
  lemma FilenameSafe(title: string, years: int)
    ensures FileChars(Filename(title, years))
  {
    var t := SafeTitle(title);
    assert FileChars(t);
    assert FileChars("_");
    FileCharsAppend(t, "_");
    IntToStringFileChars(years);
    FileCharsAppend(t + "_", IntToString(years));
    SuffixFileChars();
    FileCharsAppend(t + "_" + IntToString(years), FileSuffix);
  }

  /** The GET download: the calendar body and its file name. */
  method DownloadCalendar(q: CalendarQuery, o: Outside) returns (body: string, filename: string)
    ensures body == CalendarBody(Map(EventText, CalendarBlocks(q, o)))
    ensures filename == Filename(OrDefault(q.title, "Event"), YearsOf(q.years))
  {
    var title := OrDefault(q.title, "Event");
    var hebrewDate := OrDefault(q.hebrewDate, "");
    var gregorianDate := OrDefault(q.gregorianDate, "");
    var years := YearsOf(q.years);
    var events: seq<string>;
    if gregorianDate != "" && hebrewDate != "" {
      if o.sourceConverted {
        events := HebrewEvents(years, StartYear(o), title, hebrewDate, o);
      } else {
        var start := if o.inputDate.year < o.currentYear then o.currentYear else o.inputDate.year;
        events := FallbackEvents(years, start, title, hebrewDate, o);
      }
    } else {
      events := [EventText(SimpleEvent(title, o))];
      assert events == Map(EventText, [SimpleEvent(title, o)]);
    }
    body := CalendarBody(events);
    filename := Filename(title, years);
  }

  // ---- The POST calendar download and analytics ----

  datatype PostCheck = MissingFields | Accepted(years: int)

  /** The POST download's checks: a missing title, Hebrew date or
      Gregorian date is a 400 response; an absent year count is 10. */
  function CheckCalendarPost(title: Option<string>, hebrewDate: Option<string>, gregorianDate: Option<string>,
                             years: Option<int>): (r: PostCheck)
    ensures r == MissingFields <==> !Truthy(title) || !Truthy(hebrewDate) || !Truthy(gregorianDate)
    ensures r.Accepted? ==> r.years == if years.Some? then years.value else 10
  {
    if !Truthy(title) || !Truthy(hebrewDate) || !Truthy(gregorianDate) then MissingFields
    else Accepted(if years.Some? then years.value else 10)
  }

  /** The only analytics events the endpoint stores. */
  const TrackedEvents: seq<string> := ["modal_complete", "tehillim_complete", "name_prayed", "tehillim_book_complete"]

  /** The analytics endpoint: an event of any other type is refused with
      400 and the store is left alone; a listed one is stored. */
  method TrackAnalytics(store: StorageJs.Store, eventType: string, eventData: map<string, string>,
                        sessionId: Option<string>, today: string, timeMs: nat) returns (accepted: bool)
    modifies store
    ensures accepted <==> eventType in TrackedEvents
    ensures !accepted ==>
      (store.events == old(store.events) && store.daily == old(store.daily)
       && store.chain == old(store.chain) && store.pirkei == old(store.pirkei))
    ensures accepted ==> store.events == old(store.events) + [StorageJs.Event(eventType, sessionId, eventData, today, timeMs)]
    ensures accepted ==> store.daily == old(store.daily)[today := StorageJs.DayStatsOf(StorageJs.OnDay(store.events, today))]
    ensures accepted ==> store.chain == old(store.chain) && store.pirkei == old(store.pirkei)
  {
    if eventType !in TrackedEvents {
      return false;
    }
    var _ := store.TrackEvent(StorageJs.Event(eventType, sessionId, eventData, today, timeMs), today);
    return true;
  }
}

=== FILE: routes_ts.dfy ===
// The TypeScript routes (server/routes.ts): the zmanim time formatting
// and the checks of the Tehillim and payment-intent endpoints.

module RoutesTs {
  import opened Text
  import RoutesJs
  import Storage
  import TehillimRoutes

  /** The zmanim `formatTime`, written again in this file: no time or an
      empty one is null, a "THH:MM:" timestamp becomes its 12-hour time,
      any other text is returned unchanged. */
  function FormatTime(timeStr: Option<string>): (r: Option<string>)
    ensures r.None? <==> timeStr.None? || timeStr.value == ""
  {
    if timeStr.None? || timeStr.value == "" then None
    else
      match RoutesJs.Search(RoutesJs.IsoTime, timeStr.value, 0)
      case None => timeStr
      case Some((_, f)) => Some(RoutesJs.TwelveHour(DigitsValue(f.clock.hour), f.clock.minutes))
  }

  /** Both servers format zmanim times alike. */
  lemma FormatTimeAgrees(timeStr: Option<string>)
    ensures FormatTime(timeStr) == RoutesJs.FormatTime(timeStr)
  {
  }

  // ---- Tehillim ----

  const PerekCount := 150

  /** `POST /api/tehillim/complete`: a perek in 1..150 (a missing or zero
      perek is refused), then 'english' or 'hebrew'. */
  function CompleteCheck(currentPerek: Option<int>, language: Option<string>): (r: Option<TehillimRoutes.Rejection>)
    ensures r.None? <==>
      currentPerek.Some? && 1 <= currentPerek.value <= PerekCount
      && language.Some? && TehillimRoutes.IsLanguage(language.value)
    ensures r == Some(TehillimRoutes.InvalidPerek) <==> !(currentPerek.Some? && 1 <= currentPerek.value <= PerekCount)
  {
    if currentPerek.None? || currentPerek.value == 0 || currentPerek.value < 1 || currentPerek.value > PerekCount then
      Some(TehillimRoutes.InvalidPerek)
    else if language.None? || language.value == "" || !TehillimRoutes.IsLanguage(language.value) then
      Some(TehillimRoutes.InvalidLanguage)
    else None
  }

  datatype Completion = Rejected(reason: TehillimRoutes.Rejection) | Updated(progress: Storage.GlobalProgress)

  /** The completion handler: a refused request leaves the store alone; an
      accepted one moves the chain on, and the chain stays within the
      book. */
  method CompleteTehillim(db: Storage.Database, currentPerek: Option<int>, language: Option<string>,
                          completedBy: Option<string>, now: int) returns (r: Completion)
    modifies db
    ensures r.Rejected? <==> CompleteCheck(currentPerek, language).Some?
    ensures r.Rejected? ==> r.reason == CompleteCheck(currentPerek, language).value && unchanged(db)
    ensures r.Updated? ==> db.globalProgress == Some(r.progress)
    ensures r.Updated? && old(db.globalProgress).Some? ==>
      r.progress.currentPerek == Storage.NextPerek(currentPerek.value) && 1 <= r.progress.currentPerek <= PerekCount
    ensures r.Updated? && old(db.globalProgress).None? ==> r.progress.currentPerek == 1
    ensures r.Updated? ==> db.pirkeiAvot == old(db.pirkeiAvot) && db.names == old(db.names)
                           && db.nextNameId == old(db.nextNameId) && db.promotions == old(db.promotions)
  {
    var rejection := CompleteCheck(currentPerek, language);
    if rejection.Some? {
      return Rejected(rejection.value);
    }
    var progress := db.UpdateGlobalTehillimProgress(currentPerek.value, language.value, completedBy, now);
    return Updated(progress);
  }

  /** A perek route parameter, read with `parseInt` and kept only in
      1..150. */
  function PerekOf(param: string): (r: Option<int>)
    ensures r.Some? <==> ParseInt(param).Some? && 1 <= ParseInt(param).value <= PerekCount
    ensures r.Some? ==> r == ParseInt(param)
  {
    var perek := ParseInt(param);
    if perek.None? || perek.value < 1 || perek.value > PerekCount then None else perek
  }

  /** A perek written in decimal is accepted exactly when it is in the
      book. */
  lemma PerekOfWritten(n: int)
    ensures PerekOf(IntToString(n)) == (if 1 <= n <= PerekCount then Some(n) else None)
  {
    ParseIntOfWritten(n, []);
    assert IntToString(n) + [] == IntToString(n);
  }

  /** `GET /api/tehillim/text/:perek`: the perek first, then the language,
      'english' when absent. */
  function TextCheck(param: string, language: Option<string>): (r: Option<TehillimRoutes.Rejection>)
    ensures r.None? <==> PerekOf(param).Some? && TehillimRoutes.IsLanguage(TehillimRoutes.LanguageOr(language, "english"))
    ensures r == Some(TehillimRoutes.InvalidPerek) <==> PerekOf(param).None?
  {
    if PerekOf(param).None? then Some(TehillimRoutes.InvalidPerek)
    else if !TehillimRoutes.IsLanguage(TehillimRoutes.LanguageOr(language, "english")) then Some(TehillimRoutes.InvalidLanguage)
    else None
  }

  /** `GET /api/tehillim/preview/:perek`: only the perek is checked; the
      language defaults to 'hebrew'. */
  function PreviewCheck(param: string, language: Option<string>): (r: Option<(int, string)>)
    ensures r.Some? <==> PerekOf(param).Some?
    ensures r.Some? ==> r.value == (PerekOf(param).value, TehillimRoutes.LanguageOr(language, "hebrew"))
  {
    match PerekOf(param)
    case None => None
    case Some(p) => Some((p, TehillimRoutes.LanguageOr(language, "hebrew")))
  }

  // ---- Payment intents ----

  /** `POST /api/create-payment-intent`: a missing, zero or sub-dollar
      amount is a 400 response. */
  function AmountAccepted(amount: Option<real>): (ok: bool)
    ensures ok <==> amount.Some? && amount.value >= 1.0
  {
    !(amount.None? || amount.value == 0.0 || amount.value < 1.0)
  }

  /** `Math.round(amount * 100)`: the amount in cents, halves rounded up. */
  function Cents(amount: real): int {
    (amount * 100.0 + 0.5).Floor
  }

  /** An accepted amount is at least a dollar in cents, and an amount
      written in whole cents is charged exactly. */
  lemma CentsOfAccepted(amount: real, c: int)
    requires amount >= 1.0
    ensures Cents(amount) >= 100
    ensures Cents(c as real / 100.0) == c
  {
    assert c as real / 100.0 * 100.0 + 0.5 == c as real + 0.5;
  }
}

=== FILE: search_utils.dfy ===
/** The app-wide search: text normalisation and the scored, ranked lookup
    over search records (client/src/lib/searchUtils.ts). */
module SearchUtils {
  import opened Text
  import HebrewUtils

  /** A searchable record. Its navigation fields (route, modal id, action)
      are carried along by the app and play no part in the search. */
  datatype SearchRecord = SearchRecord(
    id: string,
    category: string,
    title: string,
    secondaryText: Option<string>,
    keywords: seq<string>)

  // ---------------------------------------------------------------------
  // Normalisation
  // ---------------------------------------------------------------------

  /** The combining diacritical marks U+0300..U+036F. */
  predicate IsCombiningMark(c: char) { '\U{0300}' <= c <= '\U{036F}' }

  /** Deletes the combining marks. */
  function DropMarks(s: string): (r: string)
    ensures |r| <= |s|
    ensures forall i :: 0 <= i < |r| ==> !IsCombiningMark(r[i])
    ensures (forall i :: 0 <= i < |s| ==> !IsAsciiUpper(s[i])) ==> forall i :: 0 <= i < |r| ==> !IsAsciiUpper(r[i])
    ensures (forall i :: 0 <= i < |s| ==> !IsCombiningMark(s[i])) ==> r == s
  {
    if s == [] then []
    else
      var rest := DropMarks(s[1..]);
      if IsCombiningMark(s[0]) then rest else [s[0]] + rest
  }

  /** normalizeEnglish: lower-cased, accents removed, trimmed. */
  function NormalizeEnglish(text: string): (r: string)
    ensures forall i :: 0 <= i < |r| ==> !IsAsciiUpper(r[i]) && !IsCombiningMark(r[i])
    ensures r != [] ==> !IsSpace(r[0]) && !IsSpace(r[|r| - 1])
  {
    if text == [] then []
    else
      var d := DropMarks(Lower(text));
      TrimSlice(d);
      Trim(d)
  }

  /** Normalising English text twice changes nothing more. */
  lemma NormalizeEnglishIdempotent(text: string)
    ensures NormalizeEnglish(NormalizeEnglish(text)) == NormalizeEnglish(text)
  {
    var r := NormalizeEnglish(text);
    if r != [] {
      assert Lower(r) == r;
      TrimNoSpaceEnds(r);
    }
  }

  /** normalizeText: the Hebrew normaliser for text holding a character of
      the Hebrew block, the English one otherwise. */
  function NormalizeText(text: string): (r: string)
    ensures (exists i :: 0 <= i < |text| && HebrewUtils.IsHebrewBlock(text[i])) ==> r == HebrewUtils.NormalizeHebrew(text)
    ensures (forall i :: 0 <= i < |text| ==> !HebrewUtils.IsHebrewBlock(text[i])) ==> r == NormalizeEnglish(text)
    ensures forall i :: 0 <= i < |r| ==> !IsAsciiUpper(r[i])
    ensures r != [] ==> !IsSpace(r[0]) && !IsSpace(r[|r| - 1])
  {
    if text == [] then []
    else if HebrewUtils.ContainsHebrew(text) then HebrewUtils.NormalizeHebrew(text)
    else NormalizeEnglish(text)
  }

  // ---------------------------------------------------------------------
  // Query words
  // ---------------------------------------------------------------------

  /** A query word: non-empty and free of whitespace. */
  predicate IsWord(w: string) {
    w != [] && forall k :: 0 <= k < |w| ==> !IsSpace(w[k])
  }

  /** Length of the run of non-whitespace characters that starts `s`. */
  function WordLen(s: string): (n: nat)
    ensures n <= |s|
    ensures forall k :: 0 <= k < n ==> !IsSpace(s[k])
    ensures n < |s| ==> IsSpace(s[n])
  {
    if s == [] || IsSpace(s[0]) then 0
    else
      var n := WordLen(s[1..]);
      assert forall k :: 1 <= k < n + 1 ==> s[k] == s[1..][k - 1];
      1 + n
  }

  /** Splitting on runs of whitespace and dropping the empty pieces. */
  function Words(s: string): (r: seq<string>)
    ensures forall i :: 0 <= i < |r| ==> IsWord(r[i])
    decreases |s|
  {
    if s == [] then []
    else if IsSpace(s[0]) then Words(s[1..])
    else
      var n := WordLen(s);
      [s[..n]] + Words(s[n..])
  }

  function Concat(ws: seq<string>): string {
    if ws == [] then [] else ws[0] + Concat(ws[1..])
  }

  /** The words, put back together, are exactly the non-whitespace
      characters of the text: splitting loses only whitespace. */
  lemma {:induction false} WordsConcat(s: string)
    ensures Concat(Words(s)) == NonSpaces(s)
    decreases |s|
  {
    if s == [] {
    } else if IsSpace(s[0]) {
      WordsConcat(s[1..]);
    } else {
      var n := WordLen(s);
      assert s == s[..n] + s[n..];
      NonSpacesAppend(s[..n], s[n..]);
      NonSpacesOfWord(s[..n]);
      WordsConcat(s[n..]);
    }
  }

  // ---------------------------------------------------------------------
  // Scoring
  // ---------------------------------------------------------------------

  /** A record's searchable text after normalisation. */
  datatype Normalized = Normalized(
    title: string, secondary: string, keywords: seq<string>, category: string)

  function NormalizeRecord(record: SearchRecord): Normalized {
    Normalized(
      NormalizeText(record.title),
      NormalizeText(if record.secondaryText.Some? then record.secondaryText.value else ""),
      Map(NormalizeText, record.keywords),
      NormalizeText(record.category))
  }

  /** Title points for one word: 100 for a prefix, 50 for a match elsewhere. */
  function TitleScore(title: string, word: string): nat {
    if StartsWith(title, word) then 100 else if Contains(title, word) then 50 else 0
  }

  predicate AnyContains(keywords: seq<string>, word: string) {
    exists i :: 0 <= i < |keywords| && Contains(keywords[i], word)
  }

  /** Points one query word earns: title, secondary text 30, at most one
      keyword 20, category 10. */
  function WordScore(word: string, n: Normalized): nat {
    TitleScore(n.title, word)
    + (if Contains(n.secondary, word) then 30 else 0)
    + (if AnyContains(n.keywords, word) then 20 else 0)
    + (if Contains(n.category, word) then 10 else 0)
  }

  /** The word occurs somewhere in the record's searchable text. */
  predicate Matches(word: string, n: Normalized) {
    Contains(n.title, word) || Contains(n.secondary, word)
    || AnyContains(n.keywords, word) || Contains(n.category, word)
  }

  /** Total over the query words. */
  function Score(words: seq<string>, n: Normalized): nat {
    if words == [] then 0 else Score(words[..|words| - 1], n) + WordScore(words[|words| - 1], n)
  }

  function RecordScore(words: seq<string>, record: SearchRecord): nat {
    Score(words, NormalizeRecord(record))
  }

  /** A prefix match is worth 100 and excludes the 50 of a match elsewhere;
      the title earns points exactly when it contains the word. */
  lemma TitleScoreMeaning(title: string, word: string)
    ensures TitleScore(title, word) == 100 <==> StartsWith(title, word)
    ensures TitleScore(title, word) == 50 <==> Contains(title, word) && !StartsWith(title, word)
    ensures TitleScore(title, word) > 0 <==> Contains(title, word)
  {
    if StartsWith(title, word) {
      assert OccursAt(title, word, 0);
    }
  }

  /** One word earns between 0 and 160 points, and earns some exactly when it
      occurs in the record's text. */
  lemma WordScoreMeaning(word: string, n: Normalized)
    ensures WordScore(word, n) <= 160
    ensures WordScore(word, n) > 0 <==> Matches(word, n)
  {
    TitleScoreMeaning(n.title, word);
  }

  /** A record scores at most 160 per query word, and scores at all exactly
      when one of the words occurs in its text. */
  lemma {:induction false} ScoreMeaning(words: seq<string>, n: Normalized)
    ensures Score(words, n) <= 160 * |words|
    ensures Score(words, n) > 0 <==> exists i :: 0 <= i < |words| && Matches(words[i], n)
    decreases |words|
  {
    if words != [] {
      var init := words[..|words| - 1];
      ScoreMeaning(init, n);
      WordScoreMeaning(words[|words| - 1], n);
      assert forall i :: 0 <= i < |init| ==> init[i] == words[i];
    }
  }

  /** The inner keyword loop: stops at the first keyword holding the word. */
  method KeywordHit(keywords: seq<string>, word: string) returns (hit: bool)
    ensures hit <==> AnyContains(keywords, word)
  {
    hit := false;
    var i := 0;
    while i < |keywords|
      invariant 0 <= i <= |keywords|
      invariant forall j :: 0 <= j < i ==> !Contains(keywords[j], word)
    {
      if Contains(keywords[i], word) {
        hit := true;
        break;
      }
      i := i + 1;
    }
  }

  /** The per-record scoring loop of searchRecords. */
  method ScoreRecord(record: SearchRecord, words: seq<string>) returns (score: nat)
    ensures score == RecordScore(words, record)
  {
    var title := NormalizeText(record.title);
    var secondary := NormalizeText(if record.secondaryText.Some? then record.secondaryText.value else "");
    var keywords := Map(NormalizeText, record.keywords);
    var n := Normalized(title, secondary, keywords, NormalizeText(record.category));
    assert n == NormalizeRecord(record);
    score := ScoreWords(n, words);
  }

  /** The loop over the query words, on the normalised fields. */
  method ScoreWords(n: Normalized, words: seq<string>) returns (score: nat)
    ensures score == Score(words, n)
  {
    score := 0;
    for i := 0 to |words|
      invariant score == Score(words[..i], n)
    {
      var points := WordPoints(n, words[i]);
      score := score + points;
      assert words[..i + 1][..i] == words[..i];
    }
    assert words[..|words|] == words;
  }

  /** The points of one query word, branch by branch as the loop body adds them. */
  method WordPoints(n: Normalized, word: string) returns (points: nat)
    ensures points == WordScore(word, n)
  {
    points := 0;
    if StartsWith(n.title, word) {
      points := points + 100;
    } else if Contains(n.title, word) {
      points := points + 50;
    }
    if Contains(n.secondary, word) {
      points := points + 30;
    }
    var hit := KeywordHit(n.keywords, word);
    if hit {
      points := points + 20;
    }
    if Contains(n.category, word) {
      points := points + 10;
    }
  }

  // ---------------------------------------------------------------------
  // Filtering and ranking
  // ---------------------------------------------------------------------

  datatype Scored = Scored(record: SearchRecord, score: nat)

  /** records.map(record => ({ record, score })). */
  function ScoreAll(words: seq<string>, records: seq<SearchRecord>): (r: seq<Scored>)
    ensures |r| == |records|
  {
    if records == [] then []
    else
      var last := records[|records| - 1];
      ScoreAll(words, records[..|records| - 1]) + [Scored(last, RecordScore(words, last))]
  }

  /** filter(({ score }) => score > 0). */
  function KeepPositive(s: seq<Scored>): (r: seq<Scored>)
    ensures forall i :: 0 <= i < |r| ==> r[i].score > 0
  {
    if s == [] then []
    else KeepPositive(s[..|s| - 1]) + (if s[|s| - 1].score > 0 then [s[|s| - 1]] else [])
  }

  /** Scores never increase from one entry to the next. */
  predicate ByScore(s: seq<Scored>) {
    forall i :: 0 <= i < |s| - 1 ==> s[i].score >= s[i + 1].score
  }

  /** Places `x` after every entry scoring at least as much: the step of a
      stable sort by descending score. */
  function Insert(x: Scored, s: seq<Scored>): (r: seq<Scored>)
    ensures |r| == |s| + 1
    ensures multiset(r) == multiset(s) + multiset{x}
    ensures r[0] == x || (s != [] && r[0] == s[0])
    ensures ByScore(s) ==> ByScore(r)
  {
    if s == [] then [x]
    else if s[0].score >= x.score then
      assert s == [s[0]] + s[1..];
      [s[0]] + Insert(x, s[1..])
    else [x] + s
  }

  /** sort((a, b) => b.score - a.score), a stable sort. */
  function SortByScore(s: seq<Scored>): (r: seq<Scored>)
    ensures multiset(r) == multiset(s)
    ensures ByScore(r)
  {
    if s == [] then []
    else
      assert s == s[..|s| - 1] + [s[|s| - 1]];
      Insert(s[|s| - 1], SortByScore(s[..|s| - 1]))
  }

  function RecordOf(s: Scored): SearchRecord { s.record }

  /** The ranked result for a non-blank query. */
  function Ranked(records: seq<SearchRecord>, words: seq<string>): seq<SearchRecord> {
    Map(RecordOf, SortByScore(KeepPositive(ScoreAll(words, records))))
  }

  /** Every entry of the scored list carries its record's own score. */
  lemma {:induction false} ScoreAllAt(words: seq<string>, records: seq<SearchRecord>, i: nat)
    requires i < |records|
    ensures ScoreAll(words, records)[i] == Scored(records[i], RecordScore(words, records[i]))
    decreases |records|
  {
    if i < |records| - 1 {
      ScoreAllAt(words, records[..|records| - 1], i);
    }
  }

  /** The kept records are the records scoring above zero, each as often as
      it appears in the input. */
  lemma {:induction false} KeptRecords(words: seq<string>, records: seq<SearchRecord>, x: SearchRecord)
    ensures multiset(Map(RecordOf, KeepPositive(ScoreAll(words, records))))[x]
      == if RecordScore(words, x) > 0 then multiset(records)[x] else 0
    decreases |records|
  {
    if records != [] {
      var init := records[..|records| - 1];
      var last := records[|records| - 1];
      var y := Scored(last, RecordScore(words, last));
      KeptRecords(words, init, x);
      assert ScoreAll(words, records)[..|records| - 1] == ScoreAll(words, init);
      var tail := if y.score > 0 then [y] else [];
      var keptInit := KeepPositive(ScoreAll(words, init));
      assert KeepPositive(ScoreAll(words, records)) == keptInit + tail;
      MapAppend(RecordOf, keptInit, tail);
      assert Map(RecordOf, tail) == if y.score > 0 then [last] else [];
      MultisetLast(records);
    }
  }

  /** searchRecords returns each record whose score is positive exactly as
      often as the input holds it, and nothing else: no record from outside
      the input, and no record twice unless the input repeats it. */
  lemma RankedRecords(records: seq<SearchRecord>, words: seq<string>, x: SearchRecord)
    ensures multiset(Ranked(records, words))[x]
      == if RecordScore(words, x) > 0 then multiset(records)[x] else 0
  {
    var kept := KeepPositive(ScoreAll(words, records));
    MapPermutation(RecordOf, SortByScore(kept), kept);
    KeptRecords(words, records, x);
  }

  /** Every entry of the sorted list is a kept entry, so it carries the
      score of its own record. */
  lemma {:induction false} KeptScores(words: seq<string>, records: seq<SearchRecord>, s: Scored)
    requires s in KeepPositive(ScoreAll(words, records))
    ensures s.score == RecordScore(words, s.record) && s.score > 0
    decreases |records|
  {
    var init := records[..|records| - 1];
    assert ScoreAll(words, records)[..|records| - 1] == ScoreAll(words, init);
    if s in KeepPositive(ScoreAll(words, init)) {
      KeptScores(words, init, s);
    }
  }

  lemma {:induction false} ByScoreOrdered(s: seq<Scored>, i: nat, j: nat)
    requires ByScore(s) && i <= j < |s|
    ensures s[i].score >= s[j].score
    decreases j - i
  {
    if i < j {
      ByScoreOrdered(s, i + 1, j);
    }
  }

  /** The ranked records come in non-increasing order of their scores. */
  lemma RankedOrder(records: seq<SearchRecord>, words: seq<string>, i: nat, j: nat)
    requires i <= j < |Ranked(records, words)|
    ensures RecordScore(words, Ranked(records, words)[i]) >= RecordScore(words, Ranked(records, words)[j])
    ensures RecordScore(words, Ranked(records, words)[j]) > 0
  {
    var kept := KeepPositive(ScoreAll(words, records));
    var sorted := SortByScore(kept);
    MapAt(RecordOf, sorted, i);
    MapAt(RecordOf, sorted, j);
    assert sorted[i] in multiset(kept) && sorted[j] in multiset(kept);
    KeptScores(words, records, sorted[i]);
    KeptScores(words, records, sorted[j]);
    ByScoreOrdered(sorted, i, j);
  }

  /** searchRecords: nothing for a blank query; otherwise the records that
      score above zero, best first. */
  method SearchRecords(records: seq<SearchRecord>, query: string) returns (r: seq<SearchRecord>)
    ensures IsBlank(query) ==> r == []
    ensures !IsBlank(query) ==> r == Ranked(records, Words(NormalizeText(query)))
  {
    BlankIffTrimEmpty(query);
    if Trim(query) == [] {
      return [];
    }
    var words := Words(NormalizeText(query));
    var scored: seq<Scored> := [];
    for i := 0 to |records|
      invariant scored == ScoreAll(words, records[..i])
    {
      var score := ScoreRecord(records[i], words);
      assert records[..i + 1][..i] == records[..i];
      scored := scored + [Scored(records[i], score)];
    }
    assert records[..|records|] == records;
    r := Map(RecordOf, SortByScore(KeepPositive(scored)));
  }
}

=== FILE: server_cache.dfy ===
// The server's cache of outside API responses
// (server/routes/utils/cache.ts): the time to live chosen by URL, and the
// entries with their expiry and the promise of a request in flight.
//
// As in the client's request cache, `cachedGet` is split into its
// synchronous part and the promise's `then`/`catch`; a pending promise is
// named by a request number, and `Date.now()` is a parameter.

module ServerCache {
  import opened Text

  const HebcalZmanimTtl := 900000
  const HebcalConverterTtl := 86400000
  const HebcalEventsTtl := 3600000
  const NominatimTtl := 86400000
  const SefariaTtl := 604800000
  const IpGeoTtl := 3600000
  const DefaultTtl := 300000

  /** `getCacheConfig(url).ttl`: the first rule whose text the URL
      contains, else five minutes. */
  function CacheTtl(url: string): int {
    if Contains(url, "hebcal.com/zmanim") then HebcalZmanimTtl
    else if Contains(url, "hebcal.com/converter") then HebcalConverterTtl
    else if Contains(url, "hebcal.com/") then HebcalEventsTtl
    else if Contains(url, "nominatim.openstreetmap.org") then NominatimTtl
    else if Contains(url, "sefaria.org") then SefariaTtl
    else if Contains(url, "ip-api.com") then IpGeoTtl
    else DefaultTtl
  }

  /** `getCacheConfig(url).key`: the URL itself. */
  function CacheKey(url: string): string {
    url
  }

  /** The zmanim and converter rules come before the general hebcal rule,
      so those URLs keep their own time to live; any other hebcal URL gets
      an hour, and a URL matching no rule five minutes. */
  lemma HebcalRules(url: string)
    ensures Contains(url, "hebcal.com/zmanim") ==> CacheTtl(url) == 900000
    ensures !Contains(url, "hebcal.com/zmanim") && Contains(url, "hebcal.com/converter") ==> CacheTtl(url) == 86400000
    ensures Contains(url, "hebcal.com/zmanim") || Contains(url, "hebcal.com/converter") ==> Contains(url, "hebcal.com/")
  {
    if Contains(url, "hebcal.com/zmanim") {
      ContainsPrefix(url, "hebcal.com/zmanim", "hebcal.com/");
    } else if Contains(url, "hebcal.com/converter") {
      ContainsPrefix(url, "hebcal.com/converter", "hebcal.com/");
    }
  }

  /** A text containing `p` contains every prefix of `p`. */
  lemma ContainsPrefix(s: string, p: string, q: string)
    requires Contains(s, p) && StartsWith(p, q)
    ensures Contains(s, q)
  {
    var k :| 0 <= k <= |s| - |p| && OccursAt(s, p, k);
    assert s[k..k + |q|] == s[k..k + |p|][..|q|];
    assert OccursAt(s, q, k);
  }

  lemma NoRuleDefault(url: string)
    requires !Contains(url, "hebcal.com/") && !Contains(url, "nominatim.openstreetmap.org")
    requires !Contains(url, "sefaria.org") && !Contains(url, "ip-api.com")
    ensures CacheTtl(url) == 300000
  {
    if Contains(url, "hebcal.com/zmanim") || Contains(url, "hebcal.com/converter") {
      HebcalRules(url);
    }
  }

  /** An entry: the data (`None` for the `null` of a placeholder), its
      expiry, and the request in flight, if any. */
  datatype Entry<T> = Entry(data: Option<T>, expires: int, pending: Option<nat>)

  datatype Outcome<T> = Hit(data: Option<T>) | Join(request: nat) | Issue(request: nat)

  datatype State<T> = State(entries: map<string, Entry<T>>, nextRequest: nat)

  /** What `cachedGet` returns at time `now`. */
  function Answer<T>(st: State<T>, url: string, now: int): Outcome<T> {
    if url in st.entries && st.entries[url].expires > now then Hit(st.entries[url].data)
    else if url in st.entries && st.entries[url].pending.Some? then Join(st.entries[url].pending.value)
    else Issue(st.nextRequest)
  }

  /** The state after `cachedGet`: a new request is attached to the entry,
      or to a placeholder entry that expired at time 0. */
  function AfterGet<T>(st: State<T>, url: string, now: int): State<T> {
    match Answer(st, url, now)
    case Issue(id) =>
      var e := if url in st.entries then st.entries[url].(pending := Some(id)) else Entry(None, 0, Some(id));
      State(st.entries[url := e], id + 1)
    case _ => st
  }

  /** The request for `url`, made at `started`, answers with data: the
      entry is replaced, expiring a time to live after the request was
      made. */
  function AfterSuccess<T>(st: State<T>, url: string, data: T, started: int): State<T> {
    st.(entries := st.entries[url := Entry(Some(data), started + CacheTtl(url), None)])
  }

  /** The request fails: the entry stays, without its promise. */
  function AfterFailure<T>(st: State<T>, url: string): State<T> {
    if url in st.entries then st.(entries := st.entries[url := st.entries[url].(pending := None)]) else st
  }

  predicate Numbered<T>(st: State<T>) {
    forall u :: u in st.entries && st.entries[u].pending.Some? ==> st.entries[u].pending.value < st.nextRequest
  }

  // ---- Properties ----

  /** A fresh entry is served as it is, without a request. */
  lemma FreshIsServed<T>(st: State<T>, url: string, now: int)
    requires url in st.entries && st.entries[url].expires > now
    ensures Answer(st, url, now) == Hit(st.entries[url].data) && AfterGet(st, url, now) == st
  {
  }

  /** While a request is in flight, every caller gets that request: no
      second request is made for the URL. */
  lemma InFlightIsShared<T>(st: State<T>, url: string, now: int, later: int)
    requires Answer(st, url, now).Issue?
    ensures Answer(AfterGet(st, url, now), url, later).Join? || Answer(AfterGet(st, url, now), url, later).Hit?
    ensures !Answer(AfterGet(st, url, now), url, later).Issue?
    ensures Answer(AfterGet(st, url, now), url, later).Join? ==>
      Answer(AfterGet(st, url, now), url, later).request == Answer(st, url, now).request
  {
  }

  /** A placeholder never counts as a hit; at a non-negative time the
      caller of a URL with only a placeholder joins its request. */
  lemma PlaceholderNeverHits<T>(st: State<T>, url: string, now: int, later: int)
    requires url !in st.entries && later >= 0
    ensures var after := AfterGet(st, url, now);
      after.entries[url].data.None? && after.entries[url].expires == 0
      && Answer(after, url, later) == Join(st.nextRequest)
  {
  }

  /** Data that arrived is served until a time to live after its request
      was made, and not from then on. */
  lemma SuccessServedUntilExpiry<T>(st: State<T>, url: string, data: T, started: int, now: int)
    ensures Answer(AfterSuccess(st, url, data, started), url, now).Hit? <==> now < started + CacheTtl(url)
    ensures now < started + CacheTtl(url) ==> Answer(AfterSuccess(st, url, data, started), url, now) == Hit(Some(data))
  {
  }

  /** After a failure the entry is kept, and a caller that finds it stale
      makes a new request. */
  lemma FailureAllowsRetry<T>(st: State<T>, url: string, now: int)
    requires url in st.entries && st.entries[url].expires <= now
    ensures url in AfterFailure(st, url).entries
    ensures AfterFailure(st, url).entries[url].data == st.entries[url].data
    ensures Answer(AfterFailure(st, url), url, now) == Issue(st.nextRequest)
  {
  }

  /** Request numbers stay below the counter through every step. */
  lemma StepsKeepNumbering<T>(st: State<T>, url: string, data: T, started: int, now: int)
    requires Numbered(st)
    ensures Numbered(AfterGet(st, url, now)) && Numbered(AfterSuccess(st, url, data, started))
    ensures Numbered(AfterFailure(st, url))
  {
  }

  // ---- The module state ----

  /** The `apiCache` map and the request counter. */
  class ApiCache<T> {
    var entries: map<string, Entry<T>>
    var nextRequest: nat

    function Contents(): State<T>
      reads this
    {
      State(entries, nextRequest)
    }

    constructor ()
      ensures entries == map[] && nextRequest == 0
    {
      entries := map[];
      nextRequest := 0;
    }

    /** `cachedGet(url)` at time `now`, up to the promise it returns. */
    method CachedGet(url: string, now: int) returns (o: Outcome<T>)
      modifies this
      ensures o == Answer(old(Contents()), url, now)
      ensures Contents() == AfterGet(old(Contents()), url, now)
    {
      var key := CacheKey(url);
      if key in entries {
        var cached := entries[key];
        if cached.expires > now {
          return Hit(cached.data);
        }
        if cached.pending.Some? {
          return Join(cached.pending.value);
        }
        o := Issue(nextRequest);
        entries := entries[key := cached.(pending := Some(nextRequest))];
      } else {
        o := Issue(nextRequest);
        entries := entries[key := Entry(None, 0, Some(nextRequest))];
      }
      nextRequest := nextRequest + 1;
    }

    /** The `then` of the request made at `started`. */
    method Succeed(url: string, data: T, started: int)
      modifies this
      ensures Contents() == AfterSuccess(old(Contents()), url, data, started)
    {
      var ttl := CacheTtl(url);
      entries := entries[CacheKey(url) := Entry(Some(data), started + ttl, None)];
    }

    /** The `catch` of the request. */
    method Fail(url: string)
      modifies this
      ensures Contents() == AfterFailure(old(Contents()), url)
    {
      var key := CacheKey(url);
      if key in entries {
        entries := entries[key := entries[key].(pending := None)];
      }
    }
  }
}

=== FILE: shared.dfy ===
// Shared server helpers (server/routes/shared.ts): the second copy of the
// cache configuration, and the admin check in front of the admin routes.

module Shared {
  import opened Text
  import ServerCache

  /** The copy of `getCacheConfig(url).ttl` kept in this file. */
  function CacheTtl(url: string): int {
    if Contains(url, "hebcal.com/zmanim") then 15 * 60 * 1000
    else if Contains(url, "hebcal.com/converter") then 24 * 60 * 60 * 1000
    else if Contains(url, "hebcal.com/") then 60 * 60 * 1000
    else if Contains(url, "nominatim.openstreetmap.org") then 24 * 60 * 60 * 1000
    else if Contains(url, "sefaria.org") then 7 * 24 * 60 * 60 * 1000
    else if Contains(url, "ip-api.com") then 60 * 60 * 1000
    else 5 * 60 * 1000
  }

  /** Both copies choose the same time to live for every URL. */
  lemma SameTtlAsUtils(url: string)
    ensures CacheTtl(url) == ServerCache.CacheTtl(url)
  {
  }

  /** What `verifyAdminToken` reports about a token (the JWT check itself
      is not modelled). */
  datatype TokenCheck = TokenCheck(valid: bool, expired: bool)

  /** The middleware's answer: pass on to the route, or a status with a
      message. */
  datatype AuthResponse = Next | Reject(status: int, message: string)

  const NotConfigured := "Admin authentication not configured"
  const NoCredentials := "Unauthorized: No credentials provided"
  const JwtNotConfigured := "JWT authentication not configured. Please set JWT_SECRET."
  const TokenExpired := "Unauthorized: Token expired, please login again"
  const InvalidCredentials := "Unauthorized: Invalid admin credentials"

  /** The text after a leading "Bearer "; `None` for a missing header, any
      other header, and an empty token, which are all falsy. */
  function BearerToken(authHeader: Option<string>): (token: Option<string>)
    ensures token.Some? <==> authHeader.Some? && StartsWith(authHeader.value, "Bearer ") && |authHeader.value| > 7
    ensures token.Some? ==> authHeader.value == "Bearer " + token.value
  {
    if authHeader.Some? && authHeader.value != [] && StartsWith(authHeader.value, "Bearer ") then
      var t := authHeader.value[7..];
      assert authHeader.value == authHeader.value[..7] + t;
      if t == [] then None else Some(t)
    else None
  }

  /** `requireAdminAuth`, with the configuration flags and the token check
      as parameters. */
  function RequireAdminAuth(adminConfigured: bool, authHeader: Option<string>, jwtConfigured: bool,
                            verify: string -> TokenCheck): (r: AuthResponse)
    ensures !adminConfigured ==> r == Reject(500, NotConfigured)
    ensures adminConfigured && BearerToken(authHeader).None? ==> r == Reject(401, NoCredentials)
    ensures adminConfigured && BearerToken(authHeader).Some? && !jwtConfigured ==> r == Reject(500, JwtNotConfigured)
    ensures r == Next <==>
      adminConfigured && jwtConfigured && BearerToken(authHeader).Some? && verify(BearerToken(authHeader).value).valid
    ensures r.Reject? && r.status == 401 ==> adminConfigured
  {
    if !adminConfigured then Reject(500, NotConfigured)
    else
      match BearerToken(authHeader)
      case None => Reject(401, NoCredentials)
      case Some(token) =>
        if !jwtConfigured then Reject(500, JwtNotConfigured)
        else
          var jwtResult := verify(token);
          if jwtResult.valid then Next
          else if jwtResult.expired then Reject(401, TokenExpired)
          else Reject(401, InvalidCredentials)
  }

  /** The configuration is checked before the header: without it the
      answer is 500 whatever is sent. */
  lemma UnconfiguredIgnoresHeader(h1: Option<string>, h2: Option<string>, j1: bool, j2: bool,
                                  v1: string -> TokenCheck, v2: string -> TokenCheck)
    ensures RequireAdminAuth(false, h1, j1, v1) == RequireAdminAuth(false, h2, j2, v2)
  {
  }

  /** A token that is not valid is refused with 401, and the message tells
      an expired token apart from any other. */
  lemma InvalidTokenRefused(header: Option<string>, verify: string -> TokenCheck)
    requires BearerToken(header).Some? && !verify(BearerToken(header).value).valid
    ensures RequireAdminAuth(true, header, true, verify)
      == Reject(401, if verify(BearerToken(header).value).expired then TokenExpired else InvalidCredentials)
  {
  }
}

=== FILE: shared_modal_history.dfy ===
// The shared modal history (client/src/hooks/use-shared-modal-history.ts):
// one stack of open modals for the whole app, each with its own history
// entry, closed last-opened-first by the back button.
//
// The module's variables become the fields of one object. A close
// callback is named by a number, and calling it appends that number to
// `closed`. The 50 ms timer that clears the popstate flag is the method
// `TimerFires`.

module SharedModalHistory {
  import opened BrowserHistory

  datatype Source = Store | Local

  datatype ModalEntry = ModalEntry(id: string, close: nat, source: Source)

  /** No id is on the stack twice. */
  predicate UniqueIds(stack: seq<ModalEntry>) {
    forall i, j :: 0 <= i < j < |stack| ==> stack[i].id != stack[j].id
  }

  predicate OnStack(stack: seq<ModalEntry>, id: string) {
    exists i :: 0 <= i < |stack| && stack[i].id == id
  }

  /** The stack without the entry for `id`. */
  function Remove(stack: seq<ModalEntry>, id: string): (r: seq<ModalEntry>)
    ensures forall e :: e in r <==> e in stack && e.id != id
    ensures UniqueIds(stack) ==> UniqueIds(r)
    ensures !OnStack(r, id)
  {
    if stack == [] then []
    else
      var rest := Remove(stack[1..], id);
      assert forall e :: e in rest ==> e in stack[1..];
      assert UniqueIds(stack) ==> UniqueIds(stack[1..]) && forall e :: e in stack[1..] ==> e.id != stack[0].id;
      if stack[0].id == id then rest else [stack[0]] + rest
  }

  lemma RemoveAbsent(stack: seq<ModalEntry>, id: string)
    requires !OnStack(stack, id)
    ensures Remove(stack, id) == stack
  {
    if stack != [] {
      assert !OnStack(stack[1..], id) by {
        forall i | 0 <= i < |stack[1..]| ensures stack[1..][i].id != id {
          assert stack[1..][i] == stack[i + 1];
        }
      }
      RemoveAbsent(stack[1..], id);
      assert stack == [stack[0]] + stack[1..];
    }
  }

  /** Splicing out the entry at `i` removes exactly its id. */
  lemma {:induction false} SpliceIsRemove(stack: seq<ModalEntry>, i: nat)
    requires UniqueIds(stack) && i < |stack|
    ensures stack[..i] + stack[i + 1..] == Remove(stack, stack[i].id)
  {
    var id := stack[i].id;
    if i == 0 {
      assert !OnStack(stack[1..], id) by {
        forall j | 0 <= j < |stack[1..]| ensures stack[1..][j].id != id {
          assert stack[1..][j] == stack[j + 1];
        }
      }
      RemoveAbsent(stack[1..], id);
    } else {
      var tail := stack[1..];
      assert tail[i - 1] == stack[i];
      assert UniqueIds(tail);
      assert stack[0].id != id;
      SpliceIsRemove(tail, i - 1);
      SpliceCons(stack, i);
    }
  }

  lemma SpliceCons<T>(s: seq<T>, i: nat)
    requires 0 < i < |s|
    ensures s[..i] + s[i + 1..] == [s[0]] + (s[1..][..i - 1] + s[1..][i..])
  {
  }

  class ModalHistory {
    var stack: seq<ModalEntry>
    var handlingPopstate: bool
    var listenerAdded: bool
    var history: seq<HistoryState>
    var closed: seq<nat>

    ghost predicate Valid()
      reads this
    {
      UniqueIds(stack)
    }

    constructor (initial: seq<HistoryState>)
      ensures stack == [] && !handlingPopstate && !listenerAdded && history == initial && closed == [] && Valid()
    {
      stack := [];
      handlingPopstate := false;
      listenerAdded := false;
      history := initial;
      closed := [];
    }

    /** `modalStack.findIndex(m => m.id === id)`. */
    method FindIndex(id: string) returns (index: int)
      ensures index == -1 <==> !OnStack(stack, id)
      ensures index != -1 ==> 0 <= index < |stack| && stack[index].id == id
      ensures forall j :: 0 <= j < index ==> stack[j].id != id
    {
      index := 0;
      while index < |stack|
        invariant 0 <= index <= |stack|
        invariant forall j :: 0 <= j < index ==> stack[j].id != id
      {
        if stack[index].id == id {
          return;
        }
        index := index + 1;
      }
      index := -1;
    }

    /** The back button: the most recently opened modal is popped and
        closed, unless a popstate is already being handled. */
    method HandlePopstate()
      requires Valid()
      modifies this
      ensures old(handlingPopstate) || old(stack) == [] ==>
        stack == old(stack) && closed == old(closed) && handlingPopstate == old(handlingPopstate)
      ensures !old(handlingPopstate) && old(stack) != [] ==>
        stack == old(stack)[..|old(stack)| - 1] && closed == old(closed) + [old(stack)[|old(stack)| - 1].close]
        && handlingPopstate
      ensures history == old(history) && listenerAdded == old(listenerAdded) && Valid()
    {
      if handlingPopstate {
        return;
      }
      if stack != [] {
        var top := stack[|stack| - 1];
        stack := stack[..|stack| - 1];
        handlingPopstate := true;
        closed := closed + [top.close];
      }
    }

    /** The 50 ms timer after a programmatic navigation. */
    method TimerFires()
      modifies this
      ensures !handlingPopstate
      ensures stack == old(stack) && history == old(history) && closed == old(closed) && listenerAdded == old(listenerAdded)
    {
      handlingPopstate := false;
    }

    /** `registerModal`: ignored while a popstate is handled; an id already
        on the stack only gets its new close callback; a new id pushes one
        history entry and goes on top of the stack. */
    method RegisterModal(id: string, close: nat, source: Source)
      requires Valid()
      modifies this
      ensures listenerAdded
      ensures old(handlingPopstate) ==> stack == old(stack) && history == old(history)
      ensures !old(handlingPopstate) && OnStack(old(stack), id) ==>
        history == old(history) && |stack| == |old(stack)|
        && forall i :: 0 <= i < |stack| ==>
             stack[i] == if old(stack)[i].id == id then old(stack)[i].(close := close) else old(stack)[i]
      ensures !old(handlingPopstate) && !OnStack(old(stack), id) ==>
        history == old(history) + [SharedModalState(id)] && stack == old(stack) + [ModalEntry(id, close, source)]
      ensures handlingPopstate == old(handlingPopstate) && closed == old(closed) && Valid()
    {
      listenerAdded := true;
      if handlingPopstate {
        return;
      }
      var existing := FindIndex(id);
      if existing != -1 {
        stack := stack[existing := stack[existing].(close := close)];
        return;
      }
      history := history + [SharedModalState(id)];
      stack := stack + [ModalEntry(id, close, source)];
    }

    /** `unregisterModal`: the id leaves the stack; only when it was the
        topmost and no popstate is handled does history go back once. */
    method UnregisterModal(id: string)
      requires Valid()
      modifies this
      ensures stack == Remove(old(stack), id)
      ensures var top := old(stack) != [] && old(stack)[|old(stack)| - 1].id == id;
        if top && !old(handlingPopstate) then history == Back(old(history)) && handlingPopstate
        else history == old(history) && handlingPopstate == old(handlingPopstate)
      ensures closed == old(closed) && listenerAdded == old(listenerAdded) && Valid()
    {
      var index := FindIndex(id);
      if index == -1 {
        RemoveAbsent(stack, id);
        return;
      }
      var isTopmost := index == |stack| - 1;
      assert isTopmost <==> stack != [] && stack[|stack| - 1].id == id;
      SpliceIsRemove(stack, index);
      stack := stack[..index] + stack[index + 1..];
      if isTopmost && !handlingPopstate {
        handlingPopstate := true;
        history := Back(history);
      }
    }

    /** `removeFromStackSilently`: the id leaves the stack and nothing
        else changes. */
    method RemoveFromStackSilently(id: string)
      requires Valid()
      modifies this
      ensures stack == Remove(old(stack), id)
      ensures history == old(history) && handlingPopstate == old(handlingPopstate)
      ensures closed == old(closed) && listenerAdded == old(listenerAdded) && Valid()
    {
      var index := FindIndex(id);
      if index != -1 {
        SpliceIsRemove(stack, index);
        stack := stack[..index] + stack[index + 1..];
      } else {
        RemoveAbsent(stack, id);
      }
    }

    method IsModalRegistered(id: string) returns (r: bool)
      ensures r <==> OnStack(stack, id)
    {
      var index := FindIndex(id);
      r := index != -1;
    }

    method GetActiveCount() returns (n: nat)
      ensures n == |stack|
    {
      n := |stack|;
    }

    method EnsureBaseHistoryEntry()
      modifies this
      ensures history == EnsureBase(old(history))
      ensures stack == old(stack) && handlingPopstate == old(handlingPopstate)
      ensures closed == old(closed) && listenerAdded == old(listenerAdded)
    {
      history := EnsureBase(history);
    }
  }
}

=== FILE: storage.dfy ===
// The database storage of the server (server/storage.ts): the global
// Tehillim chain's next perek, the Pirkei Avot reading position, the
// prayer names and their expiry, and the choice of discount promotion.
//
// The tables the code touches are fields of one object; the clock and
// `Math.random()` are parameters.

module Storage {
  import opened Text

  // ---- The Tehillim chain ----

  const PerekCount := 150

  /** The perek after `current`: the chain goes round the 150 psalms. */
  function NextPerek(current: int): int {
    if current >= PerekCount then 1 else current + 1
  }

  /** `k` steps of the chain. */
  function Advance(perek: int, k: nat): int {
    if k == 0 then perek else NextPerek(Advance(perek, k - 1))
  }

  /** From any perek of the book, the chain reads every following perek in
      turn and comes back to the start after exactly 150 steps. */
  lemma {:induction false} ChainCycles(perek: int, k: nat)
    requires 1 <= perek <= PerekCount
    ensures Advance(perek, k) == (perek - 1 + k) % PerekCount + 1
    ensures 1 <= Advance(perek, k) <= PerekCount
  {
    if k > 0 {
      ChainCycles(perek, k - 1);
    }
  }

  // ---- Pirkei Avot ----

  /** The verse count of each chapter (`chapterStructure`). */
  function MaxVerse(chapter: int): Option<nat> {
    if chapter == 1 then Some(18)
    else if chapter == 2 then Some(21)
    else if chapter == 3 then Some(18)
    else if chapter == 4 then Some(22)
    else if chapter == 5 then Some(23)
    else if chapter == 6 then Some(11)
    else None
  }

  const ChapterCount := 6
  const VerseCount := 113

  predicate ValidReference(chapter: int, verse: int) {
    MaxVerse(chapter).Some? && 1 <= verse <= MaxVerse(chapter).value
  }

  /** `getNextPirkeiAvotReference`'s step: an unknown chapter restarts at
      1:1; at or past the chapter's last verse the next chapter begins
      (after chapter 6, chapter 1); otherwise the next verse. */
  function NextReference(chapter: int, verse: int): (r: (int, int))
    ensures MaxVerse(r.0).Some? && r.1 <= MaxVerse(r.0).value
    ensures verse >= 0 ==> ValidReference(r.0, r.1)
  {
    if MaxVerse(chapter).None? then (1, 1)
    else if verse >= MaxVerse(chapter).value then
      assert 1 <= chapter <= ChapterCount;
      if chapter + 1 > ChapterCount then (1, 1) else (chapter + 1, 1)
    else (chapter, verse + 1)
  }

  /** The verses before a chapter. */
  function ChapterStart(chapter: int): nat
    requires 1 <= chapter <= ChapterCount
  {
    if chapter == 1 then 0 else ChapterStart(chapter - 1) + MaxVerse(chapter - 1).value
  }

  /** The position of a reference among the 113 mishnayot. */
  function Position(chapter: int, verse: int): nat
    requires ValidReference(chapter, verse)
  {
    ChapterStart(chapter) + verse - 1
  }

  lemma PositionBound(chapter: int, verse: int)
    requires ValidReference(chapter, verse)
    ensures Position(chapter, verse) < VerseCount
  {
  }

  /** From a valid reference, each step moves one mishnah forward through
      the whole tractate, wrapping from 6:11 back to 1:1; so every mishnah
      is read once per 113 steps. */
  lemma NextReferenceCycles(chapter: int, verse: int)
    requires ValidReference(chapter, verse)
    ensures var (c, v) := NextReference(chapter, verse);
      Position(c, v) == (Position(chapter, verse) + 1) % VerseCount
  {
    PositionBound(chapter, verse);
  }

  /** Distinct references have distinct positions. */
  lemma PositionInjective(c1: int, v1: int, c2: int, v2: int)
    requires ValidReference(c1, v1) && ValidReference(c2, v2)
    requires Position(c1, v1) == Position(c2, v2)
    ensures c1 == c2 && v1 == v2
  {
    if c1 < c2 {
      StartsGrow(c1, c2);
    } else if c2 < c1 {
      StartsGrow(c2, c1);
    }
  }

  /** A later chapter starts after all the verses of an earlier one. */
  lemma {:induction false} StartsGrow(a: int, b: int)
    requires 1 <= a < b <= ChapterCount
    ensures ChapterStart(b) >= ChapterStart(a) + MaxVerse(a).value
    decreases b - a
  {
    if b > a + 1 {
      StartsGrow(a, b - 1);
    }
  }

  // ---- Names and promotions ----

  /** A name stays on the list for 18 days. */
  const NameLifetime := 18 * 24 * 60 * 60 * 1000

  datatype TehillimName = TehillimName(id: nat, name: string, dateAdded: int, expiresAt: int)

  /** The names `cleanupExpiredNames` keeps: those not past their expiry. */
  function Unexpired(names: seq<TehillimName>, now: int): (r: seq<TehillimName>)
    ensures forall n :: n in r <==> n in names && !(n.expiresAt < now)
  {
    if names == [] then []
    else
      var rest := Unexpired(names[1..], now);
      assert forall n :: n in names <==> n == names[0] || n in names[1..];
      if names[0].expiresAt < now then rest else [names[0]] + rest
  }

  /** The names `getActiveNames` returns: those expiring after now. */
  function Active(names: seq<TehillimName>, now: int): (r: seq<TehillimName>)
    ensures forall n :: n in r <==> n in names && n.expiresAt > now
  {
    if names == [] then []
    else
      var rest := Active(names[1..], now);
      assert forall n :: n in names <==> n == names[0] || n in names[1..];
      if names[0].expiresAt > now then [names[0]] + rest else rest
  }

  /** A second cleanup at the same time removes nothing more. */
  lemma {:induction false} UnexpiredIdempotent(names: seq<TehillimName>, now: int)
    ensures Unexpired(Unexpired(names, now), now) == Unexpired(names, now)
    decreases |names|
  {
    if names != [] {
      UnexpiredIdempotent(names[1..], now);
    }
  }

  /** Cleaning up first does not change which names are active. */
  lemma {:induction false} ActiveAfterCleanup(names: seq<TehillimName>, now: int)
    ensures Active(Unexpired(names, now), now) == Active(names, now)
    decreases |names|
  {
    if names != [] {
      ActiveAfterCleanup(names[1..], now);
    }
  }

  /** `Math.floor(random * n)`: an index into a list of `n` items. */
  function PickIndex(random: real, n: nat): (i: nat)
    requires 0.0 <= random < 1.0 && n > 0
    ensures i < n
  {
    var x := random * n as real;
    assert 0.0 <= x < n as real by {
      assert n as real - x == (1.0 - random) * n as real;
    }
    x.Floor
  }

  datatype Promotion = Promotion(id: nat, title: string, isActive: bool, startDate: int, endDate: int, targetLocation: string)

  /** The location whose promotion a user is shown first. */
  function TargetLocation(userLocation: Option<string>): string {
    if userLocation == Some("israel") then "israel" else "worldwide"
  }

  predicate Current(p: Promotion, location: string, now: int) {
    p.isActive && p.startDate <= now && p.endDate >= now && p.targetLocation == location
  }

  /** The `LIMIT 1` query: the first current promotion for `location`. */
  function FirstCurrent(promotions: seq<Promotion>, location: string, now: int): (r: Option<Promotion>)
    ensures r.Some? ==> r.value in promotions && Current(r.value, location, now)
    ensures r.None? <==> forall p :: p in promotions ==> !Current(p, location, now)
  {
    if promotions == [] then None
    else if Current(promotions[0], location, now) then Some(promotions[0])
    else
      assert forall p :: p in promotions ==> p == promotions[0] || p in promotions[1..];
      FirstCurrent(promotions[1..], location, now)
  }

  datatype GlobalProgress = GlobalProgress(id: nat, currentPerek: int, lastUpdated: int, completedBy: Option<string>)

  class Database {
    var globalProgress: Option<GlobalProgress>
    var pirkeiAvot: Option<(int, int)>
    var names: seq<TehillimName>
    var nextNameId: nat
    var promotions: seq<Promotion>

    constructor ()
      ensures globalProgress == None && pirkeiAvot == None && names == [] && nextNameId == 0 && promotions == []
    {
      globalProgress := None;
      pirkeiAvot := None;
      names := [];
      nextNameId := 0;
      promotions := [];
    }

    /** `getGlobalTehillimProgress`: the row, created at perek 1 when
        missing. */
    method GetGlobalTehillimProgress(now: int) returns (progress: GlobalProgress)
      modifies this
      ensures old(globalProgress).Some? ==> progress == old(globalProgress).value && globalProgress == old(globalProgress)
      ensures old(globalProgress).None? ==> progress == GlobalProgress(0, 1, now, None) && globalProgress == Some(progress)
      ensures pirkeiAvot == old(pirkeiAvot) && names == old(names) && nextNameId == old(nextNameId) && promotions == old(promotions)
    {
      if globalProgress.None? {
        globalProgress := Some(GlobalProgress(0, 1, now, None));
      }
      progress := globalProgress.value;
    }

    /** `updateGlobalTehillimProgress`: the chain moves on from the perek
        just completed; an empty `completedBy` is stored as null. Without
        a row, the row is created at perek 1 and the completion is not
        recorded. */
    method UpdateGlobalTehillimProgress(currentPerek: int, language: string, completedBy: Option<string>, now: int)
      returns (progress: GlobalProgress)
      modifies this
      ensures old(globalProgress).Some? ==>
        progress == old(globalProgress).value.(currentPerek := NextPerek(currentPerek), lastUpdated := now,
                                               completedBy := if completedBy == Some("") then None else completedBy)
      ensures old(globalProgress).None? ==> progress == GlobalProgress(0, 1, now, None)
      ensures globalProgress == Some(progress)
      ensures pirkeiAvot == old(pirkeiAvot) && names == old(names) && nextNameId == old(nextNameId) && promotions == old(promotions)
    {
      if globalProgress.Some? {
        var nextPerek := if currentPerek >= 150 then 1 else currentPerek + 1;
        var recordedBy := if completedBy.Some? && completedBy.value != "" then completedBy else None;
        progress := globalProgress.value.(currentPerek := nextPerek, lastUpdated := now, completedBy := recordedBy);
        globalProgress := Some(progress);
        return;
      }
      progress := GetGlobalTehillimProgress(now);
    }

    /** `getPirkeiAvotProgress`: the position, created at 1:1 when
        missing. */
    method GetPirkeiAvotProgress() returns (chapter: int, verse: int)
      modifies this
      ensures old(pirkeiAvot).Some? ==> (chapter, verse) == old(pirkeiAvot).value && pirkeiAvot == old(pirkeiAvot)
      ensures old(pirkeiAvot).None? ==> chapter == 1 && verse == 1 && pirkeiAvot == Some((1, 1))
      ensures globalProgress == old(globalProgress) && names == old(names) && nextNameId == old(nextNameId) && promotions == old(promotions)
    {
      if pirkeiAvot.None? {
        pirkeiAvot := Some((1, 1));
      }
      chapter, verse := pirkeiAvot.value.0, pirkeiAvot.value.1;
    }

    /** `getNextPirkeiAvotReference`: the stored position moves one step
        and is returned. */
    method GetNextPirkeiAvotReference() returns (chapter: int, verse: int)
      modifies this
      ensures var start := if old(pirkeiAvot).Some? then old(pirkeiAvot).value else (1, 1);
        (chapter, verse) == NextReference(start.0, start.1)
      ensures pirkeiAvot == Some((chapter, verse))
      ensures old(pirkeiAvot).Some? && ValidReference(old(pirkeiAvot).value.0, old(pirkeiAvot).value.1) ==>
        ValidReference(chapter, verse)
      ensures globalProgress == old(globalProgress) && names == old(names) && nextNameId == old(nextNameId) && promotions == old(promotions)
    {
      var currentChapter, currentVerse := GetPirkeiAvotProgress();
      var max := MaxVerse(currentChapter);
      if max.None? {
        currentChapter, currentVerse := 1, 1;
      } else if currentVerse >= max.value {
        var nextChapterIndex := currentChapter;
        if nextChapterIndex >= ChapterCount {
          currentChapter, currentVerse := 1, 1;
        } else {
          currentChapter, currentVerse := nextChapterIndex + 1, 1;
        }
      } else {
        currentVerse := currentVerse + 1;
      }
      pirkeiAvot := Some((currentChapter, currentVerse));
      chapter, verse := currentChapter, currentVerse;
    }

    /** `createTehillimName`: the name expires 18 days after it is added. */
    method CreateTehillimName(name: string, now: int) returns (created: TehillimName)
      modifies this
      ensures created == TehillimName(old(nextNameId), name, now, now + NameLifetime)
      ensures names == old(names) + [created] && nextNameId == old(nextNameId) + 1
      ensures globalProgress == old(globalProgress) && pirkeiAvot == old(pirkeiAvot) && promotions == old(promotions)
    {
      created := TehillimName(nextNameId, name, now, now + NameLifetime);
      names := names + [created];
      nextNameId := nextNameId + 1;
    }

    /** `cleanupExpiredNames`. */
    method CleanupExpiredNames(now: int)
      modifies this
      ensures names == Unexpired(old(names), now)
      ensures globalProgress == old(globalProgress) && pirkeiAvot == old(pirkeiAvot)
      ensures nextNameId == old(nextNameId) && promotions == old(promotions)
    {
      names := Unexpired(names, now);
    }

    /** `getActiveNames`: expired names are deleted, and the names expiring
        after now are returned. */
    method GetActiveNames(now: int) returns (active: seq<TehillimName>)
      modifies this
      ensures names == Unexpired(old(names), now) && active == Active(old(names), now)
      ensures globalProgress == old(globalProgress) && pirkeiAvot == old(pirkeiAvot)
      ensures nextNameId == old(nextNameId) && promotions == old(promotions)
    {
      CleanupExpiredNames(now);
      ActiveAfterCleanup(old(names), now);
      active := Active(names, now);
    }

    /** `getRandomNameForPerek`: none exactly when no name is active,
        otherwise the active name `random` picks. */
    method GetRandomNameForPerek(now: int, random: real) returns (chosen: Option<TehillimName>)
      requires 0.0 <= random < 1.0
      modifies this
      ensures chosen.None? <==> Active(old(names), now) == []
      ensures chosen.Some? ==> chosen.value in old(names) && now < chosen.value.expiresAt
      ensures names == Unexpired(old(names), now)
      ensures globalProgress == old(globalProgress) && pirkeiAvot == old(pirkeiAvot)
      ensures nextNameId == old(nextNameId) && promotions == old(promotions)
    {
      CleanupExpiredNames(now);
      var activeNames := GetActiveNames(now);
      ActiveAfterCleanup(old(names), now);
      UnexpiredIdempotent(old(names), now);
      if |activeNames| == 0 {
        return None;
      }
      var randomIndex := PickIndex(random, |activeNames|);
      return Some(activeNames[randomIndex]);
    }

    /** `getActiveDiscountPromotion`: the first current promotion for the
        user's target location; for Israel, a worldwide one when Israel has
        none. A failed query gives none. */
    method GetActiveDiscountPromotion(userLocation: Option<string>, now: int, failed: bool) returns (promotion: Option<Promotion>)
      ensures failed ==> promotion.None?
      ensures !failed && promotion.Some? ==> promotion.value in promotions
      ensures !failed ==>
        promotion ==
        var first := FirstCurrent(promotions, TargetLocation(userLocation), now);
        if first.None? && TargetLocation(userLocation) == "israel" then FirstCurrent(promotions, "worldwide", now) else first
    {
      if failed {
        return None;
      }
      var targetLocation := "worldwide";
      if userLocation == Some("israel") {
        targetLocation := "israel";
      }
      promotion := FirstCurrent(promotions, targetLocation, now);
      if promotion.None? && targetLocation == "israel" {
        promotion := FirstCurrent(promotions, "worldwide", now);
      }
    }
  }

  /** Only users in Israel see Israel promotions; anyone sees a worldwide
      one when nothing more specific applies. */
  lemma PromotionTargets(promotions: seq<Promotion>, userLocation: Option<string>, now: int)
    ensures var first := FirstCurrent(promotions, TargetLocation(userLocation), now);
      var chosen := if first.None? && TargetLocation(userLocation) == "israel" then FirstCurrent(promotions, "worldwide", now) else first;
      (chosen.Some? ==> chosen.value.targetLocation == "worldwide"
                        || (chosen.value.targetLocation == "israel" && userLocation == Some("israel")))
      && (chosen.None? <==> (forall p :: p in promotions ==> !Current(p, TargetLocation(userLocation), now))
                            && (userLocation == Some("israel") ==> forall p :: p in promotions ==> !Current(p, "worldwide", now)))
  {
  }
}

=== FILE: storage_js.dfy ===
// The compiled database storage of the server (server/storage.js): the
// global Tehillim chain with its book-completion event, the Pirkei Avot
// cycle by order index, and the daily, monthly and all-time statistics
// built from the analytics events.
//
// The tables are fields of one object; the clock enters as `now` (a
// timestamp) and `today` (the formatted date).

module StorageJs {
  import opened Text
  import Storage
  import AppCompletions

  // ---- Analytics events ----

  /** An analytics row: its type, its session (possibly null), the fields
      of its `eventData`, and its creation time `createdAt` as the formatted
      local date and the milliseconds since that day's midnight. */
  datatype Event = Event(eventType: string, sessionId: Option<string>, data: map<string, string>, day: string, timeMs: nat)

  /** The start of a day's last second, in milliseconds after midnight. */
  const LastSecond := 86_399_000

  /** The rows `recalculateDailyStats` selects for a date: created strictly
      after `date`T00:00:00 and strictly before `date`T23:59:59, so an event
      at midnight exactly or within the last second is not counted. */
  predicate Counted(e: Event, date: string) {
    e.day == date && 0 < e.timeMs < LastSecond
  }

  const BookComplete := "tehillim_book_complete"

  /** The event `updateGlobalTehillimProgress` records when the book is
      finished; an absent or empty name is recorded as 'Anonymous'. */
  function BookCompleteEvent(completedBy: Option<string>, language: string, today: string, timeMs: nat): Event {
    var who := if completedBy.Some? && completedBy.value != "" then completedBy.value else "Anonymous";
    Event(BookComplete, Some("system"), map["completedBy" := who, "language" := language], today, timeMs)
  }

  /** The events the day's query selects, in order. */
  function OnDay(events: seq<Event>, date: string): (r: seq<Event>)
    ensures forall e :: e in r <==> e in events && Counted(e, date)
  {
    if events == [] then []
    else
      var init := OnDay(events[..|events| - 1], date);
      var last := events[|events| - 1];
      assert forall e :: e in events <==> e in events[..|events| - 1] || e == last;
      if Counted(last, date) then init + [last] else init
  }

  /** An event created at midnight exactly or in the last second of its day
      leaves the day's selection, and so the day's statistics, as they were. */
  lemma EdgeEventsNotCounted(events: seq<Event>, e: Event)
    requires e.timeMs == 0 || e.timeMs >= LastSecond
    ensures OnDay(events + [e], e.day) == OnDay(events, e.day)
  {
    assert (events + [e])[..|events|] == events;
  }

  /** The day's selection as evidently intended: every event dated that
      day, from midnight up to the next midnight. */
  function OnWholeDay(events: seq<Event>, date: string): (r: seq<Event>)
    ensures forall e :: e in r <==> e in events && e.day == date
  {
    if events == [] then []
    else
      var init := OnWholeDay(events[..|events| - 1], date);
      var last := events[|events| - 1];
      assert forall e :: e in events <==> e in events[..|events| - 1] || e == last;
      if last.day == date then init + [last] else init
  }

  /** With the whole-day selection every new event joins its day's
      selection, at its end, whatever its time of day; and it selects
      everything the strict query does. */
  lemma WholeDayCountsEvery(events: seq<Event>, e: Event)
    ensures OnWholeDay(events + [e], e.day) == OnWholeDay(events, e.day) + [e]
    ensures forall x :: x in OnDay(events, e.day) ==> x in OnWholeDay(events, e.day)
  {
    assert (events + [e])[..|events|] == events;
  }

  // ---- The Tehillim chain ----

  datatype ChainRow = ChainRow(currentPerek: int, currentNameId: Option<nat>, lastUpdated: int, completedBy: Option<string>)

  /** `nextName?.id || null`: a missing name or an id of 0 stores null. */
  function NameRef(nameId: Option<nat>): (r: Option<nat>)
    ensures r.Some? <==> nameId.Some? && nameId.value != 0
    ensures r.Some? ==> r == nameId
  {
    if nameId.Some? && nameId.value != 0 then nameId else None
  }

  /** A completion of a perek in the book records the book-complete event
      exactly when it sends the chain back to psalm 1. */
  lemma BookCompleteIffWrap(currentPerek: int)
    requires 1 <= currentPerek <= Storage.PerekCount
    ensures currentPerek == 150 <==> Storage.NextPerek(currentPerek) == 1
  {
  }

  // ---- Pirkei Avot ----

  /** A Pirkei Avot entry; only its order index matters to the cycle. */
  datatype Mishnah = Mishnah(orderIndex: int, text: string)

  /** The largest order index (`Math.max` over the content). */
  function MaxIndex(content: seq<Mishnah>): (m: int)
    requires content != []
    ensures exists k :: 0 <= k < |content| && content[k].orderIndex == m
    ensures forall k :: 0 <= k < |content| ==> content[k].orderIndex <= m
  {
    if |content| == 1 then content[0].orderIndex
    else
      var rest := MaxIndex(content[1..]);
      assert forall k :: 1 <= k < |content| ==> content[k] == content[1..][k - 1];
      if content[0].orderIndex >= rest then content[0].orderIndex else rest
  }

  /** The index after `current`: one more, or 0 past the largest. */
  function NextOrderIndex(current: int, content: seq<Mishnah>): int
    requires content != []
  {
    if current + 1 > MaxIndex(content) then 0 else current + 1
  }

  /** With the entries numbered 0 to n - 1 (in any order), the cycle steps
      through them in turn and starts over after the last. */
  lemma NextOrderIndexCycles(current: int, content: seq<Mishnah>, n: nat)
    requires content != []
    requires forall k :: 0 <= k < |content| ==> 0 <= content[k].orderIndex < n
    requires exists k :: 0 <= k < |content| && content[k].orderIndex == n - 1
    requires 0 <= current < n
    ensures NextOrderIndex(current, content) == (current + 1) % n
  {
    MaxIndexIs(content, n - 1);
    if current + 1 < n {
      assert (current + 1) % n == current + 1;
    } else {
      assert current + 1 == n;
    }
  }

  /** An index that occurs and bounds all others is the largest. */
  lemma MaxIndexIs(content: seq<Mishnah>, m: int)
    requires content != []
    requires forall k :: 0 <= k < |content| ==> content[k].orderIndex <= m
    requires exists k :: 0 <= k < |content| && content[k].orderIndex == m
    ensures MaxIndex(content) == m
  {
    var k :| 0 <= k < |content| && content[k].orderIndex == m;
    var j :| 0 <= j < |content| && content[j].orderIndex == MaxIndex(content);
  }

  /** The first entry with the order index (`getPirkeiAvotByOrderIndex`). */
  function WithIndex(content: seq<Mishnah>, index: int): (r: Option<Mishnah>)
    ensures r.Some? ==> r.value in content && r.value.orderIndex == index
    ensures r.None? ==> forall m :: m in content ==> m.orderIndex != index
  {
    if content == [] then None
    else if content[0].orderIndex == index then Some(content[0])
    else
      assert forall m :: m in content ==> m == content[0] || m in content[1..];
      WithIndex(content[1..], index)
  }

  // ---- Statistics ----

  /** A `daily_stats` row; counters the row leaves null read as 0. */
  datatype DayStats = DayStats(uniqueUsers: nat, pageViews: nat, tehillimCompleted: nat, namesProcessed: nat,
                               booksCompleted: nat, totalActs: nat, modalCompletions: map<string, nat>)

  /** The row `recordActiveSession` creates for a day's first session. */
  const FirstSession := DayStats(1, 0, 0, 0, 0, 0, map[])

  predicate Truthy(s: Option<string>) {
    s.Some? && s.value != ""
  }

  /** The distinct non-empty session ids of the events. */
  function Sessions(events: seq<Event>): set<string> {
    set e | e in events && Truthy(e.sessionId) :: e.sessionId.value
  }

  function OfType(events: seq<Event>, eventType: string): nat {
    CountWhere(events, (e: Event) => e.eventType == eventType)
  }

  predicate IsModalComplete(e: Event) {
    e.eventType == "modal_complete"
  }

  /** `eventData?.modalType || 'unknown'`. */
  function ModalType(e: Event): string {
    if "modalType" in e.data && e.data["modalType"] != "" then e.data["modalType"] else "unknown"
  }

  /** The modal counts of a day's events. */
  function ModalTally(events: seq<Event>): map<string, nat> {
    if events == [] then map[]
    else
      var last := events[|events| - 1];
      var m := ModalTally(events[..|events| - 1]);
      if IsModalComplete(last) then AppCompletions.Bump(m, Some(ModalType(last))) else m
  }

  /** Each modal type counts the modal completions of that type, and only
      types that occur are keys. */
  lemma {:induction false} ModalTallyCounts(events: seq<Event>, modalType: string)
    ensures AppCompletions.Get(ModalTally(events), modalType)
         == CountWhere(events, (e: Event) => IsModalComplete(e) && ModalType(e) == modalType)
    ensures modalType in ModalTally(events) <==> AppCompletions.Get(ModalTally(events), modalType) > 0
    decreases |events|
  {
    if events != [] {
      ModalTallyCounts(events[..|events| - 1], modalType);
    }
  }

  /** The modal types whose completions count as acts. */
  const TorahActs := ["torah", "chizuk", "emuna", "halacha", "featured-content"]
  const TefillaActs := ["tefilla", "morning-brochas", "mincha", "maariv", "nishmas", "birkat-hamazon", "tehillim-text", "special-tehillim"]
  const TzedakaActs := ["tzedaka", "donate"]
  const ActTypes := TorahActs + TefillaActs + TzedakaActs

  predicate IsAct(modalType: string) {
    modalType in TorahActs || modalType in TefillaActs || modalType in TzedakaActs
  }

  /** The acts of a day: the completions of every act type, plus the
      Tehillim completions. */
  function TotalActs(modal: map<string, nat>, tehillimCompleted: nat): nat {
    AppCompletions.Total(modal, ActTypes) + tehillimCompleted
  }

  /** A modal type's weight in the act count. */
  function ActWeight(modal: map<string, nat>): string -> int {
    (k: string) => if IsAct(k) then AppCompletions.Get(modal, k) else 0
  }

  function Count(modal: map<string, nat>): string -> int {
    (k: string) => AppCompletions.Get(modal, k)
  }

  lemma {:induction false} TotalIsListSum(modal: map<string, nat>, keys: seq<string>)
    ensures AppCompletions.Total(modal, keys) == ListSum(keys, Count(modal))
    decreases |keys|
  {
    if keys != [] {
      TotalIsListSum(modal, keys[..|keys| - 1]);
    }
  }

  /** Keys on which `f` is zero can be left out of a sum. */
  lemma {:induction false} SetSumRestrict(keys: set<string>, sub: set<string>, f: string -> int)
    requires sub <= keys
    requires forall k :: k in keys && k !in sub ==> f(k) == 0
    ensures SetSum(keys, f) == SetSum(sub, f)
    decreases |keys|
  {
    if keys != sub {
      var x :| x in keys && x !in sub;
      SetSumRemove(keys, x, f);
      SetSumRestrict(keys - {x}, sub, f);
    }
  }

  /** Functions that agree on the keys have the same sum. */
  lemma {:induction false} SetSumAgree(keys: set<string>, f: string -> int, g: string -> int)
    requires forall k :: k in keys ==> f(k) == g(k)
    ensures SetSum(keys, f) == SetSum(keys, g)
    decreases |keys|
  {
    if keys != {} {
      var x :| x in keys;
      SetSumRemove(keys, x, f);
      SetSumRemove(keys, x, g);
      SetSumAgree(keys - {x}, f, g);
    }
  }

  /** Counting the act types among the map's entries, in whatever order
      `Object.entries` gives them, sums the counts of the act types. */
  lemma ActsFromEntries(modal: map<string, nat>)
    ensures SetSum(modal.Keys, ActWeight(modal)) == AppCompletions.Total(modal, ActTypes)
  {
    var acts := set k | k in ActTypes;
    var both := modal.Keys * acts;
    SetSumRestrict(modal.Keys, both, ActWeight(modal));
    SetSumAgree(both, ActWeight(modal), Count(modal));
    SetSumRestrict(acts, both, Count(modal));
    ListSumIsSetSum(ActTypes, Count(modal));
    TotalIsListSum(modal, ActTypes);
  }

  /** `calculateTotalActs`: the loop over the map's entries. */
  method CalculateTotalActs(modal: map<string, nat>, tehillimCompleted: nat) returns (total: nat)
    ensures total == TotalActs(modal, tehillimCompleted)
  {
    var entries := KeyList(modal.Keys);
    total := 0;
    for i := 0 to |entries|
      invariant total == ListSum(entries[..i], ActWeight(modal))
    {
      var modalType := entries[i];
      PrefixSnoc(entries, i);
      if modalType in TorahActs || modalType in TefillaActs || modalType in TzedakaActs {
        total := total + modal[modalType];
      }
    }
    assert entries[..|entries|] == entries;
    ListSumIsSetSum(entries, ActWeight(modal));
    assert (set k | k in entries) == modal.Keys;
    ActsFromEntries(modal);
    total := total + tehillimCompleted;
  }

  /** The row `recalculateDailyStats` writes for a day's events. */
  function DayStatsOf(events: seq<Event>): DayStats {
    var modal := ModalTally(events);
    var tehillim := OfType(events, "tehillim_complete");
    DayStats(|Sessions(events)|, 0, tehillim, OfType(events, "name_prayed"), OfType(events, BookComplete),
             TotalActs(modal, tehillim), modal)
  }

  /** Distinct sessions number no more than the events carrying one. */
  lemma {:induction false} SessionsBound(events: seq<Event>)
    ensures |Sessions(events)| <= CountWhere(events, (e: Event) => Truthy(e.sessionId))
    decreases |events|
  {
    if events != [] {
      var init := events[..|events| - 1];
      var last := events[|events| - 1];
      SessionsBound(init);
      if Truthy(last.sessionId) {
        assert Sessions(events) == Sessions(init) + {last.sessionId.value};
      } else {
        assert Sessions(events) == Sessions(init);
      }
    }
  }

  /** A day's row counts its events: no more unique users than events with
      a session, each counter at most the number of events, and every
      modal type its completions. */
  lemma DayStatsCounts(events: seq<Event>, modalType: string)
    ensures var s := DayStatsOf(events);
      s.uniqueUsers <= |events| && s.pageViews == 0
      && s.tehillimCompleted + s.booksCompleted <= |events|
      && AppCompletions.Get(s.modalCompletions, modalType)
         == CountWhere(events, (e: Event) => IsModalComplete(e) && ModalType(e) == modalType)
  {
    SessionsBound(events);
    ModalTallyCounts(events, modalType);
    DisjointCounts(events, "tehillim_complete", BookComplete);
  }

  /** Events of two different types are counted apart. */
  lemma {:induction false} DisjointCounts(events: seq<Event>, a: string, b: string)
    requires a != b
    ensures OfType(events, a) + OfType(events, b) <= |events|
    decreases |events|
  {
    if events != [] {
      DisjointCounts(events[..|events| - 1], a, b);
    }
  }

  /** The forEach over the modal completions. */
  method TallyModal(events: seq<Event>) returns (modal: map<string, nat>)
    ensures modal == ModalTally(events)
  {
    modal := map[];
    for i := 0 to |events|
      invariant modal == ModalTally(events[..i])
    {
      var e := events[i];
      assert events[..i + 1][..i] == events[..i];
      if e.eventType == "modal_complete" {
        var modalType := ModalType(e);
        modal := modal[modalType := (if modalType in modal then modal[modalType] else 0) + 1];
      }
    }
    assert events[..|events|] == events;
  }

  /** Monthly and all-time totals. */
  datatype Totals = Totals(users: nat, pageViews: nat, tehillimCompleted: nat, namesProcessed: nat,
                           booksCompleted: nat, acts: nat, modalCompletions: map<string, nat>)

  const NoTotals := Totals(0, 0, 0, 0, 0, 0, map[])

  /** The totals after one more row. */
  function AddRow(t: Totals, row: DayStats): Totals {
    Totals(t.users + row.uniqueUsers, t.pageViews + row.pageViews, t.tehillimCompleted + row.tehillimCompleted,
           t.namesProcessed + row.namesProcessed, t.booksCompleted + row.booksCompleted, t.acts + row.totalActs,
           AppCompletions.Added(t.modalCompletions, row.modalCompletions))
  }

  function SumRows(rows: seq<DayStats>): Totals {
    if rows == [] then NoTotals else AddRow(SumRows(rows[..|rows| - 1]), rows[|rows| - 1])
  }

  /** Each total is the sum of that field over the rows. */
  lemma {:induction false} SumRowsFields(rows: seq<DayStats>)
    ensures var t := SumRows(rows);
      t.users == Sum(Map((r: DayStats) => r.uniqueUsers, rows))
      && t.pageViews == Sum(Map((r: DayStats) => r.pageViews, rows))
      && t.tehillimCompleted == Sum(Map((r: DayStats) => r.tehillimCompleted, rows))
      && t.namesProcessed == Sum(Map((r: DayStats) => r.namesProcessed, rows))
      && t.booksCompleted == Sum(Map((r: DayStats) => r.booksCompleted, rows))
      && t.acts == Sum(Map((r: DayStats) => r.totalActs, rows))
    decreases |rows|
  {
    if rows != [] {
      var init := rows[..|rows| - 1];
      SumRowsFields(init);
      SumLast(Map((r: DayStats) => r.uniqueUsers, init), rows[|rows| - 1].uniqueUsers);
      SumLast(Map((r: DayStats) => r.pageViews, init), rows[|rows| - 1].pageViews);
      SumLast(Map((r: DayStats) => r.tehillimCompleted, init), rows[|rows| - 1].tehillimCompleted);
      SumLast(Map((r: DayStats) => r.namesProcessed, init), rows[|rows| - 1].namesProcessed);
      SumLast(Map((r: DayStats) => r.booksCompleted, init), rows[|rows| - 1].booksCompleted);
      SumLast(Map((r: DayStats) => r.totalActs, init), rows[|rows| - 1].totalActs);
    }
  }

  lemma SumLast(s: seq<nat>, x: nat)
    ensures Sum(s + [x]) == Sum(s) + x
  {
    assert (s + [x])[..|s|] == s;
  }

  /** Each modal type's total is the sum of its count over the rows. */
  lemma {:induction false} SumRowsModal(rows: seq<DayStats>, modalType: string)
    ensures AppCompletions.Get(SumRows(rows).modalCompletions, modalType)
         == Sum(Map((r: DayStats) => AppCompletions.Get(r.modalCompletions, modalType), rows))
    decreases |rows|
  {
    if rows != [] {
      var init := rows[..|rows| - 1];
      SumRowsModal(init, modalType);
      SumLast(Map((r: DayStats) => AppCompletions.Get(r.modalCompletions, modalType), init),
              AppCompletions.Get(rows[|rows| - 1].modalCompletions, modalType));
    }
  }

  /** Only modal types some row has are keys of the total. */
  lemma {:induction false} SumRowsModalKeys(rows: seq<DayStats>, modalType: string)
    ensures modalType in SumRows(rows).modalCompletions <==> exists r :: r in rows && modalType in r.modalCompletions
    decreases |rows|
  {
    if rows != [] {
      var init := rows[..|rows| - 1];
      var last := rows[|rows| - 1];
      SumRowsModalKeys(init, modalType);
      assert forall r :: r in rows <==> r in init || r == last;
    }
  }

  /** The accumulation loop shared by `getMonthlyStats` and
      `getTotalStats`. */
  method AccumulateStats(rows: seq<DayStats>) returns (totals: Totals)
    ensures totals == SumRows(rows)
  {
    totals := NoTotals;
    for i := 0 to |rows|
      invariant totals == SumRows(rows[..i])
    {
      var stats := rows[i];
      assert rows[..i + 1][..i] == rows[..i];
      var modal := AppCompletions.AddCounts(totals.modalCompletions, stats.modalCompletions);
      totals := Totals(totals.users + stats.uniqueUsers, totals.pageViews + stats.pageViews,
                       totals.tehillimCompleted + stats.tehillimCompleted, totals.namesProcessed + stats.namesProcessed,
                       totals.booksCompleted + stats.booksCompleted, totals.acts + stats.totalActs, modal);
    }
    assert rows[..|rows|] == rows;
  }

  /** `getMonthlyStats`: the month's rows summed; a failed query gives all
      zeros. */
  method GetMonthlyStats(monthRows: Option<seq<DayStats>>) returns (totals: Totals)
    ensures monthRows.None? ==> totals == NoTotals
    ensures monthRows.Some? ==> totals == SumRows(monthRows.value)
  {
    if monthRows.None? {
      return NoTotals;
    }
    totals := AccumulateStats(monthRows.value);
  }

  /** `getTotalStats`: every stored row summed. */
  method GetTotalStats(daily: map<string, DayStats>, dates: seq<string>) returns (totals: Totals)
    requires forall d :: d in dates <==> d in daily
    requires Distinct(dates)
    ensures totals == SumRows(Map((d: string) => if d in daily then daily[d] else FirstSession, dates))
  {
    var rows := Map((d: string) => if d in daily then daily[d] else FirstSession, dates);
    totals := AccumulateStats(rows);
  }

  class Store {
    var chain: Option<ChainRow>
    var events: seq<Event>
    var pirkei: Option<(int, string)>
    var daily: map<string, DayStats>

    constructor ()
      ensures chain == None && events == [] && pirkei == None && daily == map[]
    {
      chain := None;
      events := [];
      pirkei := None;
      daily := map[];
    }

    /** `getGlobalTehillimProgress`: the row, created at psalm 1 with the
        assigned name when missing. */
    method GetGlobalTehillimProgress(initialNameId: Option<nat>, now: int) returns (row: ChainRow)
      modifies this
      ensures old(chain).Some? ==> row == old(chain).value && chain == old(chain)
      ensures old(chain).None? ==> row == ChainRow(1, NameRef(initialNameId), now, None) && chain == Some(row)
      ensures events == old(events) && pirkei == old(pirkei) && daily == old(daily)
    {
      if chain.None? {
        chain := Some(ChainRow(1, NameRef(initialNameId), now, None));
      }
      row := chain.value;
    }

    /** `trackEvent`: the event is stored and the day's row recalculated. */
    method TrackEvent(event: Event, today: string) returns (stored: Event)
      modifies this
      ensures stored == event && events == old(events) + [event]
      ensures daily == old(daily)[today := DayStatsOf(OnDay(events, today))]
      ensures chain == old(chain) && pirkei == old(pirkei)
    {
      events := events + [event];
      var _ := RecalculateDailyStats(today);
      stored := event;
    }

    /** `updateGlobalTehillimProgress`: the chain moves to the next psalm,
        and finishing psalm 150 records the book-complete event first.
        Without a row, the row is created and nothing else happens. */
    method UpdateGlobalTehillimProgress(currentPerek: int, language: string, completedBy: Option<string>,
                                        nextNameId: Option<nat>, now: int, today: string, timeMs: nat)
      returns (row: ChainRow)
      modifies this
      ensures old(chain).Some? ==>
        row == ChainRow(Storage.NextPerek(currentPerek), NameRef(nextNameId), now,
                        if completedBy.Some? && completedBy.value != "" then completedBy else None)
      ensures old(chain).None? ==> row == ChainRow(1, NameRef(nextNameId), now, None)
      ensures chain == Some(row)
      ensures old(chain).Some? && currentPerek == 150 ==>
        events == old(events) + [BookCompleteEvent(completedBy, language, today, timeMs)]
        && daily == old(daily)[today := DayStatsOf(OnDay(events, today))]
      ensures !(old(chain).Some? && currentPerek == 150) ==> events == old(events) && daily == old(daily)
      ensures pirkei == old(pirkei)
    {
      if chain.Some? {
        var isBookComplete := currentPerek == 150;
        var nextPerek := if currentPerek >= 150 then 1 else currentPerek + 1;
        if isBookComplete {
          var _ := TrackEvent(BookCompleteEvent(completedBy, language, today, timeMs), today);
        }
        row := ChainRow(nextPerek, NameRef(nextNameId), now,
                        if completedBy.Some? && completedBy.value != "" then completedBy else None);
        chain := Some(row);
        return;
      }
      row := GetGlobalTehillimProgress(nextNameId, now);
    }

    /** `getPirkeiAvotProgress`: created at index 0, updated today, when
        missing. */
    method GetPirkeiAvotProgress(today: string) returns (index: int, lastUpdated: string)
      modifies this
      ensures old(pirkei).Some? ==> (index, lastUpdated) == old(pirkei).value && pirkei == old(pirkei)
      ensures old(pirkei).None? ==> index == 0 && lastUpdated == today && pirkei == Some((0, today))
      ensures chain == old(chain) && events == old(events) && daily == old(daily)
    {
      if pirkei.None? {
        pirkei := Some((0, today));
      }
      index, lastUpdated := pirkei.value.0, pirkei.value.1;
    }

    /** `advancePirkeiAvotProgress`: without content the position stays;
        otherwise it moves to the next index, updated today. */
    method AdvancePirkeiAvotProgress(content: seq<Mishnah>, today: string) returns (index: int)
      modifies this
      ensures var start := if old(pirkei).Some? then old(pirkei).value else (0, today);
        if content == [] then pirkei == Some(start) && index == start.0
        else index == NextOrderIndex(start.0, content) && pirkei == Some((index, today))
      ensures chain == old(chain) && events == old(events) && daily == old(daily)
    {
      var current, updated := GetPirkeiAvotProgress(today);
      if |content| == 0 {
        return current;
      }
      var maxOrderIndex := MaxIndex(content);
      var nextOrderIndex := current + 1;
      if nextOrderIndex > maxOrderIndex {
        nextOrderIndex := 0;
      }
      pirkei := Some((nextOrderIndex, today));
      index := nextOrderIndex;
    }

    /** `getCurrentPirkeiAvot`: the position advances when it was last
        moved on another day, and the entry at the position is returned.
        After the call the position is dated today, so a second call on the
        same day does not move it again. */
    method GetCurrentPirkeiAvot(content: seq<Mishnah>, today: string) returns (entry: Option<Mishnah>)
      modifies this
      ensures var start := if old(pirkei).Some? then old(pirkei).value else (0, today);
        var index := if start.1 == today || content == [] then start.0 else NextOrderIndex(start.0, content);
        entry == WithIndex(content, index)
        && pirkei == Some((index, if content == [] then start.1 else today))
      ensures old(pirkei).Some? && old(pirkei).value.1 == today ==> pirkei == old(pirkei)
      ensures chain == old(chain) && events == old(events) && daily == old(daily)
    {
      var index, lastUpdated := GetPirkeiAvotProgress(today);
      if today != lastUpdated {
        index := AdvancePirkeiAvotProgress(content, today);
      }
      entry := WithIndex(content, index);
    }

    /** `recordActiveSession`: today's unique users go up by one, or the
        row is created with one user and every other counter 0. */
    method RecordActiveSession(today: string)
      modifies this
      ensures today in old(daily) ==>
        daily == old(daily)[today := old(daily)[today].(uniqueUsers := old(daily)[today].uniqueUsers + 1)]
      ensures today !in old(daily) ==> daily == old(daily)[today := FirstSession]
      ensures chain == old(chain) && events == old(events) && pirkei == old(pirkei)
    {
      if today in daily {
        var existing := daily[today];
        daily := daily[today := existing.(uniqueUsers := existing.uniqueUsers + 1)];
      } else {
        daily := daily[today := FirstSession];
      }
    }

    /** `recalculateDailyStats`: the day's row is rebuilt from its events,
        whether or not it existed. */
    method RecalculateDailyStats(date: string) returns (stats: DayStats)
      modifies this
      ensures stats == DayStatsOf(OnDay(events, date))
      ensures daily == old(daily)[date := stats]
      ensures chain == old(chain) && events == old(events) && pirkei == old(pirkei)
    {
      var todayEvents := OnDay(events, date);
      var uniqueSessions := Sessions(todayEvents);
      var tehillimCompleted := CountWhere(todayEvents, (e: Event) => e.eventType == "tehillim_complete");
      var namesProcessed := CountWhere(todayEvents, (e: Event) => e.eventType == "name_prayed");
      var booksCompleted := CountWhere(todayEvents, (e: Event) => e.eventType == BookComplete);
      var modalCompletions := TallyModal(todayEvents);
      var totalActs := CalculateTotalActs(modalCompletions, tehillimCompleted);
      stats := DayStats(|uniqueSessions|, 0, tehillimCompleted, namesProcessed, booksCompleted, totalActs, modalCompletions);
      daily := daily[date := stats];
    }
  }
}

=== FILE: tefilla_processor.dfy ===
// Calendar range rules and condition tags of the prayer-text processor
// (client/src/utils/tefilla-processor.ts).

module TefillaProcessor {
  import opened Text

  /** Folds spelling variants of a Hebrew month name onto the names the
      range checks use. */
  function NormalizeHebrewMonth(month: string): (r: string)
    ensures Contains(month, "Adar") ==> r == "Adar"
    ensures !Contains(month, "Adar") && (month == "Sh'vat" || month == "Shvat") ==> r == "Shevat"
    ensures !Contains(month, "Adar") && month == "Nisan" ==> r == "Nissan"
    ensures !Contains(month, "Adar") && month == "Iyyar" ==> r == "Iyar"
    ensures !Contains(month, "Adar") && month !in ["Sh'vat", "Shvat", "Nisan", "Iyyar"] ==> r == month
  {
    if Contains(month, "Adar") then "Adar"
    else if month == "Sh'vat" || month == "Shvat" then "Shevat"
    else if month == "Nisan" then "Nissan"
    else if month == "Iyyar" then "Iyar"
    else month
  }

  /** The Hebrew-date object of the calendar service. A missing or empty
      `hebrewMonth` is `None`; `hebrewDay` is `None` when it is missing or
      does not parse as an integer. */
  datatype HebrewDateInfo = HebrewDateInfo(
    hebrewMonth: Option<string>,
    hebrewDay: Option<int>,
    isRoshChodesh: bool,
    events: seq<string>)

  /** A parsed Hebrew date: normalised month name and day. */
  datatype MonthDay = MonthDay(month: string, day: int)

  /** parseHebrewDate: no date gives `None`; a missing month reads as the
      empty name and a missing or unparsable (or zero) day as 0. */
  function ParseHebrewDate(hebrewDate: Option<HebrewDateInfo>): (r: Option<MonthDay>)
    ensures r.None? <==> hebrewDate.None?
    ensures r.Some? ==> r.value.month == NormalizeHebrewMonth(
      if hebrewDate.value.hebrewMonth.Some? then hebrewDate.value.hebrewMonth.value else "")
    ensures r.Some? && hebrewDate.value.hebrewDay.None? ==> r.value.day == 0
    ensures r.Some? && hebrewDate.value.hebrewDay.Some? ==> r.value.day == hebrewDate.value.hebrewDay.value
  {
    match hebrewDate
    case None => None
    case Some(d) =>
      var raw := if d.hebrewMonth.Some? then d.hebrewMonth.value else "";
      Some(MonthDay(NormalizeHebrewMonth(raw), if d.hebrewDay.Some? then d.hebrewDay.value else 0))
  }

  /** The Hebrew months from Tishrei (index 0) to Elul (index 11). */
  const MonthOrder: seq<string> := [
    "Tishrei", "Cheshvan", "Kislev", "Tevet", "Shevat", "Adar",
    "Nissan", "Iyar", "Sivan", "Tammuz", "Av", "Elul"]

  /** `monthOrder.indexOf(x)`: the position of `x` in the month list, or -1. */
  function MonthIndex(x: string): (r: int)
    ensures -1 <= r < |MonthOrder|
    ensures r >= 0 ==> MonthOrder[r] == x
    ensures r == -1 <==> x !in MonthOrder
  {
    if x == "Tishrei" then 0 else if x == "Cheshvan" then 1 else if x == "Kislev" then 2
    else if x == "Tevet" then 3 else if x == "Shevat" then 4 else if x == "Adar" then 5
    else if x == "Nissan" then 6 else if x == "Iyar" then 7 else if x == "Sivan" then 8
    else if x == "Tammuz" then 9 else if x == "Av" then 10 else if x == "Elul" then 11 else -1
  }

  /** (m1, d1) comes no later than (m2, d2). */
  predicate NotAfter(m1: int, d1: int, m2: int, d2: int) {
    m1 < m2 || (m1 == m2 && d1 <= d2)
  }

  /** The month/day decision shared by both range checks: inclusive at both
      ends, and wrapping past the end of the year when the start month comes
      after the end month. */
  function InRange(month: int, day: int, startMonth: int, startDay: int, endMonth: int, endDay: int): (r: bool)
  {
    if startMonth > endMonth then
      if month >= startMonth then
        if month > startMonth then true else day >= startDay
      else if month <= endMonth then
        if month < endMonth then true else day <= endDay
      else false
    else
      if month < startMonth || month > endMonth then false
      else if month == startMonth && day < startDay then false
      else if month == endMonth && day > endDay then false
      else true
  }

  /** Without wrap the range is the lexicographic interval; with wrap it is
      everything from the start on together with everything up to the end. */
  lemma InRangeMeaning(month: int, day: int, startMonth: int, startDay: int, endMonth: int, endDay: int)
    ensures startMonth <= endMonth ==>
      (InRange(month, day, startMonth, startDay, endMonth, endDay) <==>
        NotAfter(startMonth, startDay, month, day) && NotAfter(month, day, endMonth, endDay))
    ensures startMonth > endMonth ==>
      (InRange(month, day, startMonth, startDay, endMonth, endDay) <==>
        NotAfter(startMonth, startDay, month, day) || NotAfter(month, day, endMonth, endDay))
  {
  }

  /** isInHebrewDateRange: false without a date or when any of the three
      months is not one of the twelve month names. */
  function IsInHebrewDateRange(hebrewDate: Option<HebrewDateInfo>, startMonth: string, startDay: int,
                               endMonth: string, endDay: int): (r: bool)
    ensures ParseHebrewDate(hebrewDate).None? ==> !r
    ensures r ==> var cur := ParseHebrewDate(hebrewDate).value;
      cur.month in MonthOrder && startMonth in MonthOrder && endMonth in MonthOrder
    ensures ParseHebrewDate(hebrewDate).Some? ==>
      var cur := ParseHebrewDate(hebrewDate).value;
      cur.month in MonthOrder && startMonth in MonthOrder && endMonth in MonthOrder ==>
        (r <==> InRange(MonthIndex(cur.month), cur.day,
                        MonthIndex(startMonth), startDay, MonthIndex(endMonth), endDay))
  {
    match ParseHebrewDate(hebrewDate)
    case None => false
    case Some(cur) =>
      NormalizedFixed(if hebrewDate.value.hebrewMonth.Some? then hebrewDate.value.hebrewMonth.value else "");
      var currentMonthIndex := MonthIndex(NormalizeHebrewMonth(cur.month));
      var startMonthIndex := MonthIndex(startMonth);
      var endMonthIndex := MonthIndex(endMonth);
      if currentMonthIndex == -1 || startMonthIndex == -1 || endMonthIndex == -1 then false
      else
        InRange(currentMonthIndex, cur.day, startMonthIndex, startDay, endMonthIndex, endDay)
  }

  /** A name without a capital A contains no "Adar". */
  lemma NoAdar(s: string)
    requires !HasChar(s, 'A')
    ensures !Contains(s, "Adar")
  {
    forall k | 0 <= k <= |s| - 4 ensures !OccursAt(s, "Adar", k) {
      assert s[k..k + 4][0] == s[k] != 'A';
    }
  }

  /** Normalising a normalised name changes nothing. */
  lemma NormalizedFixed(month: string)
    ensures NormalizeHebrewMonth(NormalizeHebrewMonth(month)) == NormalizeHebrewMonth(month)
  {
    assert OccursAt("Adar", "Adar", 0);
    NoAdar("Shevat");
    NoAdar("Nissan");
    NoAdar("Iyar");
  }

  /** isInEnglishDateRange, over the month (1-12) and day of the current
      date, with the same inclusive and wrapping rule. */
  function IsInEnglishDateRange(currentMonth: int, currentDay: int, startMonth: int, startDay: int,
                                endMonth: int, endDay: int): (r: bool)
    ensures startMonth <= endMonth ==>
      (r <==> NotAfter(startMonth, startDay, currentMonth, currentDay) && NotAfter(currentMonth, currentDay, endMonth, endDay))
    ensures startMonth > endMonth ==>
      (r <==> NotAfter(startMonth, startDay, currentMonth, currentDay) || NotAfter(currentMonth, currentDay, endMonth, endDay))
  {
    if startMonth > endMonth then
      if currentMonth >= startMonth then
        currentMonth > startMonth || (currentMonth == startMonth && currentDay >= startDay)
      else if currentMonth <= endMonth then
        currentMonth < endMonth || (currentMonth == endMonth && currentDay <= endDay)
      else false
    else
      if currentMonth < startMonth || currentMonth > endMonth then false
      else if currentMonth == startMonth && currentDay < startDay then false
      else if currentMonth == endMonth && currentDay > endDay then false
      else true
  }

  /** The condition flags the text processor consults, together with the
      food types chosen for the after-blessing. */
  datatype Conditions = Conditions(
    isInIsrael: bool, isRoshChodesh: bool, isFastDay: bool, isAseretYemeiTeshuva: bool,
    isSukkot: bool, isPesach: bool, isChanuka: bool, isPurim: bool, isRoshChodeshSpecial: bool,
    isSunday: bool, isMonday: bool, isTuesday: bool, isWednesday: bool,
    isThursday: bool, isFriday: bool, isSaturday: bool,
    isMH: bool, isMT: bool, isTBI: bool, isTTI: bool, isTTC: bool, isTBC: bool,
    grain: bool, wine: bool, fruit: bool)

  /** The checker table's own entries: the value of a known condition
      name, `None` for a name the table does not define. */
  function OwnChecker(name: string, c: Conditions): (r: Option<bool>)
    ensures name == "OUTSIDE_ISRAEL" ==> r == Some(!c.isInIsrael)
    ensures name == "ONLY_ISRAEL" ==> r == Some(c.isInIsrael)
    ensures name == "SPECIAL_REMOVE" ==> r == Some(!c.isRoshChodeshSpecial)
  {
    if name == "OUTSIDE_ISRAEL" then Some(!c.isInIsrael)
    else if name == "ONLY_ISRAEL" then Some(c.isInIsrael)
    else if name == "ROSH_CHODESH" then Some(c.isRoshChodesh)
    else if name == "FAST_DAY" then Some(c.isFastDay)
    else if name == "ASERET_YEMEI_TESHUVA" then Some(c.isAseretYemeiTeshuva)
    else if name == "SUKKOT" then Some(c.isSukkot)
    else if name == "PESACH" then Some(c.isPesach)
    else if name == "CHANUKA" then Some(c.isChanuka)
    else if name == "PURIM" then Some(c.isPurim)
    else if name == "SPECIAL_REMOVE" then Some(!c.isRoshChodeshSpecial)
    else if name == "SUNDAY" then Some(c.isSunday)
    else if name == "MONDAY" then Some(c.isMonday)
    else if name == "TUESDAY" then Some(c.isTuesday)
    else if name == "WEDNESDAY" then Some(c.isWednesday)
    else if name == "THURSDAY" then Some(c.isThursday)
    else if name == "FRIDAY" then Some(c.isFriday)
    else if name == "SATURDAY" then Some(c.isSaturday)
    else if name == "MH" then Some(c.isMH)
    else if name == "MT" then Some(c.isMT)
    else if name == "TBI" then Some(c.isTBI)
    else if name == "TTI" then Some(c.isTTI)
    else if name == "TTC" then Some(c.isTTC)
    else if name == "TBC" then Some(c.isTBC)
    else if name == "grain" then Some(c.grain)
    else if name == "wine" then Some(c.wine)
    else if name == "fruit" then Some(c.fruit)
    else None
  }

  /** A name the checker object inherits from Object.prototype whose call
      returns normally: `toString` gives "[object Undefined]" and
      `constructor` a new empty object, both truthy; `isPrototypeOf` gives
      false. */
  predicate Inherited(name: string) {
    name == "toString" || name == "constructor" || name == "isPrototypeOf"
  }

  /** The bracket lookup `conditionCheckers[condition]` followed by the
      call: an own entry gives its flag; an inherited name gives the
      truthiness of what its call returns; any other name has no checker. */
  function Checker(name: string, c: Conditions): (r: Option<bool>)
    ensures OwnChecker(name, c).Some? ==> r == OwnChecker(name, c)
    ensures OwnChecker(name, c).None? && Inherited(name) ==> r == Some(name != "isPrototypeOf")
    ensures OwnChecker(name, c).None? && !Inherited(name) ==> r.None?
  {
    match OwnChecker(name, c)
    case Some(b) => Some(b)
    case None => if Inherited(name) then Some(name != "isPrototypeOf") else None
  }

  /** `checker ? checker() : false`: an unknown name counts as false. */
  predicate Holds(name: string, c: Conditions) {
    Checker(name, c) == Some(true)
  }

  /** The lookup as evidently intended: only the table's own entries. */
  predicate OwnHolds(name: string, c: Conditions) {
    OwnChecker(name, c) == Some(true)
  }

  /** The trimmed condition names of a tag: split on '|' when the tag has
      one, else on ','. */
  function ConditionNames(tag: string): (r: seq<string>)
    ensures |r| >= 1
    ensures HasChar(tag, '|') ==> r == Map(Trim, Split(tag, '|'))
    ensures !HasChar(tag, '|') ==> r == Map(Trim, Split(tag, ','))
  {
    Map(Trim, Split(tag, if HasChar(tag, '|') then '|' else ','))
  }

  /** A tag's priority: the number of its conditions. */
  function Priority(tag: string): (r: nat)
    ensures r == |ConditionNames(tag)| && r >= 1
  {
    |Split(tag, if HasChar(tag, '|') then '|' else ',')|
  }

  function HoldsIn(c: Conditions): string -> bool {
    name => Holds(name, c)
  }

  /** Whether a tag's block is shown: some listed condition for an OR tag,
      every listed condition otherwise. */
  function ConditionsMet(tag: string, c: Conditions): (r: bool)
    ensures HasChar(tag, '|') ==>
      (r <==> exists k :: 0 <= k < |ConditionNames(tag)| && Holds(ConditionNames(tag)[k], c))
    ensures !HasChar(tag, '|') ==>
      (r <==> forall k :: 0 <= k < |ConditionNames(tag)| ==> Holds(ConditionNames(tag)[k], c))
  {
    if HasChar(tag, '|') then Any(ConditionNames(tag), HoldsIn(c))
    else All(ConditionNames(tag), HoldsIn(c))
  }

  /** An AND tag naming a condition without a checker is never met, and an
      OR tag is met only through a condition that has one. */
  lemma UnknownConditionFalse(tag: string, c: Conditions)
    ensures !HasChar(tag, '|') && (exists k :: 0 <= k < |ConditionNames(tag)| && Checker(ConditionNames(tag)[k], c).None?)
      ==> !ConditionsMet(tag, c)
    ensures HasChar(tag, '|') && ConditionsMet(tag, c) ==>
      exists k :: 0 <= k < |ConditionNames(tag)| && Checker(ConditionNames(tag)[k], c).Some?
  {
  }

  /** As written, a block tagged `toString` or `constructor` is shown
      whatever the conditions, although the table defines neither. */
  lemma InheritedNameShown(name: string, c: Conditions)
    requires name == "toString" || name == "constructor"
    ensures OwnChecker(name, c).None?
    ensures ConditionsMet(name, c)
  {
    InheritedNotOwn(name, c);
    if name == "toString" {
      OneName("toString");
    } else {
      OneName("constructor");
    }
  }

  /** A name of letters alone is a tag of one condition. */
  lemma OneName(name: string)
    requires name != [] && forall k :: 0 <= k < |name| ==> IsAsciiLower(name[k]) || IsAsciiUpper(name[k])
    ensures ConditionNames(name) == [name]
  {
    assert !HasChar(name, '|') && !HasChar(name, ',');
    TrimNoSpaceEnds(name);
  }

  lemma InheritedNotOwn(name: string, c: Conditions)
    requires Inherited(name)
    ensures OwnChecker(name, c).None?
  {
  }

  function OwnHoldsIn(c: Conditions): string -> bool {
    name => OwnHolds(name, c)
  }

  /** ConditionsMet with the own-entry lookup. */
  function ConditionsMetOwn(tag: string, c: Conditions): (r: bool)
    ensures HasChar(tag, '|') ==>
      (r <==> exists k :: 0 <= k < |ConditionNames(tag)| && OwnHolds(ConditionNames(tag)[k], c))
    ensures !HasChar(tag, '|') ==>
      (r <==> forall k :: 0 <= k < |ConditionNames(tag)| ==> OwnHolds(ConditionNames(tag)[k], c))
  {
    if HasChar(tag, '|') then Any(ConditionNames(tag), OwnHoldsIn(c))
    else All(ConditionNames(tag), OwnHoldsIn(c))
  }

  /** With the own-entry lookup a tag is met only through names the table
      defines, and on tags that name no inherited property it agrees with
      the lookup as written. */
  lemma OwnLookupOnlyTable(tag: string, c: Conditions)
    ensures !HasChar(tag, '|') && ConditionsMetOwn(tag, c) ==>
      forall k :: 0 <= k < |ConditionNames(tag)| ==> OwnChecker(ConditionNames(tag)[k], c).Some?
    ensures HasChar(tag, '|') && ConditionsMetOwn(tag, c) ==>
      exists k :: 0 <= k < |ConditionNames(tag)| && OwnChecker(ConditionNames(tag)[k], c).Some?
    ensures (forall k :: 0 <= k < |ConditionNames(tag)| ==> !Inherited(ConditionNames(tag)[k])) ==>
      ConditionsMetOwn(tag, c) == ConditionsMet(tag, c)
  {
  }

  /** The four-block seasonal pattern: in Israel the TBI block, else the TTI
      block, else nothing; outside Israel the TBC block, else the TTC block,
      else nothing. */
  function SeasonalContent(c: Conditions, tti: string, tbi: string, ttc: string, tbc: string): (r: string)
    ensures c.isInIsrael ==> r == (if c.isTBI then tbi else if c.isTTI then tti else "")
    ensures !c.isInIsrael ==> r == (if c.isTBC then tbc else if c.isTTC then ttc else "")
  {
    if c.isInIsrael then (if c.isTBI then tbi else if c.isTTI then tti else "")
    else (if c.isTBC then tbc else if c.isTTC then ttc else "")
  }

  /** Event-name tests on the lower-cased event text. */
  predicate IsFastEvent(event: string) {
    var l := Lower(event);
    Contains(l, "fast") || Contains(l, "tzom") || Contains(l, "taanis") || Contains(l, "asara btevet")
      || Contains(l, "tisha bav") || Contains(l, "gedaliah") || Contains(l, "esther")
  }

  predicate IsSukkotEvent(event: string) {
    var l := Lower(event);
    !Contains(l, "erev") &&
      (Contains(l, "sukkot") || Contains(l, "hoshanah") || Contains(l, "simchat torah") || Contains(l, "shemini atzeret"))
  }

  predicate IsPesachEvent(event: string) {
    var l := Lower(event);
    !Contains(l, "erev") && (Contains(l, "pesach") || Contains(l, "passover") || Contains(l, "seder"))
  }

  predicate IsChanukaEvent(event: string) {
    var l := Lower(event);
    Contains(l, "chanuk") || Contains(l, "hanuk") || Contains(l, "chanukkah") || Contains(l, "hanukkah")
  }

  predicate IsPurimEvent(event: string) {
    var l := Lower(event);
    !Contains(l, "erev") && (Contains(l, "purim") || Contains(l, "shushan purim"))
  }

  /** The calendar-derived flags of getCurrentTefillaConditions. */
  datatype CalendarFlags = CalendarFlags(
    isRoshChodesh: bool, isFastDay: bool, isAseretYemeiTeshuva: bool,
    isSukkot: bool, isPesach: bool, isChanuka: bool, isPurim: bool, isRoshChodeshSpecial: bool)

  /** The flags from the Hebrew-date reply; all false without one. */
  function CalendarFlagsOf(hebrewDate: Option<HebrewDateInfo>): (r: CalendarFlags)
    ensures hebrewDate.None? ==> r == CalendarFlags(false, false, false, false, false, false, false, false)
  {
    match hebrewDate
    case None => CalendarFlags(false, false, false, false, false, false, false, false)
    case Some(d) =>
      var isSukkot := Any(d.events, IsSukkotEvent);
      var isPesach := Any(d.events, IsPesachEvent);
      var isChanuka := Any(d.events, IsChanukaEvent);
      var isPurim := Any(d.events, IsPurimEvent);
      CalendarFlags(
        d.isRoshChodesh,
        Any(d.events, IsFastEvent),
        d.hebrewMonth == Some("Tishrei") && d.hebrewDay.Some? && 1 <= d.hebrewDay.value <= 10,
        isSukkot, isPesach, isChanuka, isPurim,
        d.isRoshChodesh || isPesach || isSukkot || isChanuka || isPurim)
  }

  /** Aseret Yemei Teshuva is days 1 to 10 of Tishrei; the special-day flag
      is the disjunction of Rosh Chodesh, Pesach, Sukkot, Chanuka and Purim;
      a fast day is a day with a fast among its events. */
  lemma CalendarFlagsMeaning(hebrewDate: Option<HebrewDateInfo>)
    ensures var r := CalendarFlagsOf(hebrewDate);
      (r.isAseretYemeiTeshuva <==>
        hebrewDate.Some? && hebrewDate.value.hebrewMonth == Some("Tishrei") &&
        hebrewDate.value.hebrewDay.Some? && 1 <= hebrewDate.value.hebrewDay.value <= 10) &&
      (r.isRoshChodeshSpecial <==> r.isRoshChodesh || r.isPesach || r.isSukkot || r.isChanuka || r.isPurim)
    ensures hebrewDate.Some? ==>
      (CalendarFlagsOf(hebrewDate).isFastDay <==>
        exists k :: 0 <= k < |hebrewDate.value.events| && IsFastEvent(hebrewDate.value.events[k]))
  {
  }

  /** The seasonal flags of getCurrentTefillaConditions. */
  datatype Seasons = Seasons(isMH: bool, isMT: bool, isTBI: bool, isTTI: bool, isTTC: bool, isTBC: bool)

  /** The seasonal flags, from location, the Hebrew date and the month and
      day of the civil date. */
  function SeasonsOf(isInIsrael: bool, hebrewDate: Option<HebrewDateInfo>, civilMonth: int, civilDay: int): (r: Seasons)
    ensures r.isMH == IsInHebrewDateRange(hebrewDate, "Tishrei", 22, "Nissan", 14)
    ensures r.isMT == IsInHebrewDateRange(hebrewDate, "Nissan", 15, "Tishrei", 21)
  {
    var isTBI := isInIsrael && hebrewDate.Some? && IsInHebrewDateRange(hebrewDate, "Nissan", 15, "Cheshvan", 6);
    var isTTI := isInIsrael && hebrewDate.Some? && !isTBI && IsInHebrewDateRange(hebrewDate, "Cheshvan", 7, "Nissan", 14);
    var parsed := ParseHebrewDate(hebrewDate);
    var isTTC := !isInIsrael && hebrewDate.Some? &&
      (IsInEnglishDateRange(civilMonth, civilDay, 12, 5, 12, 31)
        || IsInHebrewDateRange(hebrewDate, "Tishrei", 1, "Nissan", 14)
        || (parsed.Some? && parsed.value.month == "Nissan" && parsed.value.day == 15));
    var isTBC := !isInIsrael && hebrewDate.Some? &&
      (IsInHebrewDateRange(hebrewDate, "Nissan", 15, "Elul", 29)
        || IsInEnglishDateRange(civilMonth, civilDay, 1, 1, 12, 4));
    Seasons(
      IsInHebrewDateRange(hebrewDate, "Tishrei", 22, "Nissan", 14),
      IsInHebrewDateRange(hebrewDate, "Nissan", 15, "Tishrei", 21),
      isTBI, isTTI, isTTC, isTBC)
  }

  /** TBI and TTI are never both set, and neither is set outside Israel;
      TTC and TBC are never set in Israel. */
  lemma SeasonsExclusive(isInIsrael: bool, hebrewDate: Option<HebrewDateInfo>, civilMonth: int, civilDay: int)
    ensures var r := SeasonsOf(isInIsrael, hebrewDate, civilMonth, civilDay);
      !(r.isTBI && r.isTTI) && (!isInIsrael ==> !r.isTBI && !r.isTTI) && (isInIsrael ==> !r.isTTC && !r.isTBC)
  {
  }

  /** In Israel with a known date of the twelve months, exactly one of TBI
      and TTI holds: the two ranges cover the year. */
  lemma SeasonsCoverIsrael(hebrewDate: Option<HebrewDateInfo>, civilMonth: int, civilDay: int)
    requires ParseHebrewDate(hebrewDate).Some? && ParseHebrewDate(hebrewDate).value.month in MonthOrder
    ensures var r := SeasonsOf(true, hebrewDate, civilMonth, civilDay);
      r.isTBI != r.isTTI
  {
    var cur := ParseHebrewDate(hebrewDate).value;
    var m := MonthIndex(cur.month);
    assert MonthIndex("Nissan") == 6;
    assert MonthIndex("Cheshvan") == 1;
    var tbi := IsInHebrewDateRange(hebrewDate, "Nissan", 15, "Cheshvan", 6);
    var tti := IsInHebrewDateRange(hebrewDate, "Cheshvan", 7, "Nissan", 14);
    assert tbi == InRange(m, cur.day, 6, 15, 1, 6);
    assert tti == InRange(m, cur.day, 1, 7, 6, 14);
    InRangeMeaning(m, cur.day, 6, 15, 1, 6);
    InRangeMeaning(m, cur.day, 1, 7, 6, 14);
  }
}

=== FILE: tefilla_section.dfy ===
// The tefilla page (client/src/components/sections/tefilla-section.tsx):
// whether any individual Tehillim was completed today, the prayer card
// for the current time, and the check before a Tehillim chain is created.

module TefillaSection {
  import opened Text
  import HomeSection

  const TehillimPrefix := "individual-tehillim-"

  /** Some single or repeatable of today's entry is an individual Tehillim. */
  predicate HasTehillimKey(d: HomeSection.TodaysData) {
    (exists id :: id in d.singles && StartsWith(id, TehillimPrefix))
    || (exists k :: k in d.repeatables && StartsWith(k, TehillimPrefix))
  }

  /** `hasAnyTehillimCompleted`, with today's entry of the store (looked up
      by the caller) as a parameter: the singles are searched first, then
      the repeatable keys, returning at the first match. */
  method HasAnyTehillimCompleted(today: Option<HomeSection.TodaysData>) returns (r: bool)
    ensures r <==> today.Some? && HasTehillimKey(today.value)
  {
    if today.None? {
      return false;
    }
    var d := today.value;
    var singles := KeyList(d.singles);
    for i := 0 to |singles|
      invariant forall j :: 0 <= j < i ==> !StartsWith(singles[j], TehillimPrefix)
    {
      if StartsWith(singles[i], TehillimPrefix) {
        return true;
      }
    }
    var keys := KeyList(d.repeatables.Keys);
    for i := 0 to |keys|
      invariant forall j :: 0 <= j < i ==> !StartsWith(keys[j], TehillimPrefix)
    {
      if StartsWith(keys[i], TehillimPrefix) {
        return true;
      }
    }
    return false;
  }

  /** Every time the tefilla card reads parses, the night's chatzos
      included. */
  predicate AllParse(t: HomeSection.Zmanim) {
    HomeSection.AllParse(t) && HomeSection.ParseTimeToday(t.chatzotNight).Some?
  }

  /** The tefilla card for each window: the subtitles differ from the home
      card's in the two Maariv cases, which name the night's chatzos or only
      the start time. */
  function TefillaCard(w: HomeSection.Window, t: HomeSection.Zmanim): HomeSection.Prayer {
    match w
    case ShacharisNow => HomeSection.Prayer("Shacharis", t.alosHashachar + " - " + t.chatzos, "morning-brochas", false)
    case MinchaNow => HomeSection.Prayer("Mincha", t.minchaGedolah + " - " + t.shkia, "mincha", false)
    case MaarivSoon => HomeSection.Prayer("Maariv", "from " + t.plagHamincha, "maariv", true)
    case MaarivNow => HomeSection.Prayer("Maariv", t.plagHamincha + " - " + t.chatzotNight, "maariv", false)
    case MinchaSoon => HomeSection.Prayer("Mincha", "from " + t.minchaGedolah + " until " + t.shkia, "mincha", true)
  }

  /** `getCurrentPrayer` of the tefilla page: the same windows as the home
      card, and "Times unavailable" also when the night's chatzos does not
      parse. */
  function CurrentPrayer(times: Option<HomeSection.Zmanim>, isLoading: bool, now: nat): (r: HomeSection.Prayer)
    ensures times.None? || isLoading ==> r == HomeSection.Loading
    ensures times.Some? && !isLoading && !AllParse(times.value) ==> r == HomeSection.Unavailable
    ensures r.modal == HomeSection.ModalFor(r.title)
  {
    if times.None? || isLoading then HomeSection.Loading
    else
      var t := times.value;
      var alos, chatzos := HomeSection.ParseTimeToday(t.alosHashachar), HomeSection.ParseTimeToday(t.chatzos);
      var night := HomeSection.ParseTimeToday(t.chatzotNight);
      var mincha, shkia := HomeSection.ParseTimeToday(t.minchaGedolah), HomeSection.ParseTimeToday(t.shkia);
      var plag := HomeSection.ParseTimeToday(t.plagHamincha);
      if alos.None? || chatzos.None? || night.None? || mincha.None? || shkia.None? || plag.None? then
        HomeSection.Unavailable
      else TefillaCard(HomeSection.WindowAt(now, alos.value, chatzos.value, mincha.value, shkia.value, plag.value), t)
  }

  /** Both pages show the same prayer, the same modal and the same
      disabled state whenever every time parses; only the wording of the
      subtitle may differ. */
  lemma SameChoiceAsHome(times: Option<HomeSection.Zmanim>, isLoading: bool, now: nat)
    requires times.Some? ==> HomeSection.ParseTimeToday(times.value.chatzotNight).Some?
    ensures var home := HomeSection.CurrentPrayer(times, isLoading, now);
      var here := CurrentPrayer(times, isLoading, now);
      home.title == here.title && home.modal == here.modal && home.disabled == here.disabled
  {
  }

  /** What the create-chain button does. */
  datatype ChainRequest =
    | MissingInformation
    | Submit(name: string, reason: string, deviceId: string)

  /** `handleCreateChain`, with the stored device id and a freshly made one
      as parameters: a blank name or reason stops it; otherwise a stored
      non-empty id is reused, else the fresh one is stored and used, and
      the untrimmed name and reason are sent. */
  function CreateChain(name: string, reason: string, storedDeviceId: Option<string>, freshId: string)
    : (r: (ChainRequest, Option<string>))
    ensures IsBlank(name) || IsBlank(reason) <==> r.0 == MissingInformation
    ensures r.0 == MissingInformation ==> r.1 == storedDeviceId
    ensures r.0.Submit? ==> r.0.name == name && r.0.reason == reason && r.1 == Some(r.0.deviceId)
    ensures r.0.Submit? && storedDeviceId.Some? && storedDeviceId.value != [] ==> r.0.deviceId == storedDeviceId.value
  {
    BlankIffTrimEmpty(name);
    BlankIffTrimEmpty(reason);
    if Trim(name) == [] || Trim(reason) == [] then (MissingInformation, storedDeviceId)
    else
      var id := if storedDeviceId.Some? && storedDeviceId.value != [] then storedDeviceId.value else freshId;
      (Submit(name, reason, id), Some(id))
  }
}

=== FILE: tehillim_routes.dfy ===
// The Tehillim routes (server/routes/tehillim.ts): the chain slugs, the
// checks on perek, id and language, the rule for the part after a given
// one, the display title, the `excludePsalm` parameter and the cache of
// the global chain statistics.
//
// `Date.now()` and the random suffix enter as parameters.

module TehillimRoutes {
  import opened Text

  // ---- Slugs ----

  /** The characters `generateSlug` keeps: ASCII letters and digits,
      whitespace and '-'. */
  predicate Kept(c: char) {
    IsAsciiAlnum(c) || IsSpace(c) || c == '-'
  }

  /** The characters a slug body is made of. */
  predicate SlugChar(c: char) {
    IsAsciiLower(c) || IsAsciiDigit(c) || c == '-'
  }

  /** No two '-' in a row. */
  predicate NoDoubleDash(s: string) {
    forall i :: 0 <= i < |s| - 1 ==> !(s[i] == '-' && s[i + 1] == '-')
  }

  /** `.replace(/[^a-zA-Z0-9\s-]/g, '')`. */
  function KeepLatin(s: string): (r: string)
    ensures |r| <= |s|
    ensures forall i :: 0 <= i < |r| ==> Kept(r[i])
    ensures (forall i :: 0 <= i < |s| ==> Kept(s[i])) ==> r == s
  {
    if s == [] then []
    else
      var rest := KeepLatin(s[1..]);
      if Kept(s[0]) then [s[0]] + rest else rest
  }

  /** `.replace(/\s+/g, '-')`: each run of whitespace becomes one '-'. */
  function DashSpaces(s: string): (r: string)
    ensures s != [] ==> r != []
    ensures (forall i :: 0 <= i < |s| ==> SlugChar(s[i]) || IsSpace(s[i])) ==> forall i :: 0 <= i < |r| ==> SlugChar(r[i])
    decreases |s|
  {
    if s == [] then []
    else if IsSpace(s[0]) then "-" + DashSpaces(s[LeadSpaces(s)..])
    else [s[0]] + DashSpaces(s[1..])
  }

  /** `.replace(/-+/g, '-')`: each run of '-' becomes one. */
  function CollapseDashes(s: string): (r: string)
    ensures |r| <= |s|
    ensures s != [] ==> r != [] && (r[0] == '-' <==> s[0] == '-')
    ensures NoDoubleDash(r)
    ensures (forall i :: 0 <= i < |s| ==> SlugChar(s[i])) ==> forall i :: 0 <= i < |r| ==> SlugChar(r[i])
    decreases |s|
  {
    if s == [] then []
    else if s[0] == '-' then "-" + CollapseDashes(s[LeadCount(s, '-')..])
    else [s[0]] + CollapseDashes(s[1..])
  }

  const SlugBodyLimit := 50

  /** `.substring(0, n)`. */
  function Prefix(s: string, n: nat): (r: string)
    ensures |r| <= n && |r| <= |s| && r == s[..|r|]
    ensures |s| <= n ==> r == s
  {
    if |s| <= n then s else s[..n]
  }

  /** The text of a slug before its timestamp. */
  function SlugBody(name: string): string {
    Prefix(CollapseDashes(DashSpaces(Lower(Trim(KeepLatin(name))))), SlugBodyLimit)
  }

  /** A base-36 digit, as `toString(36)` writes it. */
  function Base36Digit(d: nat): (c: char)
    requires d < 36
    ensures IsAsciiDigit(c) || IsAsciiLower(c)
  {
    if d < 10 then ('0' as int + d) as char else ('a' as int + d - 10) as char
  }

  predicate IsBase36Digit(c: char) {
    IsAsciiDigit(c) || IsAsciiLower(c)
  }

  function Base36DigitValue(c: char): nat
    requires IsBase36Digit(c)
  {
    if IsAsciiDigit(c) then c as int - '0' as int else c as int - 'a' as int + 10
  }

  /** `n.toString(36)`. */
  function Base36(n: nat): (r: string)
    ensures r != [] && forall i :: 0 <= i < |r| ==> IsBase36Digit(r[i])
    decreases n
  {
    if n < 36 then [Base36Digit(n)] else Base36(n / 36) + [Base36Digit(n % 36)]
  }

  function Base36Value(s: string): nat
    requires forall i :: 0 <= i < |s| ==> IsBase36Digit(s[i])
  {
    if s == [] then 0 else Base36Value(s[..|s| - 1]) * 36 + Base36DigitValue(s[|s| - 1])
  }

  /** The timestamp can be read back from its base-36 text. */
  lemma {:induction false} Base36RoundTrip(n: nat)
    ensures Base36Value(Base36(n)) == n
    decreases n
  {
    var r := Base36(n);
    if n >= 36 {
      Base36RoundTrip(n / 36);
      assert r[..|r| - 1] == Base36(n / 36);
    } else {
      assert r[..0] == [];
    }
  }

  /** `generateSlug`: the cleaned-up name and the timestamp when at least
      two characters survive, else the timestamp and a random suffix. */
  function GenerateSlug(name: string, now: nat, randomSuffix: string): string {
    var latin := Trim(KeepLatin(name));
    if |latin| >= 2 then SlugBody(name) + "-" + Base36(now) else Base36(now) + randomSuffix
  }

  /** A slug from a name is a non-empty body of lower-case letters, digits
      and single dashes, at most 50 long, then '-' and the timestamp, which
      reads back. */
  lemma SlugShape(name: string, now: nat, randomSuffix: string)
    requires |Trim(KeepLatin(name))| >= 2
    ensures var body := SlugBody(name);
      var slug := GenerateSlug(name, now, randomSuffix);
      1 <= |body| <= SlugBodyLimit && NoDoubleDash(body)
      && (forall i :: 0 <= i < |body| ==> SlugChar(body[i]))
      && slug == body + "-" + Base36(now)
      && Base36Value(slug[|body| + 1..]) == now
  {
    SlugBodyShape(name);
    var body := SlugBody(name);
    var slug := GenerateSlug(name, now, randomSuffix);
    assert slug[|body| + 1..] == Base36(now);
    Base36RoundTrip(now);
  }

  lemma SlugBodyShape(name: string)
    requires |Trim(KeepLatin(name))| >= 2
    ensures var body := SlugBody(name);
      1 <= |body| <= SlugBodyLimit && NoDoubleDash(body)
      && (forall i :: 0 <= i < |body| ==> SlugChar(body[i]))
  {
    var lowered := Lower(Trim(KeepLatin(name)));
    LoweredChars(KeepLatin(name));
    assert |lowered| >= 2;
    DashedShape(lowered);
    CollapsedShape(DashSpaces(lowered));
    PrefixShape(CollapseDashes(DashSpaces(lowered)));
  }

  lemma DashedShape(s: string)
    requires s != [] && forall i :: 0 <= i < |s| ==> SlugChar(s[i]) || IsSpace(s[i])
    ensures var r := DashSpaces(s); r != [] && forall i :: 0 <= i < |r| ==> SlugChar(r[i])
  {
  }

  lemma CollapsedShape(s: string)
    requires s != [] && forall i :: 0 <= i < |s| ==> SlugChar(s[i])
    ensures var r := CollapseDashes(s); r != [] && NoDoubleDash(r) && forall i :: 0 <= i < |r| ==> SlugChar(r[i])
  {
  }

  /** Cutting a slug text short keeps its shape. */
  lemma PrefixShape(s: string)
    requires s != [] && NoDoubleDash(s) && forall i :: 0 <= i < |s| ==> SlugChar(s[i])
    ensures var body := Prefix(s, SlugBodyLimit);
      1 <= |body| <= SlugBodyLimit && NoDoubleDash(body)
      && (forall i :: 0 <= i < |body| ==> SlugChar(body[i]))
  {
    var body := Prefix(s, SlugBodyLimit);
    assert forall i :: 0 <= i < |body| ==> body[i] == s[i];
  }

  /** After trimming and lower-casing, the kept characters are slug
      characters or whitespace. */
  lemma LoweredChars(kept: string)
    requires forall i :: 0 <= i < |kept| ==> Kept(kept[i])
    ensures var lowered := Lower(Trim(kept));
      forall i :: 0 <= i < |lowered| ==> SlugChar(lowered[i]) || IsSpace(lowered[i])
  {
    TrimSlice(kept);
    var latin := Trim(kept);
    assert forall i :: 0 <= i < |latin| ==> Kept(latin[i]);
  }

  /** The slug loop of `POST /api/tehillim-chains`: up to five more
      candidates while the slug is taken; the last one is used even when
      it is taken too. */
  function FirstFreeIndex(candidates: seq<string>, taken: set<string>): (k: nat)
    requires candidates != []
    ensures k < |candidates|
    ensures forall j :: 0 <= j < k ==> candidates[j] in taken
    ensures candidates[k] !in taken || k == |candidates| - 1
  {
    if |candidates| == 1 || candidates[0] !in taken then 0
    else
      var k := FirstFreeIndex(candidates[1..], taken);
      assert forall j :: 1 <= j <= k + 1 ==> candidates[j] == candidates[1..][j - 1];
      k + 1
  }

  function FirstFree(candidates: seq<string>, taken: set<string>): string
    requires candidates != []
  {
    candidates[FirstFreeIndex(candidates, taken)]
  }

  const SlugAttempts := 5

  method ChooseSlug(candidates: seq<string>, taken: set<string>) returns (slug: string)
    requires |candidates| == SlugAttempts + 1
    ensures slug == FirstFree(candidates, taken)
  {
    slug := candidates[0];
    var attempts := 0;
    while slug in taken && attempts < 5
      invariant 0 <= attempts <= SlugAttempts && slug == candidates[attempts]
      invariant FirstFree(candidates[attempts..], taken) == FirstFree(candidates, taken)
    {
      assert candidates[attempts..][1..] == candidates[attempts + 1..];
      slug := candidates[attempts + 1];
      attempts := attempts + 1;
    }
    assert candidates[attempts..][0] == slug;
  }

  datatype NewChain = NewChain(name: string, reason: string, slug: string, creatorDeviceId: Option<string>, isActive: bool)

  /** `POST /api/tehillim-chains`: a name and a reason are required (400),
      then the chain is created with a free slug. */
  method CreateChain(name: Option<string>, reason: Option<string>, deviceId: Option<string>,
                     candidates: seq<string>, taken: set<string>)
    returns (chain: Option<NewChain>)
    requires |candidates| == SlugAttempts + 1
    ensures chain.None? <==> !Truthy(name) || !Truthy(reason)
    ensures chain.Some? ==>
      chain.value == NewChain(name.value, reason.value, FirstFree(candidates, taken),
                              if Truthy(deviceId) then deviceId else None, true)
  {
    if !Truthy(name) || !Truthy(reason) {
      return None;
    }
    var slug := ChooseSlug(candidates, taken);
    chain := Some(NewChain(name.value, reason.value, slug, if Truthy(deviceId) then deviceId else None, true));
  }

  predicate Truthy(s: Option<string>) {
    s.Some? && s.value != ""
  }

  // ---- Request checks ----

  const MaxTehillimId := 171

  predicate IsLanguage(s: string) {
    s == "english" || s == "hebrew"
  }

  datatype Rejection = InvalidPerek | InvalidLanguage

  /** `POST /api/tehillim/complete`: a perek in 1..171 (a missing or zero
      perek is refused), then 'english' or 'hebrew'. */
  function CompleteCheck(currentPerek: Option<int>, language: Option<string>): (r: Option<Rejection>)
    ensures r.None? <==> currentPerek.Some? && 1 <= currentPerek.value <= MaxTehillimId
                         && language.Some? && IsLanguage(language.value)
    ensures r == Some(InvalidPerek) <==> !(currentPerek.Some? && 1 <= currentPerek.value <= MaxTehillimId)
  {
    if currentPerek.None? || currentPerek.value == 0 || currentPerek.value < 1 || currentPerek.value > 171 then
      Some(InvalidPerek)
    else if !Truthy(language) || !IsLanguage(language.value) then Some(InvalidLanguage)
    else None
  }

  /** `req.query.language || fallback`. */
  function LanguageOr(language: Option<string>, fallback: string): string {
    if Truthy(language) then language.value else fallback
  }

  /** A route parameter read with `parseInt` and checked to be in
      1..171 (`/text/:perek`, `/preview/:perek`, `/:tehillimId`). */
  function PerekParam(param: string): (r: Option<int>)
    ensures r.Some? <==> ParseInt(param).Some? && 1 <= ParseInt(param).value <= MaxTehillimId
    ensures r.Some? ==> r == ParseInt(param)
  {
    var perek := ParseInt(param);
    if perek.None? || perek.value < 1 || perek.value > 171 then None else perek
  }

  /** `GET /api/tehillim/text/:perek`: the perek first, then the language,
      which defaults to English. */
  function TextCheck(param: string, language: Option<string>): (r: Option<Rejection>)
    ensures r.None? <==> PerekParam(param).Some? && IsLanguage(LanguageOr(language, "english"))
    ensures r == Some(InvalidPerek) <==> PerekParam(param).None?
  {
    if PerekParam(param).None? then Some(InvalidPerek)
    else if !IsLanguage(LanguageOr(language, "english")) then Some(InvalidLanguage)
    else None
  }

  /** A number written in the route is accepted exactly when it is a
      perek of the book. */
  lemma PerekParamOfNumber(n: int)
    ensures PerekParam(IntToString(n)).Some? <==> 1 <= n <= MaxTehillimId
  {
    ParseIntOfWritten(n, "");
    assert IntToString(n) + "" == IntToString(n);
  }

  // ---- The next part ----

  datatype TehillimRow = TehillimRow(id: int, englishNumber: int, partNumber: int, hebrewNumber: string)

  /** `getSupabaseTehillimByEnglishAndPart`. */
  function ByNumberAndPart(rows: seq<TehillimRow>, englishNumber: int, partNumber: int): (r: Option<TehillimRow>)
    ensures r.Some? ==> r.value in rows && r.value.englishNumber == englishNumber && r.value.partNumber == partNumber
    ensures r.None? <==> forall t :: t in rows ==> !(t.englishNumber == englishNumber && t.partNumber == partNumber)
  {
    if rows == [] then None
    else if rows[0].englishNumber == englishNumber && rows[0].partNumber == partNumber then Some(rows[0])
    else
      assert forall t :: t in rows ==> t == rows[0] || t in rows[1..];
      ByNumberAndPart(rows[1..], englishNumber, partNumber)
  }

  /** `getSupabaseTehillimById`. */
  function ById(rows: seq<TehillimRow>, id: int): (r: Option<TehillimRow>)
    ensures r.Some? ==> r.value in rows && r.value.id == id
    ensures r.None? <==> forall t :: t in rows ==> t.id != id
  {
    if rows == [] then None
    else if rows[0].id == id then Some(rows[0])
    else
      assert forall t :: t in rows ==> t == rows[0] || t in rows[1..];
      ById(rows[1..], id)
  }

  /** The handler's search: within psalm 119 the next part, else psalm
      120; past psalm 150, psalm 1; then part 1 of the next psalm. A step
      whose row is missing falls through to the next rule. */
  function NextPart(rows: seq<TehillimRow>, current: TehillimRow): Option<TehillimRow> {
    var inPsalm119 := if current.englishNumber == 119 then
        (var nextPart := ByNumberAndPart(rows, 119, current.partNumber + 1);
         if nextPart.Some? then nextPart else ByNumberAndPart(rows, 120, 1))
      else None;
    if inPsalm119.Some? then inPsalm119
    else
      var next := current.englishNumber + 1;
      var wrapped := if next > 150 then ByNumberAndPart(rows, 1, 1) else None;
      if wrapped.Some? then wrapped
      else
        var part1 := if next == 119 then ByNumberAndPart(rows, 119, 1) else None;
        if part1.Some? then part1 else ByNumberAndPart(rows, next, 1)
  }

  /** The reading order of the book: the parts of psalm 119 in turn, every
      other psalm in one piece, and psalm 1 after psalm 150. */
  function Successor(englishNumber: int, partNumber: int, parts119: nat): (int, int) {
    if englishNumber == 119 then
      if partNumber < parts119 then (119, partNumber + 1) else (120, 1)
    else if englishNumber >= 150 then (1, 1)
    else (englishNumber + 1, 1)
  }

  /** Every psalm has a part 1, and psalm 119 has exactly parts 1 to
      `parts119`. */
  predicate Complete(rows: seq<TehillimRow>, parts119: nat) {
    (forall e :: 1 <= e <= 150 ==> ByNumberAndPart(rows, e, 1).Some?)
    && (forall p :: 1 <= p <= parts119 ==> ByNumberAndPart(rows, 119, p).Some?)
    && ByNumberAndPart(rows, 119, parts119 + 1).None?
  }

  /** On a complete table the handler follows the reading order. */
  lemma NextPartFollowsOrder(rows: seq<TehillimRow>, current: TehillimRow, parts119: nat)
    requires Complete(rows, parts119) && parts119 >= 1
    requires 1 <= current.englishNumber <= 150
    requires current.englishNumber == 119 ==> 1 <= current.partNumber <= parts119
    ensures var next := NextPart(rows, current);
      var (e, p) := Successor(current.englishNumber, current.partNumber, parts119);
      next.Some? && next.value.englishNumber == e && next.value.partNumber == p
  {
    if current.englishNumber == 119 && current.partNumber < parts119 {
      assert ByNumberAndPart(rows, 119, current.partNumber + 1).Some?;
    }
  }

  datatype NextResponse = BadId | NotFound | Next(row: TehillimRow) | NoNext

  /** `GET /api/tehillim/next-part/:id`. */
  function GetNextPart(rows: seq<TehillimRow>, param: string): (r: NextResponse)
    ensures r == BadId <==> ParseInt(param).None? || ParseInt(param).value < 1
    ensures r.Next? ==> r.row in rows
  {
    var currentId := ParseInt(param);
    if currentId.None? || currentId.value < 1 then BadId
    else
      match ById(rows, currentId.value)
      case None => NotFound
      case Some(current) =>
        match NextPart(rows, current)
        case None => NoNext
        case Some(next) => Next(next)
  }

  // ---- Display title ----

  /** `displayTitle`: "Tehillim N", with the part for psalm 119. */
  function DisplayTitle(englishNumber: int, partNumber: int): string {
    if englishNumber == 119 && partNumber > 1 then "Tehillim 119 (Part " + IntToString(partNumber) + ")"
    else if englishNumber == 119 && partNumber == 1 then "Tehillim 119 (Part 1)"
    else "Tehillim " + IntToString(englishNumber)
  }

  /** Every part of psalm 119 is titled with its part number; any other
      psalm with its number alone. */
  lemma DisplayTitleRule(englishNumber: int, partNumber: int)
    ensures englishNumber == 119 && partNumber >= 1 ==>
      DisplayTitle(englishNumber, partNumber) == "Tehillim 119 (Part " + IntToString(partNumber) + ")"
    ensures englishNumber != 119 ==> DisplayTitle(englishNumber, partNumber) == "Tehillim " + IntToString(englishNumber)
  {
    assert IntToString(1) == "1";
  }

  /** The psalm number reads back from the title. */
  lemma DisplayTitleReadsBack(englishNumber: int, partNumber: int)
    ensures var t := DisplayTitle(englishNumber, partNumber);
      |t| > 9 && t[..9] == "Tehillim " && ParseInt(t[9..]) == Some(englishNumber)
  {
    if englishNumber == 119 && partNumber >= 1 {
      PartTitleReadsBack(partNumber);
    } else {
      var t := DisplayTitle(englishNumber, partNumber);
      assert t == "Tehillim " + IntToString(englishNumber);
      assert t[9..] == IntToString(englishNumber) + "";
      ParseIntOfWritten(englishNumber, "");
    }
  }

  lemma PartTitleReadsBack(partNumber: int)
    requires partNumber >= 1
    ensures var t := DisplayTitle(119, partNumber);
      |t| > 9 && t[..9] == "Tehillim " && ParseInt(t[9..]) == Some(119)
  {
    var rest := " (Part " + IntToString(partNumber) + ")";
    PartTitleShape(partNumber, rest);
    ParseIntOfWritten(119, rest);
  }

  lemma PartTitleShape(partNumber: int, rest: string)
    requires partNumber >= 1 && rest == " (Part " + IntToString(partNumber) + ")"
    ensures var t := DisplayTitle(119, partNumber);
      |t| > 9 && t[..9] == "Tehillim " && t[9..] == IntToString(119) + rest && EndsNumber(rest)
  {
    DisplayTitleRule(119, partNumber);
    var t := DisplayTitle(119, partNumber);
    assert IntToString(119) == "119";
    assert t == "Tehillim " + (IntToString(119) + rest);
  }

  // ---- excludePsalm ----

  /** `parseInt(s, 10)`: leading whitespace, an optional sign, then
      decimal digits only. */
  function ParseDecimal(s: string): Option<int> {
    var t := s[LeadSpaces(s)..];
    var negative := t != [] && t[0] == '-';
    var u := if t != [] && (t[0] == '-' || t[0] == '+') then t[1..] else t;
    var d := LeadDigits(u);
    if d == 0 then None
    else if negative then Some(-(DigitsValue(u[..d]) as int))
    else Some(DigitsValue(u[..d]))
  }

  /** `excludePsalm`: used only when present and a number in 1..171. */
  function ExcludePsalm(query: Option<string>): (r: Option<int>)
    ensures r.Some? ==> 1 <= r.value <= MaxTehillimId
    ensures r.Some? <==> (Truthy(query) && ParseDecimal(query.value).Some?
                          && 1 <= ParseDecimal(query.value).value <= MaxTehillimId)
  {
    if !Truthy(query) then None
    else
      var parsed := ParseDecimal(query.value);
      if parsed.Some? && parsed.value >= 1 && parsed.value <= 171 then parsed else None
  }

  /** A psalm number sent as text is read back; any other number is
      ignored. */
  lemma ExcludePsalmOfNumber(n: nat)
    ensures ExcludePsalm(Some(NatToString(n))) == if 1 <= n <= MaxTehillimId then Some(n) else None
  {
    var s := NatToString(n);
    assert LeadSpaces(s) == 0 by {
      assert IsAsciiDigit(s[0]);
    }
    assert s[0..] == s;
    LeadDigitsOf(s, "");
    assert s + "" == s;
    assert s[..|s|] == s;
    NatToStringValue(n);
  }

  // ---- The global statistics cache ----

  const GlobalStatsTtl := 5 * 60 * 1000

  datatype GlobalStats = GlobalStats(totalRead: nat, booksCompleted: nat, uniqueReaders: nat)

  const NoGlobalStats := GlobalStats(0, 0, 0)

  /** The module's `globalStatsCache`. */
  class GlobalStatsCache {
    var entry: Option<(GlobalStats, int)>

    constructor ()
      ensures entry == None
    {
      entry := None;
    }

    /** `GET /api/tehillim-chains/stats/global`: served from the cache for
        five minutes; otherwise fetched (at `fetchedAt`) and cached; a
        failed fetch gives zeros and leaves the cache as it was. */
    method GetGlobalStats(now: int, fetched: Option<GlobalStats>, fetchedAt: int) returns (stats: GlobalStats)
      modifies this
      ensures old(entry).Some? && now - old(entry).value.1 < GlobalStatsTtl ==>
        stats == old(entry).value.0 && entry == old(entry)
      ensures !(old(entry).Some? && now - old(entry).value.1 < GlobalStatsTtl) ==>
        if fetched.Some? then stats == fetched.value && entry == Some((stats, fetchedAt))
        else stats == NoGlobalStats && entry == old(entry)
    {
      if entry.Some? && now - entry.value.1 < GlobalStatsTtl {
        return entry.value.0;
      }
      if fetched.None? {
        return NoGlobalStats;
      }
      stats := fetched.value;
      entry := Some((stats, fetchedAt));
    }

    /** A completed chain reading clears the cache. */
    method ChainReadingCompleted()
      modifies this
      ensures entry == None
    {
      entry := None;
    }
  }
}

=== FILE: text.dfy ===
/** String helpers shared by the models: the small part of Python's and
    JavaScript's string libraries that the modelled code relies on.
    Whitespace and case are ASCII-only here (see README, "Left out"). */
module Text {

  datatype Option<T> = None | Some(value: T)

  /** Whitespace as removed by trim()/strip(), restricted to ASCII: the
      space and the control characters tab, line feed, vertical tab, form
      feed and carriage return (U+0009 to U+000D). */
  predicate IsSpace(c: char) {
    c == ' ' || '\t' <= c <= '\r'
  }

  predicate IsAsciiDigit(c: char) { '0' <= c <= '9' }
  predicate IsAsciiLower(c: char) { 'a' <= c <= 'z' }
  predicate IsAsciiUpper(c: char) { 'A' <= c <= 'Z' }
  predicate IsAsciiAlnum(c: char) { IsAsciiDigit(c) || IsAsciiLower(c) || IsAsciiUpper(c) }

  function LowerChar(c: char): (r: char)
    ensures IsAsciiUpper(c) ==> IsAsciiLower(r)
    ensures !IsAsciiUpper(c) ==> r == c
  {
    if IsAsciiUpper(c) then (c as int + 32) as char else c
  }

  function UpperChar(c: char): (r: char)
    ensures IsAsciiLower(c) ==> IsAsciiUpper(r)
    ensures !IsAsciiLower(c) ==> r == c
  {
    if IsAsciiLower(c) then (c as int - 32) as char else c
  }

  /** toLowerCase()/lower() on the ASCII letters. */
  function Lower(s: string): (r: string)
    ensures |r| == |s|
    ensures forall i :: 0 <= i < |s| ==> r[i] == LowerChar(s[i])
  {
    if s == [] then [] else [LowerChar(s[0])] + Lower(s[1..])
  }

  function Upper(s: string): (r: string)
    ensures |r| == |s|
    ensures forall i :: 0 <= i < |s| ==> r[i] == UpperChar(s[i])
  {
    if s == [] then [] else [UpperChar(s[0])] + Upper(s[1..])
  }

  /** The number of leading whitespace characters. */
  function LeadSpaces(s: string): (n: nat)
    ensures n <= |s|
    ensures n < |s| ==> !IsSpace(s[n])
  {
    if s != [] && IsSpace(s[0]) then 1 + LeadSpaces(s[1..]) else 0
  }

  /** The number of trailing whitespace characters. */
  function TrailSpaces(s: string): (n: nat)
    ensures n <= |s|
    ensures n < |s| ==> !IsSpace(s[|s| - n - 1])
  {
    if s != [] && IsSpace(s[|s| - 1]) then 1 + TrailSpaces(s[..|s| - 1]) else 0
  }

  lemma {:induction false} LeadSpacesAll(s: string)
    ensures forall i :: 0 <= i < LeadSpaces(s) ==> IsSpace(s[i])
  {
    if s != [] && IsSpace(s[0]) {
      LeadSpacesAll(s[1..]);
    }
  }

  lemma {:induction false} TrailSpacesAll(s: string)
    ensures forall i :: |s| - TrailSpaces(s) <= i < |s| ==> IsSpace(s[i])
  {
    if s != [] && IsSpace(s[|s| - 1]) {
      TrailSpacesAll(s[..|s| - 1]);
    }
  }

  /** trimStart() / lstrip(). */
  function TrimStart(s: string): (r: string)
    ensures |r| <= |s| && r == s[|s| - |r|..]
    ensures r != [] ==> !IsSpace(r[0])
  {
    s[LeadSpaces(s)..]
  }

  /** trimEnd() / rstrip(). */
  function TrimEnd(s: string): (r: string)
    ensures |r| <= |s| && r == s[..|r|]
    ensures r != [] ==> !IsSpace(r[|r| - 1])
  {
    s[..|s| - TrailSpaces(s)]
  }

  /** trim() / strip(): neither end of the result is whitespace, and the
      result is a contiguous piece of the input. */
  function Trim(s: string): (r: string)
    ensures |r| <= |s|
    ensures r != [] ==> !IsSpace(r[0]) && !IsSpace(r[|r| - 1])
  {
    var t := s[LeadSpaces(s)..];
    t[..|t| - TrailSpaces(t)]
  }

  /** The trimmed text is the slice of `s` after its leading whitespace. */
  lemma TrimSlice(s: string)
    ensures LeadSpaces(s) + |Trim(s)| <= |s|
    ensures Trim(s) == s[LeadSpaces(s)..LeadSpaces(s) + |Trim(s)|]
  {
  }

  /** Text that neither starts nor ends with whitespace is its own trim. */
  lemma TrimNoSpaceEnds(s: string)
    requires s != [] && !IsSpace(s[0]) && !IsSpace(s[|s| - 1])
    ensures Trim(s) == s
  {
    assert LeadSpaces(s) == 0;
    assert s[0..] == s;
    assert TrailSpaces(s) == 0;
  }

  /** Nothing but whitespace: what Python's `not s.strip()` and JavaScript's
      `!s.trim()` test. */
  predicate IsBlank(s: string) {
    forall i :: 0 <= i < |s| ==> IsSpace(s[i])
  }

  lemma BlankIffTrimEmpty(s: string)
    ensures IsBlank(s) <==> Trim(s) == []
  {
    var t := s[LeadSpaces(s)..];
    if Trim(s) == [] {
      LeadSpacesAll(s);
      TrailSpacesAll(t);
      assert LeadSpaces(s) == |s|;
    }
  }

  /** The number of leading copies of `c` in `s`. */
  function LeadCount(s: string, c: char): (n: nat)
    ensures n <= |s|
    ensures forall i :: 0 <= i < n ==> s[i] == c
    ensures n < |s| ==> s[n] != c
  {
    if s != [] && s[0] == c then 1 + LeadCount(s[1..], c) else 0
  }

  /** The number of trailing copies of `c` in `s`. */
  function TrailCount(s: string, c: char): (n: nat)
    ensures n <= |s|
    ensures forall i :: |s| - n <= i < |s| ==> s[i] == c
    ensures n < |s| ==> s[|s| - n - 1] != c
  {
    if s != [] && s[|s| - 1] == c then 1 + TrailCount(s[..|s| - 1], c) else 0
  }

  /** strip(c) / rstrip(c) with a single character. */
  function StripChar(s: string, c: char): (r: string)
    ensures |r| <= |s|
    ensures r != [] ==> r[0] != c && r[|r| - 1] != c
    ensures OccursAt(s, r, LeadCount(s, c))
    ensures forall i :: LeadCount(s, c) + |r| <= i < |s| ==> s[i] == c
  {
    var t := s[LeadCount(s, c)..];
    t[..|t| - TrailCount(t, c)]
  }

  function RStripChar(s: string, c: char): (r: string)
    ensures |r| <= |s| && r == s[..|r|]
    ensures r != [] ==> r[|r| - 1] != c
    ensures forall i :: |r| <= i < |s| ==> s[i] == c
  {
    if s == [] || s[|s| - 1] != c then s else RStripChar(s[..|s| - 1], c)
  }

  predicate StartsWith(s: string, p: string) {
    |p| <= |s| && s[..|p|] == p
  }

  /** A text starts with whatever was put in front of it. */
  lemma StartsWithPrefix(p: string, rest: string)
    ensures StartsWith(p + rest, p)
  {
    assert (p + rest)[..|p|] == p;
  }

  predicate EndsWith(s: string, p: string) {
    |p| <= |s| && s[|s| - |p|..] == p
  }

  /** `p` occurs in `s` starting at index `k`. */
  predicate OccursAt(s: string, p: string, k: int) {
    0 <= k <= |s| - |p| && s[k..k + |p|] == p
  }

  /** `p` occurs in `s` (includes() / `in`). */
  predicate Contains(s: string, p: string) {
    exists k | 0 <= k <= |s| - |p| :: OccursAt(s, p, k)
  }

  predicate HasChar(s: string, c: char) {
    exists i :: 0 <= i < |s| && s[i] == c
  }

  /** Index of the first occurrence of `c`, if any. */
  function IndexOfChar(s: string, c: char): (r: Option<nat>)
    ensures r.None? <==> !HasChar(s, c)
    ensures r.Some? ==>
      r.value < |s| && s[r.value] == c && forall i :: 0 <= i < r.value ==> s[i] != c
  {
    if s == [] then None
    else if s[0] == c then Some(0)
    else match IndexOfChar(s[1..], c)
      case None => None
      case Some(k) => Some(k + 1)
  }

  /** Index of the last occurrence of `c`, if any (rfind). */
  function LastIndexOfChar(s: string, c: char): (r: Option<nat>)
    ensures r.None? <==> !HasChar(s, c)
    ensures r.Some? ==>
      r.value < |s| && s[r.value] == c && forall i :: r.value < i < |s| ==> s[i] != c
  {
    if s == [] then None
    else if s[|s| - 1] == c then Some(|s| - 1)
    else LastIndexOfChar(s[..|s| - 1], c)
  }

  /** The part before the first `c` (the whole string when there is none):
      `s.split(c)[0]`. */
  function BeforeFirst(s: string, c: char): (r: string)
    ensures |r| <= |s| && r == s[..|r|]
    ensures !HasChar(r, c)
    ensures |r| < |s| ==> s[|r|] == c
    ensures HasChar(s, c) <==> |r| < |s|
  {
    match IndexOfChar(s, c)
    case None => s
    case Some(k) => s[..k]
  }

  /** `s.split(c, 1)[1]`: the part after the first `c`. */
  function AfterFirst(s: string, c: char): (r: string)
    requires HasChar(s, c)
    ensures s == BeforeFirst(s, c) + [c] + r
  {
    s[|BeforeFirst(s, c)| + 1..]
  }

  /** Text after the first `c` does not change what comes before it. */
  lemma BeforeFirstPrefix(s: string, t: string, c: char)
    requires HasChar(s, c)
    ensures BeforeFirst(s + t, c) == BeforeFirst(s, c)
  {
    var r := BeforeFirst(s, c);
    var r' := BeforeFirst(s + t, c);
    if |r'| > |r| {
      assert r'[|r|] == c;
      assert HasChar(r', c);
    } else if |r'| < |r| {
      assert r[|r'|] == c;
      assert HasChar(r, c);
    }
  }

  function DigitChar(d: nat): (c: char)
    requires d < 10
    ensures IsAsciiDigit(c)
  {
    ('0' as int + d) as char
  }

  /** Decimal rendering of a natural number (`String(n)`). */
  function NatToString(n: nat): (r: string)
    ensures r != []
    ensures forall i :: 0 <= i < |r| ==> IsAsciiDigit(r[i])
    decreases n
  {
    if n < 10 then [DigitChar(n)] else NatToString(n / 10) + [DigitChar(n % 10)]
  }

  /** `String(n)` for an integer. */
  function IntToString(n: int): (r: string)
    ensures r != []
  {
    if n < 0 then "-" + NatToString(-n) else NatToString(n)
  }

  /** Decimal value of a string of digits. */
  function DigitsValue(s: string): nat
    requires forall i :: 0 <= i < |s| ==> IsAsciiDigit(s[i])
  {
    if s == [] then 0
    else
      assert IsAsciiDigit(s[|s| - 1]);
      DigitsValue(s[..|s| - 1]) * 10 + (s[|s| - 1] as int - '0' as int)
  }

  lemma {:induction false} NatToStringValue(n: nat)
    ensures DigitsValue(NatToString(n)) == n
    decreases n
  {
    if n >= 10 {
      var r := NatToString(n);
      NatToStringValue(n / 10);
      assert r[..|r| - 1] == NatToString(n / 10);
    }
  }

  /** Number rendering padded to two digits (`padStart(2, '0')`). */
  function Pad2(n: nat): (r: string)
    ensures |r| >= 2
    ensures n < 100 ==> |r| == 2 && r[0] == DigitChar(n / 10) && r[1] == DigitChar(n % 10)
  {
    if n < 10 then "0" + NatToString(n)
    else
      assert n < 100 ==> NatToString(n) == [DigitChar(n / 10), DigitChar(n % 10)];
      NatToString(n)
  }

  /** Two padded digits read back as the number. */
  lemma Pad2Value(m: nat)
    requires m < 100
    ensures forall i :: 0 <= i < |Pad2(m)| ==> IsAsciiDigit(Pad2(m)[i])
    ensures DigitsValue(Pad2(m)) == m
  {
    var p := Pad2(m);
    assert p == [DigitChar(m / 10), DigitChar(m % 10)];
    assert p[..1] == [DigitChar(m / 10)];
    assert DigitsValue(p[..1]) == m / 10 by {
      assert p[..1][..0] == [];
    }
  }

  lemma AppendAssoc<T>(a: seq<T>, b: seq<T>, c: seq<T>)
    ensures a + (b + c) == (a + b) + c
  {
  }

  /** The elements of a prefix one longer. */
  lemma PrefixElemsStep(s: seq<string>, i: nat)
    requires i < |s|
    ensures var longer, shorter := s[..i + 1], s[..i];
      (set x | x in longer) == (set x | x in shorter) + {s[i]}
  {
    assert s[..i + 1] == s[..i] + [s[i]];
  }

  /** One more element of a prefix. */
  lemma PrefixSnoc<T>(s: seq<T>, i: nat)
    requires i < |s|
    ensures s[..i + 1] == s[..i] + [s[i]]
  {
  }

  lemma InitLast<T>(s: seq<T>)
    requires s != []
    ensures s[..|s| - 1] + [s[|s| - 1]] == s
  {
  }

  /** Number of elements satisfying `p`. */
  function CountWhere<T>(s: seq<T>, p: T -> bool): (r: nat)
    ensures r <= |s|
  {
    if s == [] then 0 else CountWhere(s[..|s| - 1], p) + (if p(s[|s| - 1]) then 1 else 0)
  }

  /** The count of a prefix one element longer. */
  lemma CountWhereSnoc<T>(s: seq<T>, i: nat, p: T -> bool)
    requires i < |s|
    ensures CountWhere(s[..i + 1], p) == CountWhere(s[..i], p) + (if p(s[i]) then 1 else 0)
  {
    assert s[..i + 1][..i] == s[..i];
  }

  lemma {:induction false} CountWhereAppend<T>(a: seq<T>, b: seq<T>, p: T -> bool)
    ensures CountWhere(a + b, p) == CountWhere(a, p) + CountWhere(b, p)
    decreases |b|
  {
    if b != [] {
      assert (a + b)[..|a + b| - 1] == a + b[..|b| - 1];
      CountWhereAppend(a, b[..|b| - 1], p);
    } else {
      assert a + b == a;
    }
  }

  /** Removing the element at index `k` lowers the count by that element's share. */
  lemma CountWhereRemove<T>(b: seq<T>, k: nat, p: T -> bool)
    requires k < |b|
    ensures CountWhere(b, p) == CountWhere(b[..k] + b[k + 1..], p) + (if p(b[k]) then 1 else 0)
  {
    var front, x, back := b[..k], b[k], b[k + 1..];
    SplitAround(b, k);
    CountWhereAppend(front, [x] + back, p);
    CountWhereAppend([x], back, p);
    CountWhereSingle(x, p);
    CountWhereAppend(front, back, p);
  }

  lemma SplitAround<T>(b: seq<T>, k: nat)
    requires k < |b|
    ensures b == b[..k] + ([b[k]] + b[k + 1..])
  {
  }

  lemma CountWhereSingle<T>(x: T, p: T -> bool)
    ensures CountWhere([x], p) == if p(x) then 1 else 0
  {
    assert [x][..0] == [];
  }

  lemma MultisetLast<T>(s: seq<T>)
    requires s != []
    ensures multiset(s) == multiset(s[..|s| - 1]) + multiset{s[|s| - 1]}
  {
    assert s == s[..|s| - 1] + [s[|s| - 1]];
  }

  /** Removing the same element from two permutations of each other leaves
      permutations of each other. */
  lemma MultisetRemoveLast<T>(a: seq<T>, b: seq<T>, k: nat)
    requires multiset(a) == multiset(b) && a != [] && k < |b| && b[k] == a[|a| - 1]
    ensures multiset(a[..|a| - 1]) == multiset(b[..k] + b[k + 1..])
  {
    var x := a[|a| - 1];
    var a' := a[..|a| - 1];
    var rest := b[..k] + b[k + 1..];
    assert a == a' + [x];
    assert b == b[..k] + [x] + b[k + 1..];
    assert multiset(b) == multiset(rest) + multiset{x};
    assert multiset(a) == multiset(a') + multiset{x};
    forall y ensures multiset(a')[y] == multiset(rest)[y] {
      assert (multiset(a') + multiset{x})[y] == (multiset(rest) + multiset{x})[y];
    }
  }

  /** The count depends only on the multiset of elements, not on their order. */
  lemma {:induction false} CountWherePermutation<T>(a: seq<T>, b: seq<T>, p: T -> bool)
    requires multiset(a) == multiset(b)
    ensures CountWhere(a, p) == CountWhere(b, p)
    decreases |a|
  {
    if a == [] {
      assert |multiset(b)| == 0;
    } else {
      var x := a[|a| - 1];
      var a' := a[..|a| - 1];
      assert a == a' + [x];
      assert x in multiset(b);
      var k :| 0 <= k < |b| && b[k] == x;
      var rest := b[..k] + b[k + 1..];
      MultisetRemoveLast(a, b, k);
      CountWherePermutation(a', rest, p);
      CountWhereRemove(b, k, p);
    }
  }

  /** `f` applied to every element, in order. */
  function Map<A, B>(f: A -> B, s: seq<A>): (r: seq<B>)
    ensures |r| == |s|
  {
    if s == [] then [] else Map(f, s[..|s| - 1]) + [f(s[|s| - 1])]
  }

  lemma {:induction false} MapAt<A, B>(f: A -> B, s: seq<A>, i: nat)
    requires i < |s|
    ensures Map(f, s)[i] == f(s[i])
  {
    var prev := s[..|s| - 1];
    if i < |prev| {
      MapAt(f, prev, i);
      assert prev[i] == s[i];
    }
  }

  lemma MapPrefix<A, B>(f: A -> B, s: seq<A>, i: nat)
    requires i < |s|
    ensures Map(f, s[..i + 1]) == Map(f, s[..i]) + [f(s[i])]
  {
    assert s[..i + 1][..i] == s[..i];
  }

  lemma {:induction false} MapAppend<A, B>(f: A -> B, a: seq<A>, b: seq<A>)
    ensures Map(f, a + b) == Map(f, a) + Map(f, b)
    decreases |b|
  {
    if b == [] {
      assert a + b == a;
    } else {
      assert (a + b)[..|a + b| - 1] == a + b[..|b| - 1];
      MapAppend(f, a, b[..|b| - 1]);
    }
  }

  /** Mapping two permutations of each other gives permutations of each other. */
  lemma {:induction false} MapPermutation<A, B>(f: A -> B, a: seq<A>, b: seq<A>)
    requires multiset(a) == multiset(b)
    ensures multiset(Map(f, a)) == multiset(Map(f, b))
    decreases |a|
  {
    if a == [] {
      assert |multiset(b)| == 0;
    } else {
      var x := a[|a| - 1];
      var a' := a[..|a| - 1];
      assert x in multiset(b);
      var k :| 0 <= k < |b| && b[k] == x;
      MultisetRemoveLast(a, b, k);
      MapPermutation(f, a', b[..k] + b[k + 1..]);
      assert b == b[..k] + [x] + b[k + 1..];
      MapAppend(f, b[..k] + [x], b[k + 1..]);
      MapAppend(f, b[..k], [x]);
      MapAppend(f, b[..k], b[k + 1..]);
    }
  }

  function Sum(s: seq<nat>): nat {
    if s == [] then 0 else Sum(s[..|s| - 1]) + s[|s| - 1]
  }

  lemma {:induction false} SumAppend(a: seq<nat>, b: seq<nat>)
    ensures Sum(a + b) == Sum(a) + Sum(b)
    decreases |b|
  {
    if b != [] {
      assert (a + b)[..|a + b| - 1] == a + b[..|b| - 1];
      SumAppend(a, b[..|b| - 1]);
    } else {
      assert a + b == a;
    }
  }

  /** Joins the pieces with `sep` between consecutive ones. */
  function Join(pieces: seq<string>, sep: string): (r: string)
  {
    if pieces == [] then []
    else if |pieces| == 1 then pieces[0]
    else Join(pieces[..|pieces| - 1], sep) + sep + pieces[|pieces| - 1]
  }

  /** The characters of `s` that are not whitespace, in order. */
  function NonSpaces(s: string): string {
    if s == [] then [] else (if IsSpace(s[0]) then [] else [s[0]]) + NonSpaces(s[1..])
  }

  lemma {:induction false} NonSpacesAppend(a: string, b: string)
    ensures NonSpaces(a + b) == NonSpaces(a) + NonSpaces(b)
    decreases |a|
  {
    if a == [] {
      assert a + b == b;
    } else {
      assert (a + b)[1..] == a[1..] + b;
      NonSpacesAppend(a[1..], b);
    }
  }

  lemma {:induction false} NonSpacesOfWord(w: string)
    requires forall k :: 0 <= k < |w| ==> !IsSpace(w[k])
    ensures NonSpaces(w) == w
    decreases |w|
  {
    if w != [] {
      NonSpacesOfWord(w[1..]);
    }
  }

  lemma {:induction false} NonSpacesOfBlank(s: string)
    requires IsBlank(s)
    ensures NonSpaces(s) == []
    decreases |s|
  {
    if s != [] {
      NonSpacesOfBlank(s[1..]);
    }
  }

  /** Cutting whitespace off both ends keeps the other characters. */
  lemma NonSpacesMiddle(s: string, a: nat, b: nat)
    requires a <= b <= |s| && IsBlank(s[..a]) && IsBlank(s[b..])
    ensures NonSpaces(s[a..b]) == NonSpaces(s)
  {
    assert s == s[..a] + (s[a..b] + s[b..]);
    NonSpacesOfBlank(s[..a]);
    NonSpacesOfBlank(s[b..]);
    NonSpacesAppend(s[..a], s[a..b] + s[b..]);
    NonSpacesAppend(s[a..b], s[b..]);
  }

  /** Trimming removes whitespace only. */
  lemma NonSpacesTrim(s: string)
    ensures NonSpaces(Trim(s)) == NonSpaces(s)
  {
    var L := LeadSpaces(s);
    var t := s[L..];
    var k := |t| - TrailSpaces(t);
    LeadBlank(s);
    TrailBlank(t);
    SuffixSlices(s, L, k);
    NonSpacesMiddle(s, L, L + k);
  }

  lemma LeadBlank(s: string)
    ensures IsBlank(s[..LeadSpaces(s)])
  {
    LeadSpacesAll(s);
  }

  lemma TrailBlank(t: string)
    ensures IsBlank(t[|t| - TrailSpaces(t)..])
  {
    TrailSpacesAll(t);
  }

  /** Slicing a suffix at `k` is slicing the whole at `L + k`. */
  lemma SuffixSlices(s: string, L: nat, k: nat)
    requires L <= |s| && k <= |s| - L
    ensures s[L..][..k] == s[L..L + k] && s[L..][k..] == s[L + k..]
  {
  }

  /** Replaces every occurrence of `pat`, scanning left to right without
      overlaps (`replace(/pat/g, rep)` for a literal pattern). */
  function ReplaceAll(s: string, pat: string, rep: string): (r: string)
    requires pat != []
    decreases |s|
  {
    if |s| < |pat| then s
    else if s[..|pat|] == pat then rep + ReplaceAll(s[|pat|..], pat, rep)
    else [s[0]] + ReplaceAll(s[1..], pat, rep)
  }

  /** Replacing every `c` by text free of `c` leaves no `c` behind. */
  lemma {:induction false} ReplaceAllRemoves(s: string, c: char, rep: string)
    requires !HasChar(rep, c)
    ensures !HasChar(ReplaceAll(s, [c], rep), c)
    decreases |s|
  {
    if |s| >= 1 {
      ReplaceAllRemoves(s[1..], c, rep);
      var rest := ReplaceAll(s[1..], [c], rep);
      if s[..1] == [c] {
        assert forall i :: 0 <= i < |rep + rest| ==> (rep + rest)[i] == (if i < |rep| then rep[i] else rest[i - |rep|]);
      } else {
        assert s[0] != c by { assert s[..1][0] == s[0]; }
        assert forall i :: 0 < i < |[s[0]] + rest| ==> ([s[0]] + rest)[i] == rest[i - 1];
      }
    }
  }

  /** Removes duplicates keeping first occurrences (`Array.from(new Set(xs))`). */
  function Dedup(s: seq<string>): (r: seq<string>)
    ensures forall i, j :: 0 <= i < j < |r| ==> r[i] != r[j]
    ensures forall x :: x in r <==> x in s
    ensures s != [] ==> r != [] && r[0] == s[0]
  {
    if s == [] then []
    else
      var d := Dedup(s[..|s| - 1]);
      var r := if s[|s| - 1] in d then d else d + [s[|s| - 1]];
      assert s != [] && s[..|s| - 1] != [] ==> s[..|s| - 1][0] == s[0];
      r
  }

  /** `s.split(c)`: the pieces between consecutive occurrences of `c`;
      a string without `c` is one piece. */
  function Split(s: string, c: char): (r: seq<string>)
    ensures |r| >= 1
    ensures forall k :: 0 <= k < |r| ==> !HasChar(r[k], c)
    ensures !HasChar(s, c) ==> r == [s]
    decreases |s|
  {
    if HasChar(s, c) then [BeforeFirst(s, c)] + Split(AfterFirst(s, c), c) else [s]
  }

  lemma {:induction false} JoinCons(p: string, rest: seq<string>, sep: string)
    requires rest != []
    ensures Join([p] + rest, sep) == p + sep + Join(rest, sep)
    decreases |rest|
  {
    if |rest| == 1 {
      assert [p] + rest == [p, rest[0]];
    } else {
      var init := rest[..|rest| - 1];
      JoinCons(p, init, sep);
      assert ([p] + rest)[..|[p] + rest| - 1] == [p] + init;
    }
  }

  /** Joining the pieces of a split with the separator gives the string back. */
  lemma {:induction false} SplitJoin(s: string, c: char)
    ensures Join(Split(s, c), [c]) == s
    decreases |s|
  {
    if HasChar(s, c) {
      var rest := AfterFirst(s, c);
      SplitJoin(rest, c);
      JoinCons(BeforeFirst(s, c), Split(rest, c), [c]);
    }
  }

  /** `s.some(p)`. */
  function Any<T>(s: seq<T>, p: T -> bool): (r: bool)
    ensures r <==> exists k :: 0 <= k < |s| && p(s[k])
  {
    if s == [] then false
    else
      var r := p(s[0]) || Any(s[1..], p);
      assert forall k :: 1 <= k < |s| ==> s[k] == s[1..][k - 1];
      r
  }

  /** `s.every(p)`. */
  function All<T>(s: seq<T>, p: T -> bool): (r: bool)
    ensures r <==> forall k :: 0 <= k < |s| ==> p(s[k])
  {
    if s == [] then true
    else
      var r := p(s[0]) && All(s[1..], p);
      assert forall k :: 1 <= k < |s| ==> s[k] == s[1..][k - 1];
      r
  }

  /** The sum of `f` over a set of keys, in no particular order. */
  ghost function SetSum(keys: set<string>, f: string -> int): int
    decreases |keys|
  {
    if keys == {} then 0
    else
      var k :| k in keys;
      f(k) + SetSum(keys - {k}, f)
  }

  /** Any key can be taken out first. */
  lemma {:induction false} SetSumRemove(keys: set<string>, x: string, f: string -> int)
    requires x in keys
    ensures SetSum(keys, f) == f(x) + SetSum(keys - {x}, f)
    decreases |keys|
  {
    var k :| k in keys && SetSum(keys, f) == f(k) + SetSum(keys - {k}, f);
    if k != x {
      SetSumRemove(keys - {k}, x, f);
      SetSumRemove(keys - {x}, k, f);
      assert keys - {k} - {x} == keys - {x} - {k};
    }
  }

  /** The sum of `f` over a listing of keys, in list order. */
  function ListSum(ks: seq<string>, f: string -> int): int {
    if ks == [] then 0 else ListSum(ks[..|ks| - 1], f) + f(ks[|ks| - 1])
  }

  /** Summing a listing without repeats gives the set sum, so the order of
      the listing does not matter. */
  lemma {:induction false} ListSumIsSetSum(ks: seq<string>, f: string -> int)
    requires forall i, j :: 0 <= i < j < |ks| ==> ks[i] != ks[j]
    ensures ListSum(ks, f) == SetSum((set k | k in ks), f)
    decreases |ks|
  {
    if ks != [] {
      var init := ks[..|ks| - 1];
      var last := ks[|ks| - 1];
      ListSumIsSetSum(init, f);
      assert (set k | k in ks) - {last} == set k | k in init;
      SetSumRemove((set k | k in ks), last, f);
    }
  }

  /** A function that is zero on every key sums to zero. */
  lemma {:induction false} SetSumZero(keys: set<string>, f: string -> int)
    requires forall k :: k in keys ==> f(k) == 0
    ensures SetSum(keys, f) == 0
    decreases |keys|
  {
    if keys != {} {
      var k :| k in keys && SetSum(keys, f) == f(k) + SetSum(keys - {k}, f);
      SetSumZero(keys - {k}, f);
    }
  }

  /** The members of `s` in some order, each once (`Object.keys`,
      `Array.from(new Set(...))`). */
  method KeyList(s: set<string>) returns (ks: seq<string>)
    ensures forall x :: x in ks <==> x in s
    ensures forall i, j :: 0 <= i < j < |ks| ==> ks[i] != ks[j]
  {
    ks := [];
    var rest := s;
    while rest != {}
      invariant forall x :: x in ks <==> x in s && x !in rest
      invariant forall i, j :: 0 <= i < j < |ks| ==> ks[i] != ks[j]
      invariant rest <= s
      decreases |rest|
    {
      var k :| k in rest;
      ks := ks + [k];
      rest := rest - {k};
    }
  }

  /** No key is listed twice. */
  predicate Distinct(s: seq<string>) {
    forall i, j :: 0 <= i < j < |s| ==> s[i] != s[j]
  }

  /** `s` without `k`. */
  function Without(s: seq<string>, k: string): (r: seq<string>)
    ensures forall x :: x in r <==> x in s && x != k
    ensures Distinct(s) ==> Distinct(r)
    ensures |r| <= |s|
  {
    if s == [] then []
    else
      var rest := Without(s[1..], k);
      assert Distinct(s) ==> Distinct(s[1..]) && s[0] !in s[1..];
      if s[0] == k then rest else [s[0]] + rest
  }

  // ---- parseInt ----

  /** The number of leading decimal digits. */
  function LeadDigits(s: string): (n: nat)
    ensures n <= |s|
    ensures forall i :: 0 <= i < n ==> IsAsciiDigit(s[i])
    ensures n < |s| ==> !IsAsciiDigit(s[n])
  {
    if s != [] && IsAsciiDigit(s[0]) then
      var n := 1 + LeadDigits(s[1..]);
      assert forall i :: 1 <= i < n ==> s[i] == s[1..][i - 1];
      n
    else 0
  }

  predicate IsHexDigit(c: char) {
    IsAsciiDigit(c) || 'a' <= c <= 'f' || 'A' <= c <= 'F'
  }

  function HexDigitValue(c: char): nat
    requires IsHexDigit(c)
  {
    if IsAsciiDigit(c) then c as int - '0' as int
    else if 'a' <= c <= 'f' then c as int - 'a' as int + 10
    else c as int - 'A' as int + 10
  }

  /** The number of leading hexadecimal digits. */
  function LeadHexDigits(s: string): (n: nat)
    ensures n <= |s|
    ensures forall i :: 0 <= i < n ==> IsHexDigit(s[i])
  {
    if s != [] && IsHexDigit(s[0]) then
      var n := 1 + LeadHexDigits(s[1..]);
      assert forall i :: 1 <= i < n ==> s[i] == s[1..][i - 1];
      n
    else 0
  }

  function HexValue(s: string): nat
    requires forall i :: 0 <= i < |s| ==> IsHexDigit(s[i])
  {
    if s == [] then 0 else HexValue(s[..|s| - 1]) * 16 + HexDigitValue(s[|s| - 1])
  }

  /** The digits of `parseInt` after the sign: hexadecimal digits after
      "0x"/"0X", or else decimal digits, as many as there are; `None` when
      there are none. */
  function Unsigned(u: string): Option<nat> {
    if |u| >= 2 && u[0] == '0' && (u[1] == 'x' || u[1] == 'X') then
      var h := LeadHexDigits(u[2..]);
      if h == 0 then None else Some(HexValue(u[2..][..h]))
    else
      var d := LeadDigits(u);
      if d == 0 then None else Some(DigitsValue(u[..d]))
  }

  /** `parseInt(s)` with no radix: leading whitespace, an optional sign,
      then the digits; `None` stands for NaN. */
  function ParseInt(s: string): (r: Option<int>)
  {
    var t := s[LeadSpaces(s)..];
    if t != [] && t[0] == '-' then
      match Unsigned(t[1..])
      case None => None
      case Some(m) => Some(-(m as int))
    else if t != [] && t[0] == '+' then
      match Unsigned(t[1..])
      case None => None
      case Some(m) => Some(m)
    else
      match Unsigned(t)
      case None => None
      case Some(m) => Some(m)
  }

  /** A text that does not carry on a number written before it. */
  predicate EndsNumber(rest: string) {
    rest == [] || (!IsAsciiDigit(rest[0]) && rest[0] != 'x' && rest[0] != 'X')
  }

  lemma {:induction false} LeadDigitsOf(ds: string, rest: string)
    requires forall i :: 0 <= i < |ds| ==> IsAsciiDigit(ds[i])
    requires rest == [] || !IsAsciiDigit(rest[0])
    ensures LeadDigits(ds + rest) == |ds|
    decreases |ds|
  {
    if ds == [] {
      assert ds + rest == rest;
    } else {
      assert (ds + rest)[1..] == ds[1..] + rest;
      LeadDigitsOf(ds[1..], rest);
    }
  }

  lemma UnsignedOfWritten(n: nat, rest: string)
    requires EndsNumber(rest)
    ensures Unsigned(NatToString(n) + rest) == Some(n)
  {
    var ds := NatToString(n);
    var u := ds + rest;
    NatToStringValue(n);
    LeadDigitsOf(ds, rest);
    assert u[..|ds|] == ds;
    if |u| >= 2 && u[0] == '0' {
      NatToStringNoLeadingZero(n);
      assert ds == "0";
      assert u[1] == rest[0];
    }
  }

  lemma {:induction false} NatToStringNoLeadingZero(n: nat)
    ensures NatToString(n)[0] == '0' ==> n == 0
    decreases n
  {
    if n >= 10 {
      NatToStringNoLeadingZero(n / 10);
      assert NatToString(n)[0] == NatToString(n / 10)[0];
    }
  }

  /** parseInt reads back a number written in decimal, whatever follows
      it. */
  lemma ParseIntOfWritten(n: int, rest: string)
    requires EndsNumber(rest)
    ensures ParseInt(IntToString(n) + rest) == Some(n)
  {
    if n < 0 {
      ParseIntOfNegative(-n, rest);
      assert IntToString(n) + rest == "-" + NatToString(-n) + rest;
    } else {
      ParseIntOfNatural(n, rest);
    }
  }

  lemma ParseIntOfNatural(n: nat, rest: string)
    requires EndsNumber(rest)
    ensures ParseInt(NatToString(n) + rest) == Some(n)
  {
    var s := NatToString(n) + rest;
    UnsignedOfWritten(n, rest);
    assert IsAsciiDigit(s[0]);
    assert LeadSpaces(s) == 0;
    assert s[0..] == s;
  }

  lemma ParseIntOfNegative(m: nat, rest: string)
    requires EndsNumber(rest) && m > 0
    ensures ParseInt("-" + NatToString(m) + rest) == Some(-(m as int))
  {
    var s := "-" + NatToString(m) + rest;
    UnsignedOfWritten(m, rest);
    assert s[0] == '-';
    assert LeadSpaces(s) == 0;
    assert s[0..][1..] == NatToString(m) + rest;
  }
}

=== FILE: text_formatter.dfy ===
/** Display formatting of prayer and Torah texts
    (client/src/lib/text-formatter.ts): the Hebrew-safe character filter
    and the scanner that turns the `**`, `~~`, `++` and `--` markers into
    styled spans. Characters are Unicode scalar values; a character the
    browser would hold as a surrogate pair falls outside every kept range
    in both readings, so it is dropped either way. */
module TextFormatter {
  import opened Text

  // ---------------------------------------------------------------------
  // First pass: the chain of single-character replacements
  // ---------------------------------------------------------------------

  /** The symbol blocks the first pass deletes outright. */
  predicate IsRemovedSymbol(c: char) {
    ('\U{2100}' <= c <= '\U{21FF}') || ('\U{2200}' <= c <= '\U{23FF}')
    || ('\U{2400}' <= c <= '\U{24FF}') || ('\U{2500}' <= c <= '\U{25FF}')
    || ('\U{2600}' <= c <= '\U{27BF}') || ('\U{2800}' <= c <= '\U{28FF}')
    || ('\U{E000}' <= c <= '\U{F8FF}') || ('\U{FE00}' <= c <= '\U{FE0F}')
    || ('\U{FFF0}' <= c <= '\U{FFFF}') || c == '\U{FFFD}' || c == '\U{FFFC}'
  }

  /** The control characters the first pass deletes: all of C0 and C1 but
      the line feed. */
  predicate IsRemovedControl(c: char) {
    ('\U{0000}' <= c <= '\U{0009}') || ('\U{000B}' <= c <= '\U{001F}') || ('\U{007F}' <= c <= '\U{009F}')
  }

  /** What the first pass's replacements turn one character into. Each
      replacement only ever produces '.', ' ' or '-', which no later
      replacement touches, so the chain acts character by character. */
  function FirstPassChar(c: char): (r: string)
    ensures |r| <= 1
  {
    if c == '\U{05C3}' then "."
    else if '\U{0591}' <= c <= '\U{05AE}' then ""
    else if c in {'\U{05BD}', '\U{05BF}', '\U{05C0}', '\U{05C4}', '\U{05C5}', '\U{05C6}'} then ""
    else if '\U{2000}' <= c <= '\U{206F}' then
      if c in {'\U{2000}', '\U{2002}', '\U{2003}', '\U{2009}'} then " "
      else if c == '\U{2013}' || c == '\U{2014}' then "-"
      else ""
    else if IsRemovedSymbol(c) then ""
    else if c == '\U{00A0}' then " "
    else if IsRemovedControl(c) then ""
    else [c]
  }

  /** Every character replaced by what `f` makes of it, in order. */
  function FlatMap(s: string, f: char -> string): string {
    if s == [] then [] else FlatMap(s[..|s| - 1], f) + f(s[|s| - 1])
  }

  lemma {:induction false} FlatMapPrefix(s: string, f: char -> string, i: nat)
    requires i < |s|
    ensures FlatMap(s[..i + 1], f) == FlatMap(s[..i], f) + f(s[i])
  {
    assert s[..i + 1][..i] == s[..i];
  }

  function FirstPass(text: string): string {
    FlatMap(text, FirstPassChar)
  }

  /** After the first pass the only whitespace left is the space and the
      line feed. */
  lemma {:induction false} FirstPassWhitespace(text: string)
    ensures forall i :: 0 <= i < |FirstPass(text)| && IsSpace(FirstPass(text)[i]) ==>
      FirstPass(text)[i] == ' ' || FirstPass(text)[i] == '\n'
    decreases |text|
  {
    if text != [] {
      var init := text[..|text| - 1];
      FirstPassWhitespace(init);
      var a := FirstPass(init);
      var b := FirstPassChar(text[|text| - 1]);
      assert FirstPass(text) == a + b;
      assert forall i :: |a| <= i < |a + b| ==> (a + b)[i] == b[i - |a|];
    }
  }

  // ---------------------------------------------------------------------
  // Second pass: the character-by-character filter
  // ---------------------------------------------------------------------

  /** The Hebrew-block characters the filter keeps: the letters, the points
      U+05B0..U+05BC except U+05BA, U+05C1..U+05C2, the maqaf and qamats
      qatan. */
  predicate KeptHebrew(c: char) {
    (('\U{05D0}' <= c <= '\U{05EA}') || ('\U{05B0}' <= c <= '\U{05BC}')
     || ('\U{05C1}' <= c <= '\U{05C2}') || c == '\U{05BE}' || c == '\U{05C7}')
    && c != '\U{05BA}' && c != '\U{05C4}' && c != '\U{05C5}'
  }

  /** What the filter appends for one character. */
  function FilterChar(c: char): string {
    if c as int <= 127 then [c]
    else if '\U{0590}' <= c <= '\U{05FF}' then (if KeptHebrew(c) then [c] else [])
    else if '\U{FB1D}' <= c <= '\U{FB4F}' then [c]
    else if c == '|' then " "
    else if '\U{0100}' <= c <= '\U{017F}' then [c]
    else if '\U{00C0}' <= c <= '\U{00FF}' then [c]
    else if '\U{00A0}' <= c <= '\U{00BF}' then (if c == ' ' || c == '\U{00A0}' then " " else [c])
    else []
  }

  /** A character that passes the filter unchanged. */
  predicate Allowed(c: char) {
    c as int <= 127 || KeptHebrew(c) || ('\U{FB1D}' <= c <= '\U{FB4F}')
    || ('\U{0100}' <= c <= '\U{017F}') || ('\U{00C0}' <= c <= '\U{00FF}')
    || ('\U{00A1}' <= c <= '\U{00BF}')
  }

  /** The filter keeps a character exactly when it is allowed, turns the
      no-break space into a space and drops everything else; in particular
      every ASCII character, the vertical bar included, is kept as is, so
      the filter's separate branch for the vertical bar never applies. */
  lemma FilterCharMeaning(c: char)
    ensures Allowed(c) ==> FilterChar(c) == [c]
    ensures c == '\U{00A0}' ==> FilterChar(c) == " "
    ensures !Allowed(c) && c != '\U{00A0}' ==> FilterChar(c) == []
    ensures FilterChar('|') == "|"
  {
  }

  function Filtered(s: string): string {
    FlatMap(s, FilterChar)
  }

  /** The filter never lengthens the text, and what it lets through is
      allowed or a space. */
  lemma {:induction false} FilteredChars(s: string)
    ensures |Filtered(s)| <= |s|
    ensures forall i :: 0 <= i < |Filtered(s)| ==> Allowed(Filtered(s)[i]) || Filtered(s)[i] == ' '
    decreases |s|
  {
    if s != [] {
      FilteredChars(s[..|s| - 1]);
      FilterCharMeaning(s[|s| - 1]);
    }
  }

  /** The second pass of cleanHebrewText. */
  method FilterText(cleaned: string) returns (result: string)
    ensures result == Filtered(cleaned)
  {
    result := "";
    for i := 0 to |cleaned|
      invariant result == Filtered(cleaned[..i])
    {
      var c := cleaned[i];
      FlatMapPrefix(cleaned, FilterChar, i);
      if c as int <= 127 {
        result := result + [c];
        continue;
      }
      if '\U{0590}' <= c <= '\U{05FF}' {
        if KeptHebrew(c) {
          result := result + [c];
        }
        continue;
      }
      if '\U{FB1D}' <= c <= '\U{FB4F}' {
        result := result + [c];
        continue;
      }
      // The vertical bar is ASCII and was kept above.
      if '\U{0100}' <= c <= '\U{017F}' {
        result := result + [c];
        continue;
      }
      if '\U{00C0}' <= c <= '\U{00FF}' {
        result := result + [c];
        continue;
      }
      if '\U{00A0}' <= c <= '\U{00BF}' {
        if c == ' ' || c == '\U{00A0}' {
          result := result + " ";
        } else {
          result := result + [c];
        }
        continue;
      }
    }
    assert cleaned[..|cleaned|] == cleaned;
  }

  // ---------------------------------------------------------------------
  // Final cleanup: runs of blanks and of line feeds
  // ---------------------------------------------------------------------

  predicate IsBlankOrTab(c: char) { c == ' ' || c == '\t' }
  predicate IsLineFeed(c: char) { c == '\n' }

  /** Length of the run of `p`-characters that starts `s`. */
  function LeadRun(s: string, p: char -> bool): (n: nat)
    ensures n <= |s|
    ensures forall k :: 0 <= k < n ==> p(s[k])
    ensures n < |s| ==> !p(s[n])
  {
    if s == [] || !p(s[0]) then 0
    else
      var n := LeadRun(s[1..], p);
      assert forall k :: 1 <= k < n + 1 ==> s[k] == s[1..][k - 1];
      1 + n
  }

  /** Replaces every maximal run of at least `m` characters satisfying `p`
      by `repl` (`replace(/[p]{m,}/g, repl)`). */
  function CollapseRuns(s: string, p: char -> bool, m: nat, repl: string): (r: string)
    ensures s == [] ==> r == []
    ensures s != [] && !p(s[0]) ==> r != [] && r[0] == s[0]
    decreases |s|
  {
    if s == [] then []
    else if !p(s[0]) then [s[0]] + CollapseRuns(s[1..], p, m, repl)
    else
      var n := LeadRun(s, p);
      (if n >= m then repl else s[..n]) + CollapseRuns(s[n..], p, m, repl)
  }

  /** No run of `p`-characters in `s` reaches length `m`. */
  predicate ShortRuns(s: string, p: char -> bool, m: nat) {
    forall i :: 0 <= i < |s| ==> LeadRun(s[i..], p) < m
  }

  /** A run that is followed by a non-run character (or nothing) has the
      length of the run. */
  lemma {:induction false} LeadRunOfRun(a: string, b: string, p: char -> bool)
    requires forall k :: 0 <= k < |a| ==> p(a[k])
    requires b == [] || !p(b[0])
    ensures LeadRun(a + b, p) == |a|
    decreases |a|
  {
    if a != [] {
      assert (a + b)[1..] == a[1..] + b;
      LeadRunOfRun(a[1..], b, p);
    } else {
      assert a + b == b;
    }
  }

  lemma ShortRunsTail(s: string, p: char -> bool, m: nat, k: nat)
    requires ShortRuns(s, p, m) && k <= |s|
    ensures ShortRuns(s[k..], p, m)
  {
    forall i | 0 <= i < |s[k..]| ensures LeadRun(s[k..][i..], p) < m {
      assert s[k..][i..] == s[k + i..];
    }
  }

  /** Joining a short run `x` to collapsed text that does not start a run
      keeps every run short. */
  lemma ShortRunsJoin(x: string, y: string, p: char -> bool, m: nat)
    requires |x| < m && forall k :: 0 <= k < |x| ==> p(x[k])
    requires y == [] || !p(y[0])
    requires ShortRuns(y, p, m)
    ensures ShortRuns(x + y, p, m)
  {
    forall i | 0 <= i < |x + y| ensures LeadRun((x + y)[i..], p) < m {
      if i < |x| {
        assert (x + y)[i..] == x[i..] + y;
        LeadRunOfRun(x[i..], y, p);
      } else {
        assert (x + y)[i..] == y[i - |x|..];
      }
    }
  }

  /** After collapsing, every run of `p`-characters is shorter than `m`:
      2+ blanks become one space, 3+ line feeds become two. */
  lemma {:induction false} CollapseShortRuns(s: string, p: char -> bool, m: nat, repl: string)
    requires 0 < |repl| < m && forall k :: 0 <= k < |repl| ==> p(repl[k])
    ensures ShortRuns(CollapseRuns(s, p, m, repl), p, m)
    decreases |s|
  {
    if s != [] {
      if !p(s[0]) {
        var y := CollapseRuns(s[1..], p, m, repl);
        CollapseShortRuns(s[1..], p, m, repl);
        forall i | 0 <= i < |[s[0]] + y| ensures LeadRun(([s[0]] + y)[i..], p) < m {
          if i > 0 {
            assert ([s[0]] + y)[i..] == y[i - 1..];
          }
        }
      } else {
        var n := LeadRun(s, p);
        var x := if n >= m then repl else s[..n];
        CollapseShortRuns(s[n..], p, m, repl);
        ShortRunsJoin(x, CollapseRuns(s[n..], p, m, repl), p, m);
      }
    }
  }

  /** Collapsing runs of one kind of character leaves the runs of another
      kind as they were. */
  lemma {:induction false} CollapseLeadRun(s: string, p: char -> bool, m: nat, repl: string, q: char -> bool)
    requires 0 < |repl| && forall k :: 0 <= k < |repl| ==> p(repl[k])
    requires forall c :: p(c) ==> !q(c)
    ensures LeadRun(CollapseRuns(s, p, m, repl), q) == LeadRun(s, q)
    decreases |s|
  {
    if s != [] && !p(s[0]) {
      CollapseLeadRun(s[1..], p, m, repl, q);
      assert ([s[0]] + CollapseRuns(s[1..], p, m, repl))[1..] == CollapseRuns(s[1..], p, m, repl);
    }
  }

  lemma {:induction false} CollapseKeepsShortRuns(s: string, p: char -> bool, m: nat, repl: string, q: char -> bool, mq: nat)
    requires 0 < |repl| && forall k :: 0 <= k < |repl| ==> p(repl[k])
    requires forall c :: p(c) ==> !q(c)
    requires ShortRuns(s, q, mq)
    ensures ShortRuns(CollapseRuns(s, p, m, repl), q, mq)
    decreases |s|
  {
    if s != [] {
      var r := CollapseRuns(s, p, m, repl);
      if !p(s[0]) {
        var y := CollapseRuns(s[1..], p, m, repl);
        ShortRunsTail(s, q, mq, 1);
        CollapseKeepsShortRuns(s[1..], p, m, repl, q, mq);
        CollapseLeadRun(s, p, m, repl, q);
        assert s[0..] == s;
        forall i | 0 <= i < |r| ensures LeadRun(r[i..], q) < mq {
          if i > 0 {
            assert r[i..] == y[i - 1..];
          } else {
            assert r[0..] == r;
          }
        }
      } else {
        var n := LeadRun(s, p);
        var x := if n >= m then repl else s[..n];
        var y := CollapseRuns(s[n..], p, m, repl);
        ShortRunsTail(s, q, mq, n);
        CollapseKeepsShortRuns(s[n..], p, m, repl, q, mq);
        forall i | 0 <= i < |r| ensures LeadRun(r[i..], q) < mq {
          if i < |x| {
            assert r[i..][0] == x[i];
          } else {
            assert r[i..] == y[i - |x|..];
          }
        }
      }
    }
  }

  lemma {:induction false} LeadRunPrefix(s: string, k: nat, p: char -> bool)
    requires k <= |s|
    ensures LeadRun(s[..k], p) <= LeadRun(s, p)
    decreases k
  {
    if k > 0 && p(s[0]) {
      assert s[..k][1..] == s[1..][..k - 1];
      LeadRunPrefix(s[1..], k - 1, p);
    }
  }

  /** A slice has no longer runs than the text it is cut from. */
  lemma SliceKeepsShortRuns(s: string, a: nat, b: nat, p: char -> bool, m: nat)
    requires a <= b <= |s| && ShortRuns(s, p, m)
    ensures ShortRuns(s[a..b], p, m)
  {
    forall i | 0 <= i < b - a ensures LeadRun(s[a..b][i..], p) < m {
      assert s[a..b][i..] == s[a + i..][..b - a - i];
      LeadRunPrefix(s[a + i..], b - a - i, p);
    }
  }

  /** Collapsing whitespace runs changes whitespace only. */
  lemma {:induction false} CollapseNonSpaces(s: string, p: char -> bool, m: nat, repl: string)
    requires forall c :: p(c) ==> IsSpace(c)
    requires forall k :: 0 <= k < |repl| ==> p(repl[k])
    ensures NonSpaces(CollapseRuns(s, p, m, repl)) == NonSpaces(s)
    decreases |s|
  {
    if s != [] {
      if !p(s[0]) {
        CollapseNonSpaces(s[1..], p, m, repl);
        assert ([s[0]] + CollapseRuns(s[1..], p, m, repl))[1..] == CollapseRuns(s[1..], p, m, repl);
      } else {
        var n := LeadRun(s, p);
        var x := if n >= m then repl else s[..n];
        CollapseNonSpaces(s[n..], p, m, repl);
        NonSpacesAppend(x, CollapseRuns(s[n..], p, m, repl));
        assert s == s[..n] + s[n..];
        NonSpacesAppend(s[..n], s[n..]);
        NonSpacesOfBlank(x);
        NonSpacesOfBlank(s[..n]);
      }
    }
  }

  /** The specification of cleanHebrewText: first pass, filter, collapse
      blank runs, cap line-feed runs, trim. */
  function Cleaned(text: string): string {
    var collapsed := CollapseRuns(Filtered(FirstPass(text)), IsBlankOrTab, 2, " ");
    Trim(CollapseRuns(collapsed, IsLineFeed, 3, "\n\n"))
  }

  /** The cleaned text has no two blanks in a row and no three line feeds
      in a row. */
  lemma CleanedRuns(text: string)
    ensures ShortRuns(Cleaned(text), IsBlankOrTab, 2)
    ensures ShortRuns(Cleaned(text), IsLineFeed, 3)
  {
    var filtered := Filtered(FirstPass(text));
    var collapsed := CollapseRuns(filtered, IsBlankOrTab, 2, " ");
    var capped := CollapseRuns(collapsed, IsLineFeed, 3, "\n\n");
    CollapseShortRuns(filtered, IsBlankOrTab, 2, " ");
    CollapseKeepsShortRuns(collapsed, IsLineFeed, 3, "\n\n", IsBlankOrTab, 2);
    CollapseShortRuns(collapsed, IsLineFeed, 3, "\n\n");
    TrimRuns(capped, IsBlankOrTab, 2);
    TrimRuns(capped, IsLineFeed, 3);
  }

  lemma TrimRuns(s: string, p: char -> bool, m: nat)
    requires ShortRuns(s, p, m)
    ensures ShortRuns(Trim(s), p, m)
  {
    TrimSlice(s);
    SliceKeepsShortRuns(s, LeadSpaces(s), LeadSpaces(s) + |Trim(s)|, p, m);
  }

  /** The cleanup after the filter changes whitespace only; the visible
      characters come through in order. */
  lemma CleanedKeepsText(text: string)
    ensures NonSpaces(Cleaned(text)) == NonSpaces(Filtered(FirstPass(text)))
  {
    var filtered := Filtered(FirstPass(text));
    var collapsed := CollapseRuns(filtered, IsBlankOrTab, 2, " ");
    var capped := CollapseRuns(collapsed, IsLineFeed, 3, "\n\n");
    CollapseNonSpaces(filtered, IsBlankOrTab, 2, " ");
    CollapseNonSpaces(collapsed, IsLineFeed, 3, "\n\n");
    NonSpacesTrim(capped);
  }

  /** cleanHebrewText. */
  method CleanHebrewText(text: string) returns (r: string)
    ensures r == Cleaned(text)
  {
    var result := FilterText(FirstPass(text));
    r := Trim(CollapseRuns(CollapseRuns(result, IsBlankOrTab, 2, " "), IsLineFeed, 3, "\n\n"));
  }

  // ---------------------------------------------------------------------
  // formatTextContent: the marker scanner
  // ---------------------------------------------------------------------

  datatype Marker = Bold | Grey | Larger | Smaller

  function OpenTag(m: Marker): string {
    match m
    case Bold => "<span style=\"font-size: 1.05em;\">"
    case Grey => "<span style=\"color: #9CA3AF; opacity: 0.8;\">"
    case Larger => "<span style=\"font-size: 1.2em;\">"
    case Smaller => "<span style=\"font-size: 0.85em;\">"
  }

  const CloseTag: string := "</span>"

  /** The marker whose two characters start at `i`, if any. A `--` followed
      by a third `-` is not a marker. */
  function MarkerAt(s: string, i: nat): (r: Option<Marker>)
    requires i + 1 < |s|
    ensures r == Some(Smaller) ==> s[i] == '-' && s[i + 1] == '-' && (i + 2 >= |s| || s[i + 2] != '-')
  {
    if s[i] == '*' && s[i + 1] == '*' then Some(Bold)
    else if s[i] == '~' && s[i + 1] == '~' then Some(Grey)
    else if s[i] == '+' && s[i + 1] == '+' then Some(Larger)
    else if s[i] == '-' && s[i + 1] == '-' && (i + 2 >= |s| || s[i + 2] != '-') then Some(Smaller)
    else None
  }

  /** A tag the scanner emits. */
  datatype Tag = Open(marker: Marker) | Close(marker: Marker)

  /** The scanner's state: text emitted so far, where the unemitted text
      starts, the four toggle flags, and the tags emitted so far. */
  datatype ScanState = ScanState(
    out: string, last: nat,
    inBold: bool, inGrey: bool, inLarger: bool, inSmaller: bool,
    tags: seq<Tag>)

  function IsOpen(st: ScanState, m: Marker): bool {
    match m
    case Bold => st.inBold
    case Grey => st.inGrey
    case Larger => st.inLarger
    case Smaller => st.inSmaller
  }

  function CountTag(tags: seq<Tag>, t: Tag): nat {
    if tags == [] then 0 else CountTag(tags[..|tags| - 1], t) + (if tags[|tags| - 1] == t then 1 else 0)
  }

  /** Each marker's openings exceed its closings by one while it is open
      and equal them otherwise. */
  predicate Balanced(st: ScanState) {
    forall m: Marker :: CountTag(st.tags, Open(m)) == CountTag(st.tags, Close(m)) + (if IsOpen(st, m) then 1 else 0)
  }

  /** One marker: flush the text before it, then open or close its span. */
  function Toggle(s: string, i: nat, st: ScanState, m: Marker): (r: ScanState)
    requires st.last <= i && i + 1 < |s|
    ensures r.last == i + 2
    ensures IsOpen(r, m) != IsOpen(st, m)
    ensures forall m' :: m' != m ==> IsOpen(r, m') == IsOpen(st, m')
    ensures Balanced(st) ==> Balanced(r)
  {
    var r := ScanState(
      st.out + s[st.last..i] + (if IsOpen(st, m) then CloseTag else OpenTag(m)),
      i + 2,
      st.inBold != (m == Bold), st.inGrey != (m == Grey),
      st.inLarger != (m == Larger), st.inSmaller != (m == Smaller),
      st.tags + [if IsOpen(st, m) then Close(m) else Open(m)]);
    FlippedFlags(st, r, m);
    ToggleBalanced(st, r, m);
    r
  }

  lemma FlippedFlags(st: ScanState, r: ScanState, m: Marker)
    requires r.inBold == (st.inBold != (m == Bold)) && r.inGrey == (st.inGrey != (m == Grey))
    requires r.inLarger == (st.inLarger != (m == Larger)) && r.inSmaller == (st.inSmaller != (m == Smaller))
    ensures forall m' :: IsOpen(r, m') == (IsOpen(st, m') != (m' == m))
  {
    forall m' ensures IsOpen(r, m') == (IsOpen(st, m') != (m' == m)) {
      match m'
      case Bold =>
      case Grey =>
      case Larger =>
      case Smaller =>
    }
  }

  lemma ToggleBalanced(st: ScanState, r: ScanState, m: Marker)
    requires IsOpen(r, m) != IsOpen(st, m)
    requires forall m' :: m' != m ==> IsOpen(r, m') == IsOpen(st, m')
    requires r.tags == st.tags + [if IsOpen(st, m) then Close(m) else Open(m)]
    ensures Balanced(st) ==> Balanced(r)
  {
    assert r.tags[..|r.tags| - 1] == st.tags;
    if Balanced(st) {
      forall m': Marker
        ensures CountTag(r.tags, Open(m')) == CountTag(r.tags, Close(m')) + (if IsOpen(r, m') then 1 else 0)
      {
        assert CountTag(st.tags, Open(m')) == CountTag(st.tags, Close(m')) + (if IsOpen(st, m') then 1 else 0);
      }
    }
  }

  /** The scan from position `i` to the end of the loop. */
  function ScanFrom(s: string, i: nat, st: ScanState): (r: ScanState)
    requires st.last <= i <= |s|
    ensures r.last <= |s|
    ensures Balanced(st) ==> Balanced(r)
    decreases |s| - i
  {
    if i + 1 >= |s| then st
    else match MarkerAt(s, i)
      case Some(m) => ScanFrom(s, i + 2, Toggle(s, i, st, m))
      case None => ScanFrom(s, i + 1, st)
  }

  const Start := ScanState("", 0, false, false, false, false, [])

  /** The scanner's output: the emitted text followed by the rest. */
  function Scanned(s: string): string {
    var st := ScanFrom(s, 0, Start);
    st.out + s[st.last..]
  }

  /** Markers alternate: each marker's openings exceed its closings by one
      if it is left open at the end and equal them otherwise. */
  lemma ScanBalanced(s: string, m: Marker)
    ensures var st := ScanFrom(s, 0, Start);
      CountTag(st.tags, Open(m)) - CountTag(st.tags, Close(m)) == (if IsOpen(st, m) then 1 else 0)
  {
    assert Balanced(Start);
  }

  /** A `--` followed by a third `-` is left alone: the scan emits nothing
      there and moves on by one character. */
  lemma TripleDashNotMarker(s: string, i: nat, st: ScanState)
    requires st.last <= i && i + 2 < |s| && s[i] == '-' && s[i + 1] == '-' && s[i + 2] == '-'
    ensures ScanFrom(s, i, st) == ScanFrom(s, i + 1, st)
  {
  }

  /** One step of the scan: the next position and state. */
  function Step(s: string, i: nat, st: ScanState): (nat, ScanState)
    requires st.last <= i && i + 1 < |s|
  {
    match MarkerAt(s, i)
    case Some(m) => (i + 2, Toggle(s, i, st, m))
    case None => (i + 1, st)
  }

  lemma StepScan(s: string, i: nat, st: ScanState)
    requires st.last <= i && i + 1 < |s|
    ensures Step(s, i, st).1.last <= Step(s, i, st).0 <= |s|
    ensures ScanFrom(s, i, st) == ScanFrom(s, Step(s, i, st).0, Step(s, i, st).1)
  {
  }

  /** The scanning loop of formatTextContent. */
  method ScanMarkers(formatted: string) returns (result: string)
    ensures result == Scanned(formatted)
  {
    result := "";
    var lastIndex: nat := 0;
    var isInBold, isInGrey, isInLarger, isInSmaller := false, false, false, false;
    ghost var tags: seq<Tag> := [];
    ghost var target := ScanFrom(formatted, 0, Start);
    var i: nat := 0;
    while i + 1 < |formatted|
      invariant lastIndex <= i <= |formatted|
      invariant ScanFrom(formatted, i, ScanState(result, lastIndex, isInBold, isInGrey, isInLarger, isInSmaller, tags)) == target
      decreases |formatted| - i
    {
      StepScan(formatted, i, ScanState(result, lastIndex, isInBold, isInGrey, isInLarger, isInSmaller, tags));
      i, result, lastIndex, isInBold, isInGrey, isInLarger, isInSmaller, tags :=
        ScanOne(formatted, i, result, lastIndex, isInBold, isInGrey, isInLarger, isInSmaller, tags);
    }
    result := result + formatted[lastIndex..];
  }

  /** The body of the scanning loop, for the character at `i`. */
  method ScanOne(formatted: string, i0: nat, result0: string, lastIndex0: nat,
                 isInBold0: bool, isInGrey0: bool, isInLarger0: bool, isInSmaller0: bool, ghost tags0: seq<Tag>)
    returns (i: nat, result: string, lastIndex: nat,
             isInBold: bool, isInGrey: bool, isInLarger: bool, isInSmaller: bool, ghost tags: seq<Tag>)
    requires lastIndex0 <= i0 && i0 + 1 < |formatted|
    ensures var next := Step(formatted, i0, ScanState(result0, lastIndex0, isInBold0, isInGrey0, isInLarger0, isInSmaller0, tags0));
      i == next.0 && result == next.1.out && lastIndex == next.1.last && tags == next.1.tags &&
      isInBold == next.1.inBold && isInGrey == next.1.inGrey && isInLarger == next.1.inLarger && isInSmaller == next.1.inSmaller
  {
    i, result, lastIndex, tags := i0, result0, lastIndex0, tags0;
    isInBold, isInGrey, isInLarger, isInSmaller := isInBold0, isInGrey0, isInLarger0, isInSmaller0;
    if formatted[i] == '*' && formatted[i + 1] == '*' {
      assert MarkerAt(formatted, i0) == Some(Bold);
      result, isInBold := Emit(formatted, lastIndex, i, result, isInBold, Bold);
      tags := tags + [if isInBold0 then Close(Bold) else Open(Bold)];
      i := i + 1;
      lastIndex := i + 1;
    } else if formatted[i] == '~' && formatted[i + 1] == '~' {
      assert MarkerAt(formatted, i0) == Some(Grey);
      result, isInGrey := Emit(formatted, lastIndex, i, result, isInGrey, Grey);
      tags := tags + [if isInGrey0 then Close(Grey) else Open(Grey)];
      i := i + 1;
      lastIndex := i + 1;
    } else if formatted[i] == '+' && formatted[i + 1] == '+' {
      assert MarkerAt(formatted, i0) == Some(Larger);
      result, isInLarger := Emit(formatted, lastIndex, i, result, isInLarger, Larger);
      tags := tags + [if isInLarger0 then Close(Larger) else Open(Larger)];
      i := i + 1;
      lastIndex := i + 1;
    } else if formatted[i] == '-' && formatted[i + 1] == '-' && (i + 2 >= |formatted| || formatted[i + 2] != '-') {
      assert MarkerAt(formatted, i0) == Some(Smaller);
      result, isInSmaller := Emit(formatted, lastIndex, i, result, isInSmaller, Smaller);
      tags := tags + [if isInSmaller0 then Close(Smaller) else Open(Smaller)];
      i := i + 1;
      lastIndex := i + 1;
    } else {
      assert MarkerAt(formatted, i0) == None;
    }
    i := i + 1;
  }

  /** Flush the text before the marker at `i` and emit its opening or
      closing tag; the marker's flag flips. */
  method Emit(formatted: string, lastIndex: nat, i: nat, result0: string, isIn: bool, m: Marker)
    returns (result: string, isInNow: bool)
    requires lastIndex <= i <= |formatted|
    ensures result == result0 + formatted[lastIndex..i] + (if isIn then CloseTag else OpenTag(m))
    ensures isInNow == !isIn
  {
    result := result0 + formatted[lastIndex..i];
    if !isIn {
      result := result + OpenTag(m);
    } else {
      result := result + CloseTag;
    }
    isInNow := !isIn;
  }

  /** formatTextContent. The `{{grey}}` block regex and the regex cleanup
      after the scan are the parameters `greyBlocks` and `cleanup`. */
  function FormatSpec(text: Option<string>, greyBlocks: string -> string, cleanup: string -> string): (r: string)
    ensures text.None? || text == Some("") ==> r == ""
  {
    if text.None? || text.value == "" then ""
    else
      var formatted := ReplaceAll(ReplaceAll(Cleaned(text.value), "\n", "<br />"), "---", "<br /><br />");
      cleanup(Scanned(greyBlocks(formatted)))
  }

  method FormatTextContent(text: Option<string>, greyBlocks: string -> string, cleanup: string -> string)
    returns (r: string)
    ensures r == FormatSpec(text, greyBlocks, cleanup)
    ensures text.None? || text == Some("") ==> r == ""
  {
    if text.None? || text.value == "" {
      return "";
    }
    var formatted := CleanHebrewText(text.value);
    formatted := ReplaceAll(formatted, "\n", "<br />");
    formatted := ReplaceAll(formatted, "---", "<br /><br />");
    formatted := greyBlocks(formatted);
    var result := ScanMarkers(formatted);
    r := cleanup(result);
  }

  /** By the time the scan runs, the line feeds have all become breaks. */
  lemma NoLineFeedsBeforeScan(text: string)
    ensures !HasChar(ReplaceAll(Cleaned(text), "\n", "<br />"), '\n')
  {
    assert !HasChar("<br />", '\n');
    ReplaceAllRemoves(Cleaned(text), '\n', "<br />");
  }
}

=== FILE: use_mitzvah_sync.dfy ===
// Completion records kept on the device and merged with the cloud copy
// (client/src/hooks/use-mitzvah-sync.ts).

module UseMitzvahSync {
  import opened Text

  /** One day's modal completions: the single-use modals done (a JavaScript
      Set, kept in insertion order) and the count of each repeatable one. */
  datatype DayRecord = DayRecord(singles: seq<string>, repeatables: map<string, int>)

  /** Completion records by date, "YYYY-MM-DD". */
  type Completions = map<string, DayRecord>

  /** Tzedaka button counts by date and button type. */
  type TzedakaDays = map<string, map<string, int>>

  /** `m[k] || 0`. */
  function Get(m: map<string, int>, k: string): int {
    if k in m then m[k] else 0
  }

  function Max(a: int, b: int): int {
    if a >= b then a else b
  }

  predicate Distinct(s: seq<string>) {
    forall i, j :: 0 <= i < j < |s| ==> s[i] != s[j]
  }

  /** Every single list is a set: no repeated id. */
  predicate WellFormed(c: Completions) {
    forall d :: d in c ==> Distinct(c[d].singles)
  }

  /** serializeModalCompletions: each day's singles become an array and its
      counts are copied. */
  method SerializeModalCompletions(completed: Completions) returns (result: Completions)
    ensures result == completed
  {
    var dates := KeyList(completed.Keys);
    result := map[];
    for i := 0 to |dates|
      invariant result.Keys == set d | d in dates[..i]
      invariant forall d :: d in result ==> result[d] == completed[d]
    {
      PrefixElemsStep(dates, i);
      var data := completed[dates[i]];
      result := result[dates[i] := DayRecord(data.singles, data.repeatables)];
    }
    assert result.Keys == completed.Keys by {
      assert dates[..|dates|] == dates;
    }
  }

  /** The key-wise maximum of two count maps, absent counting as 0. */
  function MaxMerge(a: map<string, int>, b: map<string, int>): (r: map<string, int>)
    ensures r.Keys == a.Keys + b.Keys
    ensures forall k :: k in r ==> r[k] == Max(Get(a, k), Get(b, k))
  {
    map k | k in a.Keys + b.Keys :: Max(Get(a, k), Get(b, k))
  }

  /** The inner loop over the union of the repeatable keys. */
  method MergeCounts(a: map<string, int>, b: map<string, int>) returns (merged: map<string, int>)
    ensures merged == MaxMerge(a, b)
  {
    var keys := KeyList(a.Keys + b.Keys);
    merged := map[];
    for i := 0 to |keys|
      invariant merged.Keys == set k | k in keys[..i]
      invariant forall k :: k in merged ==> merged[k] == Max(Get(a, k), Get(b, k))
    {
      PrefixElemsStep(keys, i);
      merged := merged[keys[i] := Max(Get(a, keys[i]), Get(b, keys[i]))];
    }
    assert keys[..|keys|] == keys;
  }

  /** The merged record of one date present on at least one side. */
  function MergeDay(local: Completions, cloud: Completions, d: string): (r: DayRecord)
    requires d in local || d in cloud
  {
    if d !in local then DayRecord(Dedup(cloud[d].singles), cloud[d].repeatables)
    else if d !in cloud then local[d]
    else DayRecord(Dedup(local[d].singles + cloud[d].singles), MaxMerge(local[d].repeatables, cloud[d].repeatables))
  }

  /** The result of mergeModalCompletions. */
  function Merged(local: Completions, cloud: Completions): (r: Completions)
    ensures r.Keys == local.Keys + cloud.Keys
  {
    map d | d in local.Keys + cloud.Keys :: MergeDay(local, cloud, d)
  }

  /** mergeModalCompletions: every date of either side, each merged. */
  method MergeModalCompletions(local: Completions, cloud: Completions) returns (result: Completions)
    ensures result == Merged(local, cloud)
  {
    var allDates := KeyList(local.Keys + cloud.Keys);
    result := map[];
    for i := 0 to |allDates|
      invariant result.Keys == set d | d in allDates[..i]
      invariant forall d :: d in result ==> (d in local || d in cloud) && result[d] == MergeDay(local, cloud, d)
    {
      var date := allDates[i];
      assert date in allDates;
      PrefixElemsStep(allDates, i);
      var day := MergeDate(local, cloud, date);
      result := result[date := day];
    }
    assert allDates[..|allDates|] == allDates;
    MergedFromDays(result, local, cloud);
  }

  /** A map over the dates of either side holding each date's merged
      record is the merged store. */
  lemma MergedFromDays(result: Completions, local: Completions, cloud: Completions)
    requires result.Keys == local.Keys + cloud.Keys
    requires forall d :: d in result ==> (d in local || d in cloud) && result[d] == MergeDay(local, cloud, d)
    ensures result == Merged(local, cloud)
  {
  }

  /** The body of mergeModalCompletions' loop for one date: copied from the
      side that has it, or the singles united and the counts merged. */
  method MergeDate(local: Completions, cloud: Completions, date: string) returns (day: DayRecord)
    requires date in local || date in cloud
    ensures day == MergeDay(local, cloud, date)
  {
    if date !in local {
      day := DayRecord(Dedup(cloud[date].singles), cloud[date].repeatables);
    } else if date !in cloud {
      day := DayRecord(local[date].singles, local[date].repeatables);
    } else {
      var mergedSingles := Dedup(local[date].singles + cloud[date].singles);
      var mergedRepeatables := MergeCounts(local[date].repeatables, cloud[date].repeatables);
      day := DayRecord(mergedSingles, mergedRepeatables);
    }
  }

  /** A date on one side only is copied (the singles as a set); on both
      sides the singles are the union and each count the larger one. */
  lemma MergedDay(local: Completions, cloud: Completions, d: string)
    requires d in local || d in cloud
    ensures var r := Merged(local, cloud)[d];
      (d in local && d !in cloud ==> r == local[d]) &&
      (d !in local ==> r.repeatables == cloud[d].repeatables &&
                       forall x :: x in r.singles <==> x in cloud[d].singles) &&
      (d in local && d in cloud ==>
        (forall x :: x in r.singles <==> x in local[d].singles || x in cloud[d].singles) &&
        r.repeatables.Keys == local[d].repeatables.Keys + cloud[d].repeatables.Keys &&
        forall k :: k in r.repeatables ==>
          r.repeatables[k] == Max(Get(local[d].repeatables, k), Get(cloud[d].repeatables, k)))
  {
  }

  /** Swapping the sides gives the same dates, the same single ids and the
      same counts. */
  lemma MergeSymmetric(a: Completions, b: Completions)
    ensures Merged(a, b).Keys == Merged(b, a).Keys
    ensures forall d :: d in Merged(a, b) ==>
      Merged(a, b)[d].repeatables == Merged(b, a)[d].repeatables &&
      forall x :: x in Merged(a, b)[d].singles <==> x in Merged(b, a)[d].singles
  {
    forall d | d in Merged(a, b)
      ensures Merged(a, b)[d].repeatables == Merged(b, a)[d].repeatables
    {
      if d in a && d in b {
        MaxMergeSymmetric(a[d].repeatables, b[d].repeatables);
      }
    }
  }

  lemma MaxMergeSymmetric(a: map<string, int>, b: map<string, int>)
    ensures MaxMerge(a, b) == MaxMerge(b, a)
  {
    assert forall k :: k in MaxMerge(a, b) ==> MaxMerge(a, b)[k] == MaxMerge(b, a)[k];
  }

  lemma MaxMergeSelf(a: map<string, int>)
    ensures MaxMerge(a, a) == a
  {
    assert forall k :: k in MaxMerge(a, a) ==> MaxMerge(a, a)[k] == a[k];
  }

  /** With no repeated id, removing duplicates changes nothing. */
  lemma {:induction false} DedupDistinct(s: seq<string>)
    requires Distinct(s)
    ensures Dedup(s) == s
    decreases |s|
  {
    if s != [] {
      var init := s[..|s| - 1];
      DedupDistinct(init);
      assert s[|s| - 1] !in init;
      assert init + [s[|s| - 1]] == s;
    }
  }

  /** Appending ids already present changes nothing. */
  lemma {:induction false} DedupAbsorbs(s: seq<string>, t: seq<string>)
    requires Distinct(s)
    requires forall x :: x in t ==> x in s
    ensures Dedup(s + t) == s
    decreases |t|
  {
    if t == [] {
      assert s + t == s;
      DedupDistinct(s);
    } else {
      var init := t[..|t| - 1];
      DedupAbsorbs(s, init);
      assert (s + t)[..|s + t| - 1] == s + init;
      assert t[|t| - 1] in s;
    }
  }

  /** Merging a state with its own serialisation gives the state back. */
  lemma MergeOwnSerialization(local: Completions)
    requires WellFormed(local)
    ensures Merged(local, local) == local
  {
    forall d | d in local ensures Merged(local, local)[d] == local[d] {
      DedupAbsorbs(local[d].singles, local[d].singles);
      MaxMergeSelf(local[d].repeatables);
    }
  }

  /** The day map of `m`, `{}` when absent. */
  function Day(m: TzedakaDays, d: string): map<string, int> {
    if d in m then m[d] else map[]
  }

  /** The merged tzedaka counts: per date and type, the larger count. */
  function MergedTzedaka(local: TzedakaDays, cloud: TzedakaDays): (r: TzedakaDays)
    ensures r.Keys == local.Keys + cloud.Keys
    ensures forall d, k :: d in r && k in r[d] ==> r[d][k] == Max(Get(Day(local, d), k), Get(Day(cloud, d), k))
  {
    map d | d in local.Keys + cloud.Keys :: MaxMerge(Day(local, d), Day(cloud, d))
  }

  /** The loop of mergeTzedakaCompletions over the dates of either side. */
  method MergeTzedakaDays(local: TzedakaDays, cloudData: TzedakaDays) returns (merged: TzedakaDays)
    ensures merged == MergedTzedaka(local, cloudData)
  {
    var allDates := KeyList(local.Keys + cloudData.Keys);
    merged := map[];
    for i := 0 to |allDates|
      invariant merged.Keys == set d | d in allDates[..i]
      invariant forall d :: d in merged ==> merged[d] == MaxMerge(Day(local, d), Day(cloudData, d))
    {
      var date := allDates[i];
      PrefixElemsStep(allDates, i);
      var localDay := Day(local, date);
      var cloudDay := Day(cloudData, date);
      var day := MergeCounts(localDay, cloudDay);
      merged := merged[date := day];
    }
    assert allDates[..|allDates|] == allDates;
    TzedakaFromDays(merged, local, cloudData);
  }

  /** A map over the dates of either side holding each date's merged
      counts is the merged tzedaka store. */
  lemma TzedakaFromDays(merged: TzedakaDays, local: TzedakaDays, cloud: TzedakaDays)
    requires merged.Keys == local.Keys + cloud.Keys
    requires forall d :: d in merged ==> merged[d] == MaxMerge(Day(local, d), Day(cloud, d))
    ensures merged == MergedTzedaka(local, cloud)
  {
  }

  /** Today's counter of `kind` raised by one, created at 1 when absent. */
  function Incremented(current: TzedakaDays, today: string, kind: string): (r: TzedakaDays)
    ensures r.Keys == current.Keys + {today}
    ensures r[today].Keys == Day(current, today).Keys + {kind}
    ensures r[today][kind] == Get(Day(current, today), kind) + 1
    ensures forall k :: k in r[today] && k != kind ==> r[today][k] == current[today][k]
    ensures forall d :: d in r && d != today ==> r[d] == current[d]
  {
    var day := Day(current, today);
    current[today := day[kind := Get(day, kind) + 1]]
  }

  /** The tzedaka counts in local storage. The stored text is `None` when
      nothing is stored or it does not parse; it then reads as `{}`. */
  class TzedakaStore {
    var stored: Option<TzedakaDays>

    constructor(initial: Option<TzedakaDays>)
      ensures stored == initial
    {
      stored := initial;
    }

    /** getTzedakaCompletions. */
    function Completions(): TzedakaDays
      reads this
    {
      if stored.Some? then stored.value else map[]
    }

    /** mergeTzedakaCompletions: stores the per-type maximum of the local
        and cloud counts. */
    method MergeTzedakaCompletions(cloudData: TzedakaDays)
      modifies this
      ensures stored == Some(MergedTzedaka(old(Completions()), cloudData))
    {
      var local := Completions();
      var merged := MergeTzedakaDays(local, cloudData);
      stored := Some(merged);
    }

    /** saveTzedakaCompletion, with today's UTC date as a parameter. */
    method SaveTzedakaCompletion(today: string, kind: string)
      modifies this
      ensures stored == Some(Incremented(old(Completions()), today, kind))
    {
      var current := Completions();
      ghost var before := current;
      if today !in current {
        current := current[today := map[]];
      }
      var day := current[today];
      assert day == Day(before, today);
      current := current[today := day[kind := Get(day, kind) + 1]];
      assert current == Incremented(before, today, kind);
      stored := Some(current);
    }
  }
}

=== FILE: weekly_recipes.dfy ===
// The weekly recipes page (client/src/pages/weekly-recipes.tsx): the
// cooking-time label, the bold/newline markup of the recipe text and the
// clean-up of ingredient and instruction lines.

module WeeklyRecipes {
  import opened Text

  // ---- The time label ----

  /** The label for a number of minutes: from 60 on, hours and (when
      there are any) minutes; below, the number with " min". */
  function MinutesLabel(n: int): string {
    if n >= 60 then
      var hours := n / 60;
      var mins := n % 60;
      if mins > 0 then NatToString(hours) + "h " + NatToString(mins) + "m" else NatToString(hours) + "h"
    else IntToString(n) + " min"
  }

  /** `formatTimeDisplay`: empty stays empty, text that does not start with
      a number is shown as it is, and a number is shown as a label of
      minutes. */
  function FormatTimeDisplay(time: string): (r: string)
    ensures time == [] ==> r == []
    ensures time != [] && ParseInt(time).None? ==> r == time
    ensures ParseInt(time).Some? ==> r == MinutesLabel(ParseInt(time).value)
  {
    if time == [] then []
    else
      match ParseInt(time)
      case None => time
      case Some(n) => MinutesLabel(n)
  }

  /** A run of decimal digits read as a number. */
  function ReadNat(s: string): Option<nat> {
    if s != [] && forall i :: 0 <= i < |s| ==> IsAsciiDigit(s[i]) then Some(DigitsValue(s)) else None
  }

  /** A run of digits, possibly after a minus sign. */
  function ReadInt(s: string): Option<int> {
    if s != [] && s[0] == '-' then
      match ReadNat(s[1..])
      case None => None
      case Some(v) => Some(-(v as int))
    else
      match ReadNat(s)
      case None => None
      case Some(v) => Some(v)
  }

  /** "H" hours, 'h', a space and "M" minutes (the label without its
      final 'm'). */
  function ReadHoursMinutes(s: string): Option<int> {
    match IndexOfChar(s, 'h')
    case None => None
    case Some(k) =>
      if k + 1 < |s| && s[k + 1] == ' ' then
        match ReadNat(s[..k])
        case None => None
        case Some(h) =>
          match ReadNat(s[k + 2..])
          case None => None
          case Some(m) => Some(h * 60 + m)
      else None
  }

  /** How a reader takes the label back: "N min" is N minutes, "Hh" is H
      hours and "Hh Mm" is H hours and M minutes. */
  function ReadLabel(r: string): Option<int> {
    if EndsWith(r, " min") then ReadInt(r[..|r| - 4])
    else if EndsWith(r, "m") then ReadHoursMinutes(r[..|r| - 1])
    else if EndsWith(r, "h") then
      match ReadNat(r[..|r| - 1])
      case None => None
      case Some(h) => Some(h * 60)
    else None
  }

  /** The label always stands for the number of minutes read from the
      input: no minutes are lost by splitting into hours. */
  lemma LabelReadsBack(time: string)
    requires ParseInt(time).Some?
    ensures ReadLabel(FormatTimeDisplay(time)) == ParseInt(time)
  {
    LabelOfMinutesReadsBack(ParseInt(time).value);
  }

  lemma LabelOfMinutesReadsBack(n: int)
    ensures ReadLabel(MinutesLabel(n)) == Some(n)
  {
    if n >= 60 {
      if n % 60 > 0 {
        HoursAndMinutes(n);
      } else {
        WholeHours(n);
      }
    } else {
      SmallLabel(n);
    }
  }

  lemma HoursAndMinutes(n: int)
    requires n >= 60 && n % 60 > 0
    ensures ReadLabel(MinutesLabel(n)) == Some(n)
  {
    LabelSplit(n);
    HoursMinutesOf(n);
  }

  lemma LabelSplit(n: int)
    requires n >= 60 && n % 60 > 0
    ensures MinutesLabel(n) == NatToString(n / 60) + "h " + NatToString(n % 60) + "m"
  {
  }

  lemma HoursMinutesOf(n: int)
    requires n >= 60 && n % 60 > 0
    ensures ReadLabel(NatToString(n / 60) + "h " + NatToString(n % 60) + "m") == Some(n)
  {
    DivMod60(n);
    HoursMinutesLabel(n / 60, n % 60, n);
  }

  lemma DivMod60(n: int)
    requires n >= 60 && n % 60 > 0
    ensures n / 60 >= 0 && n % 60 > 0 && n / 60 * 60 + n % 60 == n
  {
  }

  lemma WholeHours(n: int)
    requires n >= 60 && n % 60 == 0
    ensures ReadLabel(MinutesLabel(n)) == Some(n)
  {
    var h := n / 60;
    assert MinutesLabel(n) == NatToString(h) + "h";
    HoursLabel(h);
    assert h * 60 == n;
  }

  /** Digits written for a number read back as it. */
  lemma ReadNatOf(n: nat)
    ensures ReadNat(NatToString(n)) == Some(n)
  {
    NatToStringValue(n);
  }

  lemma ReadIntOf(n: int)
    ensures ReadInt(IntToString(n)) == Some(n)
  {
    if n < 0 {
      var s := IntToString(n);
      assert s[1..] == NatToString(-n);
      ReadNatOf(-n);
    } else {
      ReadNatOf(n);
    }
  }

  /** "{h}h {m}m" reads back as h * 60 + m minutes. */
  lemma HoursMinutesLabel(h: nat, m: nat, n: int)
    requires n == h * 60 + m
    ensures ReadLabel(NatToString(h) + "h " + NatToString(m) + "m") == Some(n)
  {
    var hs := NatToString(h);
    var ms := NatToString(m);
    var r := hs + "h " + ms + "m";
    assert !EndsWith(r, " min") by {
      assert r[|r| - 2] == ms[|ms| - 1];
    }
    assert r[..|r| - 1] == hs + "h " + ms;
    HoursMinutesRead(h, m, n);
  }

  lemma HoursMinutesRead(h: nat, m: nat, n: int)
    requires n == h * 60 + m
    ensures ReadHoursMinutes(NatToString(h) + "h " + NatToString(m)) == Some(n)
  {
    var hs, ms := NatToString(h), NatToString(m);
    HoursMinutesParts(hs, ms);
    ReadNatOf(h);
    ReadNatOf(m);
    ReadSplit(hs + "h " + ms, |hs|, h, m, n);
  }

  /** The reading of "H" 'h' ' ' "M" from its parts. */
  lemma ReadSplit(s: string, k: nat, h: nat, m: nat, n: int)
    requires IndexOfChar(s, 'h') == Some(k) && k + 1 < |s| && s[k + 1] == ' '
    requires ReadNat(s[..k]) == Some(h) && ReadNat(s[k + 2..]) == Some(m) && n == h * 60 + m
    ensures ReadHoursMinutes(s) == Some(n)
  {
  }

  /** Where "Hh M" splits, for any digit strings. */
  lemma HoursMinutesParts(hs: string, ms: string)
    requires forall i :: 0 <= i < |hs| ==> IsAsciiDigit(hs[i])
    ensures var s := hs + "h " + ms;
      IndexOfChar(s, 'h') == Some(|hs|) && s[|hs| + 1] == ' ' && s[..|hs|] == hs && s[|hs| + 2..] == ms
  {
    var s := hs + "h " + ms;
    assert forall i :: 0 <= i < |hs| ==> s[i] == hs[i];
    assert s[|hs|] == 'h';
    assert s[..|hs|] == hs;
    assert s[|hs| + 2..] == ms;
  }

  /** "{h}h" reads back as h * 60 minutes. */
  lemma HoursLabel(h: nat)
    ensures ReadLabel(NatToString(h) + "h") == Some(h * 60)
  {
    var hs := NatToString(h);
    var r := hs + "h";
    assert r[..|r| - 1] == hs;
    assert r[|r| - 1] == 'h';
    ReadNatOf(h);
  }

  /** "{n} min" reads back as n minutes. */
  lemma SmallLabel(n: int)
    ensures ReadLabel(IntToString(n) + " min") == Some(n)
  {
    var r := IntToString(n) + " min";
    assert r[|r| - 4..] == " min";
    assert r[..|r| - 4] == IntToString(n);
    ReadIntOf(n);
  }

  // ---- The recipe text markup ----

  /** The characters a regular-expression `.` does not match: line feed,
      carriage return, and the line and paragraph separators U+2028 and
      U+2029 (section 22.2.2.9 of ECMA-262). */
  predicate LineTerminator(c: char) {
    c == '\n' || c == '\r' || c == '\U{2028}' || c == '\U{2029}'
  }

  /** The lazy `(.+?)` of `\*\*(.+?)\*\*`: from `j` on, the first "**" after
      at least one character from `start`, with no line terminator before it. */
  function CloseFrom(s: string, start: nat, j: nat): (r: Option<nat>)
    requires start <= j
    ensures r.Some? ==> start < r.value && j <= r.value && r.value + 2 <= |s|
    ensures r.Some? ==> s[r.value] == '*' && s[r.value + 1] == '*'
    ensures r.Some? ==> forall k :: j <= k < r.value ==>
      !LineTerminator(s[k]) && !(start < k && s[k] == '*' && s[k + 1] == '*')
    decreases |s| - j
  {
    if j >= |s| then None
    else if j > start && j + 2 <= |s| && s[j] == '*' && s[j + 1] == '*' then Some(j)
    else if LineTerminator(s[j]) then None
    else CloseFrom(s, start, j + 1)
  }

  /** The match of the bold pattern at `i`, as the index of its closing
      "**". */
  function BoldAt(s: string, i: nat): (r: Option<nat>)
    ensures r.Some? ==> i + 2 < r.value && r.value + 2 <= |s|
    ensures r.Some? ==> s[i] == '*' && s[i + 1] == '*' && s[r.value] == '*' && s[r.value + 1] == '*'
    ensures r.Some? ==> forall k :: i + 2 <= k < r.value ==> !LineTerminator(s[k])
  {
    if i + 2 <= |s| && s[i] == '*' && s[i + 1] == '*' then CloseFrom(s, i + 2, i + 2) else None
  }

  /** The global replacement of the bold pattern by `<strong>$1</strong>`,
      scanning from `i` on. */
  function ReplaceBold(s: string, i: nat): string
    decreases |s| - i
  {
    if i >= |s| then []
    else
      match BoldAt(s, i)
      case Some(j) => "<strong>" + s[i + 2..j] + "</strong>" + ReplaceBold(s, j + 2)
      case None => [s[i]] + ReplaceBold(s, i + 1)
  }

  /** The local `formatTextContent`. */
  function FormatTextContent(text: string): (r: string)
    ensures !HasChar(r, '\n')
  {
    if text == [] then []
    else
      ReplaceAllRemoves(ReplaceBold(text, 0), '\n', "<br>");
      ReplaceAll(ReplaceBold(text, 0), "\n", "<br>")
  }

  lemma {:induction false} ReplaceBoldPlain(s: string, i: nat)
    requires !HasChar(s, '*')
    ensures ReplaceBold(s, i) == if i >= |s| then [] else s[i..]
    decreases |s| - i
  {
    if i < |s| {
      assert s[i] != '*';
      ReplaceBoldPlain(s, i + 1);
      if i + 1 < |s| {
        assert s[i..] == [s[i]] + s[i + 1..];
      }
    }
  }

  lemma {:induction false} CloseFromPlain(s: string, start: nat, j: nat)
    requires start <= j
    requires forall k :: j <= k < |s| - 2 ==> s[k] != '*' && !LineTerminator(s[k])
    requires j + 2 <= |s| && s[|s| - 2] == '*' && s[|s| - 1] == '*'
    requires j < |s| - 2 || j > start
    ensures CloseFrom(s, start, j) == Some(|s| - 2)
    decreases |s| - j
  {
    if j < |s| - 2 {
      CloseFromPlain(s, start, j + 1);
    }
  }

  /** A word between double asterisks becomes strong text. */
  lemma BoldWord(x: string)
    requires x != [] && !HasChar(x, '*') && forall k :: 0 <= k < |x| ==> !LineTerminator(x[k])
    ensures FormatTextContent("**" + x + "**") == "<strong>" + x + "</strong>"
  {
    var s := "**" + x + "**";
    assert forall k :: 2 <= k < |s| - 2 ==> s[k] == x[k - 2];
    CloseFromPlain(s, 2, 2);
    assert s[2..|s| - 2] == x;
    assert ReplaceBold(s, |s|) == [];
    var b := "<strong>" + x + "</strong>";
    assert ReplaceBold(s, 0) == b;
    NoNewlineUnchanged(b);
  }

  /** A carriage return or a line or paragraph separator between the
      asterisks stops the match: such text is shown as it is. */
  lemma TerminatorBlocksBold(x: string, t: nat)
    requires !HasChar(x, '*') && !HasChar(x, '\n')
    requires t < |x| && LineTerminator(x[t])
    ensures FormatTextContent("**" + x + "**") == "**" + x + "**"
  {
    var s := "**" + x + "**";
    assert forall k :: 2 <= k < |s| - 2 ==> s[k] == x[k - 2];
    CloseFromBlocked(s, 2, 2, t + 2);
    forall k | 0 <= k < |s|
      ensures BoldAt(s, k).None?
    {
      if 0 < k < |s| - 2 {
        assert s[k] != '*' || s[k + 1] != '*';
      }
    }
    ReplaceBoldNoMatch(s, 0);
    assert s[0..] == s;
    assert !HasChar(s, '\n') by {
      assert forall k :: 0 <= k < |s| ==> s[k] == '*' || s[k] == x[k - 2];
    }
    NoNewlineUnchanged(s);
  }

  lemma {:induction false} CloseFromBlocked(s: string, start: nat, j: nat, t: nat)
    requires start <= j <= t < |s| && LineTerminator(s[t])
    requires forall k :: j <= k < t ==> s[k] != '*'
    ensures CloseFrom(s, start, j) == None
    decreases t - j
  {
    if j < t {
      CloseFromBlocked(s, start, j + 1, t);
    }
  }

  lemma {:induction false} ReplaceBoldNoMatch(s: string, i: nat)
    requires forall k :: i <= k < |s| ==> BoldAt(s, k).None?
    ensures ReplaceBold(s, i) == if i >= |s| then [] else s[i..]
    decreases |s| - i
  {
    if i < |s| {
      ReplaceBoldNoMatch(s, i + 1);
      if i + 1 < |s| {
        assert s[i..] == [s[i]] + s[i + 1..];
      }
    }
  }

  lemma {:induction false} NoNewlineUnchanged(s: string)
    requires !HasChar(s, '\n')
    ensures ReplaceAll(s, "\n", "<br>") == s
    decreases |s|
  {
    if |s| >= 1 {
      assert s[..1] != "\n" by { assert s[..1][0] == s[0]; }
      assert !HasChar(s[1..], '\n') by {
        assert forall k :: 0 <= k < |s| - 1 ==> s[1..][k] == s[k + 1];
      }
      NoNewlineUnchanged(s[1..]);
      assert s == [s[0]] + s[1..];
    }
  }

  /** Text with no asterisk and no line break is shown as it is. */
  lemma PlainTextUnchanged(s: string)
    requires !HasChar(s, '*') && !HasChar(s, '\n')
    ensures FormatTextContent(s) == s
  {
    if s != [] {
      ReplaceBoldPlain(s, 0);
      assert s[0..] == s;
      NoNewlineUnchanged(s);
    }
  }

  // ---- Ingredient and instruction lines ----

  /** `line.replace(/^[-•]\s*\/, '')`: one leading dash or bullet and the
      whitespace after it. */
  function StripBullet(line: string): (r: string)
    ensures |r| <= |line| && r == line[|line| - |r|..]
    ensures line == [] || (line[0] != '-' && line[0] != '•') ==> r == line
  {
    if line != [] && (line[0] == '-' || line[0] == '•') then TrimStart(line[1..]) else line
  }

  /** `step.replace(/^\d+[.)]\s*\/, '')`: a leading step number followed by
      '.' or ')' and the whitespace after it. */
  function StripStepNumber(step: string): (r: string)
    ensures |r| <= |step| && r == step[|step| - |r|..]
    ensures step == [] || !IsAsciiDigit(step[0]) ==> r == step
  {
    var d := LeadDigits(step);
    if d > 0 && d < |step| && (step[d] == '.' || step[d] == ')') then TrimStart(step[d + 1..]) else step
  }

  /** `text.split('\n').filter(Boolean)`. */
  function NonEmptyLines(text: string): (r: seq<string>)
    ensures forall k :: 0 <= k < |r| ==> r[k] != [] && !HasChar(r[k], '\n')
  {
    NonEmpty(Split(text, '\n'))
  }

  function NonEmpty(lines: seq<string>): (r: seq<string>)
    ensures forall k :: 0 <= k < |r| ==> r[k] != [] && r[k] in lines
    ensures |r| == CountWhere(lines, (l: string) => l != [])
  {
    if lines == [] then []
    else
      var rest := NonEmpty(lines[..|lines| - 1]);
      var last := lines[|lines| - 1];
      assert forall x :: x in lines[..|lines| - 1] ==> x in lines;
      if last != [] then rest + [last] else rest
  }

  /** The ingredient list shown: the parsed JSON array as it is, or else
      the non-empty lines with their bullets stripped. */
  function IngredientLines(text: string, parsedArray: Option<seq<string>>): (r: seq<string>)
    ensures parsedArray.None? ==> |r| == |NonEmptyLines(text)|
  {
    if parsedArray.Some? then parsedArray.value else Map(StripBullet, NonEmptyLines(text))
  }

  /** The instruction steps shown, numbered by position. */
  function InstructionLines(text: string, parsedArray: Option<seq<string>>): (r: seq<string>)
    ensures parsedArray.None? ==> |r| == |NonEmptyLines(text)|
  {
    if parsedArray.Some? then parsedArray.value else Map(StripStepNumber, NonEmptyLines(text))
  }

  /** Without a JSON array, line `k` shown is the `k`-th non-empty line,
      cleaned. */
  lemma ShownLineAt(text: string, k: nat)
    requires k < |NonEmptyLines(text)|
    ensures IngredientLines(text, None)[k] == StripBullet(NonEmptyLines(text)[k])
    ensures InstructionLines(text, None)[k] == StripStepNumber(NonEmptyLines(text)[k])
  {
    MapAt(StripBullet, NonEmptyLines(text), k);
    MapAt(StripStepNumber, NonEmptyLines(text), k);
  }

  /** Stripping a bullet never leaves a bullet-with-space prefix behind: a
      line "- x" or "• x" with x not starting with whitespace shows as x. */
  lemma BulletStripped(bullet: char, spaces: string, x: string)
    requires bullet == '-' || bullet == '•'
    requires IsBlank(spaces) && (x == [] || !IsSpace(x[0]))
    ensures StripBullet([bullet] + spaces + x) == x
  {
    var line := [bullet] + spaces + x;
    assert line[1..] == spaces + x;
    if x == [] {
      assert spaces + x == spaces;
      LeadSpacesAllBlank(spaces);
    } else {
      LeadSpacesPrefix(spaces, x);
    }
    assert (spaces + x)[|spaces|..] == x;
  }

  lemma {:induction false} LeadSpacesAllBlank(s: string)
    requires IsBlank(s)
    ensures LeadSpaces(s) == |s|
    decreases |s|
  {
    if s != [] {
      LeadSpacesAllBlank(s[1..]);
    }
  }

  lemma {:induction false} LeadSpacesPrefix(spaces: string, x: string)
    requires IsBlank(spaces) && x != [] && !IsSpace(x[0])
    ensures LeadSpaces(spaces + x) == |spaces|
    decreases |spaces|
  {
    if spaces == [] {
      assert spaces + x == x;
    } else {
      assert (spaces + x)[1..] == spaces[1..] + x;
      LeadSpacesPrefix(spaces[1..], x);
    }
  }

  /** A numbered step "N. x" or "N) x" shows as x. */
  lemma StepNumberStripped(n: nat, mark: char, spaces: string, x: string)
    requires mark == '.' || mark == ')'
    requires IsBlank(spaces) && x != [] && !IsSpace(x[0])
    ensures StripStepNumber(NatToString(n) + [mark] + spaces + x) == x
  {
    var ds := NatToString(n);
    AppendAssoc(ds + [mark], spaces, x);
    var step := ds + [mark] + (spaces + x);
    StepShape(ds, mark, spaces + x);
    StripAt(step, |ds|);
    TrimBlankPrefix(spaces, x);
  }

  lemma StepShape(ds: string, mark: char, tail: string)
    requires ds != [] && forall i :: 0 <= i < |ds| ==> IsAsciiDigit(ds[i])
    requires mark == '.' || mark == ')'
    ensures var step := ds + [mark] + tail;
      LeadDigits(step) == |ds| && |ds| < |step| && step[|ds|] == mark && step[|ds| + 1..] == tail
  {
    var step := ds + [mark] + tail;
    assert step == ds + ([mark] + tail);
    LeadDigitsOf(ds, [mark] + tail);
    assert step[|ds| + 1..] == tail;
  }

  lemma StripAt(step: string, d: nat)
    requires LeadDigits(step) == d && 0 < d < |step| && (step[d] == '.' || step[d] == ')')
    ensures StripStepNumber(step) == TrimStart(step[d + 1..])
  {
  }

  lemma TrimBlankPrefix(spaces: string, x: string)
    requires IsBlank(spaces) && x != [] && !IsSpace(x[0])
    ensures TrimStart(spaces + x) == x
  {
    LeadSpacesPrefix(spaces, x);
    assert (spaces + x)[|spaces|..] == x;
  }
}
